=== FILE: README.md ===
# A Dafny model of the Self-Engineering Agent Framework

The Self-Engineering Agent Framework is an agent driven by a large language model. A user asks for something. The agent searches its registry of Python tools by semantic similarity and runs the best match. When there is no match, it writes a new tool test-first: a specification, tests, then an implementation. It verifies the tool in a sandbox container and registers it. Around this loop sit the learning parts:

- a workflow tracker that mines tool sequences from sessions;
- query and composition planners;
- a composite-tool synthesizer;
- a skill graph with a result cache;
- a reflection engine that repairs failing tools;
- a versioned policy store with A/B experiments;
- an auto-tuner;
- conversational session memory.

An evaluation framework scores the agent. A few generated tools ship with the repository.

This project models the deterministic logic under those services, one Dafny module per Python component, and proves what each component promises. The services the code calls become inputs:

- **Language model.** A reply, or a function from prompt to reply.
- **Store (Supabase).** A table held as a `map` or `seq` of rows. A boolean or `Result` says whether a store call failed.
- **Sandbox (Docker).** The container's exit code, or the exception it raised.
- **Filesystem.** A set of existing paths and a map from path to contents.
- **Other inputs.** Clock readings, fresh ids and hash values are parameters.

Python's dynamic values and exceptions are modelled in `PyValues`. `Option` and `Result` live in `Wrappers`. The Python string operations the code relies on (`find`, `rfind`, `split`, `strip`, `splitlines`, `lower`, `join`, `in`) are in `Strings`, and sequence helpers are in `Seqs`. Rates, scores and averages are `real`s.

Modules and the files they model:

| module | file |
|---|---|
| `Utils` | `src/utils.py` |
| `Executor` | `src/executor.py` |
| `Sandbox` | `src/sandbox.py` |
| `SynthesisEngine` | `src/synthesis_engine.py` |
| `Orchestrator` | `src/orchestrator.py` |
| `CapabilityRegistry` | `src/capability_registry.py` |
| `QueryPlanner` | `src/query_planner.py` |
| `CompositionPlanner` | `src/composition_planner.py` |
| `WorkflowTracker` | `src/workflow_tracker.py` |
| `SkillGraph` | `src/skill_graph.py` |
| `CompositeSynthesizer` | `src/composite_synthesizer.py` |
| `ReflectionEngine` | `src/reflection_engine.py` |
| `PolicyStore` | `src/policy_store.py` |
| `AutoTuner` | `src/auto_tuner.py` |
| `SessionMemory` | `src/session_memory.py` |
| `EvalMetrics` | `evaluation/eval_framework.py` (`EvaluationMetrics`, `_aggregate_results`) |
| `GeneratedTools` | the tools under `tools/` and `web/tools/` |

In these places the code behaves differently from what a reader of its names and docstrings might expect, and the model follows the code:

- **Synthesis.** Sandbox verification runs exactly once. There is no repair-and-retry round.
- **Orchestrator.** It only searches, executes and synthesizes. It never calls the planners, the tracker or session memory.
- **Markdown extraction.** `extract_code_from_markdown` cuts the reply with `split`. It does not search for "the text up to the next fence". The two readings differ when fences overlap (`Utils.OverlappingFences`).
- **Null arguments.** The executor's `ValueError` for a missing argument is caught by its own generic handler. It is therefore retried and reported as an execution failure (see Findings).
- **Profit margins.** A negative cost gives no margin, as the code says. The tool's test expects otherwise.

## Model

| member | source | states |
|---|---|---|
| Utils.ExtractCodeFromMarkdown | src/utils.py:6-32 | A reply with a Python fence yields the stripped text after the first Python fence, cut at the next Python fence and then at the next bare fence. Otherwise, when a second bare fence follows the first, it yields the stripped body of the first bare block. Otherwise it yields the whole reply stripped. Neither block branch ever returns a fence. |
| Utils.SplitTwice | src/utils.py:24-29 | The `len(parts) >= 3` test after `split("```")` holds exactly when a second fence follows the first, which is when the bare-block branch is taken. |
| Utils.SinglePythonBlock | src/utils.py:17-21 | With only one Python fence, the result is the stripped text between that fence and the next fence. |
| Utils.OverlappingFences | src/utils.py:17-21 | The double split does not always mean "up to the next fence": the reply "```pythona````python" yields "a`", where cutting at the next fence would give "a". |
| Utils.ExtractJsonFromResponse | src/utils.py:35-54 | A ValueError is raised exactly when the reply has no `{` or no `}`. Otherwise the result is the slice from the first `{` through the last `}`: it starts with `{` and ends with `}` when they are in that order, and it is empty when the last `}` comes first. |
| Executor.ExtractFunctionSignature | src/executor.py:28-54 | The signature is the lines of the stripped code from the first line whose stripped text starts with `def ` through the first line at or after it that holds a colon (or to the end), joined by newlines. It is empty when no line opens a definition. |
| Executor.SignatureSpan | src/executor.py:38-54 | The line loop, with its `in_signature` flag, collects exactly the span from the first definition line through the first line that closes it, and nothing when there is no definition line. |
| Executor.CollectingSpan | src/executor.py:41-54 | Once collection has started, the loop keeps every line up to and including the first line with a colon. |
| Executor.NullNames | src/executor.py:111-113 | The names listed in the error are those of the `None` arguments: there are some exactly when some argument is `None`. |
| Executor.Handle | src/executor.py:120-126 | A TypeError mentioning "required positional argument" or "missing" becomes a ValueError. Any other TypeError propagates unchanged. Every other exception becomes a plain Exception ("Tool execution failed: ..."). |
| Executor.ExecuteToolAsWritten | src/executor.py:84-126 | The tool returns a value exactly when loading succeeded, the arguments resolved, none is `None` and the call returned. A `None` argument ends as a plain Exception, not a ValueError, because the generic handler re-wraps the ValueError raised for it. |
| Executor.ExecuteTool | src/executor.py:84-126 | The corrected `execute_tool`. It succeeds under the same conditions and returns the tool's own value. A `None` argument raises the ValueError naming the missing arguments. A ValueError reaches the caller only for a `None` argument or for a TypeError about a missing argument. |
| Executor.NullArgumentSkipsCall | src/executor.py:111-116 | With a `None` argument the tool function is never called: the outcome does not depend on what the function would do, in both versions. |
| Executor.RetryFrom | src/executor.py:145-174 | The retry loop from a given attempt stops at the first success or the first ValueError, and every earlier attempt was retryable. When every remaining attempt fails otherwise, it reports an ExecutionError after `max_retries + 1` attempts with the last message. |
| Executor.ExecuteWithRetry | src/executor.py:128-174 | There are at most `max_retries + 1` attempts. A success reports `attempts = index + 1` with that attempt's result. The first ValueError stops the loop as an ArgumentError with its message. The result is an ExecutionError exactly when all `max_retries + 1` attempts raised something else, and it then carries the last attempt's message. |
| Executor.NullArgumentExample | src/executor.py:111-126 | For the arguments `{x: None}`, the code as written ends in an ExecutionError, while the corrected executor ends in an ArgumentError. |
| Sandbox.PatchLines | src/sandbox.py:110-115 | Patching keeps the number of lines. Every line importing from the function's own module becomes `# <line> # Patched by sandbox`. Every other line is kept verbatim in place. |
| Sandbox.PatchTestCode | src/sandbox.py:108-119 | The patched test code begins with `from tool_function import <name>` and a newline. The rest is the original lines, patched one for one. |
| Sandbox.ContainerPhase | src/sandbox.py:125-170 | The container is started first. The verification succeeds exactly when the container completed with exit code 0. A Docker error or timeout is a failure. |
| Sandbox.VerifyTool | src/sandbox.py:78-177 | Without the image, nothing is created and the result is a failure. With it, the temporary directory is created first and removed last, on every path, and never earlier. A write failure propagates. Success means exactly that both files were written and the container exited with 0. |
| Sandbox.ContainersRunIsolated | src/sandbox.py:127-137 | The only container run comes right after both files are written. It always has the network disabled, a read-only mount of the temporary directory, 256 MB of memory, a CPU quota of half the period and the configured timeout. |
| Strings.Find | src/utils.py:48 | `str.find`: the first position where the pattern occurs, or −1 when it never occurs. |
| Strings.RFindChar | src/utils.py:49 | `str.rfind` for one character: the last position holding it, or −1. |
| Strings.Split | src/utils.py:18-28 | `str.split(sep)`: the pieces joined by `sep` give the string back, no piece contains `sep`, and there is one piece exactly when `sep` does not occur. |
| Numeric.Ema | src/skill_graph.py:444-446 | The moving average `α·sample + (1 − α)·previous` lies between the sample and the previous value, so a rate in [0, 1] stays in [0, 1]. |
| Numeric.Truncate | src/skill_graph.py:459-460 | `int()` truncates towards zero. |
| Strings.Strip | src/utils.py:20-32 | `str.strip()`: the result is a contiguous piece of the input starting after its leading whitespace, and it has no leading or trailing whitespace. |
| SynthesisEngine.RunPhase | src/synthesis_engine.py:64-83 | A phase first reports "in_progress" and then, when its step succeeded, "complete". A raising "complete" report is caught by the phase's own handler and reported as "failed". A phase passes exactly when its step succeeded and neither report raised. With a callback that never raises, a failed phase reports exactly "in_progress" then "failed". |
| SynthesisEngine.VerificationPhase | src/synthesis_engine.py:130-170 | Verification passes only when the sandbox ran and reported success. With a quiet callback a passing sandbox always passes the phase. A failing one stops the run with "in_progress" then "failed". |
| SynthesisEngine.Outer | src/synthesis_engine.py:215-221 | The outer handler reports `synthesis_error` and leaves the registry unchanged. The exception escapes `synthesize_capability` exactly when that report raises too. |
| SynthesisEngine.Synthesize | src/synthesis_engine.py:41-221 | A tool is returned only when every generation step succeeded and the sandbox passed the implementation. Its name is the specification's `function_name`. The code and tests it carries, and registers, are exactly the verified ones. The registry changes only after verification passed and only when registration's "in_progress" report did not raise. The callback sees the phases in order. The outer "unknown" failure needs a callback that raises. |
| SynthesisEngine.Generate | src/synthesis_engine.py:86-127 | After the specification, the tests and implementation phases keep the same guarantees: nothing is registered unless both generation steps succeeded and verification passed, and the phases stay in order. |
| SynthesisEngine.Check | src/synthesis_engine.py:130-170 | Verification is attempted once. With a quiet callback, a failing sandbox returns step "verification" with no repair or retry and no later phase. A passing one proceeds to registration, whose success alone decides the outcome. |
| SynthesisEngine.Register | src/synthesis_engine.py:172-213 | Registration first reports "in_progress"; when that report raises, the upsert never happens, the registry is unchanged and the outer handler reports `synthesis_error`. Otherwise it adds the verified code and tests under the specification's name. With a quiet callback, the run succeeds exactly when the upsert did, and then ends with "registration" complete followed by `synthesis_complete`. |
| SynthesisEngine.QuietRun | src/synthesis_engine.py:64-213 | With a callback that never raises, the run never reaches the outer handler. It returns a tool exactly when every step succeeded, the sandbox passed and the store accepted the tool. Its event stream is then each phase's "in_progress"/"complete" pair in order, then `synthesis_complete`. A verification failure stops after the verification phase's pair of reports. |
| SynthesisEngine.SynthesizedToolIsRegistered | src/synthesis_engine.py:175-180 | After a successful synthesis, looking the tool up by name finds it, with exactly the generated code. |
| Orchestrator.MissingToolFails | src/orchestrator.py:168-175 | Executing a tool that the lookup did not find fails all three attempts with "'NoneType' object is not subscriptable" and reports an ExecutionError. |
| Orchestrator.Outer | src/orchestrator.py:211-221 | The outer handler reports the error. When it returns, it returns a failure carrying the error text. |
| Orchestrator.SearchFailureReplies | src/orchestrator.py:211-221 | When the search at line 79 raises and the callback is quiet, the reply is a failure with "An unexpected error occurred: …" and the search's error, and nothing is executed or synthesized. |
| Orchestrator.ProcessRequest | src/orchestrator.py:55-221 | There is at most one synthesis per request. It happens only when the search found nothing or the found tool failed with an ArgumentError. The search precedes any execution. Success is reported only with the result of an `execute_with_retry` that succeeded. A quiet error report means there is always a reply. A synthesis failure is a failure, after at most the found tool's one execution. A search that raises goes to the outer handler before anything is executed or synthesized. |
| Orchestrator.RunFound | src/orchestrator.py:83-134 | A found tool is executed once, first. Only an ArgumentError leads on to synthesis. A successful execution never synthesizes. |
| Orchestrator.Respond | src/orchestrator.py:97-114 | After a successful execution, the reply carries the tool's result and whether it was synthesized. It is a success unless a progress report raises. |
| Orchestrator.RunSynthesis | src/orchestrator.py:136-162 | Synthesis runs once. When it fails, the reply is a failure with `synthesis_failed` and no further execution. Otherwise at most one more execution follows. |
| Orchestrator.RunNewTool | src/orchestrator.py:165-209 | The synthesized tool is looked up by name and executed exactly once. Its failure is returned without another synthesis. |
| Orchestrator.FoundToolAnswers | src/orchestrator.py:80-134 | With a quiet callback and a found tool: success answers with `synthesized` False and no synthesis; an ExecutionError fails the request with that error and no synthesis; an ArgumentError leads to exactly one synthesis. |
| Orchestrator.NewToolIsExecuted | src/orchestrator.py:165-175 | When nothing was found and synthesis succeeded, the one execution is of the tool just registered, with the synthesized code. |
| CapabilityRegistry.ToolAndTestFilesDiffer | src/capability_registry.py:92-93 | A tool's code file and its test file always have different paths, so writing one never overwrites the other. |
| CapabilityRegistry.AddTool | src/capability_registry.py:78-122 | Both files are written with the given code and tests, and no other file changes. When the store accepts the upsert, the record with id = name replaces any earlier one with the same name, so nothing is duplicated. Otherwise the call raises and the table is unchanged. |
| CapabilityRegistry.EffectiveThreshold | src/capability_registry.py:135 | A missing threshold, or one of 0.0 (falsy), is replaced by the configured default of 0.4. Any other threshold is used as given. |
| CapabilityRegistry.SearchTool | src/capability_registry.py:124-173 | One match is requested at the effective threshold. No match gives `None` and no change. A match whose implementation file is missing is deleted by id and gives `None`. Otherwise the tool comes back with the file's current contents and a similarity, and nothing changes. A failure of the embedding call or the `search_tools` procedure is raised, and nothing changes. |
| CapabilityRegistry.SearchRespectsThreshold | src/capability_registry.py:141-148 | When the store honours the threshold it is passed, a returned tool's similarity is at least the effective threshold. |
| CapabilityRegistry.GetToolByName | src/capability_registry.py:175-208 | An unknown name gives `None` and changes nothing. A record whose file is missing is purged and gives `None`. A repeat call then finds nothing and changes nothing. A successful lookup returns the record with the file's current contents as `code`. Files are never touched. |
| CapabilityRegistry.AddThenGet | src/capability_registry.py:78-122 | A tool added successfully is found again by name, with the code, paths, docstring and timestamp it was added with. |
| CapabilityRegistry.DeleteTool | src/capability_registry.py:223-250 | The result is False, with no file removed, when the tool is not retrievable; an orphaned record is still purged by the lookup. Otherwise the record and both of its files are removed and the result is True. |
| CapabilityRegistry.CleanupRows | src/capability_registry.py:267-279 | The loop deletes, by id, exactly the listed records whose file is missing and whose deletion goes through. With distinct ids, the count is the number of those deletions. |
| CapabilityRegistry.CleanupOrphanedTools | src/capability_registry.py:252-279 | Over a listing of the whole table, exactly the records whose `file_path` does not exist are removed (a deletion that fails is skipped). The returned number counts them. Every other record, and every file, is untouched. |
| QueryPlanner.FindMatchingCompositeTool | src/query_planner.py:206-250 | One match is requested at threshold 0.7. The result is the first row, or `None` on no rows or an error. |
| QueryPlanner.FindMatchingWorkflowPattern | src/query_planner.py:159-204 | One match is requested at threshold 0.7. The result is the first row, or `None` on no rows or an error. |
| QueryPlanner.AnalyzeQuery | src/query_planner.py:44-157 | The analysis always carries `original_prompt`. It is the model's JSON object with that key added. Any failure falls back to a non-complex analysis with the prompt as its only sub-task, with `depends_on` None: a failed call, no JSON, unparsable JSON, or a non-object. |
| QueryPlanner.PlanExecution | src/query_planner.py:252-324 | A composite with similarity strictly above 0.7 wins first, then a workflow pattern above 0.7. A non-complex analysis gives a single tool. A complex one gives a single tool with one sub-task, the whole prompt, when the registry's match has similarity above 0.6. Otherwise it gives a composition or a sequential plan, by `requires_composition`, with the analysis's sub-tasks. Missing keys raise. |
| QueryPlanner.ExtractSubTaskArguments | src/query_planner.py:326-369 | When it returns, the result is `{}` unless `depends_on` is between 1 and the number of previous results, and a non-empty result is exactly the parsed JSON object of the model's reply, given that earlier result. It raises instead for a sub-task that is not a dict, a `depends_on` that is not a number, a float `depends_on` in range, a missing `task` for a dependent sub-task, and a failed model call. |
| CompositionPlanner.PrepareArguments | src/composition_planner.py:160-224 | A prior result is used only when 1 ≤ `depends_on` ≤ the number of completed steps, taking `previous_results[depends_on - 1]`. Otherwise the standard extraction is used, as it is after a parse failure. Any other result is the parsed JSON of the model's reply. |
| CompositionPlanner.Tasks | src/composition_planner.py:62-65 | Every sub-task's `task` is read before any step runs. A single missing one makes the whole workflow raise. |
| CompositionPlanner.Steps | src/composition_planner.py:67-145 | Steps run strictly in list order, each on the results before it. The run either finishes with one result per item or halts at the first step that did not execute. The halting step is numbered from 1 and holds exactly the earlier results. |
| CompositionPlanner.ExecuteWorkflow | src/composition_planner.py:37-158 | On success there is one result and one tool per sub-task, each computed from the earlier results, and `final_result` is the last result (`None` for an empty plan). The first step without a tool gives `needs_synthesis`, with `step_failed` k and exactly the k−1 earlier results. The first step that raises gives `step_failed` k with the earlier results and tools. |
| CompositionPlanner.PatternArguments | src/composition_planner.py:277-307 | The first tool's arguments are extracted from the prompt. A later tool's non-empty arguments are the parsed JSON of the model's reply given the previous result. An unparsable reply gives `{}`. |
| CompositionPlanner.ArgumentsFromResult | src/composition_planner.py:284-307 | Non-empty arguments built from a result are exactly what the model's reply parses to. A missing or unparsable JSON object gives `{}`. |
| CompositionPlanner.PatternStep | src/composition_planner.py:265-330 | A tool the registry does not know stops the pattern. A tool that runs is reported under its own name. |
| CompositionPlanner.ExecutePattern | src/composition_planner.py:226-343 | On success, one result per tool, in the pattern's order, each from the results before it; the final result is the last. A missing tool or a raising step stops with `step_failed` k and exactly the k−1 earlier results, naming the missing tool. |
| CompositionPlanner.PatternUsesLastResult | src/composition_planner.py:284-307 | A later tool's arguments depend only on the result just before it (`results[-1]`), not on earlier ones. |
| WorkflowTracker.StartSession | src/workflow_tracker.py:37-47 | A session starts with no tools and the current time. Its id is the one given, or a fresh uuid when none (or an empty one) is given. |
| WorkflowTracker.SerializeOutput | src/workflow_tracker.py:130-139 | Serialized output holds no tuples and no other objects at any depth. Dicts stay dicts, and lists and tuples become lists. |
| WorkflowTracker.SerializedIsFixed | src/workflow_tracker.py:130-139 | A value already in serialized form is left exactly as it is. |
| WorkflowTracker.SerializeIdempotent | src/workflow_tracker.py:130-139 | Serializing twice equals serializing once. |
| WorkflowTracker.LogExecution | src/workflow_tracker.py:59-128 | A missing session is started first. `execution_order` is the number of executions already recorded (0, 1, 2, …). An execution whose insert fails is not remembered and changes no table. Each remembered execution after the first updates the relationship (previous tool, this tool, this tool's success). An unserializable input or output raises a TypeError, and a session started just before the raise stays open with no executions. |
| WorkflowTracker.RetryJoinsStartedSession | src/workflow_tracker.py:84-96 | After a log on a tracker with no session raises, the next log joins the session that was opened, under the first uuid, and records its execution as number 0. |
| WorkflowTracker.SuccessRate | src/workflow_tracker.py:201-202 | A session's success rate times its number of executions is its number of successes; it lies in [0, 1] and is 1 exactly when every execution succeeded. |
| WorkflowTracker.Confidence | src/workflow_tracker.py:223-225 | `min(0.95, rate × min(1, frequency / 10))` never exceeds 0.95, and for a non-negative rate never exceeds the rate. Below ten sessions, for a rate in [0, 0.95], it is rate × frequency / 10. From ten sessions on it equals the rate, capped at 0.95. |
| WorkflowTracker.AddSession | src/workflow_tracker.py:219-221 | The session id is added to a pattern's sessions once: nothing is lost, and an id already there changes nothing. |
| WorkflowTracker.MineFullSequence | src/workflow_tracker.py:187-255 | The first stored pattern whose tool sequence equals the session's is updated in place, and nothing else changes, including its name, complexity and description. Its frequency grows by one; its success rate moves 0.3 of the way to the session's; its mean time is the running mean with the session's duration added; its confidence is recomputed from the new rate and frequency; it lists the session and keeps the old ones. With no such pattern, one is appended named by the tools joined with "_to_", with frequency 1, the session's success rate and duration, confidence 0.5, this session, complexity equal to the number of tools and the description "Workflow pattern: " followed by the tools joined with " -> ". |
| WorkflowTracker.Pairs | src/workflow_tracker.py:257-267 | Every consecutive pair of the session is updated once, in order, with success meaning both succeeded. |
| WorkflowTracker.UpdateSubsequence | src/workflow_tracker.py:294-332 | The first pattern named "sub_" + the window joined by '-' gets frequency + 1 and a success rate averaged with weight 0.3, and keeps its confidence. Otherwise a new pattern is appended with frequency 1 and confidence 0.3. |
| WorkflowTracker.Windows | src/workflow_tracker.py:276-286 | There is one window per start position, n − size + 1 of them, each with the tools and success rate of that slice. There are none when the session is shorter than the window. |
| WorkflowTracker.SubsequenceWindows | src/workflow_tracker.py:274-289 | From three tools on, there are (n−1) windows of size 2 followed by (n−2) windows of size 3. |
| WorkflowTracker.UpdateSubsequenceCounts | src/workflow_tracker.py:304-329 | Each window update adds exactly one to the total frequency of all patterns. |
| WorkflowTracker.MineFullSequenceCounts | src/workflow_tracker.py:205-252 | Full-sequence mining adds exactly one to the total frequency of all patterns. |
| WorkflowTracker.UpdateAllCounts | src/workflow_tracker.py:269-292 | Mining the windows adds exactly one frequency per window. |
| WorkflowTracker.UpdateAllKeepsConfidence | src/workflow_tracker.py:311-315 | Window updates never change an existing pattern's confidence. |
| WorkflowTracker.UpdateAllKeepsSequences | src/workflow_tracker.py:311-315 | Window updates never change an existing pattern's tool sequence. |
| WorkflowTracker.Analyze | src/workflow_tracker.py:168-185 | Analysing a session re-updates every consecutive pair and leaves the execution log alone. |
| WorkflowTracker.EndSession | src/workflow_tracker.py:49-57 | The tracker is always left idle. The store is mined only when more than one execution was recorded, and then every consecutive pair is updated again. |
| WorkflowTracker.EndSessionCounts | src/workflow_tracker.py:168-185 | Ending a session of n > 1 tools adds 1 + ((n−1) + (n−2) when n ≥ 3) to the total pattern frequency and n − 1 relationship updates. |
| WorkflowTracker.EndSessionRecordsSequence | src/workflow_tracker.py:187-252 | After a session of more than one tool ends, some stored pattern has exactly the session's tool sequence. |
| WorkflowTracker.TwoToolSessionUpdatesTwice | src/workflow_tracker.py:116-122 | In a two-tool session A→B is updated twice: once when B is logged (with B's success) and once at the end (with both successes). |
| SkillGraph.FirstMissing | src/skill_graph.py:36-38 | The reported field is the first required field, in the required list's order, that is absent. None is reported exactly when all are present. |
| SkillGraph.FirstMismatch | src/skill_graph.py:41-50 | The reported mismatch is that of the first field whose declared type is violated. |
| SkillGraph.Validate | src/skill_graph.py:28-52 | The data is valid exactly when every required field is present and no declared "string"/"number"/"boolean" field has a value of the wrong kind. A missing field is reported, the first in required-list order, before any type check. |
| SkillGraph.Enqueued | src/skill_graph.py:303-308 | The edges enqueued are exactly the current node's edges to unvisited nodes, by descending weight × success rate. |
| SkillGraph.VisitKeepsWalk | src/skill_graph.py:288-308 | Visiting a node keeps the breadth-first walk's invariant: each node is visited once, every visited node is reached along an edge from an earlier one, and the path lists the known nodes in visiting order. |
| SkillGraph.GetExecutionPath | src/skill_graph.py:268-310 | The loop's visiting order is exactly `BfsOrder`, the breadth-first visit defined by recursion (pop the head, skip it if visited, stop after the end node, otherwise visit it and queue its unvisited successors by descending score), and the path is that order's known nodes. The order starts at the start node, repeats no node and moves only along edges from nodes already visited. Reaching the end node stops at once, with the end node last. Otherwise every edge out of a visited node leads to a visited node. |
| SkillGraph.BfsFromWalk | src/skill_graph.py:288-308 | Continuing the recursive breadth-first visit from any state of the walk gives an order that repeats nothing, follows edges, ends at the end node when it reaches it and otherwise leaves no edge out of the visited nodes unexplored. |
| SkillGraph.BfsOrderFacts | src/skill_graph.py:268-310 | The breadth-first order from the start node starts there, repeats no node, follows edges, ends at the end node when it reaches it, and otherwise is closed under the edges. |
| SkillGraph.SortEntries | src/skill_graph.py:415 | Sorting the keys keeps exactly the same entries, in increasing key order. |
| SkillGraph.InputHash | src/skill_graph.py:404-416 | The hash exists exactly when `json.dumps(..., sort_keys=True)` can encode the inputs: at any depth, every dict's keys are all strings or all numbers (so they can be sorted) and every key is a string, number, bool or None. |
| SkillGraph.KeyOrderIrrelevant | src/skill_graph.py:404-416 | Inputs that differ only in key order hash identically, and are either both encodable or both not. |
| SkillGraph.CheckCache | src/skill_graph.py:312-362 | Inputs that cannot be encoded make the hash raise inside the `try`, so the lookup misses and touches nothing. Otherwise a live entry adds 1 to its `cache_hits` and returns the stored outputs, and a missing or expired entry, or a store error, returns `None` and touches nothing. |
| SkillGraph.CacheResult | src/skill_graph.py:364-402 | Inputs that cannot be encoded, or a store error, store nothing. Otherwise the outputs are stored under the tool and input hash. There is no expiry when the TTL is None or 0; otherwise expiry is TTL hours after now. Every other entry is untouched. |
| SkillGraph.CachedResultIsFound | src/skill_graph.py:336-356 | An encodable result cached without expiry, or looked up before its TTL runs out, is found again with the stored outputs, even with its keys in another order. |
| SkillGraph.MixedKeysAreNotCached | src/skill_graph.py:404-416 | Inputs `{1: 0, "a": 0}`, whose keys `sorted` cannot compare, are never cached and never found. |
| SkillGraph.HalfSum | src/skill_graph.py:450-460 | `int((a + b) / 2)` truncates towards zero: it is ⌊(a + b)/2⌋ for a non-negative sum and −⌊−(a + b)/2⌋ for a negative one, and the mean of two non-negative values lies between them. |
| SkillGraph.UpdateNodeMetrics | src/skill_graph.py:418-464 | Only the given node changes, and an unknown node changes nothing. Its success rate moves 0.2 of the way to the outcome (1 or 0) and stays in [0, 1]. Its latency and cost become the truncated means of old and new. |
| SkillGraph.UpdateEdgeMetrics | src/skill_graph.py:466-513 | Only the first edge between the two nodes changes, and no such edge means no change. Its frequency grows by one. Its success rate and data quality each move 0.2 of the way to the new sample. Its weight is 0.7·(new success rate) + 0.3·(new quality), lies between the two and stays in [0, 1] when its inputs do. |
| CompositeSynthesizer.CriteriaOf | src/composite_synthesizer.py:53-64 | With no stored policy the criteria default to frequency 3, success rate 0.8 and confidence 0.7. A stored `min_confidence` is used as given. |
| CompositeSynthesizer.Page | src/composite_synthesizer.py:68-72 | The query returns at most 20 patterns meeting the frequency and success-rate bounds, in descending frequency order. Every qualifying pattern it leaves out is no more frequent than any it returns, and it misses none when at most 20 qualify. |
| CompositeSynthesizer.ScanForCandidates | src/composite_synthesizer.py:45-93 | Every candidate meets all the bounds: frequency, success rate and confidence (0.5 when absent). None already has a candidate row. There are at most 20, in descending frequency order, and a store error gives []. A pattern meeting every bound that is left out is no more frequent than any candidate returned. When at most 20 pass the query, every qualifying pattern is returned. |
| CompositeSynthesizer.Template | src/composite_synthesizer.py:417-420 | The workflow template has one step per component tool, with orders 0..n−1. |
| CompositeSynthesizer.TemplateListsTools | src/composite_synthesizer.py:417-420 | The template lists the component tools in pattern order. |
| CompositeSynthesizer.CreateCandidate | src/composite_synthesizer.py:95-217 | A pending row is written first, and only it changes among the candidates. Its status then moves pending → testing → approved or rejected, and the row's final status is the last one reached. It is rejected, with "Tests failed: …", exactly when generation and the testing update succeeded, the sandbox failed and the rejection update did not raise. The composite is in the table exactly when every step up to its insert succeeded. The result is a success, and the row approved, exactly when the approval update also succeeded. When that update raises, the result is "Composite synthesis failed: …" and the row stays at testing although the composite is registered. Without a candidate row nothing changes. |
| CompositeSynthesizer.CandidateLeavesScan | src/composite_synthesizer.py:82-87 | Once its candidate row is written, a pattern never appears in a later scan, whatever the outcome. |
| CompositeSynthesizer.SliceTo | src/composite_synthesizer.py:482 | `candidates[:max_candidates]` has Python's slice length, including for a negative bound. |
| CompositeSynthesizer.TallyCounts | src/composite_synthesizer.py:482-496 | processed = successful + failed = the number of patterns handled. The composites created are exactly the successes, in order. |
| CompositeSynthesizer.ProcessKeepsComposites | src/composite_synthesizer.py:482-496 | Processing candidates never removes a composite. Every composite reported as created is registered. |
| CompositeSynthesizer.RunBatchSynthesis | src/composite_synthesizer.py:449-500 | `total_candidates` is the number of candidates one scan returns (at most 20). The candidates processed are the scan's `[:max_candidates]`, in order: all of them when `max_candidates` exceeds the total, and Python's negative-slice count when it is negative. `composites_created` lists the composite names of the successful runs over that slice, in order. processed = successful + failed, and every composite created is registered. |
| CompositeSynthesizer.ProcessAllSnoc | src/composite_synthesizer.py:481-494 | The batch loop handles its candidates in order: one more candidate runs `create_candidate` against the tables the earlier ones left, and its result is appended last. |
| ReflectionEngine.ClassifyFailure | src/reflection_engine.py:236-253 | On the lowercased message: an argument mismatch exactly when it mentions "missing" or "required". "type_error" only when it mentions "type". "value_error" only when it mentions "valueerror" and not "type". |
| ReflectionEngine.TypeErrorMentionsType | src/reflection_engine.py:242-243 | Any message mentioning "typeerror" also mentions "type", so it is classified as a type error before the value-error rule is reached. |
| ReflectionEngine.ClassifyIsFirstRule | src/reflection_engine.py:238-253 | The classification is the label of the first rule, in the code's order, whose keywords the lowercased message mentions, or "unknown". |
| ReflectionEngine.ClassifyIgnoresCase | src/reflection_engine.py:238 | Classification depends only on the lowercased message. |
| ReflectionEngine.AnalyzeFailure | src/reflection_engine.py:43-115 | An unregistered tool fails and logs no reflection. A failing model call or insert fails. Otherwise the analysis carries the classification, the root cause and the fix extracted from the reply's code block. The reflection is logged with every flag false. |
| ReflectionEngine.LatestVersion | src/reflection_engine.py:437-443 | The highest stored version of the tool, or none when the tool has no versions. |
| ReflectionEngine.SaveToolVersion | src/reflection_engine.py:425-464 | The new version is max + 1, or 1 for the first. Every earlier version of the tool loses `is_current`, and other tools are untouched. The new row, with the given code and tests, is then the tool's only current version. |
| ReflectionEngine.SaveKeepsHistoryConsistent | src/reflection_engine.py:441-464 | Saving keeps a tool's version numbers distinct and leaves exactly one current version for it and for every other tool that had one. |
| ReflectionEngine.CombinedTests | src/reflection_engine.py:166-169 | The tests verified are the existing tests followed by the new regression test. |
| ReflectionEngine.ApplyFix | src/reflection_engine.py:117-234 | A missing reflection or tool fails before verification. The fix is verified against the combined tests. Only a passing verification saves a version, overwrites the tool and test files and marks the fix successful. A failing one leaves the files and versions alone and records the fix as applied but not successful. |
| PolicyStore.BuiltinValue | src/policy_store.py:20-61 | Every built-in default policy is a non-empty dict, so it is truthy wherever it is used as a fallback. |
| PolicyStore.DefaultFor | src/policy_store.py:112-113 | A name has a built-in default exactly when it is one of the six default policy names. |
| PolicyStore.CriteriaDefaultsAgree | src/policy_store.py:25-31 | The built-in promotion criteria are 3 / 0.8 / 0.7, the same values the composite synthesizer falls back to. |
| PolicyStore.WeightsSumToOne | src/policy_store.py:53-60 | The built-in reranking weights are 0.7, 0.2 and 0.1 and sum to 1. |
| PolicyStore.GetPolicy | src/policy_store.py:94-122 | A truthy stored value wins. Otherwise, or on a store error, the built-in default is used for a known name and the caller's default for any other. |
| PolicyStore.MissingDefaults | src/policy_store.py:73-92 | The defaults to insert are exactly the built-in names with no active row. An insert that fails stops the rest. |
| PolicyStore.MissingFrom | src/policy_store.py:76-90 | From a given position on, every default without an active row, and only those, is inserted, in order. |
| PolicyStore.EnsureDefaultPolicies | src/policy_store.py:73-92 | One default row is inserted per missing name, and never for a name that already has an active row. |
| PolicyStore.EnsureDefaultsIdempotent | src/policy_store.py:76-90 | Running the check again after it succeeded inserts nothing. |
| PolicyStore.InferType | src/policy_store.py:146-150 | A given non-empty policy type is used as is. Otherwise the default's type is used for a known name, and "custom" for any other. |
| PolicyStore.UpdatePolicy | src/policy_store.py:124-172 | A successful update appends one write with the name, value, creator and inferred type, and returns the store's reply. Metadata is attached only when both it and the reply are truthy. A store failure raises "Failed to update policy '…': …". |
| PolicyStore.RollbackPolicy | src/policy_store.py:200-235 | An unknown version, or a failed read or write, gives False and writes nothing. Otherwise one new version is appended with the old value and `created_by` "rollback", and earlier history is never edited. |
| PolicyStore.Bucket | src/policy_store.py:321 | `hash(session_id) % 100` is the non-negative remainder in [0, 100), as in Python. |
| PolicyStore.GetExperimentVariant | src/policy_store.py:297-326 | The variant is 'a' with no active experiment or on error. Otherwise it is 'a' exactly when the bucket is below split × 100. A split of 1.0 always gives 'a', and one of 0.0 always gives 'b'. |
| PolicyStore.SplitSendsShare | src/policy_store.py:321-322 | A split of k/100 sends exactly k of the 100 buckets to variant 'a'. |
| PolicyStore.RecordExperimentResult | src/policy_store.py:328-368 | With no active experiment nothing is recorded. Otherwise only the variant's own metric changes. The first result is stored as is, and later ones are averaged with the stored value. |
| AutoTuner.EvaluateThreshold | src/auto_tuner.py:154-174 | `max(0, 1 − 2·|t − 0.45|)` lies in [0, 1]. It is 1 exactly at 0.45, and 0 exactly at distance 0.5 or more. |
| AutoTuner.EligibleCount | src/auto_tuner.py:253-258 | The number of patterns meeting both bounds never exceeds the number of patterns. |
| AutoTuner.StricterCriteriaAdmitFewer | src/auto_tuner.py:253-258 | Raising either bound never admits more patterns. |
| AutoTuner.EvaluateCompositeCriteria | src/auto_tuner.py:239-272 | An eligible count of 0 (or a store error) scores 0.0, 1–2 scores 0.5, 3–10 scores 1.0 and more than 10 scores 0.8, so the score lies in [0, 1]. |
| AutoTuner.FirstBest | src/auto_tuner.py:130-132 | The strict `>` keeps the first trial with the highest score: no later score is higher, and every earlier score is lower. |
| AutoTuner.Tune | src/auto_tuner.py:121-132 | Every candidate is tried once, in order. The best is a candidate whose score no other candidate beats. There is a best exactly when there are candidates. |
| AutoTuner.Linspace | src/auto_tuner.py:115 | The grid has `num` points from `start` to `stop`, all within the range. |
| AutoTuner.TuneRetrievalThreshold | src/auto_tuner.py:97-152 | The tuner tries the evenly spaced thresholds. It writes the policy (with `rerank` True) exactly when there was a trial. The best score lies in [0, 1]. |
| AutoTuner.TunerFindsOptimalThreshold | src/auto_tuner.py:121-132 | When 0.45 is on the grid, the tuner picks it, with score 1.0. |
| AutoTuner.Grid | src/auto_tuner.py:202-203 | The combinations are every frequency from `lo` to `hi`, both inclusive, with every rate: (hi − lo + 1) × (number of rates) of them. |
| AutoTuner.TuneCompositeCriteria | src/auto_tuner.py:180-237 | It evaluates (hi − lo + 1) × 3 combinations. A policy is written exactly when there is a best combination, with `min_confidence` 0.7. |
| AutoTuner.TunerPrefersSweetSpot | src/auto_tuner.py:202-214 | If some combination admits between 3 and 10 patterns, the chosen one does too. |
| AutoTuner.TuneRerankingWeights | src/auto_tuner.py:274-337 | A policy is written exactly when there was a sample. The chosen weights are a sample that no other sample beats. |
| AutoTuner.Successes | src/auto_tuner.py:65 | Successes never exceed the number of executions. |
| AutoTuner.Latencies | src/auto_tuner.py:69 | The latencies averaged are the recorded, non-zero execution times. |
| AutoTuner.SuccessRate | src/auto_tuner.py:64-66 | success_rate = successes / total, in [0, 1]. |
| AutoTuner.Mean | src/auto_tuner.py:70 | The mean times the count is the sum, and an empty list averages to 0. |
| AutoTuner.MeanWithin | src/auto_tuner.py:70 | The mean of values within bounds is within the same bounds. |
| AutoTuner.SumIntsNonNegative | src/auto_tuner.py:79 | A sum of non-negative frequencies is non-negative. |
| AutoTuner.ReuseRate | src/auto_tuner.py:77-80 | With patterns, the rate is Σfrequency / total capped at 1: exactly 1 once the uses reach the executions, otherwise the share whose `total` copies give the uses. It is 0 with no patterns and non-negative for non-negative frequencies. |
| AutoTuner.ComputeCurrentMetrics | src/auto_tuner.py:38-95 | With no executions or a store error, all values are zero and no reuse rate is reported. Otherwise the metrics are the execution count, the success rate, the mean latency and a reuse rate that is the pattern uses over the executions, capped at 1 (0 with no patterns). |
| SessionMemory.StartSession | src/session_memory.py:36-55 | The given id is returned, or a fresh one when none (or an empty one) is given. This holds even when the store write fails, which then records nothing. |
| SessionMemory.MaxIndex | src/session_memory.py:158-164 | The highest `message_index` of the session is one of its messages' indices and bounds all of them. |
| SessionMemory.NextMessageIndex | src/session_memory.py:152-169 | The next index is one more than the highest existing one, so it exceeds every existing index. It is 0 for an empty session or on a query error. |
| SessionMemory.AppendMessage | src/session_memory.py:60-98 | An empty session id or content, or a failed insert, stores nothing and returns None. Otherwise the message is appended under the next index and returned. |
| SessionMemory.AppendKeepsIndexing | src/session_memory.py:63-80 | Appending keeps a session's indices increasing, and consecutive when they were, and leaves other sessions alone. |
| SessionMemory.Newest | src/session_memory.py:107-120 | The ordering and reversal return `min(limit, count)` of the session's messages, oldest first. Every message left out has an index no higher than any message returned. |
| SessionMemory.NewestOfIncreasing | src/session_memory.py:107-120 | For messages stored in index order, those returned are exactly the last `limit` ones. |
| SessionMemory.GetRecentMessages | src/session_memory.py:100-124 | An empty session id or a query error gives []. Otherwise `min(limit, count)` of the session's own messages are returned. |
| SessionMemory.RecentAreLatest | src/session_memory.py:100-124 | The recent messages are the session's last `limit` messages, oldest first. |
| SessionMemory.AppendedMessageIsRecent | src/session_memory.py:60-124 | A message just appended is the newest of the recent messages. |
| SessionMemory.RoleLabel | src/session_memory.py:138-139 | The label is "User" exactly when the role, stripped and lowercased, is "user", and "Assistant" otherwise. |
| SessionMemory.ContextLines | src/session_memory.py:136-140 | There is one "Role: content" line per message, in order. |
| SessionMemory.BuildPromptWithContext | src/session_memory.py:126-147 | The prompt is returned unchanged exactly when there is no session or no recent message. Otherwise the context header is appended, then one line per message, with at most 10 messages. |
| SessionMemory.ContextIsLastTen | src/session_memory.py:132-147 | The context lists the session's last ten messages, oldest first. |
| EvalMetrics.Fraction | evaluation/eval_framework.py:84-85 | A ratio is 0.0 on a zero denominator and otherwise times the denominator gives the numerator. It lies in [0, 1] for 0 ≤ num ≤ den and is 1 exactly when num = den. |
| EvalMetrics.FractionBounds | evaluation/eval_framework.py:84-85 | A ratio of a part to a positive whole lies in [0, 1] and is 1 exactly when the part is the whole. |
| EvalMetrics.Precision | evaluation/eval_framework.py:82-85 | precision = tp / (tp + fp), 0.0 on a zero denominator. For non-negative counts it is in [0, 1], and 1 exactly when tp > 0 and fp = 0. |
| EvalMetrics.Recall | evaluation/eval_framework.py:88-91 | recall = tp / (tp + fn), 0.0 on a zero denominator. For non-negative counts it is in [0, 1], and 1 exactly when tp > 0 and fn = 0. |
| EvalMetrics.Accuracy | evaluation/eval_framework.py:101-103 | accuracy = correct / total, 0.0 when total = 0, and in [0, 1] when correct ≤ total. |
| EvalMetrics.F1 | evaluation/eval_framework.py:94-98 | f1 · (p + r) = 2pr, or 0.0 when p + r = 0. For non-negative p and r it lies between them, hence in [0, 1] when they are. |
| EvalMetrics.F1Between | evaluation/eval_framework.py:94-98 | The harmonic mean of two non-negative values lies between them. |
| EvalMetrics.HarmonicBetween | evaluation/eval_framework.py:98 | For 0 ≤ p ≤ r, the value with f·(p + r) = 2pr lies in [p, r]. |
| EvalMetrics.EditDistance | evaluation/eval_framework.py:139-160 | The unit-cost edit distance is at least the difference of the two lengths and at most the longer length. |
| EvalMetrics.EditDistanceSymmetric | evaluation/eval_framework.py:144-145 | The distance is symmetric, so swapping the arguments to put the longer first changes nothing. |
| EvalMetrics.EditDistanceZero | evaluation/eval_framework.py:150-160 | The distance is 0 exactly for equal strings. |
| EvalMetrics.EditStep | evaluation/eval_framework.py:154-157 | The distance of two prefixes extended by one character each is the minimum of insertion, deletion and substitution (cost 0 for equal characters), as the DP cell computes. |
| EvalMetrics.CellStep | evaluation/eval_framework.py:154-157 | A DP cell computed from the three neighbouring distances is the distance of its two prefixes. |
| EvalMetrics.Levenshtein | evaluation/eval_framework.py:139-160 | The two-row dynamic program returns exactly the edit distance. |
| EvalMetrics.NextRow | evaluation/eval_framework.py:151-158 | From the row for the first i characters, the loop computes the row for the first i + 1. |
| EvalMetrics.CodeSimilarity | evaluation/eval_framework.py:163-170 | Similarity is 1 − distance / max length, in [0, 1]. It is 1 exactly for identical code, including two empty strings. |
| EvalMetrics.SimilarityBounds | evaluation/eval_framework.py:168-170 | 1 − d / m lies in [0, 1] for d ≤ m, and is 1 exactly when d = 0. |
| EvalMetrics.PassedCount | evaluation/eval_framework.py:326 | The number passed never exceeds the number of results. It equals it exactly when all passed, and is 0 exactly when none did. |
| EvalMetrics.Mean | evaluation/eval_framework.py:329 | `np.mean` of a non-empty list: the mean times the count is the sum. The mean of scores in [0, 1] lies in [0, 1]. |
| EvalMetrics.OfCategory | evaluation/eval_framework.py:334 | A category's results are results of that category, and there are none exactly when no result has it. |
| EvalMetrics.CategoryScores | evaluation/eval_framework.py:331-338 | Every category has an entry, which is empty exactly when the category has no results, and otherwise is the mean of that category's scores, in [0, 1] for scores in range. |
| EvalMetrics.CategoryScore | evaluation/eval_framework.py:331-338 | A category's entry is empty exactly when it has no results; otherwise it is the mean of their scores (times their count it gives their sum) and lies in [0, 1] for scores in range. |
| EvalMetrics.CategoryMean | evaluation/eval_framework.py:336 | A category's average score is the mean of its results' scores and lies in [0, 1]. |
| EvalMetrics.AverageScore | evaluation/eval_framework.py:329 | The average score is 0.0 with no results, and otherwise the mean of all scores (times the count it gives their sum), in [0, 1] for scores in range. |
| EvalMetrics.Aggregate | evaluation/eval_framework.py:323-350 | failed = total − passed. pass_rate = passed / total, or 0.0 with no tests, and lies in [0, 1]. The average score is the mean of all scores, in [0, 1] for scores in range. Every category is reported, empty exactly when no result has it, and otherwise holding the mean of its scores. The elapsed time is (end − start)·1000, or 0.0 while the end time is unset. |
| EvalMetrics.PassRateExtremes | evaluation/eval_framework.py:325-328 | The pass rate is 1 exactly when every test passed (no failures), and 0 exactly when none did. |
| EvalMetrics.Reciprocals | evaluation/eval_framework.py:113 | The reciprocals `1.0 / rank` of the positive ranks lie in (0, 1]; there are none exactly when no rank is positive, and all are 1 when no rank exceeds 1. |
| EvalMetrics.ReciprocalBelowOne | evaluation/eval_framework.py:113 | A rank above 1 leaves a reciprocal below 1. |
| EvalMetrics.MeanReciprocalRank | evaluation/eval_framework.py:106-114 | MRR is 0.0 when no rank is positive (including no ranks), and otherwise the mean of the reciprocals of the positive ranks; it lies in [0, 1]. |
| EvalMetrics.PerfectRank | evaluation/eval_framework.py:106-114 | With at least one positive rank, MRR is 1.0 exactly when every positive rank is 1. |
| EvalMetrics.UnitMean | evaluation/eval_framework.py:114 | The mean of values in (0, 1] is 1.0 exactly when every value is 1. |
| GeneratedTools.Percentage | tools/calculate_percentage.py:12 | `base × percentage / 100` is 0 exactly when a factor is 0, gives the base back at 100%, and stays in [0, base] for a non-negative base and a percentage up to 100. |
| GeneratedTools.PercentageBounds | tools/calculate_percentage.py:12 | The same facts for the quotient itself. |
| GeneratedTools.CalculatePercentage | tools/calculate_percentage.py:1-12 | With no validation, any two numbers are accepted, negative ones and percentages above 100 included. Anything else fails with a TypeError. |
| GeneratedTools.CheckedPercentage | web/tools/calculate_percentage.py:1-9 | A non-number (including None or a string) is a TypeError, checked before anything else. A negative number is a ValueError. Otherwise the result is `total × percent / 100`, never negative. |
| GeneratedTools.Factorial | tools/calculate_factorial.py:15-21 | n! is at least 1 and at least n. |
| GeneratedTools.CalculateFactorial | tools/calculate_factorial.py:1-21 | None and non-integers raise TypeError "Input must be an integer". Negative integers raise ValueError "Factorial is not defined for negative numbers". Otherwise the result is n!, which is at least 1. |
| GeneratedTools.MultiplyUpTo | tools/calculate_factorial.py:18-21 | The loop `factorial *= i` for i from 1 to n computes n!. |
| GeneratedTools.FactorialStep | tools/calculate_factorial.py:19-20 | After step i the running product is i!. |
| GeneratedTools.FactorialOfFive | tools/test_calculate_factorial.py:4-6 | 5! = 120, as the tool's test expects. |
| GeneratedTools.FactorialMonotone | tools/calculate_factorial.py:18-21 | The factorial never decreases as n grows. |
| GeneratedTools.ReverseString | tools/reverse_string.py:1-9 | None raises TypeError. Otherwise the result has the same length and r[i] = s[n−1−i]. |
| GeneratedTools.ReverseFixesPalindromes | tools/test_reverse_string.py:8-14 | A string is unchanged by reversal exactly when it reads the same both ways. This covers the empty, single-character and all-space strings of the tests. |
| GeneratedTools.ReverseTwice | tools/reverse_string.py:9 | Reversing twice returns the original string. |
| GeneratedTools.ReverseConcat | tools/reverse_string.py:9 | Reversing a concatenation reverses each piece and swaps them. |
| GeneratedTools.ReverseExamples | tools/test_reverse_string.py:4-6 | "Hello World" becomes "dlroW olleH", "hello" becomes "olleh" and "12345" becomes "54321". |
| GeneratedTools.Celsius | tools/convert_fahrenheit_to_celsius.py:7 | `(f − 32) × 5/9` undoes the `c × 9/5 + 32` formula used for expected answers. It is 0 exactly at 32 °F and equals its input exactly at −40. |
| GeneratedTools.ConvertFahrenheitToCelsius | tools/convert_fahrenheit_to_celsius.py:1-7 | Non-numeric input raises TypeError. Otherwise the result converts back to the input. |
| GeneratedTools.Margin | tools/identify_underperforming_products.py:20-22 | A product has a margin exactly when its `margin` entry exists and is a number. Missing, None and non-numeric margins are skipped. |
| GeneratedTools.IdentifyUnderperforming | tools/identify_underperforming_products.py:3-28 | A non-numeric threshold raises TypeError before any product is looked at. Otherwise every returned product is one of the input products with a numeric margin below the threshold, and every such product is returned. |
| GeneratedTools.SelectionIsOrderPreserving | tools/identify_underperforming_products.py:18-24 | Selection works product by product, so the original order is kept. |
| GeneratedTools.SelectionIdempotent | tools/identify_underperforming_products.py:18-24 | Filtering the output again with the same threshold leaves it unchanged. |
| GeneratedTools.SelectionExtremes | tools/test_identify_underperforming_products.py:80-87 | A threshold above every margin returns all the products, and one below every margin returns []. |
| GeneratedTools.ProfitMargin | tools/calculate_profit_margins.py:21-33 | A row has a margin exactly when price and cost parse, the price is positive and the cost non-negative. The margin times the price is price − cost, so it is at most 1, and it is non-negative exactly when the cost does not exceed the price. |
| GeneratedTools.MarginBounds | tools/calculate_profit_margins.py:29-30 | `(price − cost) / price` is at most 1 for a positive price and non-negative cost, and non-negative exactly when cost ≤ price. |
| GeneratedTools.CalculateProfitMargins | tools/calculate_profit_margins.py:4-45 | A missing file raises FileNotFoundError. Any other read failure raises a plain Exception. Otherwise there is one entry per row, in row order, with the product name (`''` when absent) and the row's margin. |

Members without a row are helpers, or facts that Dafny proves without a proof body. Among them:

- `Executor.NullArgumentAsWritten` and `Executor.NullArgumentCorrected` state the two halves of the finding below for every argument list with a `None`.
- `CompositionPlanner.ShouldCreateComposite` is `should_create_composite` itself: at least two tools, a frequency of at least 3 and a success rate of at least 0.8 (src/composition_planner.py:345-370). `ShouldCreateCompositeMonotone` shows that more use or a better rate never withdraws it.
- `WorkflowTracker.LogKeepsOrder` shows that execution orders stay 0, 1, 2, ….
- `SkillGraph.ExpiredResultIsMissed` shows that an expired entry is not served.
- `PolicyStore.KnownPolicyAlwaysAnswered` and `PolicyStore.RecordHalvesDistance` show that a known policy always gets a truthy answer, and that each recorded result halves the distance to the new value.
- `AutoTuner.NearerThresholdScoresHigher` shows that a threshold nearer 0.45 never scores lower.
- `GeneratedTools.PercentageExamples` holds the worked examples of both percentage tools' tests.
- `GeneratedTools.CelsiusOfFahrenheit` and `GeneratedTools.CelsiusIncreasing` show that Celsius is the inverse of the data set's `c × 9/5 + 32` (evaluation/test_dataset_generator.py:180) and is strictly increasing.
- `GeneratedTools.MarginlessRows` covers rows with no price or cost column, a zero price or a negative cost.

## Left out

- External services: OpenAI, Supabase, Docker, the filesystem, uuid and the clock are inputs. These include model replies, store rows and failures, container outcomes, existing files, fresh ids and timestamps. Server-side store procedures (`search_tools`, `update_policy`, `update_tool_relationship`, the pattern and composite searches) are oracles. Their similarity filtering is assumed, not proved; `CapabilityRegistry.SearchRespectsThreshold` states it as a hypothesis.
- Hashes: SHA-256 of the canonical JSON (src/skill_graph.py:416) and Python's `hash()` of the session id (src/policy_store.py:321) are uninterpreted parameters.
- JSON: `json.loads` is a parameter. `json.dumps` is modelled only as far as whether it raises: on dict keys that are not strings, numbers, booleans or None, on keys `sort_keys=True` cannot order (strings mixed with numbers), and, where there is no `default=str`, on values it cannot serialize. The text it produces is left out, and the hash over it is a parameter.
- Floating point: rates, scores and averages are exact reals. The built-in reranking weights sum to exactly 1 here, whereas in floating point 0.7 + 0.2 + 0.1 is 0.9999999999999999. NaN and infinities are not modelled.
- PolicyStore.SplitSendsShare: in exact arithmetic a split of k/100 sends exactly k buckets to variant 'a'. In floating point the bucket comparison can differ at the boundary: 0.07 × 100 is 7.000000000000001, so bucket 7 also goes to 'a'.
- AutoTuner.Linspace: evenly spaced in exact arithmetic, not numpy's float grid.
- AutoTuner.TuneRerankingWeights: the Dirichlet samples and `_evaluate_reranking_weights` are inputs; `np.linalg.norm` is left out.
- `run_full_tuning` (src/auto_tuner.py:361-427) is left out. It only sequences the three tuners. With no executions it would raise a KeyError, because `compute_current_metrics` omits `pattern_reuse_rate` then (src/auto_tuner.py:377).
- Sorting ties: the orders in `Page`, `Enqueued` and `Newest` are stated as descending or ascending by key plus a permutation. The stable order among equal keys that the store or `sorted` produces is not pinned down.
- PolicyStore.RecordExperimentResult: the comment at src/policy_store.py:356 calls it a "simple average". The code stores (current + value) / 2, a moving average with weight 1/2, and that is what the model states.
- Exception messages are modelled only where the code fixes them. The text of re-raised foreign exceptions is an input.
- The orchestrator's `response_synthesizer` and the planners' model prompts are left out: the reply is an input, and the synthesizer catches everything it raises.
- The `current_path` that the breadth-first search in `get_execution_path` carries along (src/skill_graph.py:289, 308) is never read, so it is left out.
- The composite insert made by `_register_composite` is an oracle in `CompositeSynthesizer.CreateCandidate`: it either succeeds or raises a given error.
- The mining steps of `end_session` catch store exceptions and only print a warning (src/workflow_tracker.py:254-255, 291-292, 331-332). The model lets every mining write succeed.
- `calculate_profit_margins` reads the CSV with `csv.DictReader`. The model receives the parsed rows, and `float()` is a parameter that says which strings parse.
- GeneratedTools.ReverseString: the input is a string or None. Other Python values, which `[::-1]` would also accept or reject, are not modelled.
- GeneratedTools.CalculatePercentage: "a number" covers int, float and bool. Sequence repetition by `*` on other types is not modelled; such inputs fail with a TypeError.
- The negative-cost expectation of tools/test_calculate_profit_margins.py:28-33 contradicts the code, which gives no margin for a negative cost. The model follows the code.
- Evaluation metrics NDCG (evaluation/eval_framework.py:117-136), which uses logarithms, and cosine similarity (evaluation/eval_framework.py:172-185), which uses square roots, are left out, as are the evaluation runner, data-set generator and plots.
- tools/calculate_square_root.py (built on `math.sqrt`) and tools/identify_low_margin_products.py (built on pandas) are not part of this model.
- The web front end (web/app.py), configuration, setup and seed scripts, the batch pattern miner, `src/llm_client.py` (an API wrapper whose JSON and fence parsing duplicates src/utils.py) and `src/response_synthesizer.py` are not part of this model.
- Strings.Lower: only ASCII letters are lowered. Python's `str.lower` also lowers other Unicode letters, e.g. the KELVIN SIGN (U+212A) becomes 'k', and 'İ' (U+0130) becomes two characters.
- ReflectionEngine.ClassifyFailure: classifies on `Strings.Lower`, so a message whose keywords are spelled with non-ASCII capitals, e.g. "MIS\u212ASING" with the KELVIN SIGN, is classified by the code as an argument mismatch but not by the model.
- ReflectionEngine.ClassifyIgnoresCase: case-insensitivity is proved for ASCII case only, for the same reason.
- SessionMemory.RoleLabel: a role spelled with non-ASCII capitals that Python lowers to "user" is labelled "User" by the code but "Assistant" by the model.
- CompositionPlanner.ExecuteWorkflow: the progress callback is assumed never to raise. A report raising inside a step's `try` (src/composition_planner.py:85-128) would become that step's failure; one raising outside it (62, 72, 135, 147) would propagate to the caller.
- CompositionPlanner.ExecutePattern: the same assumption; a raising report at src/composition_planner.py:249, 259 or 332 would propagate, and one at 318 would fail the step.
- CompositeSynthesizer.CreateCandidate: the progress callback is assumed never to raise. Every report (src/composite_synthesizer.py:118-200) sits inside the `try` at 114, so a raising one would end the call as "Composite synthesis failed: …" with every write already made kept. Raised by the final report (200), it would report failure for a composite that was already registered and approved. The two files `_register_composite` writes (src/composite_synthesizer.py:401-411) are not modelled: they stay on disk when the embedding call or the insert after them raises, and they overwrite a tool file of the same name.
- CompositeSynthesizer.RunBatchSynthesis: the progress callback is assumed never to raise; a raising report at src/composite_synthesizer.py:468, 472, 483 or 498 would propagate out of the batch.
- ReflectionEngine.ApplyFix: after a passing verification, the version insert, the two file writes and the reflection update (src/reflection_engine.py:184-205) are assumed to succeed. If one raised, the handler would report "Failed to apply fix: …" while keeping the writes already made.
- PolicyStore.UpdatePolicy: the metadata update after the RPC (src/policy_store.py:163-167) is assumed to succeed. If it raised, the call would raise "Failed to update policy …" although the new value had been written.
- Sandbox.VerifyTool: `images.get` (src/sandbox.py:70-76, 91) either finds the image or raises ImageNotFound. Any other Docker error there would propagate out of `verify_tool` and is not modelled.
- WorkflowTracker.MineFullSequence: a stored pattern without an `avg_execution_time_ms` value is read as 0. The `sub_` rows that `_update_subsequence_pattern` inserts (src/workflow_tracker.py:316-325) never set that column, and `_mine_full_sequence` can match such a row by its tool sequence (line 215). If the column defaults to NULL, `.get` returns None, the running-mean update raises, and the handler only warns, leaving the row as it was. The table schema is not part of this model.
- CapabilityRegistry.AddTool: the exception raised when the upsert returns no data carries "Failed to add tool to database" without the `: {result}` suffix (src/capability_registry.py:122), as the store's reply object is not modelled.
- SkillGraph.CacheResult: the upsert is assumed to be keyed on (tool name, input hash), i.e. the `execution_cache` table has that unique constraint (src/skill_graph.py:399). The table schema is not part of this model.
- The orchestrator as written never calls the query planner, the composition planner, the workflow tracker or session memory. Those are modelled as stand-alone components.

## Findings

| source | as written | input that shows it | evidently intended | confidence | as-written member | corrected member |
|---|---|---|---|---|---|---|
| src/executor.py:111-126 | The ValueError raised for a `None` argument is inside the `try`. The generic `except Exception` re-raises it as a plain Exception, so `execute_with_retry` retries it and reports an ExecutionError after three attempts. | arguments `{x: None}` | The argument mismatch reaches the caller as a ValueError. It is reported after one attempt as an ArgumentError, which makes the orchestrator synthesize a replacement tool. | not executed | Executor.ExecuteToolAsWritten (with Executor.NullArgumentExample) | Executor.ExecuteTool |

=== FILE: auto_tuner.dfy ===
/** The auto-tuner: heuristic scores for candidate policy values, the grid and trial loops that keep
    the best-scoring candidate, the policy each loop writes, and the baseline metrics it reports. */
module AutoTuner {
  import opened Wrappers
  import opened PyValues
  import Numeric
  import Seqs

  // ----- scores -----

  /** `abs(x)`. */
  function Abs(x: real): (r: real)
    ensures r >= 0.0 && (r == x || r == -x)
  {
    if x < 0.0 then -x else x
  }

  const OptimalThreshold: real := 0.45

  /** `_evaluate_threshold`: one minus twice the distance from 0.45, floored at zero. */
  function EvaluateThreshold(threshold: real): (score: real)
    ensures 0.0 <= score <= 1.0
    ensures score == 1.0 <==> threshold == OptimalThreshold
    ensures Abs(threshold - OptimalThreshold) >= 0.5 <==> score == 0.0
  {
    Numeric.Max(0.0, 1.0 - Abs(threshold - OptimalThreshold) * 2.0)
  }

  /** Of two thresholds, the one nearer 0.45 never scores lower. */
  lemma NearerThresholdScoresHigher(t1: real, t2: real)
    requires Abs(t1 - OptimalThreshold) <= Abs(t2 - OptimalThreshold)
    ensures EvaluateThreshold(t1) >= EvaluateThreshold(t2)
  {
  }

  /** A `workflow_patterns` row as the criteria query sees it. */
  datatype PatternStat = PatternStat(frequency: int, avgSuccessRate: real)

  /** The rows the store returns for `frequency >= minFrequency` and `avg_success_rate >= minSuccessRate`. */
  function EligibleCount(patterns: seq<PatternStat>, minFrequency: int, minSuccessRate: real): (n: nat)
    ensures n <= |patterns|
  {
    Seqs.Count(patterns, (p: PatternStat) => p.frequency >= minFrequency && p.avgSuccessRate >= minSuccessRate)
  }

  /** Raising either bar never makes more patterns eligible. */
  lemma {:induction false} StricterCriteriaAdmitFewer(patterns: seq<PatternStat>, f1: int, r1: real, f2: int, r2: real)
    requires f1 <= f2 && r1 <= r2
    ensures EligibleCount(patterns, f2, r2) <= EligibleCount(patterns, f1, r1)
  {
    if |patterns| > 0 {
      var init := patterns[..|patterns| - 1];
      StricterCriteriaAdmitFewer(init, f1, r1, f2, r2);
      assert EligibleCount(patterns, f2, r2) ==
        EligibleCount(init, f2, r2) + (if patterns[|patterns| - 1].frequency >= f2
                                         && patterns[|patterns| - 1].avgSuccessRate >= r2 then 1 else 0);
      assert EligibleCount(patterns, f1, r1) ==
        EligibleCount(init, f1, r1) + (if patterns[|patterns| - 1].frequency >= f1
                                         && patterns[|patterns| - 1].avgSuccessRate >= r1 then 1 else 0);
    }
  }

  /** `_evaluate_composite_criteria`: 3 to 10 eligible patterns is the sweet spot (1.0), more than 10
      scores 0.8, one or two 0.5, none 0.0; a failed query also scores 0.0. */
  function EvaluateCompositeCriteria(patterns: Result<seq<PatternStat>, string>, minFrequency: int,
                                     minSuccessRate: real): (score: real)
    ensures 0.0 <= score <= 1.0
    ensures score == 1.0 <==> patterns.Ok? && 3 <= EligibleCount(patterns.value, minFrequency, minSuccessRate) <= 10
    ensures score == 0.0 <==> patterns.Err? || EligibleCount(patterns.value, minFrequency, minSuccessRate) == 0
    ensures score == 0.8 <==> patterns.Ok? && EligibleCount(patterns.value, minFrequency, minSuccessRate) > 10
    ensures score == 0.5 <==> patterns.Ok? && 1 <= EligibleCount(patterns.value, minFrequency, minSuccessRate) <= 2
  {
    match patterns
    case Err(_) => 0.0
    case Ok(rows) =>
      var eligible := EligibleCount(rows, minFrequency, minSuccessRate);
      if eligible < 1 then 0.0
      else if 3 <= eligible <= 10 then 1.0
      else if eligible > 10 then 0.8
      else 0.5
  }

  // ----- the keep-the-best loops -----

  /** The loop `if score > best_score: best = ...` started from `-inf`: the index it ends on. */
  function FirstBest(scores: seq<real>): (k: Option<nat>)
    ensures k.None? <==> |scores| == 0
    ensures k.Some? ==> k.value < |scores|
    ensures k.Some? ==> forall j :: 0 <= j < |scores| ==> scores[j] <= scores[k.value]
    ensures k.Some? ==> forall j :: 0 <= j < k.value ==> scores[j] < scores[k.value]
  {
    if |scores| == 0 then None
    else
      var prev := FirstBest(scores[..|scores| - 1]);
      assert forall j :: 0 <= j < |scores| - 1 ==> scores[..|scores| - 1][j] == scores[j];
      if prev.None? || scores[|scores| - 1] > scores[prev.value] then Some(|scores| - 1) else prev
  }

  /** Only one index is a maximum with every earlier score strictly below it, so the loop's choice is
      determined by the scores alone. */
  lemma FirstBestIsUnique(scores: seq<real>, k: nat)
    requires k < |scores|
    requires forall j :: 0 <= j < |scores| ==> scores[j] <= scores[k]
    requires forall j :: 0 <= j < k ==> scores[j] < scores[k]
    ensures FirstBest(scores) == Some(k)
  {
  }

  /** One row of `all_results`. */
  datatype Trial<T> = Trial(candidate: T, score: real)

  /** What a tuning loop ends with: `bestScore` is `None` while it is still `-inf`. */
  datatype Tuning<T> = Tuning(best: Option<T>, bestScore: Option<real>, trials: seq<Trial<T>>)

  /** Scores every candidate in order and keeps the first one with the highest score. */
  function Tune<T>(candidates: seq<T>, score: T -> real): (t: Tuning<T>)
    ensures |t.trials| == |candidates|
    ensures forall i :: 0 <= i < |candidates| ==> t.trials[i] == Trial(candidates[i], score(candidates[i]))
    ensures t.best.None? <==> |candidates| == 0
    ensures t.best.None? <==> t.bestScore.None?
    ensures t.best.Some? ==>
              && t.best.value in candidates
              && t.bestScore.value == score(t.best.value)
              && forall i :: 0 <= i < |candidates| ==> score(candidates[i]) <= t.bestScore.value
  {
    var scores := seq(|candidates|, i requires 0 <= i < |candidates| => score(candidates[i]));
    var trials := seq(|candidates|, i requires 0 <= i < |candidates| => Trial(candidates[i], scores[i]));
    match FirstBest(scores)
    case None => Tuning(None, None, trials)
    case Some(k) => Tuning(Some(candidates[k]), Some(scores[k]), trials)
  }

  /** The policy a tuning loop hands to `update_policy`. */
  datatype PolicyUpdate = PolicyUpdate(name: string, value: PyValue, createdBy: string)

  /** `numpy.linspace(start, stop, num)` in exact arithmetic: `num` evenly spaced values, both ends
      included. */
  function Linspace(start: real, stop: real, num: nat): (r: seq<real>)
    ensures |r| == num
    ensures num >= 1 ==> r[0] == start
    ensures num >= 2 ==> r[num - 1] == stop
    ensures start <= stop ==> forall i :: 0 <= i < num ==> start <= r[i] <= stop
  {
    if num == 0 then []
    else if num == 1 then [start]
    else
      var r := seq(num, i requires 0 <= i < num => start + (stop - start) * Numeric.Ratio(i, num - 1));
      assert Numeric.Ratio(num - 1, num - 1) == 1.0;
      forall i | 0 <= i < num && start <= stop ensures start <= r[i] <= stop {
        var x, f := stop - start, Numeric.Ratio(i, num - 1);
        Numeric.Scale(x, f);
        assert r[i] == start + x * f;
      }
      r
  }

  // ----- the three tuners -----

  /** `tune_retrieval_threshold`: tries `num_trials` thresholds spread over the range and writes the best
      as `{"threshold": best, "rerank": True}`; with no trials nothing is written. */
  function TuneRetrievalThreshold(lo: real, hi: real, numTrials: nat): (r: (Tuning<real>, Option<PolicyUpdate>))
    ensures r.0 == Tune(Linspace(lo, hi, numTrials), EvaluateThreshold)
    ensures r.1.Some? <==> numTrials > 0
    ensures r.1.Some? ==>
              r.1.value == PolicyUpdate("retrieval_similarity_threshold",
                                        PDict([Field("threshold", PFloat(r.0.best.value)), Field("rerank", PBool(true))]),
                                        "auto_tuner")
    ensures r.0.bestScore.Some? ==> 0.0 <= r.0.bestScore.value <= 1.0
  {
    var t := Tune(Linspace(lo, hi, numTrials), EvaluateThreshold);
    if t.best.Some? then
      (t, Some(PolicyUpdate("retrieval_similarity_threshold",
                            PDict([Field("threshold", PFloat(t.best.value)), Field("rerank", PBool(true))]),
                            "auto_tuner")))
    else (t, None)
  }

  /** Whenever 0.45 is among the thresholds tried, it is the one chosen, with score 1. */
  lemma TunerFindsOptimalThreshold(lo: real, hi: real, numTrials: nat)
    requires OptimalThreshold in Linspace(lo, hi, numTrials)
    ensures TuneRetrievalThreshold(lo, hi, numTrials).0.best == Some(OptimalThreshold)
    ensures TuneRetrievalThreshold(lo, hi, numTrials).0.bestScore == Some(1.0)
  {
    var t := TuneRetrievalThreshold(lo, hi, numTrials).0;
    var ts := Linspace(lo, hi, numTrials);
    var i :| 0 <= i < |ts| && ts[i] == OptimalThreshold;
    assert EvaluateThreshold(ts[i]) == 1.0;
  }

  /** The frequency/success-rate combinations `tune_composite_criteria` tries, frequency-major. */
  function Grid(freqLo: int, freqHi: int, rates: seq<real>): (g: seq<(int, real)>)
    ensures |g| == if freqLo <= freqHi then (freqHi - freqLo + 1) * |rates| else 0
    ensures forall f: int, r: real :: (f, r) in g <==> freqLo <= f <= freqHi && r in rates
    decreases freqHi - freqLo
  {
    if freqLo > freqHi then []
    else
      var row := seq(|rates|, j requires 0 <= j < |rates| => (freqLo, rates[j]));
      var rest := Grid(freqLo + 1, freqHi, rates);
      forall r: real | r in rates ensures (freqLo, r) in row {
        var j :| 0 <= j < |rates| && rates[j] == r;
        assert row[j] == (freqLo, r);
      }
      assert |row + rest| == (freqHi - freqLo + 1) * |rates| by {
        if freqLo < freqHi {
          assert (freqHi - freqLo + 1) * |rates| == |rates| + (freqHi - (freqLo + 1) + 1) * |rates|;
        }
      }
      row + rest
  }

  /** The written criteria: the best frequency and success rate, and always 0.7 for confidence. */
  function CriteriaValue(c: (int, real)): PyValue {
    PDict([Field("min_frequency", PInt(c.0)), Field("min_success_rate", PFloat(c.1)),
           Field("min_confidence", PFloat(0.7))])
  }

  /** `tune_composite_criteria`: every frequency of the inclusive range against three success rates
      spread over theirs; the best combination is written whenever one was tried. */
  function TuneCompositeCriteria(freqLo: int, freqHi: int, rateLo: real, rateHi: real,
                                 patterns: Result<seq<PatternStat>, string>)
    : (r: (Tuning<(int, real)>, Option<PolicyUpdate>))
    ensures |r.0.trials| == if freqLo <= freqHi then (freqHi - freqLo + 1) * 3 else 0
    ensures r.1.Some? <==> freqLo <= freqHi
    ensures r.1.Some? <==> r.0.best.Some?
    ensures r.1.Some? ==>
              && freqLo <= r.0.best.value.0 <= freqHi
              && r.1.value == PolicyUpdate("composite_promotion_criteria", CriteriaValue(r.0.best.value), "auto_tuner")
    ensures forall i :: 0 <= i < |r.0.trials| ==>
              r.0.trials[i].score == EvaluateCompositeCriteria(patterns, r.0.trials[i].candidate.0, r.0.trials[i].candidate.1)
  {
    var grid := Grid(freqLo, freqHi, Linspace(rateLo, rateHi, 3));
    var t := Tune(grid, (c: (int, real)) => EvaluateCompositeCriteria(patterns, c.0, c.1));
    if t.best.Some? then (t, Some(PolicyUpdate("composite_promotion_criteria", CriteriaValue(t.best.value), "auto_tuner")))
    else (t, None)
  }

  /** When some combination tried yields 3 to 10 eligible patterns, the chosen one does too. */
  lemma TunerPrefersSweetSpot(freqLo: int, freqHi: int, rateLo: real, rateHi: real,
                              rows: seq<PatternStat>, f: int, rate: real)
    requires freqLo <= f <= freqHi && rate in Linspace(rateLo, rateHi, 3)
    requires 3 <= EligibleCount(rows, f, rate) <= 10
    ensures var best := TuneCompositeCriteria(freqLo, freqHi, rateLo, rateHi, Ok(rows)).0.best.value;
            3 <= EligibleCount(rows, best.0, best.1) <= 10
  {
    var grid := Grid(freqLo, freqHi, Linspace(rateLo, rateHi, 3));
    var score := (c: (int, real)) => EvaluateCompositeCriteria(Ok(rows), c.0, c.1);
    assert (f, rate) in grid;
    var i :| 0 <= i < |grid| && grid[i] == (f, rate);
    assert score(grid[i]) == 1.0;
  }

  /** Re-ranking weights for similarity, success rate and frequency. */
  datatype Weights = Weights(similarity: real, successRate: real, frequency: real)

  /** The written weights. */
  function WeightsValue(w: Weights): PyValue {
    PDict([Field("similarity_weight", PFloat(w.similarity)), Field("success_rate_weight", PFloat(w.successRate)),
           Field("frequency_weight", PFloat(w.frequency))])
  }

  /** `tune_reranking_weights` over the sampled weight triples, scored by `evaluate`; the best is written
      whenever there was a trial. */
  function TuneRerankingWeights(samples: seq<Weights>, evaluate: Weights -> real): (r: (Tuning<Weights>, Option<PolicyUpdate>))
    ensures r.1.Some? <==> |samples| > 0
    ensures r.1.Some? <==> r.0.best.Some?
    ensures r.1.Some? ==>
              && r.0.best.value in samples
              && (forall i :: 0 <= i < |samples| ==> evaluate(samples[i]) <= evaluate(r.0.best.value))
              && r.1.value == PolicyUpdate("reranking_weights", WeightsValue(r.0.best.value), "auto_tuner")
  {
    var t := Tune(samples, evaluate);
    if t.best.Some? then (t, Some(PolicyUpdate("reranking_weights", WeightsValue(t.best.value), "auto_tuner")))
    else (t, None)
  }

  // ----- baseline metrics -----

  /** A `tool_executions` row: `success` and, when present, `execution_time_ms`. */
  datatype ExecutionRow = ExecutionRow(success: bool, executionTimeMs: Option<real>)

  /** The metrics dictionary; `patternReuseRate` is `None` when the dictionary has no such key. */
  datatype Metrics = Metrics(successRate: real, avgLatencyMs: real, totalExecutions: nat,
                             patternReuseRate: Option<real>)

  const NoMetrics := Metrics(0.0, 0.0, 0, None)

  /** `sum(1 for ex in executions if ex["success"])`. */
  function Successes(rows: seq<ExecutionRow>): (n: nat)
    ensures n <= |rows|
  {
    if |rows| == 0 then 0 else Successes(rows[..|rows| - 1]) + (if rows[|rows| - 1].success then 1 else 0)
  }

  /** The latencies `np.mean` averages: only truthy ones (present and non-zero). */
  function Latencies(rows: seq<ExecutionRow>): (ls: seq<real>)
    ensures |ls| <= |rows|
    ensures forall i :: 0 <= i < |ls| ==> ls[i] != 0.0 && exists j :: 0 <= j < |rows| && rows[j].executionTimeMs == Some(ls[i])
  {
    if |rows| == 0 then []
    else
      var init := Latencies(rows[..|rows| - 1]);
      var last := rows[|rows| - 1];
      assert forall j :: 0 <= j < |rows| - 1 ==> rows[..|rows| - 1][j] == rows[j];
      if last.executionTimeMs.Some? && last.executionTimeMs.value != 0.0 then init + [last.executionTimeMs.value]
      else init
  }

  /** `successes / total`: the share of rows that succeeded. */
  function SuccessRate(rows: seq<ExecutionRow>): (r: real)
    requires |rows| > 0
    ensures 0.0 <= r <= 1.0 && r * |rows| as real == Successes(rows) as real
  {
    Numeric.Ratio(Successes(rows), |rows|)
  }

  /** `np.mean(latencies) if latencies else 0`. */
  function Mean(xs: seq<real>): (m: real)
    ensures |xs| > 0 ==> m * |xs| as real == Numeric.Sum(xs)
    ensures |xs| == 0 ==> m == 0.0
  {
    if |xs| == 0 then 0.0 else Numeric.Sum(xs) / |xs| as real
  }

  /** The mean lies between the smallest and largest value averaged. */
  lemma MeanWithin(xs: seq<real>, lo: real, hi: real)
    requires |xs| > 0
    requires forall i :: 0 <= i < |xs| ==> lo <= xs[i] <= hi
    ensures lo <= Mean(xs) <= hi
  {
    Numeric.SumBounds(xs, lo, hi);
    var n := |xs| as real;
    assert Mean(xs) * n == Numeric.Sum(xs);
    assert lo * n <= Mean(xs) * n <= hi * n;
  }

  /** Python's `sum()` over the pattern frequencies. */
  function SumInts(xs: seq<int>): int {
    if |xs| == 0 then 0 else SumInts(xs[..|xs| - 1]) + xs[|xs| - 1]
  }

  /** A sum of non-negative terms is non-negative. */
  lemma {:induction false} SumIntsNonNegative(xs: seq<int>)
    ensures (forall i :: 0 <= i < |xs| ==> xs[i] >= 0) ==> SumInts(xs) >= 0
  {
    if |xs| > 0 {
      SumIntsNonNegative(xs[..|xs| - 1]);
    }
  }

  /** `r` is `part / total` capped at 1: exactly 1 once the part reaches the total, otherwise the
      share whose `total` copies make up the part. */
  predicate CappedShare(r: real, part: int, total: nat) {
    if part >= total then r == 1.0 else r * total as real == part as real
  }

  /** `min(1.0, total_pattern_uses / max(total, 1))` when there are patterns, else 0.0. */
  function ReuseRate(frequencies: seq<int>, total: nat): (r: real)
    requires total > 0
    ensures r <= 1.0
    ensures |frequencies| == 0 ==> r == 0.0
    ensures |frequencies| > 0 ==> CappedShare(r, SumInts(frequencies), total)
    ensures (forall i :: 0 <= i < |frequencies| ==> frequencies[i] >= 0) ==> r >= 0.0
  {
    SumIntsNonNegative(frequencies);
    if |frequencies| == 0 then 0.0 else Numeric.Min(1.0, SumInts(frequencies) as real / total as real)
  }

  /** `compute_current_metrics`: the execution rows and the pattern frequencies come from the store,
      either of which can fail; any failure, and an empty execution log, gives the all-zero dictionary
      without a reuse rate. */
  function ComputeCurrentMetrics(executions: Result<seq<ExecutionRow>, string>, frequencies: Result<seq<int>, string>)
    : (m: Metrics)
    ensures m.patternReuseRate.None? <==> executions.Err? || |executions.value| == 0 || frequencies.Err?
    ensures m.patternReuseRate.None? ==> m == NoMetrics
    ensures m.patternReuseRate.Some? ==>
              && m.totalExecutions == |executions.value|
              && m.successRate == SuccessRate(executions.value)
              && m.avgLatencyMs == Mean(Latencies(executions.value))
              && m.patternReuseRate.value <= 1.0
              && (|frequencies.value| == 0 ==> m.patternReuseRate.value == 0.0)
              && (|frequencies.value| > 0 ==>
                    CappedShare(m.patternReuseRate.value, SumInts(frequencies.value), |executions.value|))
              && ((forall i :: 0 <= i < |frequencies.value| ==> frequencies.value[i] >= 0) ==> m.patternReuseRate.value >= 0.0)
  {
    if executions.Err? || |executions.value| == 0 || frequencies.Err? then NoMetrics
    else
      var rows := executions.value;
      Metrics(SuccessRate(rows), Mean(Latencies(rows)), |rows|, Some(ReuseRate(frequencies.value, |rows|)))
  }
}

=== FILE: capability_registry.dfy ===
/** The tool registry (`src/capability_registry.py`): tool files on disk plus one database record
    per tool, semantic search through a store-side function, lookup by name with self-healing of
    records whose file has disappeared, deletion and orphan cleanup.

    The database table is a map from record id to record and the file system a map from path to
    contents. The store-side similarity search is a parameter `rpc` from (threshold, match count)
    to the rows it returns; embeddings and timestamps are parameters too. */
module CapabilityRegistry {
  import opened Wrappers
  import opened Strings
  import opened PyValues

  /** The default `SIMILARITY_THRESHOLD`. */
  const DefaultSimilarityThreshold: real := 0.4

  /** A row of `agent_tools`. `add_tool` always sets `id` to the tool's name. */
  datatype ToolRecord = ToolRecord(id: string, name: string, filePath: string, testPath: string,
                                   createdAt: string, docstring: string, embedding: seq<real>)

  /** The database table and the file system the registry works on. */
  datatype Registry = Registry(db: map<string, ToolRecord>, files: map<string, string>)

  /** A row returned by the `search_tools` store function. */
  datatype SearchRow = SearchRow(id: string, name: string, filePath: string, testPath: string,
                                 docstring: string, createdAt: string, similarity: Option<real>)

  /** The tool information handed to callers, with the code read from disk. `similarity` is set by
      search only. */
  datatype ToolInfo = ToolInfo(name: string, code: string, filePath: string, testPath: string,
                               docstring: string, timestamp: string, similarity: Option<real>)

  /** Every record sits under its own id, and that id is the tool's name. */
  ghost predicate WellKeyed(db: map<string, ToolRecord>) {
    forall k :: k in db ==> db[k].id == k && db[k].name == k
  }

  // ---------------------------------------------------------------------------------------------
  // add_tool
  // ---------------------------------------------------------------------------------------------

  /** Where `add_tool` writes a tool's code. */
  function ToolFile(toolsDir: string, name: string): string {
    PathJoin(toolsDir, name + ".py")
  }

  /** Where `add_tool` writes a tool's tests. */
  function TestFile(toolsDir: string, name: string): string {
    PathJoin(toolsDir, "test_" + name + ".py")
  }

  /** The test file's path is always longer than the code file's, so the two never collide. */
  lemma ToolAndTestFilesDiffer(toolsDir: string, name: string)
    ensures |TestFile(toolsDir, name)| > |ToolFile(toolsDir, name)|
  {
    var t := "test_" + name + ".py";
    assert !StartsWith(t, "/") by { assert t[0] == 't'; }
  }

  /** `add_tool`: both files are written first; then the record (id = name) is upserted. When the
      store reports no data the call raises, leaving the files written and the table unchanged. */
  function AddTool(reg: Registry, toolsDir: string, name: string, code: string, tests: string,
                   docstring: string, embedding: seq<real>, now: string, upsertOk: bool)
    : (r: (Registry, Result<ToolRecord, Exc>))
    ensures ToolFile(toolsDir, name) in r.0.files && r.0.files[ToolFile(toolsDir, name)] == code
    ensures TestFile(toolsDir, name) in r.0.files && r.0.files[TestFile(toolsDir, name)] == tests
    ensures forall p :: p in reg.files && p != ToolFile(toolsDir, name) && p != TestFile(toolsDir, name) ==>
      p in r.0.files && r.0.files[p] == reg.files[p]
    ensures upsertOk ==>
      && r.1.Ok? && r.0.db == reg.db[name := r.1.value]
      && r.1.value.id == name && r.1.value.name == name
      && r.1.value.filePath == ToolFile(toolsDir, name) && r.1.value.testPath == TestFile(toolsDir, name)
    ensures !upsertOk ==> r.1.Err? && r.0.db == reg.db
  {
    ToolAndTestFilesDiffer(toolsDir, name);
    var files := reg.files[ToolFile(toolsDir, name) := code][TestFile(toolsDir, name) := tests];
    var record := ToolRecord(name, name, ToolFile(toolsDir, name), TestFile(toolsDir, name), now, docstring, embedding);
    if upsertOk then (Registry(reg.db[name := record], files), Ok(record))
    else (Registry(reg.db, files), Err(PlainException("Failed to add tool to database")))
  }

  /** Adding keeps every record under its own id, named by it. */
  lemma AddToolKeepsKeys(reg: Registry, toolsDir: string, name: string, code: string, tests: string,
                         docstring: string, embedding: seq<real>, now: string, upsertOk: bool)
    requires WellKeyed(reg.db)
    ensures WellKeyed(AddTool(reg, toolsDir, name, code, tests, docstring, embedding, now, upsertOk).0.db)
  {
  }

  // ---------------------------------------------------------------------------------------------
  // Lookup
  // ---------------------------------------------------------------------------------------------

  /** `threshold or SIMILARITY_THRESHOLD`: a missing or zero threshold means the default. */
  function EffectiveThreshold(threshold: Option<real>): (t: real)
    ensures threshold.None? || threshold.value == 0.0 ==> t == DefaultSimilarityThreshold
    ensures threshold.Some? && threshold.value != 0.0 ==> t == threshold.value
  {
    if threshold.Some? && threshold.value != 0.0 then threshold.value else DefaultSimilarityThreshold
  }

  /** `search_tool`: asks the store for at most one match at the effective threshold. `rpc` stands
      for the query's embedding call and the `search_tools` procedure together; an `Err` is the text
      of what either raised, which `search_tool` does not catch, so nothing changes. No match gives
      `None`; a match whose code file is gone is deleted by id and also gives `None`; otherwise the
      tool comes back with its code read from disk and its similarity (0 when absent). */
  function SearchTool(reg: Registry, threshold: Option<real>, rpc: (real, int) -> Result<seq<SearchRow>, string>)
    : (r: Result<(Registry, Option<ToolInfo>), string>)
    ensures var rows := rpc(EffectiveThreshold(threshold), 1);
      && (r.Err? <==> rows.Err?)
      && (r.Err? ==> r.error == rows.error)
    ensures r.Ok? ==> r.value.0.files == reg.files
    ensures var rows := rpc(EffectiveThreshold(threshold), 1);
      rows == Ok([]) ==> r == Ok((reg, None))
    ensures var rows := rpc(EffectiveThreshold(threshold), 1);
      rows.Ok? && rows.value != [] && rows.value[0].filePath !in reg.files ==>
        r.Ok? && r.value.1.None? && r.value.0.db == reg.db - {rows.value[0].id}
    ensures var rows := rpc(EffectiveThreshold(threshold), 1);
      r.Ok? && r.value.1.Some? <==> rows.Ok? && rows.value != [] && rows.value[0].filePath in reg.files
    ensures r.Ok? && r.value.1.Some? ==>
      var info := r.value.1.value;
      && r.value.0 == reg && info.filePath in reg.files
      && info.code == reg.files[info.filePath] && info.similarity.Some?
  {
    match rpc(EffectiveThreshold(threshold), 1)
    case Err(e) => Err(e)
    case Ok(rows) =>
      if rows == [] then Ok((reg, None))
      else
        var row := rows[0];
        if row.filePath !in reg.files then Ok((Registry(reg.db - {row.id}, reg.files), None))
        else Ok((reg, Some(ToolInfo(row.name, reg.files[row.filePath], row.filePath, row.testPath,
                                    row.docstring, row.createdAt, Some(row.similarity.GetOr(0.0))))))
  }

  /** When the store honours the threshold it was given, a search result is never less similar than
      the effective threshold. */
  lemma SearchRespectsThreshold(reg: Registry, threshold: Option<real>, rpc: (real, int) -> Result<seq<SearchRow>, string>)
    requires forall t, n, i :: rpc(t, n).Ok? && 0 <= i < |rpc(t, n).value| ==>
      rpc(t, n).value[i].similarity.Some? && rpc(t, n).value[i].similarity.value >= t
    ensures var r := SearchTool(reg, threshold, rpc);
      r.Ok? && r.value.1.Some? ==> r.value.1.value.similarity.value >= EffectiveThreshold(threshold)
  {
    var rows := rpc(EffectiveThreshold(threshold), 1);
    if rows.Ok? && rows.value != [] {
      assert rows.value[0].similarity.Some?;
    }
  }

  /** `get_tool_by_name`: the record named `name` with its code read from disk; a record whose code
      file is gone is deleted and `None` returned. */
  function GetToolByName(reg: Registry, name: string): (r: (Registry, Option<ToolInfo>))
    ensures r.0.files == reg.files
    ensures name !in reg.db ==> r == (reg, None)
    ensures name in reg.db && reg.db[name].filePath !in reg.files ==>
      r.1.None? && r.0.db == reg.db - {name}
    ensures r.1.Some? <==> name in reg.db && reg.db[name].filePath in reg.files
    ensures r.1.Some? ==>
      && r.0 == reg && r.1.value.name == reg.db[name].name
      && r.1.value.code == reg.files[reg.db[name].filePath] && r.1.value.similarity.None?
  {
    if name !in reg.db then (reg, None)
    else
      var rec := reg.db[name];
      if rec.filePath !in reg.files then (Registry(reg.db - {name}, reg.files), None)
      else (reg, Some(ToolInfo(rec.name, reg.files[rec.filePath], rec.filePath, rec.testPath,
                               rec.docstring, rec.createdAt, None)))
  }

  /** A tool added successfully is found again by name, with the code and docstring it was added
      with. */
  lemma AddThenGet(reg: Registry, toolsDir: string, name: string, code: string, tests: string,
                   docstring: string, embedding: seq<real>, now: string)
    ensures var added := AddTool(reg, toolsDir, name, code, tests, docstring, embedding, now, true).0;
      GetToolByName(added, name).1
        == Some(ToolInfo(name, code, ToolFile(toolsDir, name), TestFile(toolsDir, name), docstring, now, None))
  {
    ToolAndTestFilesDiffer(toolsDir, name);
  }

  /** Self-healing looks only at the code file: a missing test file does not hide the tool. */
  lemma MissingTestFileIgnored(reg: Registry, name: string)
    requires name in reg.db && reg.db[name].filePath in reg.files && reg.db[name].testPath !in reg.files
    ensures GetToolByName(reg, name).1.Some?
  {
  }

  // ---------------------------------------------------------------------------------------------
  // Deletion
  // ---------------------------------------------------------------------------------------------

  /** `delete_tool`: `False` when the tool cannot be retrieved (a record whose file is gone has then
      already been purged by the lookup); otherwise the record and both files are removed and the
      answer is `True`. */
  function DeleteTool(reg: Registry, name: string): (r: (Registry, bool))
    ensures name !in r.0.db
    ensures r.0.db == reg.db - {name}
    ensures r.1 <==> name in reg.db && reg.db[name].filePath in reg.files
    ensures !r.1 ==> r.0.files == reg.files
    ensures r.1 ==> r.0.files == reg.files - {reg.db[name].filePath, reg.db[name].testPath}
  {
    var (reg1, tool) := GetToolByName(reg, name);
    if tool.None? then (reg1, false)
    else (Registry(reg1.db - {name}, reg1.files - {tool.value.filePath, tool.value.testPath}), true)
  }

  /** A record whose code file has disappeared. */
  predicate Orphan(files: map<string, string>, rec: ToolRecord) {
    rec.filePath !in files
  }

  /** The ids of the listed rows that are orphans and whose deletion goes through. */
  function OrphanIds(files: map<string, string>, rows: seq<ToolRecord>, deleteOk: string -> bool): set<string> {
    set i | 0 <= i < |rows| && Orphan(files, rows[i]) && deleteOk(rows[i].id) :: rows[i].id
  }

  /** No two rows share an id. */
  predicate DistinctIds(rows: seq<ToolRecord>) {
    forall i, j :: 0 <= i < j < |rows| ==> rows[i].id != rows[j].id
  }

  /** The loop of `cleanup_orphaned_tools` over the rows read at its start: each orphan is deleted
      by id, and a deletion that raises is skipped and not counted. */
  function CleanupRows(db: map<string, ToolRecord>, files: map<string, string>, rows: seq<ToolRecord>,
                       deleteOk: string -> bool): (r: (map<string, ToolRecord>, nat))
    ensures r.0 == db - OrphanIds(files, rows, deleteOk)
    ensures DistinctIds(rows) ==> r.1 == |OrphanIds(files, rows, deleteOk)|
    decreases |rows|
  {
    if |rows| == 0 then
      assert OrphanIds(files, rows, deleteOk) == {};
      (db, 0)
    else
      var row := rows[0];
      var removes := Orphan(files, row) && deleteOk(row.id);
      var db1 := if removes then db - {row.id} else db;
      var (db2, n) := CleanupRows(db1, files, rows[1..], deleteOk);
      OrphanIdsStep(files, rows, deleteOk);
      DistinctTail(rows);
      CleanupStep(db, db2, row.id, removes, OrphanIds(files, rows[1..], deleteOk), OrphanIds(files, rows, deleteOk),
                  n, DistinctIds(rows));
      (db2, if removes then n + 1 else n)
  }

  /** One step of the cleanup loop: what the tail removes (`tailIds`), plus the head's `id` when it
      `removes`; with distinct ids the head is not among the tail's and the count grows by one. */
  lemma CleanupStep(db: map<string, ToolRecord>, db2: map<string, ToolRecord>, id: string, removes: bool,
                    tailIds: set<string>, allIds: set<string>, n: nat, distinct: bool)
    requires db2 == (if removes then db - {id} else db) - tailIds
    requires allIds == tailIds + (if removes then {id} else {})
    requires distinct ==> id !in tailIds && n == |tailIds|
    ensures db2 == db - allIds
    ensures distinct ==> (if removes then n + 1 else n) == |allIds|
  {
  }

  /** The tail of a list with distinct ids has distinct ids. */
  lemma DistinctTail(rows: seq<ToolRecord>)
    requires |rows| > 0
    ensures DistinctIds(rows) ==> DistinctIds(rows[1..])
  {
    if DistinctIds(rows) {
      forall i, j | 0 <= i < j < |rows[1..]| ensures rows[1..][i].id != rows[1..][j].id {
        assert rows[1..][i] == rows[i + 1] && rows[1..][j] == rows[j + 1];
      }
    }
  }

  /** The orphan ids of a list are those of its tail, plus the head's id when the head is one. */
  lemma OrphanIdsStep(files: map<string, string>, rows: seq<ToolRecord>, deleteOk: string -> bool)
    requires |rows| > 0
    ensures OrphanIds(files, rows, deleteOk)
         == OrphanIds(files, rows[1..], deleteOk)
            + (if Orphan(files, rows[0]) && deleteOk(rows[0].id) then {rows[0].id} else {})
    ensures DistinctIds(rows) ==> rows[0].id !in OrphanIds(files, rows[1..], deleteOk)
  {
    var tail := rows[1..];
    assert forall i :: 1 <= i < |rows| ==> rows[i] == tail[i - 1];
    assert forall i :: 0 <= i < |tail| ==> tail[i] == rows[i + 1];
  }

  /** `rows` lists every record of `db` exactly once. */
  ghost predicate SnapshotOf(rows: seq<ToolRecord>, db: map<string, ToolRecord>) {
    DistinctIds(rows)
    && (forall i :: 0 <= i < |rows| ==> rows[i].id in db && db[rows[i].id] == rows[i])
    && (forall k :: k in db ==> exists i :: 0 <= i < |rows| && rows[i].id == k)
  }

  /** The records `cleanup_orphaned_tools` removes from a table. */
  function Removed(reg: Registry, deleteOk: string -> bool): set<string> {
    set k | k in reg.db && Orphan(reg.files, reg.db[k]) && deleteOk(k)
  }

  /** `cleanup_orphaned_tools` over a listing of the whole table: exactly the records whose code
      file is gone (and whose deletion goes through) are removed, and the count says how many. */
  function CleanupOrphanedTools(reg: Registry, rows: seq<ToolRecord>, deleteOk: string -> bool)
    : (r: (Registry, nat))
    requires SnapshotOf(rows, reg.db)
    ensures r.0.files == reg.files
    ensures r.0.db == reg.db - Removed(reg, deleteOk)
    ensures r.1 == |Removed(reg, deleteOk)|
    ensures forall k :: k in r.0.db ==> !Orphan(reg.files, r.0.db[k]) || !deleteOk(k)
  {
    var (db, n) := CleanupRows(reg.db, reg.files, rows, deleteOk);
    assert OrphanIds(reg.files, rows, deleteOk) == Removed(reg, deleteOk) by {
      forall k | k in Removed(reg, deleteOk) ensures k in OrphanIds(reg.files, rows, deleteOk) {
        var i :| 0 <= i < |rows| && rows[i].id == k;
      }
    }
    (Registry(db, reg.files), n)
  }
}

=== FILE: composite_synthesizer.dfy ===
/** Composite tool synthesis (`src/composite_synthesizer.py`): frequent, reliable workflow patterns
    are promoted to composite tools. A pattern becomes a candidate row (`pending`), gets tests
    (`testing`), and ends `rejected` when the sandbox run fails or `approved` once the composite is
    registered.

    The store's two tables are maps. The language model's replies, the sandbox verdict and the
    registration's failure are parameters (`Oracles`); the progress callback is left out. */
module CompositeSynthesizer {
  import opened Wrappers
  import Seqs
  import Sandbox

  /** The promotion criteria read from the policy store. */
  datatype Criteria = Criteria(minFrequency: real, minSuccessRate: real, minConfidence: real)

  /** The criteria used for every key the stored policy lacks. */
  const DefaultCriteria := Criteria(3.0, 0.8, 0.7)

  /** `criteria.get(key, default)` for each of the three keys. */
  function CriteriaOf(policy: map<string, real>): (c: Criteria)
    ensures policy == map[] ==> c == DefaultCriteria
    ensures "min_confidence" in policy ==> c.minConfidence == policy["min_confidence"]
  {
    Criteria(if "min_frequency" in policy then policy["min_frequency"] else DefaultCriteria.minFrequency,
             if "min_success_rate" in policy then policy["min_success_rate"] else DefaultCriteria.minSuccessRate,
             if "min_confidence" in policy then policy["min_confidence"] else DefaultCriteria.minConfidence)
  }

  /** A `workflow_patterns` row; `confidence` is `None` when the row has no `confidence_score`. */
  datatype PatternRow = PatternRow(id: string, name: string, toolSequence: seq<string>, frequency: int,
                                   avgSuccessRate: real, confidence: Option<real>)

  /** `pattern.get("confidence_score", 0.5)`. */
  function Confidence(p: PatternRow): real {
    p.confidence.GetOr(0.5)
  }

  /** The sort key of the store query. */
  function Frequency(p: PatternRow): real {
    p.frequency as real
  }

  /** The store query's own filter: frequency and success rate at least the minimums. */
  predicate Queried(c: Criteria, p: PatternRow) {
    p.frequency as real >= c.minFrequency && p.avgSuccessRate >= c.minSuccessRate
  }

  /** The filter applied to each returned row: enough confidence, and no candidate row yet. */
  predicate Kept(c: Criteria, promoted: set<string>, p: PatternRow) {
    Confidence(p) >= c.minConfidence && p.id !in promoted
  }

  /** The rows the store returns at most. */
  const QueryLimit: nat := 20

  /** The first `n` elements, or all of them. */
  function Take<T>(xs: seq<T>, n: nat): (r: seq<T>)
    ensures |r| <= n && |r| <= |xs| && r == xs[..|r|]
    ensures |xs| <= n ==> r == xs
  {
    if |xs| <= n then xs else xs[..n]
  }

  lemma TakeFacts<T>(xs: seq<T>, n: nat, key: T -> real)
    requires Seqs.Descending(xs, key)
    ensures Seqs.Descending(Take(xs, n), key)
    ensures multiset(Take(xs, n)) <= multiset(xs)
  {
    var r := Take(xs, n);
    assert xs == r + xs[|r|..];
  }

  /** The rows a descending sequence's prefix leaves out rank no higher than any row it keeps. */
  lemma TakeIsTop<T>(xs: seq<T>, n: nat, key: T -> real)
    requires Seqs.Descending(xs, key)
    ensures forall x, j :: x in xs && x !in Take(xs, n) && 0 <= j < |Take(xs, n)| ==>
              key(x) <= key(Take(xs, n)[j])
  {
    var r := Take(xs, n);
    forall x | x in xs && x !in r ensures forall j :: 0 <= j < |r| ==> key(x) <= key(r[j]) {
      Seqs.PrefixIsTop(xs, |r|, key, x);
    }
  }

  /** The page the store query returns: rows meeting the frequency and success-rate minimums, most
      frequent first, at most 20 of them, and every such row when there are no more than 20. */
  function Page(patterns: seq<PatternRow>, c: Criteria): (r: seq<PatternRow>)
    ensures |r| <= QueryLimit
    ensures Seqs.Descending(r, Frequency)
    ensures multiset(r) <= multiset(patterns)
    ensures forall i :: 0 <= i < |r| ==> Queried(c, r[i])
    ensures Seqs.Count(patterns, (p: PatternRow) => Queried(c, p)) <= QueryLimit ==>
              forall i :: 0 <= i < |patterns| && Queried(c, patterns[i]) ==> patterns[i] in r
    ensures forall i, j :: 0 <= i < |patterns| && Queried(c, patterns[i]) && patterns[i] !in r && 0 <= j < |r| ==>
              Frequency(patterns[i]) <= Frequency(r[j])
  {
    var matching := Seqs.Filter(patterns, (p: PatternRow) => Queried(c, p));
    var sorted := Seqs.SortDesc(matching, Frequency);
    TakeFacts(sorted, QueryLimit, Frequency);
    TakeIsTop(sorted, QueryLimit, Frequency);
    Members(matching, sorted);
    var r := Take(sorted, QueryLimit);
    Members(r, matching);
    r
  }

  /** Every element of a sub-multiset is an element of the whole. */
  lemma Members<T>(a: seq<T>, b: seq<T>)
    requires multiset(a) <= multiset(b)
    ensures forall i :: 0 <= i < |a| ==> a[i] in b
  {
    forall i | 0 <= i < |a| ensures a[i] in b {
      assert a[i] in multiset(a);
    }
  }

  /** `scan_for_candidates`: the page of at most 20 patterns meeting the frequency and success-rate
      minimums, most frequent first, less those below the confidence minimum or already holding a
      candidate row (`promoted` is the set of their pattern ids). A store error gives no patterns. */
  function ScanForCandidates(patterns: seq<PatternRow>, promoted: set<string>, c: Criteria, storeUp: bool)
    : (r: seq<PatternRow>)
    ensures !storeUp ==> r == []
    ensures |r| <= QueryLimit
    ensures Seqs.Descending(r, Frequency)
    ensures multiset(r) <= multiset(patterns)
    ensures forall i :: 0 <= i < |r| ==> Queried(c, r[i]) && Kept(c, promoted, r[i])
    ensures storeUp && Seqs.Count(patterns, (p: PatternRow) => Queried(c, p)) <= QueryLimit ==>
              forall i :: 0 <= i < |patterns| && Queried(c, patterns[i]) && Kept(c, promoted, patterns[i]) ==>
                patterns[i] in r
    ensures forall i, j ::
              (0 <= i < |patterns| && Queried(c, patterns[i]) && Kept(c, promoted, patterns[i]) && patterns[i] !in r &&
               0 <= j < |r|) ==> Frequency(patterns[i]) <= Frequency(r[j])
  {
    if !storeUp then []
    else
      var page := Page(patterns, c);
      Seqs.FilterKeepsDescending(page, (p: PatternRow) => Kept(c, promoted, p), Frequency);
      var r := Seqs.Filter(page, (p: PatternRow) => Kept(c, promoted, p));
      Members(r, page);
      r
  }

  /** The `evaluation_status` of a candidate row, with the column each terminal status sets. */
  datatype Status = Pending | Testing | Rejected(reason: string) | Approved(compositeId: string)

  /** The status changes `create_candidate` makes. */
  predicate Advance(from: Status, to: Status) {
    (from.Pending? && to.Testing?) || (from.Testing? && (to.Rejected? || to.Approved?))
  }

  /** The statuses a row takes, in order: it starts pending and only advances. */
  predicate Lifecycle(trace: seq<Status>) {
    |trace| > 0 && trace[0].Pending? && forall i :: 0 <= i < |trace| - 1 ==> Advance(trace[i], trace[i + 1])
  }

  /** A terminal status: nothing in the synthesizer changes it again. */
  predicate Terminal(s: Status) {
    s.Rejected? || s.Approved?
  }

  /** A `composite_candidates` row. */
  datatype CandidateRow = CandidateRow(patternId: string, toolSequence: seq<string>, frequency: int,
                                       successRate: real, confidence: real, status: Status)

  /** One step of a composite's workflow template. */
  datatype TemplateStep = TemplateStep(tool: string, order: int)

  /** A `composite_tools` row. */
  datatype CompositeTool = CompositeTool(id: string, componentTools: seq<string>, steps: seq<TemplateStep>,
                                         successRate: real, usageCount: int, autoGenerated: bool,
                                         docstring: string, patternId: string, patternFrequency: int)

  /** The two store tables the synthesizer writes. */
  datatype Tables = Tables(candidates: map<string, CandidateRow>, composites: map<string, CompositeTool>)

  /** The parts of the generated specification the synthesizer reads. */
  datatype CompositeSpec = CompositeSpec(functionName: string, docstring: string)

  /** Everything `create_candidate` depends on outside itself: the id the candidate insert returns
      (`Ok(None)` when it returns no data), the three generation steps, the sandbox verdict, why
      registering the composite failed, if it did, and why each of the three later updates of the
      candidate row (to testing, rejected, approved) raised, if it did. An `Err` is the text of an
      exception. */
  datatype Oracles = Oracles(candidateId: Result<Option<string>, string>, spec: Result<CompositeSpec, string>,
                             tests: Result<string, string>, implementation: Result<string, string>,
                             verdict: Sandbox.VerifyResult, registerError: Option<string>,
                             testingError: Option<string>, rejectError: Option<string>,
                             approveError: Option<string>)

  /** Every step up to and including the composite insert succeeded, so the composite is in the
      table, whatever the final update of the candidate row does. */
  predicate Registers(o: Oracles) {
    && o.candidateId.Ok? && o.candidateId.value.Some? && o.spec.Ok? && o.tests.Ok? && o.testingError.None?
    && o.implementation.Ok? && o.verdict.success && o.registerError.None?
  }

  /** The sandbox failed after everything before it succeeded. */
  predicate FailsTests(o: Oracles) {
    o.spec.Ok? && o.tests.Ok? && o.testingError.None? && o.implementation.Ok? && !o.verdict.success
  }

  /** What `create_candidate` returns. */
  datatype Outcome = Created(compositeName: string) | NotCreated(error: string)

  /** A run of `create_candidate`: the tables afterwards, the result, the candidate row's id (when
      one was written) and the statuses the row went through. */
  datatype Creation = Creation(tables: Tables, outcome: Outcome, candidateId: Option<string>, trace: seq<Status>)

  /** `_register_composite`'s workflow template: the component tools with order 0 .. n-1. */
  function Template(tools: seq<string>): (r: seq<TemplateStep>)
    ensures |r| == |tools| && forall i :: 0 <= i < |r| ==> r[i].order == i
  {
    seq(|tools|, i requires 0 <= i < |tools| => TemplateStep(tools[i], i))
  }

  /** The tools a template names, in step order. */
  function TemplateTools(steps: seq<TemplateStep>): seq<string> {
    Seqs.MapSeq(steps, (s: TemplateStep) => s.tool)
  }

  /** A template lists exactly the pattern's tools, in the pattern's order. */
  lemma TemplateListsTools(tools: seq<string>)
    ensures TemplateTools(Template(tools)) == tools
  {
    var r := TemplateTools(Template(tools));
    assert |r| == |tools|;
    forall i | 0 <= i < |tools| ensures r[i] == tools[i] {
      assert Template(tools)[i] == TemplateStep(tools[i], i);
    }
  }

  /** The `composite_tools` row `_register_composite` inserts. */
  function Composite(spec: CompositeSpec, p: PatternRow): CompositeTool {
    CompositeTool(spec.functionName, p.toolSequence, Template(p.toolSequence), p.avgSuccessRate, 0, true,
                  spec.docstring, p.id, p.frequency)
  }

  /** The message of the outer exception handler. */
  function Failure(e: string): Outcome {
    NotCreated("Composite synthesis failed: " + e)
  }

  /** `create_candidate`. The candidate row is written before anything is generated. An exception
      at any later step leaves it where it was (pending or testing); a failing sandbox run marks it
      rejected with the output as reason; registration marks it approved with the composite's id.
      When that last update raises, the composite stays registered but the result is a failure and
      the row stays at testing. */
  function CreateCandidate(t: Tables, p: PatternRow, o: Oracles): (r: Creation)
    ensures r.outcome.Created? <==> Registers(o) && o.approveError.None?
    ensures Registers(o) ==>
              r.tables.composites == t.composites[o.spec.value.functionName := Composite(o.spec.value, p)]
    ensures !Registers(o) ==> r.tables.composites == t.composites
    ensures r.outcome.Created? ==> r.outcome.compositeName == o.spec.value.functionName
    ensures Registers(o) && o.approveError.Some? ==> r.outcome == Failure(o.approveError.value)
    ensures r.candidateId.Some? <==> o.candidateId.Ok? && o.candidateId.value.Some?
    ensures r.candidateId.None? ==> r.tables == t && r.trace == []
    ensures r.candidateId.Some? ==>
              var cid := r.candidateId.value;
              && Lifecycle(r.trace)
              && r.tables.candidates.Keys == t.candidates.Keys + {cid}
              && r.tables.candidates[cid].patternId == p.id
              && r.tables.candidates[cid].status == r.trace[|r.trace| - 1]
              && (forall k :: k in t.candidates && k != cid ==> r.tables.candidates[k] == t.candidates[k])
              && (r.tables.candidates[cid].status.Approved? <==> r.outcome.Created?)
              && (r.tables.candidates[cid].status.Rejected? <==> FailsTests(o) && o.rejectError.None?)
              && (r.tables.candidates[cid].status.Rejected? ==>
                    r.tables.candidates[cid].status.reason == "Tests failed: " + o.verdict.output)
              && (Registers(o) && o.approveError.Some? ==> r.tables.candidates[cid].status == Testing)
  {
    match o.candidateId
    case Err(e) => Creation(t, Failure(e), None, [])
    case Ok(None) => Creation(t, NotCreated("Failed to create candidate record"), None, [])
    case Ok(Some(cid)) =>
      var row := CandidateRow(p.id, p.toolSequence, p.frequency, p.avgSuccessRate, Confidence(p), Pending);
      var pending := t.(candidates := t.candidates[cid := row]);
      if o.spec.Err? then Creation(pending, Failure(o.spec.error), Some(cid), [Pending])
      else if o.tests.Err? then Creation(pending, Failure(o.tests.error), Some(cid), [Pending])
      else if o.testingError.Some? then Creation(pending, Failure(o.testingError.value), Some(cid), [Pending])
      else
        var testing := t.(candidates := t.candidates[cid := row.(status := Testing)]);
        if o.implementation.Err? then Creation(testing, Failure(o.implementation.error), Some(cid), [Pending, Testing])
        else if !o.verdict.success then
          if o.rejectError.Some? then Creation(testing, Failure(o.rejectError.value), Some(cid), [Pending, Testing])
          else
            var rejected := Rejected("Tests failed: " + o.verdict.output);
            Creation(t.(candidates := t.candidates[cid := row.(status := rejected)]),
                     NotCreated("Composite tests failed"), Some(cid), [Pending, Testing, rejected])
        else if o.registerError.Some? then
          Creation(testing, Failure(o.registerError.value), Some(cid), [Pending, Testing])
        else
          var name := o.spec.value.functionName;
          var registered := testing.(composites := t.composites[name := Composite(o.spec.value, p)]);
          if o.approveError.Some? then Creation(registered, Failure(o.approveError.value), Some(cid), [Pending, Testing])
          else
            var approved := Approved(name);
            Creation(registered.(candidates := t.candidates[cid := row.(status := approved)]),
                     Created(name), Some(cid), [Pending, Testing, approved])
  }

  /** The pattern ids that already have a candidate row. */
  function PromotedIds(candidates: map<string, CandidateRow>): set<string> {
    set k | k in candidates :: candidates[k].patternId
  }

  /** Once `create_candidate` has written its row, later scans never return the pattern again,
      whatever became of the synthesis. */
  lemma CandidateLeavesScan(t: Tables, p: PatternRow, o: Oracles, patterns: seq<PatternRow>, c: Criteria,
                            storeUp: bool)
    requires CreateCandidate(t, p, o).candidateId.Some?
    ensures var after := CreateCandidate(t, p, o).tables;
      forall i :: 0 <= i < |ScanForCandidates(patterns, PromotedIds(after.candidates), c, storeUp)| ==>
        ScanForCandidates(patterns, PromotedIds(after.candidates), c, storeUp)[i].id != p.id
  {
    var r := CreateCandidate(t, p, o);
    var cid := r.candidateId.value;
    assert r.tables.candidates[cid].patternId == p.id;
    assert p.id in PromotedIds(r.tables.candidates);
  }

  /** A candidate that reached a terminal status went through testing first, and only a registered
      composite is approved. */
  lemma TerminalAfterTesting(t: Tables, p: PatternRow, o: Oracles)
    requires CreateCandidate(t, p, o).candidateId.Some?
    requires Terminal(CreateCandidate(t, p, o).trace[|CreateCandidate(t, p, o).trace| - 1])
    ensures var r := CreateCandidate(t, p, o);
      |r.trace| == 3 && r.trace[1] == Testing && o.spec.Ok? && o.tests.Ok? && o.implementation.Ok?
  {
  }

  /** The summary `run_batch_synthesis` returns. */
  datatype Summary = Summary(totalCandidates: nat, processed: nat, successful: nat, failed: nat,
                             compositesCreated: seq<string>)

  /** `xs[:k]` in Python: a negative `k` counts from the end. */
  function SliceTo<T>(xs: seq<T>, k: int): (r: seq<T>)
    ensures |r| <= |xs| && r == xs[..|r|]
    ensures 0 <= k ==> |r| == if k <= |xs| then k else |xs|
    ensures k < 0 ==> |r| == if -k <= |xs| then |xs| + k else 0
  {
    if k >= |xs| then xs
    else if k >= 0 then xs[..k]
    else if |xs| + k >= 0 then xs[..|xs| + k]
    else []
  }

  /** Runs `create_candidate` on each pattern in turn; `oracle(i)` is what the i-th run meets. */
  function ProcessAll(t: Tables, ps: seq<PatternRow>, oracle: nat -> Oracles, first: nat)
    : (r: (Tables, seq<Outcome>))
    ensures |r.1| == |ps|
    decreases |ps|
  {
    if ps == [] then (t, [])
    else
      var c := CreateCandidate(t, ps[0], oracle(first));
      var rest := ProcessAll(c.tables, ps[1..], oracle, first + 1);
      (rest.0, [c.outcome] + rest.1)
  }

  /** Processing a single pattern is one run of `create_candidate` with the first oracle. */
  lemma ProcessOne(t: Tables, p: PatternRow, oracle: nat -> Oracles, first: nat)
    ensures var c := CreateCandidate(t, p, oracle(first));
      ProcessAll(t, [p], oracle, first) == (c.tables, [c.outcome])
  {
    var c := CreateCandidate(t, p, oracle(first));
    assert [p][1..] == [];
    assert ProcessAll(c.tables, [], oracle, first + 1) == (c.tables, []);
    assert [c.outcome] + [] == [c.outcome];
  }

  /** Processing a non-empty batch runs `create_candidate` on its head, then the rest from there. */
  lemma ProcessHead(t: Tables, ps: seq<PatternRow>, oracle: nat -> Oracles, first: nat)
    requires |ps| > 0
    ensures var c := CreateCandidate(t, ps[0], oracle(first));
      var rest := ProcessAll(c.tables, ps[1..], oracle, first + 1);
      ProcessAll(t, ps, oracle, first) == (rest.0, [c.outcome] + rest.1)
  {
  }

  /** Running `create_candidate` on `p` after the batch `ps`, with the next oracle. */
  predicate SnocHolds(t: Tables, ps: seq<PatternRow>, p: PatternRow, oracle: nat -> Oracles, first: nat) {
    var before := ProcessAll(t, ps, oracle, first);
    var c := CreateCandidate(before.0, p, oracle(first + |ps|));
    ProcessAll(t, ps + [p], oracle, first) == (c.tables, before.1 + [c.outcome])
  }

  /** The inductive step of `ProcessAllSnoc`: it holds for a batch when it holds for its tail. */
  lemma SnocStep(t: Tables, ps: seq<PatternRow>, p: PatternRow, oracle: nat -> Oracles, first: nat)
    requires |ps| > 0
    requires SnocHolds(CreateCandidate(t, ps[0], oracle(first)).tables, ps[1..], p, oracle, first + 1)
    ensures SnocHolds(t, ps, p, oracle, first)
  {
    var qs := ps + [p];
    assert qs[0] == ps[0] && qs[1..] == ps[1..] + [p];
    var c0 := CreateCandidate(t, ps[0], oracle(first));
    ProcessHead(t, ps, oracle, first);
    ProcessHead(t, qs, oracle, first);
    var rest := ProcessAll(c0.tables, ps[1..], oracle, first + 1);
    var last := CreateCandidate(rest.0, p, oracle(first + |ps|)).outcome;
    assert [c0.outcome] + (rest.1 + [last]) == ([c0.outcome] + rest.1) + [last];
  }

  /** Processing one more pattern after a batch runs `create_candidate` on it against the tables
      the batch left, with the next oracle, and appends its result: the batch is handled in order. */
  lemma {:induction false} ProcessAllSnoc(t: Tables, ps: seq<PatternRow>, p: PatternRow, oracle: nat -> Oracles,
                                          first: nat)
    ensures var before := ProcessAll(t, ps, oracle, first);
      var c := CreateCandidate(before.0, p, oracle(first + |ps|));
      ProcessAll(t, ps + [p], oracle, first) == (c.tables, before.1 + [c.outcome])
    decreases |ps|
  {
    if ps == [] {
      assert ps + [p] == [p];
      ProcessOne(t, p, oracle, first);
      assert ProcessAll(t, ps, oracle, first) == (t, []);
      assert [] + [CreateCandidate(t, p, oracle(first)).outcome] == [CreateCandidate(t, p, oracle(first)).outcome];
    } else {
      ProcessAllSnoc(CreateCandidate(t, ps[0], oracle(first)).tables, ps[1..], p, oracle, first + 1);
      SnocStep(t, ps, p, oracle, first);
    }
  }

  /** The counters of the batch loop after the given results, in order. */
  function Tally(total: nat, outcomes: seq<Outcome>): (s: Summary)
    decreases |outcomes|
  {
    if outcomes == [] then Summary(total, 0, 0, 0, [])
    else
      var s := Tally(total, outcomes[..|outcomes| - 1]);
      var last := outcomes[|outcomes| - 1];
      if last.Created? then s.(processed := s.processed + 1, successful := s.successful + 1,
                               compositesCreated := s.compositesCreated + [last.compositeName])
      else s.(processed := s.processed + 1, failed := s.failed + 1)
  }

  /** The function names of the composites the results report, in order. */
  function CreatedNames(outcomes: seq<Outcome>): seq<string> {
    if outcomes == [] then []
    else (if outcomes[0].Created? then [outcomes[0].compositeName] else []) + CreatedNames(outcomes[1..])
  }

  lemma CreatedNamesAppend(a: seq<Outcome>, b: seq<Outcome>)
    ensures CreatedNames(a + b) == CreatedNames(a) + CreatedNames(b)
  {
    if a == [] {
      assert a + b == b;
    } else {
      assert (a + b)[0] == a[0];
      assert (a + b)[1..] == a[1..] + b;
      CreatedNamesAppend(a[1..], b);
    }
  }

  /** The counters agree with the results: every result is processed, counted once as a success or
      a failure, and the successes' composite names are listed in order. */
  lemma {:induction false} TallyCounts(total: nat, outcomes: seq<Outcome>)
    ensures var s := Tally(total, outcomes);
      && s.totalCandidates == total
      && s.processed == |outcomes| == s.successful + s.failed
      && s.compositesCreated == CreatedNames(outcomes)
      && |s.compositesCreated| == s.successful
  {
    if outcomes != [] {
      var init := outcomes[..|outcomes| - 1];
      var last := outcomes[|outcomes| - 1];
      TallyCounts(total, init);
      assert outcomes == init + [last];
      CreatedNamesAppend(init, [last]);
    }
  }

  /** Composites already registered stay registered through later runs, and every composite a run
      reports is in the final table. */
  lemma {:induction false} ProcessKeepsComposites(t: Tables, ps: seq<PatternRow>, oracle: nat -> Oracles, first: nat)
    ensures var r := ProcessAll(t, ps, oracle, first);
      && t.composites.Keys <= r.0.composites.Keys
      && forall i :: 0 <= i < |CreatedNames(r.1)| ==> CreatedNames(r.1)[i] in r.0.composites
    decreases |ps|
  {
    if ps != [] {
      var c := CreateCandidate(t, ps[0], oracle(first));
      var rest := ProcessAll(c.tables, ps[1..], oracle, first + 1);
      ProcessKeepsComposites(c.tables, ps[1..], oracle, first + 1);
      assert ProcessAll(t, ps, oracle, first).1 == [c.outcome] + rest.1;
      CreatedNamesAppend([c.outcome], rest.1);
    }
  }

  /** `run_batch_synthesis`: scans once, then runs `create_candidate` on the first `maxCandidates`
      candidates and counts the results. */
  function RunBatchSynthesis(t: Tables, patterns: seq<PatternRow>, c: Criteria, storeUp: bool,
                             maxCandidates: int, oracle: nat -> Oracles): (r: (Tables, Summary))
    ensures var scan := ScanForCandidates(patterns, PromotedIds(t.candidates), c, storeUp);
      && r.1.totalCandidates == |scan|
      && r.1.processed == |SliceTo(scan, maxCandidates)|
      && r.1.compositesCreated == CreatedNames(ProcessAll(t, SliceTo(scan, maxCandidates), oracle, 0).1)
    ensures r.1.totalCandidates <= QueryLimit
    ensures r.1.processed == r.1.successful + r.1.failed
    ensures |r.1.compositesCreated| == r.1.successful
    ensures r.1.processed <= r.1.totalCandidates
    ensures 0 <= maxCandidates ==> r.1.processed <= maxCandidates
    ensures 0 <= maxCandidates <= r.1.totalCandidates ==> r.1.processed == maxCandidates
    ensures maxCandidates > r.1.totalCandidates ==> r.1.processed == r.1.totalCandidates
    ensures maxCandidates < 0 ==> r.1.processed == if -maxCandidates <= r.1.totalCandidates
                                                   then r.1.totalCandidates + maxCandidates else 0
    ensures t.composites.Keys <= r.0.composites.Keys
    ensures forall i :: 0 <= i < |r.1.compositesCreated| ==> r.1.compositesCreated[i] in r.0.composites
  {
    var candidates := ScanForCandidates(patterns, PromotedIds(t.candidates), c, storeUp);
    var batch := SliceTo(candidates, maxCandidates);
    var run := ProcessAll(t, batch, oracle, 0);
    TallyCounts(|candidates|, run.1);
    ProcessKeepsComposites(t, batch, oracle, 0);
    (run.0, Tally(|candidates|, run.1))
  }
}

=== FILE: composition_planner.dfy ===
/** Multi-tool execution (`src/composition_planner.py`): running a plan's sub-tasks in order, where
    each step finds a tool, prepares its arguments (from an earlier result when the sub-task depends
    on one) and executes it; running a stored workflow pattern tool by tool; and the rule for turning
    a sequence into a composite tool.

    The registry search and lookup, the language model's replies, `json.loads` and the executor are
    parameters. Sub-tasks are the Python dicts of the plan, as `PyValue`s. */
module CompositionPlanner {
  import opened Wrappers
  import opened PyValues
  import Utils
  import Executor
  import CapabilityRegistry
  import QueryPlanner

  /** The services a workflow uses. `llm` is the model's reply when asked for arguments given an
      earlier result, the sub-task's text and the tool's signature; `extract` is the executor's
      standard argument extraction. */
  datatype Services = Services(
    search: PyValue -> Result<Option<CapabilityRegistry.ToolInfo>, Exc>,
    lookup: string -> Option<CapabilityRegistry.ToolInfo>,
    llm: (PyValue, PyValue, string) -> Result<string, string>,
    loads: string -> Option<PyValue>,
    extract: (PyValue, string) -> Result<PyValue, Exc>,
    execute: (CapabilityRegistry.ToolInfo, PyValue) -> Result<PyValue, Exc>)

  /** `obj[key]` for a string key: a `KeyError` on a dict without it, a `TypeError` on anything
      that is not a dict. */
  function Subscript(obj: PyValue, key: string): (r: Result<PyValue, Exc>)
    ensures r.Ok? <==> Get(obj, key).Some?
    ensures r.Ok? ==> r.value == Get(obj, key).value
  {
    if !obj.PDict? then Err(TypeError("object is not subscriptable"))
    else
      var v := Get(obj, key);
      if v.Some? then Ok(v.value) else Err(KeyError(key))
  }

  // ---------------------------------------------------------------------------------------------
  // _prepare_arguments
  // ---------------------------------------------------------------------------------------------

  /** The standard extraction `_prepare_arguments` falls back to. */
  function Fallback(task: PyValue, info: CapabilityRegistry.ToolInfo, s: Services): Result<PyValue, Exc> {
    s.extract(task, Executor.ExtractFunctionSignature(info.code))
  }

  /** `_prepare_arguments` for a sub-task whose `task` is `task`. A prior result is used only when
      `depends_on` is an integer from 1 to the number of results so far, and only when the model's
      reply holds a JSON value that parses; otherwise the standard extraction runs. A failed model
      call, a `depends_on` that is not a number, or a float index raise. */
  function PrepareArguments(subTask: PyValue, task: PyValue, info: CapabilityRegistry.ToolInfo,
                            previous: seq<PyValue>, s: Services): (r: Result<PyValue, Exc>)
    ensures var d := Get(subTask, "depends_on").GetOr(PNone);
      (d.PNone? || IsInt(d)) && !QueryPlanner.RefersToResult(d, previous) ==> r == Fallback(task, info, s)
    ensures var d := Get(subTask, "depends_on").GetOr(PNone);
      r != Fallback(task, info, s) && r.Ok? ==>
        && QueryPlanner.RefersToResult(d, previous)
        && var reply := s.llm(previous[AsInt(d) - 1], task, Executor.ExtractFunctionSignature(info.code));
           reply.Ok? && Utils.ExtractJsonFromResponse(reply.value).Ok?
           && s.loads(Utils.ExtractJsonFromResponse(reply.value).value) == Some(r.value)
  {
    var d := Get(subTask, "depends_on").GetOr(PNone);
    if d.PNone? then Fallback(task, info, s)
    else if !IsNumber(d) then Err(TypeError("'>' not supported between instances of a non-number and 'int'"))
    else if AsReal(d) <= 0.0 || AsReal(d) > |previous| as real then Fallback(task, info, s)
    else if d.PFloat? then Err(TypeError("list indices must be integers or slices, not float"))
    else
      var reply := s.llm(previous[AsInt(d) - 1], task, Executor.ExtractFunctionSignature(info.code));
      if reply.Err? then Err(PlainException(reply.error))
      else
        var json := Utils.ExtractJsonFromResponse(reply.value);
        if json.Err? then Fallback(task, info, s)
        else
          var parsed := s.loads(json.value);
          if parsed.None? then Fallback(task, info, s) else Ok(parsed.value)
  }

  // ---------------------------------------------------------------------------------------------
  // execute_workflow
  // ---------------------------------------------------------------------------------------------

  /** What one step of a workflow did. */
  datatype StepOutcome = NoTool | Executed(toolName: string, result: PyValue) | Raised(error: Exc)

  /** One step: find a tool for the sub-task, prepare its arguments from the results so far, run it. */
  function RunStep(subTask: PyValue, task: PyValue, previous: seq<PyValue>, s: Services): StepOutcome {
    var found := s.search(task);
    if found.Err? then Raised(found.error)
    else if found.value.None? then NoTool
    else
      var info := found.value.value;
      var args := PrepareArguments(subTask, task, info, previous, s);
      if args.Err? then Raised(args.error)
      else
        var result := s.execute(info, args.value);
        if result.Err? then Raised(PlainException(result.error.msg)) else Executed(info.name, result.value)
  }

  /** What `execute_workflow` returns. Step numbers count from 1. */
  datatype WorkflowResult =
    | WorkflowDone(results: seq<PyValue>, toolSequence: seq<string>, finalResult: PyValue)
    | NeedsSynthesis(task: PyValue, stepFailed: nat, partialResults: seq<PyValue>)
    | StepFailed(error: Exc, stepFailed: nat, partialResults: seq<PyValue>, toolSequence: seq<string>)

  /** The `task` of every sub-task, or the first failure to read one. */
  function Tasks(subTasks: seq<PyValue>): (r: Result<seq<PyValue>, Exc>)
    ensures r.Ok? <==> forall i :: 0 <= i < |subTasks| ==> Get(subTasks[i], "task").Some?
    ensures r.Ok? ==>
      && |r.value| == |subTasks|
      && forall i :: 0 <= i < |subTasks| ==> r.value[i] == Get(subTasks[i], "task").value
  {
    if subTasks == [] then Ok([])
    else
      var first := Subscript(subTasks[0], "task");
      var rest := Tasks(subTasks[1..]);
      assert forall i :: 0 < i < |subTasks| ==> subTasks[i] == subTasks[1..][i - 1];
      if first.Err? then Err(first.error)
      else if rest.Err? then Err(rest.error)
      else Ok([first.value] + rest.value)
  }

  /** How a run of steps ended: every step executed, or the step numbered `step` (from 1) did
      not, with the results and tools of the steps before it. */
  datatype Progress =
    | Finished(results: seq<PyValue>, tools: seq<string>)
    | Halted(step: nat, outcome: StepOutcome, results: seq<PyValue>, tools: seq<string>)

  /** The first `|results|` items ran in order, each executing a tool on the results before it. */
  ghost predicate Replays<T>(items: seq<T>, run: (T, seq<PyValue>) -> StepOutcome, results: seq<PyValue>,
                             tools: seq<string>)
  {
    && |results| == |tools| <= |items|
    && forall i :: 0 <= i < |results| ==> run(items[i], results[..i]) == Executed(tools[i], results[i])
  }

  /** A replay extended by the next step's execution. */
  lemma {:induction false} ReplaysStep<T>(items: seq<T>, run: (T, seq<PyValue>) -> StepOutcome,
                                          results: seq<PyValue>, tools: seq<string>, tool: string, result: PyValue)
    requires Replays(items, run, results, tools) && |results| < |items|
    requires run(items[|results|], results) == Executed(tool, result)
    ensures Replays(items, run, results + [result], tools + [tool])
  {
    var rs := results + [result];
    var ts := tools + [tool];
    forall i | 0 <= i < |rs| ensures run(items[i], rs[..i]) == Executed(ts[i], rs[i]) {
      assert rs[..i] == if i < |results| then results[..i] else results;
    }
  }

  /** Run the items from the `|results|`-th on, stopping at the first that does not execute. */
  function Steps<T>(items: seq<T>, run: (T, seq<PyValue>) -> StepOutcome, results: seq<PyValue>,
                    tools: seq<string>): (r: Progress)
    requires Replays(items, run, results, tools)
    decreases |items| - |results|
    ensures r.Finished? ==> |r.results| == |items| && Replays(items, run, r.results, r.tools)
    ensures r.Halted? ==>
      && r.step == |r.results| + 1 <= |items| && Replays(items, run, r.results, r.tools)
      && !r.outcome.Executed? && run(items[r.step - 1], r.results) == r.outcome
  {
    var i := |results|;
    if i == |items| then Finished(results, tools)
    else
      var outcome := run(items[i], results);
      if !outcome.Executed? then Halted(i + 1, outcome, results, tools)
      else
        ReplaysStep(items, run, results, tools, outcome.toolName, outcome.result);
        Steps(items, run, results + [outcome.result], tools + [outcome.toolName])
  }

  /** The last result, or `None` when there is none. */
  function FinalResult(results: seq<PyValue>): PyValue {
    if results == [] then PNone else results[|results| - 1]
  }

  /** A workflow step as a function of the sub-task, its `task` and the results so far. */
  function WorkflowStep(s: Services): ((PyValue, PyValue), seq<PyValue>) -> StepOutcome {
    (item: (PyValue, PyValue), previous: seq<PyValue>) => RunStep(item.0, item.1, previous, s)
  }

  /** Sub-tasks paired with their `task`s. */
  function Pair(subTasks: seq<PyValue>, tasks: seq<PyValue>): (r: seq<(PyValue, PyValue)>)
    requires |tasks| == |subTasks|
    ensures |r| == |subTasks| && forall i :: 0 <= i < |r| ==> r[i] == (subTasks[i], tasks[i])
  {
    seq(|subTasks|, i requires 0 <= i < |subTasks| => (subTasks[i], tasks[i]))
  }

  /** A replay of the paired steps is a run of `RunStep` on each sub-task and its `task`. */
  lemma ReplayedSteps(subTasks: seq<PyValue>, tasks: seq<PyValue>, s: Services, results: seq<PyValue>,
                      tools: seq<string>)
    requires |tasks| == |subTasks|
    requires forall i :: 0 <= i < |subTasks| ==> Get(subTasks[i], "task") == Some(tasks[i])
    requires Replays(Pair(subTasks, tasks), WorkflowStep(s), results, tools)
    ensures forall i :: 0 <= i < |results| ==>
              RunStep(subTasks[i], Get(subTasks[i], "task").value, results[..i], s) == Executed(tools[i], results[i])
  {
    var items := Pair(subTasks, tasks);
    forall i | 0 <= i < |results|
      ensures RunStep(subTasks[i], Get(subTasks[i], "task").value, results[..i], s) == Executed(tools[i], results[i])
    {
      assert WorkflowStep(s)(items[i], results[..i]) == Executed(tools[i], results[i]);
    }
  }

  /** `execute_workflow`: every sub-task's `task` is read first (for the start report), then the
      steps run in order. It returns a result per sub-task and the last one as the final result;
      or, at the first step with no tool, the results before it and a request to synthesize; or,
      at the first step that raises, the results before it. */
  function ExecuteWorkflow(subTasks: seq<PyValue>, s: Services): (r: Result<WorkflowResult, Exc>)
    ensures r.Err? <==> exists i :: 0 <= i < |subTasks| && Get(subTasks[i], "task").None?
    ensures r.Ok? && r.value.WorkflowDone? ==>
      && |r.value.results| == |r.value.toolSequence| == |subTasks|
      && r.value.finalResult == FinalResult(r.value.results)
      && forall i :: 0 <= i < |subTasks| ==>
           RunStep(subTasks[i], Get(subTasks[i], "task").value, r.value.results[..i], s)
             == Executed(r.value.toolSequence[i], r.value.results[i])
    ensures r.Ok? && r.value.NeedsSynthesis? ==>
      && 1 <= r.value.stepFailed <= |subTasks| && |r.value.partialResults| == r.value.stepFailed - 1
      && r.value.task == Get(subTasks[r.value.stepFailed - 1], "task").value
      && RunStep(subTasks[r.value.stepFailed - 1], r.value.task, r.value.partialResults, s) == NoTool
      && forall i :: 0 <= i < |r.value.partialResults| ==>
           RunStep(subTasks[i], Get(subTasks[i], "task").value, r.value.partialResults[..i], s).Executed?
    ensures r.Ok? && r.value.StepFailed? ==>
      && 1 <= r.value.stepFailed <= |subTasks|
      && |r.value.partialResults| == |r.value.toolSequence| == r.value.stepFailed - 1
      && RunStep(subTasks[r.value.stepFailed - 1], Get(subTasks[r.value.stepFailed - 1], "task").value,
                 r.value.partialResults, s) == Raised(r.value.error)
  {
    var tasks := Tasks(subTasks);
    if tasks.Err? then Err(tasks.error)
    else
      var items := Pair(subTasks, tasks.value);
      var p := Steps(items, WorkflowStep(s), [], []);
      ReplayedSteps(subTasks, tasks.value, s, p.results, p.tools);
      match p
      case Finished(rs, ts) => Ok(WorkflowDone(rs, ts, FinalResult(rs)))
      case Halted(k, outcome, rs, ts) =>
        assert WorkflowStep(s)(items[k - 1], rs) == outcome;
        if outcome.NoTool? then Ok(NeedsSynthesis(tasks.value[k - 1], k, rs))
        else Ok(StepFailed(outcome.error, k, rs, ts))
  }

  // ---------------------------------------------------------------------------------------------
  // execute_pattern
  // ---------------------------------------------------------------------------------------------

  /** Why a pattern run stopped. */
  datatype PatternError = ToolNotFound(toolName: string) | PatternRaised(error: Exc)

  /** What `execute_pattern` returns. */
  datatype PatternResult =
    | PatternDone(results: seq<PyValue>, toolSequence: seq<string>, finalResult: PyValue, patternUsed: Option<string>)
    | PatternFailed(error: PatternError, stepFailed: nat, partialResults: seq<PyValue>)

  /** The arguments of a pattern's tool: from the prompt for the first tool, otherwise from the
      model given the previous result, with `{}` when the reply holds no JSON or does not parse. */
  function PatternArguments(prompt: PyValue, info: CapabilityRegistry.ToolInfo, previous: seq<PyValue>,
                            s: Services): (r: Result<PyValue, Exc>)
    ensures previous == [] ==> r == s.extract(prompt, Executor.ExtractFunctionSignature(info.code))
    ensures previous != [] && r.Ok? && r.value != PDict([]) ==>
      var reply := s.llm(previous[|previous| - 1], prompt, Executor.ExtractFunctionSignature(info.code));
      reply.Ok? && Utils.ExtractJsonFromResponse(reply.value).Ok?
      && s.loads(Utils.ExtractJsonFromResponse(reply.value).value) == Some(r.value)
  {
    if previous == [] then s.extract(prompt, Executor.ExtractFunctionSignature(info.code))
    else ArgumentsFromResult(prompt, info, previous[|previous| - 1], s)
  }

  /** The arguments the model builds from the previous result, `{}` when its reply holds no JSON
      or does not parse. */
  function ArgumentsFromResult(prompt: PyValue, info: CapabilityRegistry.ToolInfo, last: PyValue, s: Services)
    : (r: Result<PyValue, Exc>)
    ensures r.Ok? && r.value != PDict([]) ==>
      var reply := s.llm(last, prompt, Executor.ExtractFunctionSignature(info.code));
      reply.Ok? && Utils.ExtractJsonFromResponse(reply.value).Ok?
      && s.loads(Utils.ExtractJsonFromResponse(reply.value).value) == Some(r.value)
  {
    var reply := s.llm(last, prompt, Executor.ExtractFunctionSignature(info.code));
    if reply.Err? then Err(PlainException(reply.error))
    else
      var json := Utils.ExtractJsonFromResponse(reply.value);
      if json.Err? then Ok(PDict([]))
      else
        var parsed := s.loads(json.value);
        if parsed.None? then Ok(PDict([])) else Ok(parsed.value)
  }

  /** One tool of a pattern, given the results so far: a tool the registry does not know stops
      the run, as does any exception. */
  function PatternStep(toolName: string, prompt: PyValue, previous: seq<PyValue>, s: Services): (r: StepOutcome)
    ensures r.NoTool? <==> s.lookup(toolName).None?
    ensures r.Executed? ==> r.toolName == toolName
  {
    var info := s.lookup(toolName);
    if info.None? then NoTool
    else
      var args := PatternArguments(prompt, info.value, previous, s);
      if args.Err? then Raised(args.error)
      else
        var result := s.execute(info.value, args.value);
        if result.Err? then Raised(PlainException(result.error.msg)) else Executed(toolName, result.value)
  }

  /** `execute_pattern` for a pattern with the given tool sequence and name: the tools run in
      order, the first on arguments from the prompt and each later one on arguments built from
      the result before it; a tool that cannot be found, or a step that raises, stops the run with
      the results so far. */
  function ExecutePattern(tools: seq<string>, name: Option<string>, prompt: PyValue, s: Services)
    : (r: PatternResult)
    ensures r.PatternDone? ==>
      && |r.results| == |tools| && r.toolSequence == tools && r.patternUsed == name
      && r.finalResult == FinalResult(r.results)
      && forall i :: 0 <= i < |tools| ==> PatternStep(tools[i], prompt, r.results[..i], s) == Executed(tools[i], r.results[i])
    ensures r.PatternFailed? ==>
      && 1 <= r.stepFailed <= |tools| && |r.partialResults| == r.stepFailed - 1
      && (r.error.ToolNotFound? <==> s.lookup(tools[r.stepFailed - 1]).None?)
      && (r.error.ToolNotFound? ==> r.error.toolName == tools[r.stepFailed - 1])
      && (r.error.PatternRaised? ==> PatternStep(tools[r.stepFailed - 1], prompt, r.partialResults, s) == Raised(r.error.error))
  {
    var p := Steps(tools, PatternRun(prompt, s), [], []);
    ReplayedPattern(tools, prompt, s, p.results, p.tools);
    match p
    case Finished(rs, ts) => PatternDone(rs, tools, FinalResult(rs), name)
    case Halted(k, outcome, rs, _) =>
      assert PatternRun(prompt, s)(tools[k - 1], rs) == outcome;
      if outcome.NoTool? then PatternFailed(ToolNotFound(tools[k - 1]), k, rs)
      else PatternFailed(PatternRaised(outcome.error), k, rs)
  }

  /** A pattern step as a function of the tool's name and the results so far. */
  function PatternRun(prompt: PyValue, s: Services): (string, seq<PyValue>) -> StepOutcome {
    (t: string, previous: seq<PyValue>) => PatternStep(t, prompt, previous, s)
  }

  /** A replay of the pattern's tools is a run of `PatternStep` on each. */
  lemma ReplayedPattern(tools: seq<string>, prompt: PyValue, s: Services, results: seq<PyValue>, ts: seq<string>)
    requires Replays(tools, PatternRun(prompt, s), results, ts)
    ensures forall i :: 0 <= i < |results| ==>
              PatternStep(tools[i], prompt, results[..i], s) == Executed(ts[i], results[i])
  {
    forall i | 0 <= i < |results| ensures PatternStep(tools[i], prompt, results[..i], s) == Executed(ts[i], results[i]) {
      assert PatternRun(prompt, s)(tools[i], results[..i]) == Executed(ts[i], results[i]);
    }
  }

  /** A tool later in a pattern gets arguments built from the result just before it, whatever came
      earlier. */
  lemma PatternUsesLastResult(prompt: PyValue, info: CapabilityRegistry.ToolInfo, earlier: seq<PyValue>,
                              earlier': seq<PyValue>, last: PyValue, s: Services)
    ensures PatternArguments(prompt, info, earlier + [last], s) == PatternArguments(prompt, info, earlier' + [last], s)
  {
    assert (earlier + [last])[|earlier + [last]| - 1] == last;
    assert (earlier' + [last])[|earlier' + [last]| - 1] == last;
    assert PatternArguments(prompt, info, earlier + [last], s) == ArgumentsFromResult(prompt, info, last, s);
  }

  // ---------------------------------------------------------------------------------------------
  // should_create_composite
  // ---------------------------------------------------------------------------------------------

  /** The smallest frequency and success rate, and the shortest sequence, worth a composite tool. */
  const CompositeMinFrequency: int := 3
  const CompositeMinSuccessRate: real := 0.8
  const CompositeMinLength: nat := 2

  /** `should_create_composite`. */
  predicate ShouldCreateComposite(toolSequence: seq<string>, successRate: real, frequency: int) {
    |toolSequence| >= CompositeMinLength && frequency >= CompositeMinFrequency && successRate >= CompositeMinSuccessRate
  }

  /** More use or a better success rate never withdraws the recommendation. */
  lemma ShouldCreateCompositeMonotone(toolSequence: seq<string>, successRate: real, frequency: int,
                                      successRate': real, frequency': int)
    requires ShouldCreateComposite(toolSequence, successRate, frequency)
    requires successRate <= successRate' && frequency <= frequency'
    ensures ShouldCreateComposite(toolSequence, successRate', frequency')
  {
  }
}

=== FILE: eval_metrics.dfy ===
/** The evaluation harness's metrics: retrieval rates, the Levenshtein distance behind code
    similarity, and the summary aggregated over all test results. */
module EvalMetrics {
  import opened Wrappers
  import Numeric
  import Seqs

  /** `a / b` for integer counts, or 0.0 when the denominator is not positive. */
  function Fraction(num: int, den: int): (r: real)
    ensures den <= 0 ==> r == 0.0
    ensures den > 0 ==> r * den as real == num as real
    ensures 0 <= num <= den ==> 0.0 <= r <= 1.0
    ensures 0 < den ==> (r == 1.0 <==> num == den)
  {
    if den > 0 then
      var r := num as real / den as real;
      FractionBounds(num, den, r);
      r
    else 0.0
  }

  /** A quotient of counts scales back to its numerator and lies in [0, 1] for a numerator between
      0 and the denominator. */
  lemma FractionBounds(num: int, den: int, r: real)
    requires 0 < den && r == num as real / den as real
    ensures r * den as real == num as real
    ensures 0 <= num <= den ==> 0.0 <= r <= 1.0
    ensures r == 1.0 <==> num == den
  {
    assert r * den as real == num as real;
  }

  /** `precision`: the share of retrieved items that were relevant. */
  function Precision(truePositives: int, falsePositives: int): (r: real)
    ensures truePositives + falsePositives <= 0 ==> r == 0.0
    ensures truePositives + falsePositives > 0 ==>
              r * (truePositives + falsePositives) as real == truePositives as real
    ensures 0 <= truePositives && 0 <= falsePositives ==>
              && 0.0 <= r <= 1.0
              && (r == 1.0 <==> truePositives > 0 && falsePositives == 0)
  {
    Fraction(truePositives, truePositives + falsePositives)
  }

  /** `recall`: the share of relevant items that were retrieved. */
  function Recall(truePositives: int, falseNegatives: int): (r: real)
    ensures truePositives + falseNegatives <= 0 ==> r == 0.0
    ensures truePositives + falseNegatives > 0 ==>
              r * (truePositives + falseNegatives) as real == truePositives as real
    ensures 0 <= truePositives && 0 <= falseNegatives ==>
              && 0.0 <= r <= 1.0
              && (r == 1.0 <==> truePositives > 0 && falseNegatives == 0)
  {
    Fraction(truePositives, truePositives + falseNegatives)
  }

  /** `accuracy`: the share of correct answers. */
  function Accuracy(correct: int, total: int): (r: real)
    ensures total <= 0 ==> r == 0.0
    ensures total > 0 ==> r * total as real == correct as real
    ensures 0 <= correct <= total ==> 0.0 <= r <= 1.0
  {
    Fraction(correct, total)
  }

  /** `f1_score`: the harmonic mean of precision and recall, 0.0 when both are 0. For non-negative
      inputs it lies between the smaller and the larger of the two. */
  function F1(precision: real, recall: real): (f: real)
    ensures precision + recall == 0.0 ==> f == 0.0
    ensures precision + recall != 0.0 ==> f * (precision + recall) == 2.0 * precision * recall
    ensures 0.0 <= precision && 0.0 <= recall && precision + recall > 0.0 ==>
              Numeric.Min(precision, recall) <= f <= Numeric.Max(precision, recall)
  {
    if precision + recall == 0.0 then 0.0
    else
      var f := 2.0 * (precision * recall) / (precision + recall);
      F1Between(precision, recall, f);
      f
  }

  /** The harmonic mean of two non-negative values lies between them. */
  lemma F1Between(precision: real, recall: real, f: real)
    requires precision + recall != 0.0 && f == 2.0 * (precision * recall) / (precision + recall)
    ensures 0.0 <= precision && 0.0 <= recall ==>
              Numeric.Min(precision, recall) <= f <= Numeric.Max(precision, recall)
  {
    if 0.0 <= precision && 0.0 <= recall {
      if precision <= recall {
        HarmonicBetween(precision, recall, f);
      } else {
        HarmonicBetween(recall, precision, f);
      }
    }
  }

  /** A value whose product with `p + r` is `2pr` lies between `p` and `r`. */
  lemma HarmonicBetween(p: real, r: real, f: real)
    requires 0.0 <= p <= r && p + r > 0.0
    requires f * (p + r) == 2.0 * p * r || f * (r + p) == 2.0 * r * p
    ensures p <= f <= r
  {
    assert f * (p + r) == 2.0 * p * r;
    assert (f - p) * (p + r) == p * (r - p);
    assert (r - f) * (p + r) == r * (r - p);
    NonNegativeFactor(f - p, p + r);
    NonNegativeFactor(r - f, p + r);
  }

  /** A product that is non-negative with a positive factor has a non-negative other factor. */
  lemma NonNegativeFactor(x: real, y: real)
    requires y > 0.0 && x * y >= 0.0
    ensures x >= 0.0
  {
  }

  /** F1 over counts reaches 1 exactly when nothing was missed and nothing spurious was retrieved. */
  lemma {:induction false} PerfectF1(truePositives: nat, falsePositives: nat, falseNegatives: nat)
    ensures var f := F1(Precision(truePositives, falsePositives), Recall(truePositives, falseNegatives));
            && 0.0 <= f <= 1.0
            && (f == 1.0 <==> truePositives > 0 && falsePositives == 0 && falseNegatives == 0)
  {

  }

  /** `min(x, y, z)`. */
  function Min3(x: int, y: int, z: int): (m: int)
    ensures m <= x && m <= y && m <= z
    ensures m == x || m == y || m == z
  {
    if x <= y && x <= z then x else if y <= z then y else z
  }

  /** Unit-cost edit distance by insertions, deletions and substitutions, defined on the last
      characters of both strings. It lies between the difference and the larger of the lengths,
      so it is the other string's length when one string is empty. */
  function EditDistance(a: string, b: string): (d: nat)
    ensures d <= if |a| >= |b| then |a| else |b|
    ensures |a| - |b| <= d && |b| - |a| <= d
    decreases |a| + |b|
  {
    if |a| == 0 then |b|
    else if |b| == 0 then |a|
    else
      var a', b' := a[..|a| - 1], b[..|b| - 1];
      Min3(EditDistance(a', b) + 1,
           EditDistance(a, b') + 1,
           EditDistance(a', b') + (if a[|a| - 1] == b[|b| - 1] then 0 else 1))
  }

  /** The distance does not depend on the order of the two strings. */
  lemma {:induction false} EditDistanceSymmetric(a: string, b: string)
    ensures EditDistance(a, b) == EditDistance(b, a)
    decreases |a| + |b|
  {
    if |a| > 0 && |b| > 0 {
      var a', b' := a[..|a| - 1], b[..|b| - 1];
      EditDistanceSymmetric(a', b);
      EditDistanceSymmetric(a, b');
      EditDistanceSymmetric(a', b');
    }
  }

  /** The distance is zero exactly between equal strings. */
  lemma {:induction false} EditDistanceZero(a: string, b: string)
    ensures EditDistance(a, b) == 0 <==> a == b
    decreases |a| + |b|
  {
    if |a| > 0 && |b| > 0 {
      var a', b' := a[..|a| - 1], b[..|b| - 1];
      EditDistanceZero(a', b');
      assert a == a' + [a[|a| - 1]] && b == b' + [b[|b| - 1]];
      if a == b {
        assert a' == b';
      }
    }
  }

  /** One cell of the row recurrence: the distance between two non-empty prefixes from the three
      neighbouring cells. */
  lemma EditStep(a: string, b: string, i: nat, j: nat)
    requires i < |a| && j < |b|
    ensures EditDistance(a[..i + 1], b[..j + 1]) ==
              Min3(EditDistance(a[..i], b[..j + 1]) + 1,
                   EditDistance(a[..i + 1], b[..j]) + 1,
                   EditDistance(a[..i], b[..j]) + (if a[i] != b[j] then 1 else 0))
  {
    assert a[..i + 1][..i] == a[..i];
    assert b[..j + 1][..j] == b[..j];
  }

  /** `EditStep` for cell values given as plain numbers, as the loop holds them. */
  lemma CellStep(a: string, b: string, i: nat, j: nat, up: int, left: int, diagonal: int, cell: int)
    requires i < |a| && j < |b|
    requires up == EditDistance(a[..i], b[..j + 1]) && left == EditDistance(a[..i + 1], b[..j])
    requires diagonal == EditDistance(a[..i], b[..j])
    requires cell == Min3(up + 1, left + 1, diagonal + (if a[i] != b[j] then 1 else 0))
    ensures cell == EditDistance(a[..i + 1], b[..j + 1])
  {
    EditStep(a, b, i, j);
  }

  /** Appending the next cell extends a partial row by one column. */
  lemma AppendCell(s1: string, s2: string, i: nat, j: nat, current: seq<int>, cell: int)
    requires i < |s1| && j < |s2| && |current| == j + 1
    requires forall k :: 0 <= k <= j ==> current[k] == EditDistance(s1[..i + 1], s2[..k])
    requires cell == EditDistance(s1[..i + 1], s2[..j + 1])
    ensures forall k :: 0 <= k <= j + 1 ==> (current + [cell])[k] == EditDistance(s1[..i + 1], s2[..k])
  {
  }

  /** `levenshtein_distance`: the shorter string goes second, then one row of the table is kept
      per character of the longer string. */
  method Levenshtein(s1: string, s2: string) returns (d: nat)
    ensures d == EditDistance(s1, s2)
    decreases if |s1| < |s2| then 1 else 0
  {
    if |s1| < |s2| {
      d := Levenshtein(s2, s1);
      EditDistanceSymmetric(s2, s1);
      return;
    }
    if |s2| == 0 {
      return |s1|;
    }
    var previous: seq<int> := seq(|s2| + 1, j => j);
    var i := 0;
    while i < |s1|
      invariant 0 <= i <= |s1|
      invariant |previous| == |s2| + 1
      invariant forall j :: 0 <= j <= |s2| ==> previous[j] == EditDistance(s1[..i], s2[..j])
    {
      previous := NextRow(s1, s2, i, previous);
      i := i + 1;
    }
    assert s1[..|s1|] == s1 && s2[..|s2|] == s2;
    d := previous[|s2|];
  }

  /** One pass of the outer loop: from the distances of `s1[..i]` to every prefix of `s2`, those of
      `s1[..i + 1]`. */
  method NextRow(s1: string, s2: string, i: nat, previous: seq<int>) returns (current: seq<int>)
    requires i < |s1| && |previous| == |s2| + 1
    requires forall j :: 0 <= j <= |s2| ==> previous[j] == EditDistance(s1[..i], s2[..j])
    ensures |current| == |s2| + 1
    ensures forall j :: 0 <= j <= |s2| ==> current[j] == EditDistance(s1[..i + 1], s2[..j])
  {
    current := [i + 1];
    var j := 0;
    while j < |s2|
      invariant 0 <= j <= |s2|
      invariant |current| == j + 1
      invariant forall k :: 0 <= k <= j ==> current[k] == EditDistance(s1[..i + 1], s2[..k])
    {
      var insertions := previous[j + 1] + 1;
      var deletions := current[j] + 1;
      var substitutions := previous[j] + (if s1[i] != s2[j] then 1 else 0);
      var cell := Min3(insertions, deletions, substitutions);
      CellStep(s1, s2, i, j, previous[j + 1], current[j], previous[j], cell);
      AppendCell(s1, s2, i, j, current, cell);
      current := current + [cell];
      j := j + 1;
    }
  }

  /** `code_similarity`: one minus the distance over the longer length, 1.0 for two empty strings;
      it lies in [0, 1] and is 1.0 exactly for identical code. */
  method CodeSimilarity(code1: string, code2: string) returns (sim: real)
    ensures 0.0 <= sim <= 1.0
    ensures sim == 1.0 <==> code1 == code2
    ensures var maxLen := if |code1| >= |code2| then |code1| else |code2|;
            maxLen > 0 ==> sim == 1.0 - EditDistance(code1, code2) as real / maxLen as real
  {
    var distance := Levenshtein(code1, code2);
    var maxLen := if |code1| >= |code2| then |code1| else |code2|;
    EditDistanceZero(code1, code2);
    sim := if maxLen > 0 then 1.0 - distance as real / maxLen as real else 1.0;
    if maxLen > 0 {
      SimilarityBounds(distance, maxLen, sim);
    }
  }

  /** One minus a distance over a length it does not exceed lies in [0, 1], and is 1.0 exactly
      for distance 0. */
  lemma SimilarityBounds(distance: nat, maxLen: nat, sim: real)
    requires 0 < maxLen && distance <= maxLen
    requires sim == 1.0 - distance as real / maxLen as real
    ensures 0.0 <= sim <= 1.0
    ensures sim == 1.0 <==> distance == 0
  {
    var q := Numeric.Ratio(distance, maxLen);
    assert sim == 1.0 - q;
  }

  /** `MetricCategory`. */
  datatype Category = Functional | Synthesis | Retrieval | Workflow | Learning | Robustness | Performance

  const AllCategories: set<Category> :=
    {Functional, Synthesis, Retrieval, Workflow, Learning, Robustness, Performance}

  /** `EvaluationResult`, without the free-form metrics and details. */
  datatype EvalResult = EvalResult(testId: string, testName: string, category: Category, passed: bool,
                                   score: real, executionTimeMs: real, errorMessage: Option<string>)

  /** `AggregatedMetrics`, without the timestamp. A category's score is `None` when no test of it ran. */
  datatype Summary = Summary(totalTests: nat, passedTests: nat, failedTests: int, passRate: real,
                             averageScore: real, categoryScores: map<Category, Option<real>>,
                             totalExecutionTimeMs: real)

  /** `sum(1 for r in results if r.passed)`. */
  function PassedCount(results: seq<EvalResult>): (n: nat)
    ensures n <= |results|
    ensures n == |results| <==> forall i :: 0 <= i < |results| ==> results[i].passed
    ensures n == 0 <==> forall i :: 0 <= i < |results| ==> !results[i].passed
  {
    if |results| == 0 then 0
    else
      var init := results[..|results| - 1];
      assert forall i :: 0 <= i < |init| ==> init[i] == results[i];
      PassedCount(init) + (if results[|results| - 1].passed then 1 else 0)
  }

  /** The scores of the results, in order. */
  function Scores(results: seq<EvalResult>): (s: seq<real>)
    ensures |s| == |results| && forall i :: 0 <= i < |results| ==> s[i] == results[i].score
  {
    seq(|results|, i requires 0 <= i < |results| => results[i].score)
  }

  /** `m` is the arithmetic mean of `xs`: `|xs|` copies of it add up to their sum. */
  predicate MeanOf(m: real, xs: seq<real>) {
    m * |xs| as real == Numeric.Sum(xs)
  }

  /** `np.mean` over a non-empty list; it stays in [0, 1] when every element does. */
  function Mean(xs: seq<real>): (m: real)
    requires |xs| > 0
    ensures MeanOf(m, xs)
    ensures (forall i :: 0 <= i < |xs| ==> 0.0 <= xs[i] <= 1.0) ==> 0.0 <= m <= 1.0
  {
    if forall i :: 0 <= i < |xs| ==> 0.0 <= xs[i] <= 1.0 then
      Numeric.SumBounds(xs, 0.0, 1.0);
      Numeric.Sum(xs) / |xs| as real
    else
      Numeric.Sum(xs) / |xs| as real
  }

  /** Every score lies in [0, 1], as the result type documents. */
  predicate ScoresInRange(results: seq<EvalResult>) {
    forall i :: 0 <= i < |results| ==> 0.0 <= results[i].score <= 1.0
  }

  /** The results of one category, in order. */
  function OfCategory(results: seq<EvalResult>, c: Category): (r: seq<EvalResult>)
    ensures r == [] <==> forall i :: 0 <= i < |results| ==> results[i].category != c
    ensures forall i :: 0 <= i < |r| ==> r[i] in results && r[i].category == c
  {
    var r := Seqs.Filter(results, (x: EvalResult) => x.category == c);
    assert r != [] ==> r[0] in results && r[0].category == c;
    assert (exists i :: 0 <= i < |results| && results[i].category == c) ==> r != [];
    r
  }

  /** The mean score of one category, `None` when it has no results. */
  function CategoryScore(results: seq<EvalResult>, c: Category): (r: Option<real>)
    ensures r.None? <==> OfCategory(results, c) == []
    ensures ScoresInRange(results) && r.Some? ==> 0.0 <= r.value <= 1.0
    ensures r.Some? ==> MeanOf(r.value, Scores(OfCategory(results, c)))
  {
    var rs := OfCategory(results, c);
    if rs == [] then None else Some(CategoryMean(rs, results))
  }

  /** The mean score of each category, `None` for a category without results. */
  function CategoryScores(results: seq<EvalResult>): (m: map<Category, Option<real>>)
    ensures m.Keys == AllCategories
    ensures forall c :: c in m ==> (m[c].None? <==> OfCategory(results, c) == [])
    ensures ScoresInRange(results) ==> forall c :: c in m && m[c].Some? ==> 0.0 <= m[c].value <= 1.0
    ensures forall c :: c in m && m[c].Some? ==> MeanOf(m[c].value, Scores(OfCategory(results, c)))
  {
    map c | c in AllCategories :: CategoryScore(results, c)
  }

  /** The mean score of a non-empty selection of the results. */
  function CategoryMean(rs: seq<EvalResult>, results: seq<EvalResult>): (m: real)
    requires |rs| > 0 && forall i :: 0 <= i < |rs| ==> rs[i] in results
    ensures MeanOf(m, Scores(rs))
    ensures ScoresInRange(results) ==> 0.0 <= m <= 1.0
  {
    Mean(Scores(rs))
  }

  /** `_aggregate_results`: the counts, the pass rate (0.0 with no tests), the mean score, the
      per-category means and the elapsed time in milliseconds (0.0 while the end time is unset). */
  function Aggregate(results: seq<EvalResult>, startTime: real, endTime: Option<real>): (s: Summary)
    ensures s.totalTests == |results|
    ensures s.passedTests + s.failedTests == s.totalTests && 0 <= s.failedTests
    ensures s.totalTests == 0 ==> s.passRate == 0.0 && s.averageScore == 0.0
    ensures s.totalTests > 0 ==> s.passRate == s.passedTests as real / s.totalTests as real
    ensures 0.0 <= s.passRate <= 1.0
    ensures s.totalTests > 0 ==> MeanOf(s.averageScore, Scores(results))
    ensures ScoresInRange(results) ==> 0.0 <= s.averageScore <= 1.0
    ensures s.categoryScores.Keys == AllCategories
    ensures forall c :: c in s.categoryScores && s.categoryScores[c].Some? ==>
              MeanOf(s.categoryScores[c].value, Scores(OfCategory(results, c)))
    ensures forall c :: c in s.categoryScores ==>
              (s.categoryScores[c].None? <==> forall i :: 0 <= i < |results| ==> results[i].category != c)
    ensures endTime.None? || endTime.value == 0.0 ==> s.totalExecutionTimeMs == 0.0
    ensures endTime.Some? && endTime.value != 0.0 ==>
              s.totalExecutionTimeMs == (endTime.value - startTime) * 1000.0
  {
    var total := |results|;
    var passed := PassedCount(results);
    Summary(total, passed, total - passed, Fraction(passed, total), AverageScore(results),
            CategoryScores(results), ElapsedMs(startTime, endTime))
  }

  /** The mean score over all results, 0.0 without results. */
  function AverageScore(results: seq<EvalResult>): (m: real)
    ensures |results| == 0 ==> m == 0.0
    ensures |results| > 0 ==> MeanOf(m, Scores(results))
    ensures ScoresInRange(results) ==> 0.0 <= m <= 1.0
  {
    if |results| > 0 then Mean(Scores(results)) else 0.0
  }

  /** `(end_time - start_time) * 1000 if end_time else 0.0`. */
  function ElapsedMs(startTime: real, endTime: Option<real>): (ms: real)
    ensures endTime.None? || endTime.value == 0.0 ==> ms == 0.0
    ensures endTime.Some? && endTime.value != 0.0 ==> ms == (endTime.value - startTime) * 1000.0
  {
    if endTime.Some? && endTime.value != 0.0 then (endTime.value - startTime) * 1000.0 else 0.0
  }

  /** With at least one test, the pass rate is 1.0 exactly when every test passed, and 0.0 exactly
      when none did. */
  lemma PassRateExtremes(results: seq<EvalResult>, startTime: real, endTime: Option<real>)
    requires |results| > 0
    ensures var s := Aggregate(results, startTime, endTime);
            && (s.passRate == 1.0 <==> forall i :: 0 <= i < |results| ==> results[i].passed)
            && (s.passRate == 0.0 <==> forall i :: 0 <= i < |results| ==> !results[i].passed)
            && (s.failedTests == 0 <==> s.passRate == 1.0)
  {
    var s := Aggregate(results, startTime, endTime);
    RateExtremes(s.passedTests, s.totalTests, s.passRate);
  }

  /** A share of a positive total is 1.0 exactly for the whole and 0.0 exactly for nothing. */
  lemma RateExtremes(part: nat, total: nat, rate: real)
    requires 0 < total && part <= total && rate == part as real / total as real
    ensures rate == 1.0 <==> part == total
    ensures rate == 0.0 <==> part == 0
  {
  }

  /** `1.0 / rank` for each positive rank, in order; ranks of zero or below are skipped. */
  function Reciprocals(ranks: seq<int>): (rs: seq<real>)
    ensures |rs| <= |ranks|
    ensures |rs| == 0 <==> forall j :: 0 <= j < |ranks| ==> ranks[j] <= 0
    ensures forall i :: 0 <= i < |rs| ==> 0.0 < rs[i] <= 1.0
    ensures (forall j :: 0 <= j < |ranks| ==> ranks[j] <= 1) ==> forall i :: 0 <= i < |rs| ==> rs[i] == 1.0
  {
    if |ranks| == 0 then []
    else
      var init := ranks[..|ranks| - 1];
      var last := ranks[|ranks| - 1];
      assert forall j :: 0 <= j < |init| ==> init[j] == ranks[j];
      var rest := Reciprocals(init);
      if last > 0 then
        assert 1.0 / last as real <= 1.0;
        assert last > 1 ==> 1.0 / last as real < 1.0;
        rest + [1.0 / last as real]
      else rest
  }

  /** A rank above 1 leaves a reciprocal below 1.0. */
  lemma {:induction false} ReciprocalBelowOne(ranks: seq<int>, j: nat)
    requires j < |ranks| && ranks[j] > 1
    ensures exists i :: 0 <= i < |Reciprocals(ranks)| && Reciprocals(ranks)[i] < 1.0
  {
    var init := ranks[..|ranks| - 1];
    var last := ranks[|ranks| - 1];
    var rest := Reciprocals(init);
    if j == |ranks| - 1 {
      assert 1.0 / last as real < 1.0;
      assert Reciprocals(ranks)[|rest|] == 1.0 / last as real;
    } else {
      assert init[j] == ranks[j];
      ReciprocalBelowOne(init, j);
      var i :| 0 <= i < |rest| && rest[i] < 1.0;
      assert Reciprocals(ranks)[i] == rest[i];
    }
  }

  /** `mean_reciprocal_rank`: the mean of the reciprocals of the positive ranks, 0.0 when there are none. */
  function MeanReciprocalRank(ranks: seq<int>): (r: real)
    ensures 0.0 <= r <= 1.0
    ensures (forall j :: 0 <= j < |ranks| ==> ranks[j] <= 0) ==> r == 0.0
    ensures (exists j :: 0 <= j < |ranks| && ranks[j] > 0) ==> MeanOf(r, Reciprocals(ranks))
  {
    if |ranks| == 0 then 0.0
    else
      var rs := Reciprocals(ranks);
      if |rs| == 0 then 0.0 else Mean(rs)
  }

  /** With at least one positive rank, the MRR is 1.0 exactly when every positive rank is 1: the
      correct result always came first. */
  lemma PerfectRank(ranks: seq<int>)
    requires exists j :: 0 <= j < |ranks| && ranks[j] > 0
    ensures MeanReciprocalRank(ranks) == 1.0 <==> forall j :: 0 <= j < |ranks| ==> ranks[j] <= 1
  {
    var rs := Reciprocals(ranks);
    UnitMean(MeanReciprocalRank(ranks), rs);
    if !forall j :: 0 <= j < |ranks| ==> ranks[j] <= 1 {
      var j :| 0 <= j < |ranks| && ranks[j] > 1;
      ReciprocalBelowOne(ranks, j);
    }
  }

  /** The mean of terms in (0, 1] is 1.0 exactly when every term is. */
  lemma UnitMean(m: real, xs: seq<real>)
    requires |xs| > 0 && MeanOf(m, xs)
    requires forall i :: 0 <= i < |xs| ==> 0.0 < xs[i] <= 1.0
    ensures m == 1.0 <==> forall i :: 0 <= i < |xs| ==> xs[i] == 1.0
  {
    if forall i :: 0 <= i < |xs| ==> xs[i] == 1.0 {
      Numeric.SumBounds(xs, 1.0, 1.0);
    } else {
      var k :| 0 <= k < |xs| && xs[k] != 1.0;
      SumBelow(xs, k);
    }
    UnitScale(m, |xs| as real);
  }

  /** Against a positive count, `r` copies make up the count exactly when `r` is 1.0, and fall short
      exactly when `r` is below it. */
  lemma UnitScale(r: real, n: real)
    requires n > 0.0
    ensures r * n == n ==> r == 1.0
    ensures r * n < n ==> r < 1.0
  {
    if r * n == n {
      assert (r - 1.0) * n == 0.0;
    }
  }

  /** Terms in (0, 1], one of them below 1.0, sum to less than their number. */
  lemma {:induction false} SumBelow(xs: seq<real>, k: nat)
    requires k < |xs| && xs[k] < 1.0
    requires forall i :: 0 <= i < |xs| ==> 0.0 < xs[i] <= 1.0
    ensures Numeric.Sum(xs) < |xs| as real
  {
    var init := xs[..|xs| - 1];
    if k == |xs| - 1 {
      Numeric.SumBounds(init, 0.0, 1.0);
    } else {
      SumBelow(init, k);
    }
  }
}

=== FILE: executor.dfy ===
/** Tool execution (`src/executor.py`): signature extraction, one guarded call of a tool function,
    and the retry loop that classifies failures as argument mismatches or execution errors.

    Loading the module, the language model's argument extraction and the call itself are
    parameters: `loadFailure` is what loading raised, if anything; `extract` maps a signature to
    the extracted arguments; `call` maps arguments to what the tool returns or raises. */
module Executor {
  import opened Wrappers
  import opened Strings
  import opened PyValues

  /** One keyword argument of a tool call, in the order the dict holds them. */
  datatype Argument = Argument(name: string, value: PyValue)

  /** The two failure classes the retry loop reports. */
  datatype ErrorType = ArgumentError | ExecutionError

  /** The dictionary `execute_with_retry` returns. */
  datatype RetryOutcome =
    | Succeeded(result: PyValue, attempts: int)
    | Failed(error: Option<string>, errorType: ErrorType, attempts: int)

  // ---------------------------------------------------------------------------------------------
  // Signature extraction
  // ---------------------------------------------------------------------------------------------

  /** A line whose stripped text opens a function definition. */
  predicate IsDefLine(line: string) {
    StartsWith(Strip(line), "def ")
  }

  /** A line that holds a colon, which ends a signature. */
  predicate HasColon(line: string) {
    Contains(line, ":")
  }

  /** The loop of `extract_function_signature`, with `acc` the lines collected so far: skip up to
      the first line `isDef` accepts, then collect until a line `ends` accepts. The two line tests
      are parameters so that the loop's reasoning does not depend on how they inspect text. */
  function CollectSignature<L>(lines: seq<L>, acc: seq<L>, isDef: L -> bool, ends: L -> bool): seq<L>
    decreases |lines|
  {
    if |lines| == 0 then acc
    else
      var line := lines[0];
      if isDef(line) || |acc| > 0 then
        if ends(line) then acc + [line] else CollectSignature(lines[1..], acc + [line], isDef, ends)
      else CollectSignature(lines[1..], acc, isDef, ends)
  }

  /** `extract_function_signature`: the lines from the first `def` line through the first line at
      or after it that holds a colon, joined by newlines; empty when there is no `def` line. */
  function ExtractFunctionSignature(code: string): (sig: string)
    ensures var lines := Split(Strip(code), "\n");
      var d := FirstDef(lines, IsDefLine);
      sig == if d < 0 then "" else Join(lines[d..SignatureEnd(lines, d, HasColon)], "\n")
  {
    var lines := Split(Strip(code), "\n");
    SignatureSpan(lines, IsDefLine, HasColon);
    Join(CollectSignature(lines, [], IsDefLine, HasColon), "\n")
  }

  /** Index of the first line `isDef` accepts, or -1. */
  function FirstDef<L>(lines: seq<L>, isDef: L -> bool): (d: int)
    ensures -1 <= d < |lines|
    ensures d >= 0 ==> isDef(lines[d])
    ensures forall k :: 0 <= k < |lines| && (d < 0 || k < d) ==> !isDef(lines[k])
  {
    if |lines| == 0 then -1
    else if isDef(lines[0]) then 0
    else
      var d := FirstDef(lines[1..], isDef);
      if d < 0 then -1 else d + 1
  }

  /** One past the first line at or after `from` that `ends` accepts, or the number of lines. */
  function SignatureEnd<L>(lines: seq<L>, from: nat, ends: L -> bool): (e: nat)
    requires from < |lines|
    ensures from < e <= |lines|
    ensures forall k :: from <= k < e - 1 ==> !ends(lines[k])
    ensures e < |lines| ==> ends(lines[e - 1])
    decreases |lines| - from
  {
    if ends(lines[from]) || from + 1 == |lines| then from + 1
    else SignatureEnd(lines, from + 1, ends)
  }

  /** Once collection has started, the loop takes every line up to and including the first one
      that ends the signature. */
  lemma {:induction false} CollectingSpan<L>(lines: seq<L>, acc: seq<L>, isDef: L -> bool, ends: L -> bool)
    requires |acc| > 0 && |lines| > 0
    ensures CollectSignature(lines, acc, isDef, ends) == acc + lines[..SignatureEnd(lines, 0, ends)]
    decreases |lines|
  {
    if ends(lines[0]) || |lines| == 1 {
    } else {
      CollectingSpan(lines[1..], acc + [lines[0]], isDef, ends);
      SignatureEndShift(lines, 0, ends);
      assert acc + [lines[0]] + lines[1..][..SignatureEnd(lines[1..], 0, ends)]
        == acc + lines[..SignatureEnd(lines, 0, ends)];
    }
  }

  /** Dropping the first line shifts `SignatureEnd` by one. */
  lemma {:induction false} SignatureEndShift<L>(lines: seq<L>, from: nat, ends: L -> bool)
    requires from + 1 < |lines|
    ensures SignatureEnd(lines, from + 1, ends) == SignatureEnd(lines[1..], from, ends) + 1
    decreases |lines| - from
  {
    if ends(lines[from + 1]) || from + 2 == |lines| {
    } else {
      SignatureEndShift(lines, from + 1, ends);
    }
  }

  /** The collected lines are exactly those from the first definition line through the first line
      at or after it that ends the signature; none when there is no definition line. */
  lemma {:induction false} SignatureSpan<L>(lines: seq<L>, isDef: L -> bool, ends: L -> bool)
    ensures var d := FirstDef(lines, isDef);
      CollectSignature(lines, [], isDef, ends) == if d < 0 then [] else lines[d..SignatureEnd(lines, d, ends)]
    decreases |lines|
  {
    if |lines| == 0 {
    } else if isDef(lines[0]) {
      SpanFromDef(lines, isDef, ends);
    } else {
      SignatureSpan(lines[1..], isDef, ends);
      var d := FirstDef(lines[1..], isDef);
      assert CollectSignature(lines, [], isDef, ends) == CollectSignature(lines[1..], [], isDef, ends);
      assert FirstDef(lines, isDef) == if d < 0 then -1 else d + 1;
      if d >= 0 {
        SignatureEndShift(lines, d, ends);
        SliceOfTail(lines, d, SignatureEnd(lines[1..], d, ends));
      }
    }
  }

  /** A span of the tail is the same span of the whole, one further on. */
  lemma SliceOfTail<L>(lines: seq<L>, i: nat, j: nat)
    requires i <= j < |lines|
    ensures lines[1..][i..j] == lines[i + 1..j + 1]
  {
  }

  /** Collection that starts at a definition line takes the lines up to the first that ends it. */
  lemma SpanFromDef<L>(lines: seq<L>, isDef: L -> bool, ends: L -> bool)
    requires |lines| > 0 && isDef(lines[0])
    ensures CollectSignature(lines, [], isDef, ends) == lines[..SignatureEnd(lines, 0, ends)]
  {
    var first := [lines[0]];
    if ends(lines[0]) || |lines| == 1 {
      assert SignatureEnd(lines, 0, ends) == 1;
      assert lines[..1] == first;
    } else {
      var none: seq<L> := [];
      assert none + first == first;
      assert CollectSignature(lines, [], isDef, ends) == CollectSignature(lines[1..], first, isDef, ends);
      CollectingSpan(lines[1..], first, isDef, ends);
      var e := SignatureEnd(lines[1..], 0, ends);
      SignatureEndShift(lines, 0, ends);
      assert SignatureEnd(lines, 0, ends) == SignatureEnd(lines, 1, ends) == e + 1;
      ConsSlice(lines, e + 1);
    }
  }

  /** The first line followed by a prefix of the rest is a prefix of the whole. */
  lemma ConsSlice<L>(lines: seq<L>, e: nat)
    requires 1 <= e <= |lines|
    ensures [lines[0]] + lines[1..][..e - 1] == lines[..e]
  {
  }

  // ---------------------------------------------------------------------------------------------
  // One call of a tool
  // ---------------------------------------------------------------------------------------------

  /** Some argument is `None`. */
  predicate HasNullArgument(args: seq<Argument>) {
    exists i :: 0 <= i < |args| && args[i].value == PNone
  }

  /** The names of the `None` arguments, in order. */
  function NullNames(args: seq<Argument>): (names: seq<string>)
    ensures |names| <= |args|
    ensures |names| == 0 <==> !HasNullArgument(args)
  {
    if |args| == 0 then []
    else
      var rest := NullNames(args[1..]);
      assert forall i :: 1 <= i < |args| ==> args[i] == args[1..][i - 1];
      if args[0].value == PNone then [args[0].name] + rest else rest
  }

  /** The ValueError raised for `None` arguments. */
  function NullArgumentError(args: seq<Argument>): Exc {
    ValueError("Argument mismatch: The user's prompt is missing values for: " + Join(NullNames(args), ", "))
  }

  /** A TypeError whose text says an argument is missing. */
  predicate NamesMissingArgument(e: Exc) {
    e.TypeError? && (Contains(e.msg, "required positional argument") || Contains(e.msg, "missing"))
  }

  /** The two `except` clauses of `execute_tool`: a TypeError naming a missing argument becomes a
      ValueError, any other TypeError passes through, everything else becomes a plain Exception. */
  function Handle(e: Exc): (r: Exc)
    ensures r.ValueError? <==> NamesMissingArgument(e)
    ensures r.TypeError? <==> e.TypeError? && !NamesMissingArgument(e)
    ensures r.PlainException? <==> !e.TypeError?
  {
    if NamesMissingArgument(e) then
      ValueError("Argument mismatch: The user's prompt is missing information needed by the tool. Error: " + e.msg)
    else if e.TypeError? then e
    else PlainException("Tool execution failed: " + e.msg)
  }

  /** The arguments a call uses: those given, or those extracted from the tool's signature. */
  function ResolveArguments(code: string, arguments: Option<seq<Argument>>,
                            extract: string -> Result<seq<Argument>, Exc>): Result<seq<Argument>, Exc>
  {
    if arguments.Some? then Ok(arguments.value) else extract(ExtractFunctionSignature(code))
  }

  /** The body of the `try` in `execute_tool`, before any handler runs. */
  function RunBody(code: string, loadFailure: Option<Exc>, arguments: Option<seq<Argument>>,
                   extract: string -> Result<seq<Argument>, Exc>,
                   call: seq<Argument> -> Result<PyValue, Exc>): Result<PyValue, Exc>
  {
    if loadFailure.Some? then Err(loadFailure.value)
    else
      var args := ResolveArguments(code, arguments, extract);
      if args.Err? then Err(args.error)
      else if HasNullArgument(args.value) then Err(NullArgumentError(args.value))
      else call(args.value)
  }

  /** `execute_tool` as written: the ValueError raised for a `None` argument is itself caught by
      the generic handler and re-raised as a plain Exception. */
  function ExecuteToolAsWritten(code: string, loadFailure: Option<Exc>, arguments: Option<seq<Argument>>,
                                extract: string -> Result<seq<Argument>, Exc>,
                                call: seq<Argument> -> Result<PyValue, Exc>): (r: Result<PyValue, Exc>)
    ensures var args := ResolveArguments(code, arguments, extract);
      r.Ok? <==> loadFailure.None? && args.Ok? && !HasNullArgument(args.value) && call(args.value).Ok?
    ensures var args := ResolveArguments(code, arguments, extract);
      loadFailure.None? && args.Ok? && HasNullArgument(args.value) ==> r.Err? && r.error.PlainException?
  {
    var body := RunBody(code, loadFailure, arguments, extract, call);
    if body.Ok? then body else Err(Handle(body.error))
  }

  /** `execute_tool` with the evidently intended behaviour for `None` arguments: the mismatch
      ValueError reaches the caller unchanged. Everything else is as written. */
  function ExecuteTool(code: string, loadFailure: Option<Exc>, arguments: Option<seq<Argument>>,
                       extract: string -> Result<seq<Argument>, Exc>,
                       call: seq<Argument> -> Result<PyValue, Exc>): (r: Result<PyValue, Exc>)
    ensures var args := ResolveArguments(code, arguments, extract);
      r.Ok? <==> loadFailure.None? && args.Ok? && !HasNullArgument(args.value) && call(args.value).Ok?
    ensures var args := ResolveArguments(code, arguments, extract);
      r.Ok? ==> r == call(args.value)
    ensures var args := ResolveArguments(code, arguments, extract);
      loadFailure.None? && args.Ok? && HasNullArgument(args.value) ==> r == Err(NullArgumentError(args.value))
    ensures r.Err? && r.error.ValueError? ==>
      var args := ResolveArguments(code, arguments, extract);
      (loadFailure.None? && args.Ok? && (HasNullArgument(args.value)
        || (call(args.value).Err? && NamesMissingArgument(call(args.value).error))))
      || (loadFailure.Some? && NamesMissingArgument(loadFailure.value))
      || (loadFailure.None? && args.Err? && NamesMissingArgument(args.error))
  {
    var body := RunBody(code, loadFailure, arguments, extract, call);
    var args := ResolveArguments(code, arguments, extract);
    if loadFailure.None? && args.Ok? && HasNullArgument(args.value) then body
    else if body.Ok? then body
    else Err(Handle(body.error))
  }

  /** A `None` argument means the tool function is never called: the outcome is the same whatever
      the function would have done. */
  lemma NullArgumentSkipsCall(code: string, loadFailure: Option<Exc>, arguments: Option<seq<Argument>>,
                              extract: string -> Result<seq<Argument>, Exc>,
                              call1: seq<Argument> -> Result<PyValue, Exc>,
                              call2: seq<Argument> -> Result<PyValue, Exc>)
    requires var args := ResolveArguments(code, arguments, extract);
      args.Ok? && HasNullArgument(args.value)
    ensures ExecuteTool(code, loadFailure, arguments, extract, call1)
         == ExecuteTool(code, loadFailure, arguments, extract, call2)
    ensures ExecuteToolAsWritten(code, loadFailure, arguments, extract, call1)
         == ExecuteToolAsWritten(code, loadFailure, arguments, extract, call2)
  {
    assert RunBody(code, loadFailure, arguments, extract, call1) == RunBody(code, loadFailure, arguments, extract, call2);
  }

  // ---------------------------------------------------------------------------------------------
  // Retry loop
  // ---------------------------------------------------------------------------------------------

  /** An attempt that raised something other than a ValueError, which the loop retries. */
  predicate Retryable(r: Result<PyValue, Exc>) {
    r.Err? && !r.error.ValueError?
  }

  /** The `for attempt in range(max_retries + 1)` loop from `attempt` on; `run(k)` is what the
      k-th call of `execute_tool` returns or raises. */
  function RetryFrom(attempt: nat, maxRetries: int, run: nat -> Result<PyValue, Exc>,
                     lastError: Option<string>): (r: RetryOutcome)
    ensures r.Succeeded? ==> attempt < r.attempts <= maxRetries + 1 && run(r.attempts - 1) == Ok(r.result)
    ensures r.Failed? && r.errorType == ArgumentError ==>
      attempt < r.attempts <= maxRetries + 1 && run(r.attempts - 1).Err?
      && run(r.attempts - 1).error.ValueError? && r.error == Some(run(r.attempts - 1).error.msg)
    ensures r.Failed? && r.errorType == ExecutionError ==>
      && r.attempts == maxRetries + 1
      && (forall k :: attempt <= k <= maxRetries ==> Retryable(run(k)))
      && (attempt <= maxRetries ==> r.error == Some(run(maxRetries).error.msg))
      && (attempt > maxRetries ==> r.error == lastError)
    ensures (r.Succeeded? || r.errorType == ArgumentError) ==>
      forall k :: attempt <= k < r.attempts - 1 ==> Retryable(run(k))
    decreases maxRetries + 1 - attempt
  {
    if attempt as int >= maxRetries + 1 then Failed(lastError, ExecutionError, maxRetries + 1)
    else
      match run(attempt)
      case Ok(v) => Succeeded(v, attempt + 1)
      case Err(e) =>
        if e.ValueError? then Failed(Some(e.msg), ArgumentError, attempt + 1)
        else RetryFrom(attempt + 1, maxRetries, run, Some(e.msg))
  }

  /** `execute_with_retry`: the first attempt that returns wins; the first ValueError stops the loop
      as an argument mismatch; when every attempt raised something else the last message is
      reported as an execution error after `max_retries + 1` attempts. */
  function ExecuteWithRetry(maxRetries: int, run: nat -> Result<PyValue, Exc>): (r: RetryOutcome)
    ensures r.Succeeded? ==>
      && 1 <= r.attempts <= maxRetries + 1 && run(r.attempts - 1) == Ok(r.result)
      && forall k :: 0 <= k < r.attempts - 1 ==> Retryable(run(k))
    ensures r.Failed? && r.errorType == ArgumentError ==>
      && 1 <= r.attempts <= maxRetries + 1
      && run(r.attempts - 1).Err? && run(r.attempts - 1).error.ValueError?
      && r.error == Some(run(r.attempts - 1).error.msg)
      && forall k :: 0 <= k < r.attempts - 1 ==> Retryable(run(k))
    ensures r.Failed? && r.errorType == ExecutionError <==>
      r.attempts == maxRetries + 1 && forall k :: 0 <= k <= maxRetries ==> Retryable(run(k))
    ensures r.Failed? && r.errorType == ExecutionError && maxRetries >= 0 ==>
      r.error == Some(run(maxRetries).error.msg)
  {
    RetryFrom(0, maxRetries, run, None)
  }

  /** The number of attempts `execute_with_retry` uses by default. */
  const DefaultMaxRetries: int := 2

  /** As written, a `None` argument is retried three times and reported as an execution error,
      although the code labels it an argument mismatch. */
  lemma NullArgumentAsWritten(code: string, args: seq<Argument>,
                              extract: string -> Result<seq<Argument>, Exc>,
                              call: seq<Argument> -> Result<PyValue, Exc>)
    requires HasNullArgument(args)
    ensures var r := ExecuteWithRetry(DefaultMaxRetries,
                                      k => ExecuteToolAsWritten(code, None, Some(args), extract, call));
      r.Failed? && r.errorType == ExecutionError && r.attempts == 3
  {
  }

  /** With the intended behaviour, a `None` argument stops after one attempt as an argument
      mismatch that names the missing arguments. */
  lemma NullArgumentCorrected(code: string, args: seq<Argument>,
                              extract: string -> Result<seq<Argument>, Exc>,
                              call: seq<Argument> -> Result<PyValue, Exc>)
    requires HasNullArgument(args)
    ensures var r := ExecuteWithRetry(DefaultMaxRetries,
                                      k => ExecuteTool(code, None, Some(args), extract, call));
      r == Failed(Some(NullArgumentError(args).msg), ArgumentError, 1)
  {
  }

  /** The concrete input `{x: None}` shows the difference. */
  lemma NullArgumentExample(code: string, extract: string -> Result<seq<Argument>, Exc>,
                            call: seq<Argument> -> Result<PyValue, Exc>)
    ensures var args := [Argument("x", PNone)];
      var asWritten := ExecuteWithRetry(DefaultMaxRetries, k => ExecuteToolAsWritten(code, None, Some(args), extract, call));
      var corrected := ExecuteWithRetry(DefaultMaxRetries, k => ExecuteTool(code, None, Some(args), extract, call));
      asWritten.Failed? && asWritten.errorType == ExecutionError
      && corrected.Failed? && corrected.errorType == ArgumentError
  {
    var args := [Argument("x", PNone)];
    assert HasNullArgument(args) by { assert args[0].value == PNone; }
    NullArgumentAsWritten(code, args, extract, call);
    NullArgumentCorrected(code, args, extract, call);
  }
}

=== FILE: generated_tools.dfy ===
/** Tools the agent synthesized and keeps in its tool store: percentages, factorials, string
    reversal, temperature conversion and two product-margin reports. Arguments arrive as Python
    values, so each tool's type checks are modelled on `PyValue`. */
module GeneratedTools {
  import opened Wrappers
  import opened PyValues
  import Seqs

  /** `base * percentage / 100`. It is zero exactly when a factor is, gives the base back at 100,
      and stays between 0 and the base for a non-negative base and a percentage up to 100. */
  function Percentage(base: real, percentage: real): (r: real)
    ensures r == 0.0 <==> base == 0.0 || percentage == 0.0
    ensures percentage == 100.0 ==> r == base
    ensures 0.0 <= base && 0.0 <= percentage ==> 0.0 <= r
    ensures 0.0 <= base && 0.0 <= percentage <= 100.0 ==> r <= base
  {
    var r := (base * percentage) / 100.0;
    PercentageBounds(base, percentage, r);
    r
  }

  /** The bounds of `Percentage`, for its value passed in as `r`. */
  lemma PercentageBounds(base: real, percentage: real, r: real)
    requires r == (base * percentage) / 100.0
    ensures r == 0.0 <==> base == 0.0 || percentage == 0.0
    ensures 0.0 <= base && 0.0 <= percentage ==> 0.0 <= r
    ensures 0.0 <= base && 0.0 <= percentage <= 100.0 ==> r <= base
  {
    if 0.0 <= base && 0.0 <= percentage <= 100.0 {
      assert base * (100.0 - percentage) >= 0.0;
    }
  }

  /** The unchecked `calculate_percentage`: any two numbers are accepted, negative ones included;
      anything else fails in the multiplication or the division with a `TypeError`. */
  function CalculatePercentage(base: PyValue, percentage: PyValue): (r: Result<real, Exc>)
    ensures r.Ok? <==> IsNumber(base) && IsNumber(percentage)
    ensures r.Err? ==> r.error.TypeError?
    ensures r.Ok? ==> r.value == Percentage(AsReal(base), AsReal(percentage))
  {
    if IsNumber(base) && IsNumber(percentage) then Ok(Percentage(AsReal(base), AsReal(percentage)))
    else Err(TypeError("unsupported operand type(s)"))
  }

  /** The checked `calculate_percentage`: a non-number is a `TypeError`, checked before anything
      else; a negative number is a `ValueError`; otherwise the percentage, which is never negative. */
  function CheckedPercentage(total: PyValue, percent: PyValue): (r: Result<real, Exc>)
    ensures r.Err? && r.error.TypeError? <==> !IsNumber(total) || !IsNumber(percent)
    ensures r.Err? && r.error.ValueError? <==>
              IsNumber(total) && IsNumber(percent) && (AsReal(total) < 0.0 || AsReal(percent) < 0.0)
    ensures r.Err? ==> r.error.TypeError? || r.error.ValueError?
    ensures r.Ok? ==> 0.0 <= r.value && r == CalculatePercentage(total, percent)
  {
    if !IsNumber(total) || !IsNumber(percent) then Err(TypeError("Both total and percent must be numbers"))
    else if AsReal(total) < 0.0 || AsReal(percent) < 0.0 then
      Err(ValueError("Both total and percent must be non-negative"))
    else Ok(Percentage(AsReal(total), AsReal(percent)))
  }

  /** The worked examples of both versions' tests. */
  lemma PercentageExamples()
    ensures Percentage(100.0, 50.0) == 50.0 && Percentage(200.0, 25.0) == 50.0
    ensures Percentage(100.0, 15.5) == 15.5 && Percentage(1000.0, 150.0) == 1500.0
    ensures Percentage(100.0, 25.0) == 25.0 && Percentage(90.5, 50.0) == 45.25
  {
  }

  /** `n!`, defined by recursion; it is at least 1 and at least `n`. */
  function Factorial(n: nat): (f: nat)
    ensures 1 <= f && n <= f
  {
    if n == 0 then 1
    else
      var f := Factorial(n - 1);
      assert n * f >= n * 1;
      n * f
  }

  /** `calculate_factorial`: `None` and non-integers are a `TypeError`, negative integers a
      `ValueError`; otherwise the loop multiplies 1 through `n`, giving `n!`. Booleans are integers
      to Python, so `True` gives 1. */
  method CalculateFactorial(n: PyValue) returns (r: Result<int, Exc>)
    ensures r == Err(TypeError("Input must be an integer")) <==> !IsInt(n)
    ensures r == Err(ValueError("Factorial is not defined for negative numbers")) <==> IsInt(n) && AsInt(n) < 0
    ensures r.Ok? <==> IsInt(n) && AsInt(n) >= 0
    ensures r.Ok? ==> r.value == Factorial(AsInt(n)) && r.value >= 1
  {
    if n.PNone? || !IsInt(n) {
      return Err(TypeError("Input must be an integer"));
    }
    var k := AsInt(n);
    if k < 0 {
      return Err(ValueError("Factorial is not defined for negative numbers"));
    }
    if k == 0 {
      return Ok(1);
    }
    var factorial := MultiplyUpTo(k);
    return Ok(factorial);
  }

  /** The `else` branch of `calculate_factorial`: `factorial *= i` for `i` from 1 through `n`. */
  method MultiplyUpTo(n: nat) returns (factorial: nat)
    ensures factorial == Factorial(n)
  {
    factorial := 1;
    var i: nat := 1;
    while i <= n
      invariant 1 <= i <= n + 1
      invariant factorial == Factorial(i - 1)
    {
      FactorialStep(i, factorial);
      factorial := factorial * i;
      i := i + 1;
    }
  }

  /** One step of the loop: multiplying `(i - 1)!` by `i` gives `i!`. */
  lemma FactorialStep(i: nat, previous: nat)
    requires 1 <= i && previous == Factorial(i - 1)
    ensures previous * i == Factorial(i)
  {
    assert Factorial(i) == i * Factorial(i - 1);
  }

  /** `5!` is 120, as the tool's test expects. */
  lemma FactorialOfFive()
    ensures Factorial(5) == 120
  {
    assert Factorial(2) == 2;
  }

  /** The factorial never decreases. */
  lemma {:induction false} FactorialMonotone(n: nat, m: nat)
    requires n <= m
    ensures Factorial(n) <= Factorial(m)
    decreases m - n
  {
    if n < m {
      FactorialMonotone(n, m - 1);
      Grows(m, Factorial(m - 1));
    }
  }

  /** Multiplying by a positive count does not make a natural number smaller. */
  lemma Grows(k: nat, f: nat)
    requires 1 <= k
    ensures f <= k * f
  {
    assert k * f == f + (k - 1) * f;
  }

  /** `reverse_string` (the same code in both tool directories): `None` is a `TypeError`, otherwise
      `input_string[::-1]`, the characters in the opposite order. */
  function ReverseString(input: Option<string>): (r: Result<string, Exc>)
    ensures r.Err? <==> input.None?
    ensures r.Err? ==> r.error == TypeError("Input cannot be None")
    ensures r.Ok? ==> |r.value| == |input.value|
    ensures r.Ok? ==> forall i :: 0 <= i < |input.value| ==> r.value[i] == input.value[|input.value| - 1 - i]
  {
    if input.None? then Err(TypeError("Input cannot be None")) else Ok(Seqs.Reverse(input.value))
  }

  /** A string is its own reversal exactly when it reads the same both ways, which covers the empty,
      single-character and all-space strings of the tests. */
  lemma ReverseFixesPalindromes(s: string)
    ensures ReverseString(Some(s)) == Ok(s) <==> forall i :: 0 <= i < |s| ==> s[i] == s[|s| - 1 - i]
  {
    if forall i :: 0 <= i < |s| ==> s[i] == s[|s| - 1 - i] {
      assert Seqs.Reverse(s) == s;
    }
  }

  /** Reversing twice gives the original string back. */
  lemma ReverseTwice(s: string)
    ensures ReverseString(Some(s)).Ok? && ReverseString(Some(ReverseString(Some(s)).value)) == Ok(s)
  {
    assert Seqs.Reverse(Seqs.Reverse(s)) == s;
  }

  /** Reversal swaps the order of two concatenated pieces and reverses each. */
  lemma ReverseConcat(a: string, b: string)
    ensures ReverseString(Some(a + b)) == Ok(Seqs.Reverse(b) + Seqs.Reverse(a))
  {
    assert Seqs.Reverse(a + b) == Seqs.Reverse(b) + Seqs.Reverse(a);
  }

  /** The worked examples of the tests. */
  lemma ReverseExamples()
    ensures ReverseString(Some("Hello World")) == Ok("dlroW olleH")
    ensures ReverseString(Some("hello")) == Ok("olleh") && ReverseString(Some("12345")) == Ok("54321")
  {
    assert Seqs.Reverse("hello") == "olleh";
    assert Seqs.Reverse("12345") == "54321";
    assert Seqs.Reverse("Hello World") == "dlroW olleH";
  }

  /** `(fahrenheit - 32) * 5 / 9`. It undoes `c * 9 / 5 + 32`, is 0 exactly at 32 and keeps the
      value exactly at -40. */
  function Celsius(fahrenheit: real): (c: real)
    ensures Fahrenheit(c) == fahrenheit
    ensures c == 0.0 <==> fahrenheit == 32.0
    ensures c == fahrenheit <==> fahrenheit == -40.0
  {
    (fahrenheit - 32.0) * 5.0 / 9.0
  }

  /** `celsius * 9 / 5 + 32`, the formula the evaluation data set uses for expected answers. */
  function Fahrenheit(celsius: real): real {
    (celsius * 9.0 / 5.0) + 32.0
  }

  /** Converting a Celsius value to Fahrenheit and back returns it. */
  lemma CelsiusOfFahrenheit(celsius: real)
    ensures Celsius(Fahrenheit(celsius)) == celsius
  {
  }

  /** The conversion is strictly increasing. */
  lemma CelsiusIncreasing(f1: real, f2: real)
    ensures f1 < f2 <==> Celsius(f1) < Celsius(f2)
  {
  }

  /** `convert_fahrenheit_to_celsius`: a `TypeError` for anything but a number (booleans count as
      numbers), otherwise the Celsius value. */
  function ConvertFahrenheitToCelsius(fahrenheit: PyValue): (r: Result<real, Exc>)
    ensures r.Err? <==> !IsNumber(fahrenheit)
    ensures r.Err? ==> r.error == TypeError("Input must be a number")
    ensures r.Ok? ==> Fahrenheit(r.value) == AsReal(fahrenheit)
  {
    if !IsNumber(fahrenheit) then Err(TypeError("Input must be a number")) else Ok(Celsius(AsReal(fahrenheit)))
  }

  /** A product's margin, when its `margin` entry exists and is a number. A product that is not a
      dict has none: the `.get` call fails and the loop moves on. */
  function Margin(product: PyValue): (m: Option<real>)
    ensures m.Some? <==> Get(product, "margin").Some? && IsNumber(Get(product, "margin").value)
  {
    var v := Get(product, "margin");
    if v.Some? && IsNumber(v.value) then Some(AsReal(v.value)) else None
  }

  /** Whether a product counts as underperforming: its margin is a number below the threshold. */
  predicate Underperforming(threshold: real, product: PyValue) {
    Margin(product).Some? && Margin(product).value < threshold
  }

  /** The products the loop keeps, in their original order. */
  function Selected(products: seq<PyValue>, threshold: real): seq<PyValue> {
    Seqs.Filter(products, (p: PyValue) => Underperforming(threshold, p))
  }

  /** `identify_underperforming_products`: a non-numeric threshold is a `TypeError` before any
      product is looked at; otherwise the products with a numeric margin below the threshold, and
      only those. */
  function IdentifyUnderperforming(products: seq<PyValue>, threshold: PyValue): (r: Result<seq<PyValue>, Exc>)
    ensures r.Err? <==> !IsNumber(threshold)
    ensures r.Err? ==> r.error == TypeError("Margin threshold must be a number.")
    ensures r.Ok? ==> |r.value| <= |products|
    ensures r.Ok? ==> forall i :: 0 <= i < |r.value| ==>
                        r.value[i] in products && Underperforming(AsReal(threshold), r.value[i])
    ensures r.Ok? ==> forall i :: 0 <= i < |products| && Underperforming(AsReal(threshold), products[i]) ==>
                        products[i] in r.value
  {
    if !IsNumber(threshold) then Err(TypeError("Margin threshold must be a number."))
    else Ok(Selected(products, AsReal(threshold)))
  }

  /** The selection works product by product: selecting from two lists one after the other gives
      the two selections one after the other, so the original order is kept. */
  lemma SelectionIsOrderPreserving(a: seq<PyValue>, b: seq<PyValue>, threshold: PyValue)
    requires IsNumber(threshold)
    ensures IdentifyUnderperforming(a + b, threshold).value ==
              IdentifyUnderperforming(a, threshold).value + IdentifyUnderperforming(b, threshold).value
  {
    Seqs.FilterConcat(a, b, (p: PyValue) => Underperforming(AsReal(threshold), p));
  }

  /** Running the selection again on its own output changes nothing. */
  lemma SelectionIdempotent(products: seq<PyValue>, threshold: PyValue)
    requires IsNumber(threshold)
    ensures var once := IdentifyUnderperforming(products, threshold).value;
            IdentifyUnderperforming(once, threshold) == Ok(once)
  {
    Seqs.FilterIdempotent(products, (p: PyValue) => Underperforming(AsReal(threshold), p));
  }

  /** A threshold above every product's numeric margin returns all the products; no margin below
      it returns none. */
  lemma SelectionExtremes(products: seq<PyValue>, threshold: PyValue)
    requires IsNumber(threshold)
    ensures (forall i :: 0 <= i < |products| ==> Underperforming(AsReal(threshold), products[i])) ==>
              IdentifyUnderperforming(products, threshold) == Ok(products)
    ensures (forall i :: 0 <= i < |products| ==> !Underperforming(AsReal(threshold), products[i])) ==>
              IdentifyUnderperforming(products, threshold) == Ok([])
  {
    if forall i :: 0 <= i < |products| ==> Underperforming(AsReal(threshold), products[i]) {
      Seqs.FilterKeepsAll(products, (p: PyValue) => Underperforming(AsReal(threshold), p));
    }
    if forall i :: 0 <= i < |products| ==> !Underperforming(AsReal(threshold), products[i]) {
      Seqs.FilterDropsAll(products, (p: PyValue) => Underperforming(AsReal(threshold), p));
    }
  }

  /** A `csv.DictReader` row. A column the row ran out of values for maps to `None`. */
  type CsvRow = map<string, Option<string>>

  /** What opening and reading the CSV file gives: no such file, a failure while reading, or the rows. */
  datatype CsvFile = Missing | Unreadable(reason: string) | Table(rows: seq<CsvRow>)

  /** One entry of the report. */
  datatype MarginEntry = MarginEntry(productName: Option<string>, profitMargin: Option<real>)

  /** `row.get(key, '')`. */
  function RowField(row: CsvRow, key: string): Option<string> {
    if key in row then row[key] else Some("")
  }

  /** `float(row.get(key, ''))`, with `None` where Python raises: `float(None)` is a `TypeError`, and
      `parse` says which strings `float` rejects with a `ValueError`. */
  function ParsedField(row: CsvRow, key: string, parse: string -> Option<real>): Option<real> {
    var v := RowField(row, key);
    if v.None? then None else parse(v.value)
  }

  /** The profit margin of one row: `(price - cost) / price` for a positive price and a non-negative
      cost, `None` otherwise and whenever either field does not parse. The margin is at most 1, and
      not negative exactly when the cost does not exceed the price. */
  function ProfitMargin(row: CsvRow, parse: string -> Option<real>): (m: Option<real>)
    ensures var price, cost := ParsedField(row, "price", parse), ParsedField(row, "cost", parse);
            && (m.Some? <==> price.Some? && cost.Some? && price.value > 0.0 && cost.value >= 0.0)
            && (m.Some? ==> m.value <= 1.0 && m.value * price.value == price.value - cost.value)
            && (m.Some? ==> (0.0 <= m.value <==> cost.value <= price.value))
  {
    var price, cost := ParsedField(row, "price", parse), ParsedField(row, "cost", parse);
    if price.None? || cost.None? then None
    else if price.value <= 0.0 || cost.value < 0.0 then None
    else
      var m := (price.value - cost.value) / price.value;
      MarginBounds(price.value, cost.value, m);
      Some(m)
  }

  /** `(price - cost) / price` for a positive price and a non-negative cost. */
  lemma MarginBounds(price: real, cost: real, m: real)
    requires price > 0.0 && cost >= 0.0 && m == (price - cost) / price
    ensures m <= 1.0 && m * price == price - cost
    ensures 0.0 <= m <==> cost <= price
  {
    assert m * price == price - cost;
    if m < 0.0 {
      assert m * price < 0.0;
    }
    if cost > price {
      assert m * price < 0.0;
    }
  }

  /** `calculate_profit_margins`: a missing file is a `FileNotFoundError`, any other failure while
      reading a plain `Exception`; otherwise one entry per row, in row order, with the product name
      (`''` when the column is absent) and the row's margin. */
  function CalculateProfitMargins(filePath: string, file: CsvFile, parse: string -> Option<real>)
    : (r: Result<seq<MarginEntry>, Exc>)
    ensures file.Missing? <==> r.Err? && r.error.FileNotFoundError?
    ensures file.Unreadable? <==> r.Err? && r.error.PlainException?
    ensures file.Table? ==> r.Ok? && |r.value| == |file.rows|
    ensures file.Table? ==> forall i :: 0 <= i < |file.rows| ==>
              r.value[i].productName == RowField(file.rows[i], "product_name")
              && r.value[i].profitMargin == ProfitMargin(file.rows[i], parse)
  {
    match file
    case Missing => Err(FileNotFoundError("The file at " + filePath + " was not found."))
    case Unreadable(reason) => Err(PlainException("An error occurred while processing the file: " + reason))
    case Table(rows) =>
      Ok(seq(|rows|, i requires 0 <= i < |rows| =>
               MarginEntry(RowField(rows[i], "product_name"), ProfitMargin(rows[i], parse))))
  }

  /** A row without a price or cost column, or with `float` refusing either value, has no margin;
      so does a row with a zero price or a negative cost. */
  lemma MarginlessRows(row: CsvRow, parse: string -> Option<real>)
    requires parse("") == None
    ensures "price" !in row || "cost" !in row ==> ProfitMargin(row, parse) == None
    ensures ParsedField(row, "price", parse) == Some(0.0) ==> ProfitMargin(row, parse) == None
    ensures ParsedField(row, "cost", parse).Some? && ParsedField(row, "cost", parse).value < 0.0 ==>
              ProfitMargin(row, parse) == None
  {
  }
}

=== FILE: numeric.dfy ===
/** Real-number helpers shared by the learning components: Python's `int()` on a float, and the
    exponential moving averages they keep. */
module Numeric {
  /** Python's `int(x)` on a float: truncation toward zero. */
  function Truncate(x: real): (r: int)
    ensures 0.0 <= x ==> r as real <= x < r as real + 1.0
    ensures x < 0.0 ==> r as real - 1.0 < x <= r as real
  {
    if x >= 0.0 then x.Floor else -((-x).Floor)
  }

  /** `alpha * sample + (1 - alpha) * previous`: lies between the sample and the previous value. */
  function Ema(alpha: real, sample: real, previous: real): (r: real)
    requires 0.0 <= alpha <= 1.0
    ensures sample <= previous ==> sample <= r <= previous
    ensures previous <= sample ==> previous <= r <= sample
    ensures 0.0 <= sample <= 1.0 && 0.0 <= previous <= 1.0 ==> 0.0 <= r <= 1.0
  {
    var r := alpha * sample + (1.0 - alpha) * previous;
    EmaBetween(alpha, sample, previous, r);
    r
  }

  /** The weighted average lies between its two ends. */
  lemma EmaBetween(alpha: real, sample: real, previous: real, r: real)
    requires 0.0 <= alpha <= 1.0 && r == alpha * sample + (1.0 - alpha) * previous
    ensures sample <= previous ==> sample <= r <= previous
    ensures previous <= sample ==> previous <= r <= sample
  {
    if sample <= previous {
      Toward(1.0 - alpha, alpha, sample, previous);
    }
    if previous <= sample {
      Toward(alpha, 1.0 - alpha, previous, sample);
    }
  }

  /** Weights `w` on `hi` and `1 - w` on `lo <= hi` give a value in [lo, hi]. */
  lemma Toward(w: real, v: real, lo: real, hi: real)
    requires 0.0 <= w <= 1.0 && v == 1.0 - w && lo <= hi
    ensures lo <= w * hi + v * lo <= hi
  {
    var p := (hi - lo) * w;
    Scale(hi - lo, w);
    assert w * hi + v * lo == lo + p;
  }

  /** Scaling by a factor in [0, 1] keeps a non-negative value between 0 and itself. */
  lemma Scale(x: real, factor: real)
    requires 0.0 <= factor <= 1.0
    ensures 0.0 <= x ==> 0.0 <= x * factor <= x
  {
  }

  /** `min(a, b)`. */
  function Min(a: real, b: real): (r: real)
    ensures r <= a && r <= b && (r == a || r == b)
  {
    if a <= b then a else b
  }

  /** `max(a, b)`. */
  function Max(a: real, b: real): (r: real)
    ensures a <= r && b <= r && (r == a || r == b)
  {
    if a >= b then a else b
  }

  /** Python's `sum()` over a list of floats. */
  function Sum(xs: seq<real>): real {
    if |xs| == 0 then 0.0 else Sum(xs[..|xs| - 1]) + xs[|xs| - 1]
  }

  /** When every element lies in [lo, hi], the sum lies between `n * lo` and `n * hi`, so the mean
      lies in [lo, hi]. */
  lemma {:induction false} SumBounds(xs: seq<real>, lo: real, hi: real)
    requires forall i :: 0 <= i < |xs| ==> lo <= xs[i] <= hi
    ensures |xs| as real * lo <= Sum(xs) <= |xs| as real * hi
  {
    if |xs| > 0 {
      SumBounds(xs[..|xs| - 1], lo, hi);
    }
  }

  /** `part / total` for counts, with `part <= total`: a rate in [0, 1] that scales back to `part`. */
  function Ratio(part: nat, total: nat): (r: real)
    requires 0 < total && part <= total
    ensures 0.0 <= r <= 1.0 && r * total as real == part as real
  {
    part as real / total as real
  }
}

=== FILE: orchestrator.dfy ===
/** Request routing (`src/orchestrator.py`, `process_request`): search the registry, execute a
    found tool, and synthesize a new tool only when none was found or the found one did not fit the
    prompt's arguments, at most once per request.

    The registry, the executor's retry loop and the synthesis pipeline are the models of the other
    modules. One call of `execute_tool` for a tool is a parameter (`attempt`), as are the response
    synthesizer's three replies, which never raise. The progress callback is modelled by the events
    it raises on; it is shared with the synthesis pipeline. */
module Orchestrator {
  import opened Wrappers
  import opened PyValues
  import Executor
  import CapabilityRegistry
  import SynthesisEngine

  /** A progress event of `process_request`; synthesis events are passed through. */
  datatype OEvent =
    | Searching | ToolFound(name: string) | Executing(name: string) | ExecutionComplete(name: string)
    | SynthesizingResponse | Complete | ToolMismatch(name: string) | ExecutionFailed(error: string)
    | NoToolFound | EnteringSynthesisMode | FromSynthesis(e: SynthesisEngine.SynthEvent)
    | SynthesisFailed(error: string) | SynthesisSuccessful(name: string) | ErrorEvent

  /** The dictionary `process_request` returns; absent keys are `None`. */
  datatype Reply = Reply(success: bool, response: string, toolName: Option<string>,
                         toolResult: Option<PyValue>, error: Option<string>,
                         synthesized: Option<bool>, synthesisFailed: bool)

  /** The services a request uses. */
  datatype Services = Services(
    rpc: (real, int) -> Result<seq<CapabilityRegistry.SearchRow>, string>,
    attempt: (CapabilityRegistry.ToolInfo, nat) -> Result<PyValue, Exc>,
    synth: SynthesisEngine.SynthEnv,
    respond: (string, PyValue) -> string,
    respondError: (string, string) -> string,
    respondSynthesized: (string, string, PyValue) -> string,
    raises: OEvent -> bool,
    callbackError: string)

  /** What a request did: the events the callback saw, the registry afterwards, the results of the
      `execute_with_retry` calls in order, and the number of syntheses. */
  datatype Trace = Trace(events: seq<OEvent>, registry: CapabilityRegistry.Registry,
                         executions: seq<Executor.RetryOutcome>, syntheses: nat)

  /** A request: the reply (`Err` when `process_request` itself raises) and its trace. */
  datatype Run = Run(outcome: Result<Reply, string>, trace: Trace)

  /** The text of the `TypeError` raised when `execute_tool` is given `None` for the tool. */
  const NoneNotSubscriptable: string := "'NoneType' object is not subscriptable"

  /** `execute_with_retry` with the default number of retries, for a tool that may be missing. */
  function ExecuteFor(info: Option<CapabilityRegistry.ToolInfo>, s: Services): Executor.RetryOutcome {
    Executor.ExecuteWithRetry(Executor.DefaultMaxRetries,
      (k: nat) => if info.None? then Err(TypeError(NoneNotSubscriptable)) else s.attempt(info.value, k))
  }

  /** `execute_with_retry` with the default retries always reports an error when it fails. */
  lemma FailureHasError(info: Option<CapabilityRegistry.ToolInfo>, s: Services)
    ensures ExecuteFor(info, s).Failed? ==> ExecuteFor(info, s).error.Some?
  {
  }

  /** A tool that is missing when it is executed fails on every attempt, as an execution error. */
  lemma MissingToolFails(s: Services)
    ensures ExecuteFor(None, s) == Executor.Failed(Some(NoneNotSubscriptable), Executor.ExecutionError, 3)
  {
    var r := ExecuteFor(None, s);
    var run: nat -> Result<PyValue, Exc> := k => Err(TypeError(NoneNotSubscriptable));
    assert Executor.Retryable(run(0)) && Executor.Retryable(run(1)) && Executor.Retryable(run(2));
    assert forall k :: 0 <= k <= Executor.DefaultMaxRetries ==> Executor.Retryable(run(k));
  }

  /** The registry search `process_request` starts with; an `Err` is what the search raised. */
  function Search(reg: CapabilityRegistry.Registry, s: Services)
    : Result<(CapabilityRegistry.Registry, Option<CapabilityRegistry.ToolInfo>), string> {
    CapabilityRegistry.SearchTool(reg, None, s.rpc)
  }

  /** The outer handler: report the error; when that report raises too, `process_request` raises. */
  function Outer(prompt: string, t: Trace, error: string, s: Services): (run: Run)
    ensures run.trace == t.(events := t.events + [ErrorEvent])
    ensures run.outcome.Ok? ==> !run.outcome.value.success && run.outcome.value.error == Some(error)
  {
    var t' := t.(events := t.events + [ErrorEvent]);
    if s.raises(ErrorEvent) then Run(Err(s.callbackError), t')
    else Run(Ok(Reply(false, s.respondError(prompt, "An unexpected error occurred: " + error), None, None,
                      Some(error), None, false)), t')
  }

  /** The synthesis pipeline's events as the callback receives them. */
  function Wrap(evs: seq<SynthesisEngine.SynthEvent>): (r: seq<OEvent>)
    ensures |r| == |evs| && forall i :: 0 <= i < |r| ==> r[i] == FromSynthesis(evs[i])
  {
    seq(|evs|, i requires 0 <= i < |evs| => FromSynthesis(evs[i]))
  }

  /** The last element of a non-empty sequence. */
  function Last<T>(xs: seq<T>): T
    requires |xs| > 0
  {
    xs[|xs| - 1]
  }

  /** A successful reply carries the result of the last `execute_with_retry`, which succeeded. */
  predicate SuccessIsExecuted(run: Run) {
    run.outcome.Ok? && run.outcome.value.success ==>
      && |run.trace.executions| > 0 && Last(run.trace.executions).Succeeded?
      && run.outcome.value.toolResult == Some(Last(run.trace.executions).result)
  }

  /** `process_request`. */
  function ProcessRequest(prompt: string, reg: CapabilityRegistry.Registry, s: Services): (run: Run)
    ensures run.trace.syntheses <= 1
    ensures SuccessIsExecuted(run)
    ensures !s.raises(ErrorEvent) ==> run.outcome.Ok?
    ensures run.trace.syntheses == 1 ==>
      Search(reg, s).Ok? &&
      (Search(reg, s).value.1.None?
       || (|run.trace.executions| > 0 && run.trace.executions[0].Failed?
           && run.trace.executions[0].errorType == Executor.ArgumentError))
    ensures Search(reg, s).Ok? && Search(reg, s).value.1.Some? && |run.trace.executions| > 0 ==>
      run.trace.executions[0] == ExecuteFor(Search(reg, s).value.1, s)
    ensures run.outcome.Ok? && run.outcome.value.synthesisFailed ==>
      && !run.outcome.value.success && run.trace.syntheses == 1 && Search(reg, s).Ok?
      && |run.trace.executions| == (if Search(reg, s).value.1.Some? then 1 else 0)
    ensures !s.raises(Searching) && Search(reg, s).Err? ==>
      && run.trace.executions == [] && run.trace.syntheses == 0 && run.trace.registry == reg
      && run.trace.events == [Searching, ErrorEvent]
      && (run.outcome.Ok? ==> !run.outcome.value.success && run.outcome.value.error == Some(Search(reg, s).error))
  {
    var t := Trace([Searching], reg, [], 0);
    if s.raises(Searching) then Outer(prompt, t, s.callbackError, s)
    else
      match Search(reg, s)
      case Err(e) => Outer(prompt, t, e, s)
      case Ok((reg1, found)) =>
        var t := t.(registry := reg1);
        if found.Some? then RunFound(prompt, found.value, t, s)
        else RunSynthesis(prompt, t, s)
  }

  /** A tool was found: execute it; on an argument mismatch fall through to synthesis. */
  function RunFound(prompt: string, info: CapabilityRegistry.ToolInfo, t: Trace, s: Services): (run: Run)
    requires t.executions == [] && t.syntheses == 0
    ensures run.trace.syntheses <= 1
    ensures SuccessIsExecuted(run)
    ensures !s.raises(ErrorEvent) ==> run.outcome.Ok?
    ensures |run.trace.executions| > 0 ==> run.trace.executions[0] == ExecuteFor(Some(info), s)
    ensures !s.raises(ToolFound(info.name)) && !s.raises(Executing(info.name)) ==> |run.trace.executions| > 0
    ensures run.trace.syntheses == 1 ==>
      |run.trace.executions| > 0 && run.trace.executions[0].Failed?
      && run.trace.executions[0].errorType == Executor.ArgumentError
    ensures run.outcome.Ok? && run.outcome.value.synthesisFailed ==>
      !run.outcome.value.success && run.trace.syntheses == 1 && |run.trace.executions| == 1
    ensures run.trace.executions != [] && run.trace.executions[0].Succeeded? ==> run.trace.syntheses == 0
  {
    var t := t.(events := t.events + [ToolFound(info.name)]);
    if s.raises(ToolFound(info.name)) then Outer(prompt, t, s.callbackError, s)
    else
      var t := t.(events := t.events + [Executing(info.name)]);
      if s.raises(Executing(info.name)) then Outer(prompt, t, s.callbackError, s)
      else
        var exec := ExecuteFor(Some(info), s);
        FailureHasError(Some(info), s);
        var t := t.(executions := [exec]);
        if exec.Succeeded? then Respond(prompt, info.name, exec.result, false, t, s)
        else if exec.errorType == Executor.ArgumentError then
          var t := t.(events := t.events + [ToolMismatch(info.name)]);
          if s.raises(ToolMismatch(info.name)) then Outer(prompt, t, s.callbackError, s)
          else RunSynthesis(prompt, t, s)
        else
          var t := t.(events := t.events + [ExecutionFailed(exec.error.value)]);
          if s.raises(ExecutionFailed(exec.error.value)) then Outer(prompt, t, s.callbackError, s)
          else Run(Ok(Reply(false, s.respondError(prompt, exec.error.value), Some(info.name), None,
                            Some(exec.error.value), None, false)), t)
  }

  /** After a successful execution: report it, compose the answer and report completion. */
  function Respond(prompt: string, name: string, result: PyValue, synthesized: bool, t: Trace, s: Services)
    : (run: Run)
    requires |t.executions| > 0 && Last(t.executions).Succeeded? && Last(t.executions).result == result
    ensures run.trace.executions == t.executions && run.trace.syntheses == t.syntheses
    ensures SuccessIsExecuted(run)
    ensures !s.raises(ErrorEvent) ==> run.outcome.Ok?
    ensures run.outcome.Ok? ==> !run.outcome.value.synthesisFailed
    ensures run.outcome.Ok? && run.outcome.value.success ==> run.outcome.value.synthesized == Some(synthesized)
    ensures !s.raises(ExecutionComplete(name)) && !s.raises(SynthesizingResponse) && !s.raises(Complete) ==>
      run.outcome.Ok? && run.outcome.value.success
  {
    var t := t.(events := t.events + [ExecutionComplete(name)]);
    if s.raises(ExecutionComplete(name)) then Outer(prompt, t, s.callbackError, s)
    else
      var t := t.(events := t.events + [SynthesizingResponse]);
      if s.raises(SynthesizingResponse) then Outer(prompt, t, s.callbackError, s)
      else
        var response := if synthesized then s.respondSynthesized(name, prompt, result) else s.respond(prompt, result);
        var t := t.(events := t.events + [Complete]);
        if s.raises(Complete) then Outer(prompt, t, s.callbackError, s)
        else Run(Ok(Reply(true, response, Some(name), Some(result), None, Some(synthesized), false)), t)
  }

  /** No usable tool: synthesize one, then look it up and execute it once. */
  function RunSynthesis(prompt: string, t: Trace, s: Services): (run: Run)
    requires t.syntheses == 0 && |t.executions| <= 1
    ensures t.executions <= run.trace.executions && |run.trace.executions| <= |t.executions| + 1
    ensures run.trace.syntheses <= 1
    ensures SuccessIsExecuted(run)
    ensures !s.raises(ErrorEvent) ==> run.outcome.Ok?
    ensures run.outcome.Ok? && run.outcome.value.synthesisFailed ==>
      !run.outcome.value.success && run.trace.syntheses == 1 && run.trace.executions == t.executions
    ensures !s.raises(NoToolFound) && !s.raises(EnteringSynthesisMode) ==> run.trace.syntheses == 1
  {
    var t := t.(events := t.events + [NoToolFound]);
    if s.raises(NoToolFound) then Outer(prompt, t, s.callbackError, s)
    else
      var t := t.(events := t.events + [EnteringSynthesisMode]);
      if s.raises(EnteringSynthesisMode) then Outer(prompt, t, s.callbackError, s)
      else
        var synth := SynthesisEngine.Synthesize(s.synth, t.registry, e => s.raises(FromSynthesis(e)), s.callbackError);
        var t := t.(events := t.events + Wrap(synth.events), registry := synth.registry, syntheses := 1);
        if synth.outcome.Err? then Outer(prompt, t, synth.outcome.error, s)
        else if synth.outcome.value.SynthFailed? then
          var error := synth.outcome.value.error;
          var t := t.(events := t.events + [SynthesisFailed(error)]);
          if s.raises(SynthesisFailed(error)) then Outer(prompt, t, s.callbackError, s)
          else Run(Ok(Reply(false, s.respondError(prompt, "Failed to create new capability: " + error), None, None,
                            Some(error), None, true)), t)
        else RunNewTool(prompt, synth.outcome.value.toolName, t, s)
  }

  /** Look up the synthesized tool and execute it; a failure is returned without another
      synthesis. */
  function RunNewTool(prompt: string, name: string, t: Trace, s: Services): (run: Run)
    ensures t.executions <= run.trace.executions && |run.trace.executions| <= |t.executions| + 1
    ensures run.trace.syntheses == t.syntheses
    ensures SuccessIsExecuted(run)
    ensures !s.raises(ErrorEvent) ==> run.outcome.Ok?
    ensures run.outcome.Ok? ==> !run.outcome.value.synthesisFailed
    ensures !s.raises(SynthesisSuccessful(name)) && !s.raises(Executing(name)) ==>
      run.trace.executions == t.executions + [ExecuteFor(CapabilityRegistry.GetToolByName(t.registry, name).1, s)]
  {
    var t := t.(events := t.events + [SynthesisSuccessful(name)]);
    if s.raises(SynthesisSuccessful(name)) then Outer(prompt, t, s.callbackError, s)
    else
      var (reg2, info) := CapabilityRegistry.GetToolByName(t.registry, name);
      var t := t.(events := t.events + [Executing(name)], registry := reg2);
      if s.raises(Executing(name)) then Outer(prompt, t, s.callbackError, s)
      else
        var exec := ExecuteFor(info, s);
        FailureHasError(info, s);
        var t := t.(executions := t.executions + [exec]);
        if exec.Succeeded? then Respond(prompt, name, exec.result, true, t, s)
        else
          var t := t.(events := t.events + [ExecutionFailed(exec.error.value)]);
          if s.raises(ExecutionFailed(exec.error.value)) then Outer(prompt, t, s.callbackError, s)
          else Run(Ok(Reply(false, s.respondError(prompt, exec.error.value), Some(name), None,
                            Some(exec.error.value), Some(true), false)), t)
  }

  /** The callback never raises. */
  ghost predicate Quiet(raises: OEvent -> bool) {
    forall e :: !raises(e)
  }

  /** A found tool that executes successfully answers the request without any synthesis; one that
      fails other than by an argument mismatch fails the request, again without synthesis; an
      argument mismatch leads to exactly one synthesis. */
  lemma FoundToolAnswers(prompt: string, reg: CapabilityRegistry.Registry, s: Services)
    requires Quiet(s.raises) && Search(reg, s).Ok? && Search(reg, s).value.1.Some?
    ensures var run := ProcessRequest(prompt, reg, s);
      var exec := ExecuteFor(Search(reg, s).value.1, s);
      && run.outcome.Ok? && |run.trace.executions| > 0 && run.trace.executions[0] == exec
      && (exec.Succeeded? ==>
            run.trace.syntheses == 0 && run.outcome.value.success
            && run.outcome.value.synthesized == Some(false) && run.outcome.value.toolResult == Some(exec.result))
      && (exec.Failed? && exec.errorType == Executor.ExecutionError ==>
            run.trace.syntheses == 0 && !run.outcome.value.success && run.outcome.value.error == exec.error)
      && (exec.Failed? && exec.errorType == Executor.ArgumentError ==> run.trace.syntheses == 1)
  {
    var (reg1, found) := Search(reg, s).value;
    var t := Trace([Searching], reg1, [], 0);
    assert ProcessRequest(prompt, reg, s) == RunFound(prompt, found.value, t, s);
    QuietFound(prompt, found.value, t, s);
  }

  /** A search that raises (the embedding call or the `search_tools` procedure) reaches the outer
      handler: with a quiet callback the request fails with "An unexpected error occurred: ..." and
      nothing is executed or synthesized. */
  lemma SearchFailureReplies(prompt: string, reg: CapabilityRegistry.Registry, s: Services)
    requires Quiet(s.raises) && Search(reg, s).Err?
    ensures var e := Search(reg, s).error;
      var run := ProcessRequest(prompt, reg, s);
      && run.outcome == Ok(Reply(false, s.respondError(prompt, "An unexpected error occurred: " + e), None, None,
                                 Some(e), None, false))
      && run.trace.executions == [] && run.trace.syntheses == 0
  {
    assert !s.raises(Searching) && !s.raises(ErrorEvent);
  }

  /** `FoundToolAnswers` from the point where the tool was found. */
  lemma QuietFound(prompt: string, info: CapabilityRegistry.ToolInfo, t: Trace, s: Services)
    requires Quiet(s.raises) && t.executions == [] && t.syntheses == 0
    ensures var run := RunFound(prompt, info, t, s);
      var exec := ExecuteFor(Some(info), s);
      && run.outcome.Ok? && |run.trace.executions| > 0 && run.trace.executions[0] == exec
      && (exec.Succeeded? ==>
            run.trace.syntheses == 0 && run.outcome.value.success
            && run.outcome.value.synthesized == Some(false) && run.outcome.value.toolResult == Some(exec.result))
      && (exec.Failed? && exec.errorType == Executor.ExecutionError ==>
            run.trace.syntheses == 0 && !run.outcome.value.success && run.outcome.value.error == exec.error)
      && (exec.Failed? && exec.errorType == Executor.ArgumentError ==> run.trace.syntheses == 1)
  {
    var exec := ExecuteFor(Some(info), s);
    FailureHasError(Some(info), s);
    assert !s.raises(ToolFound(info.name)) && !s.raises(Executing(info.name)) && !s.raises(ErrorEvent);
    var t1 := t.(events := t.events + [ToolFound(info.name)]);
    var t2 := t1.(events := t1.events + [Executing(info.name)], executions := [exec]);
    var run := RunFound(prompt, info, t, s);
    if exec.Succeeded? {
      assert !s.raises(ExecutionComplete(info.name)) && !s.raises(SynthesizingResponse) && !s.raises(Complete);
      assert run == Respond(prompt, info.name, exec.result, false, t2, s);
    } else if exec.errorType == Executor.ArgumentError {
      assert !s.raises(ToolMismatch(info.name)) && !s.raises(NoToolFound) && !s.raises(EnteringSynthesisMode);
      assert run == RunSynthesis(prompt, t2.(events := t2.events + [ToolMismatch(info.name)]), s);
    } else {
      assert !s.raises(ExecutionFailed(exec.error.value));
    }
  }

  /** When nothing was found and synthesis succeeded, the tool executed is the one just
      registered, with the synthesized code. */
  lemma NewToolIsExecuted(prompt: string, reg: CapabilityRegistry.Registry, s: Services)
    requires Quiet(s.raises) && Search(reg, s).Ok? && Search(reg, s).value.1.None?
    ensures var synth := SynthesisEngine.Synthesize(s.synth, Search(reg, s).value.0, e => s.raises(FromSynthesis(e)),
                                                     s.callbackError);
      synth.outcome.Ok? && synth.outcome.value.Synthesized? ==>
        var info := CapabilityRegistry.GetToolByName(synth.registry, synth.outcome.value.toolName).1;
        && info.Some? && info.value.code == synth.outcome.value.code
        && ProcessRequest(prompt, reg, s).trace.executions == [ExecuteFor(info, s)]
  {
    var raises := e => s.raises(FromSynthesis(e));
    var (reg1, found) := Search(reg, s).value;
    var t0 := Trace([Searching], reg1, [], 0);
    assert !s.raises(Searching) && !s.raises(NoToolFound) && !s.raises(EnteringSynthesisMode);
    assert ProcessRequest(prompt, reg, s) == RunSynthesis(prompt, t0, s);
    var synth := SynthesisEngine.Synthesize(s.synth, reg1, raises, s.callbackError);
    if synth.outcome.Ok? && synth.outcome.value.Synthesized? {
      SynthesisEngine.SynthesizedToolIsRegistered(s.synth, reg1, raises, s.callbackError);
      var name := synth.outcome.value.toolName;
      var t1 := t0.(events := t0.events + [NoToolFound]);
      var t2 := t1.(events := t1.events + [EnteringSynthesisMode]);
      var t3 := t2.(events := t2.events + Wrap(synth.events), registry := synth.registry, syntheses := 1);
      assert !s.raises(SynthesisSuccessful(name)) && !s.raises(Executing(name));
      assert RunSynthesis(prompt, t0, s) == RunNewTool(prompt, name, t3, s);
    }
  }
}

=== FILE: policy_store.dfy ===
/** Versioned policies and A/B experiments (`src/policy_store.py`). Policies are read through a
    store function with a fall-back to built-in defaults, written as new versions, and rolled back
    by writing an old value again; experiments assign sessions to variant 'a' or 'b' by hash and
    keep a per-variant metric.

    The store's `get_policy` and `update_policy` functions run server-side: their replies are
    parameters, and the writes this side sends are recorded in order. Python's `hash()` of the
    session id is a parameter. */
module PolicyStore {
  import opened Wrappers
  import opened PyValues
  import Seqs
  import Strings
  import CompositeSynthesizer

  /** The built-in policies. */
  datatype Builtin =
    | RetrievalSimilarityThreshold | CompositePromotionCriteria | WorkflowComplexityThresholds
    | CostLimits | CacheTtl | RerankingWeights

  /** The built-in policies, in declaration order. */
  const Builtins: seq<Builtin> := [RetrievalSimilarityThreshold, CompositePromotionCriteria,
                                   WorkflowComplexityThresholds, CostLimits, CacheTtl, RerankingWeights]

  /** A built-in policy's name. */
  function BuiltinName(b: Builtin): string {
    match b
    case RetrievalSimilarityThreshold => "retrieval_similarity_threshold"
    case CompositePromotionCriteria => "composite_promotion_criteria"
    case WorkflowComplexityThresholds => "workflow_complexity_thresholds"
    case CostLimits => "cost_limits"
    case CacheTtl => "cache_ttl"
    case RerankingWeights => "reranking_weights"
  }

  /** A built-in policy's type. */
  function BuiltinType(b: Builtin): string {
    match b
    case RetrievalSimilarityThreshold => "retrieval_threshold"
    case CompositePromotionCriteria => "planner_config"
    case WorkflowComplexityThresholds => "planner_config"
    case CostLimits => "cost_limit"
    case CacheTtl => "performance"
    case RerankingWeights => "retrieval_threshold"
  }

  /** A built-in policy's value: always a non-empty dict. */
  function BuiltinValue(b: Builtin): (v: PyValue)
    ensures v.PDict? && |v.entries| > 0
  {
    match b
    case RetrievalSimilarityThreshold =>
      PDict([Field("threshold", PFloat(0.4)), Field("rerank", PBool(true))])
    case CompositePromotionCriteria =>
      PDict([Field("min_frequency", PInt(3)), Field("min_success_rate", PFloat(0.8)),
             Field("min_confidence", PFloat(0.7))])
    case WorkflowComplexityThresholds =>
      PDict([Field("simple_max_tools", PInt(1)), Field("sequential_max_tools", PInt(3)),
             Field("requires_synthesis_threshold", PInt(5))])
    case CostLimits =>
      PDict([Field("max_tokens_per_request", PInt(10000)), Field("max_synthesis_attempts", PInt(3)),
             Field("max_llm_calls_per_request", PInt(20))])
    case CacheTtl =>
      PDict([Field("ttl_seconds", PInt(3600)), Field("enabled", PBool(true))])
    case RerankingWeights =>
      PDict([Field("similarity_weight", PFloat(0.7)), Field("success_rate_weight", PFloat(0.2)),
             Field("frequency_weight", PFloat(0.1))])
  }

  /** The built-in policy of that name, if there is one. */
  function DefaultFor(name: string): (r: Option<Builtin>)
    ensures r.Some? ==> BuiltinName(r.value) == name
    ensures r.None? ==> forall i :: 0 <= i < |Builtins| ==> BuiltinName(Builtins[i]) != name
  {
    var k := Seqs.FirstWhere(Builtins, (b: Builtin) => BuiltinName(b) == name);
    if k.Some? then Some(Builtins[k.value]) else None
  }

  /** The promotion criteria built in here are the ones the composite synthesizer falls back to. */
  lemma CriteriaDefaultsAgree()
    ensures var c := BuiltinValue(CompositePromotionCriteria);
      && Get(c, "min_frequency") == Some(PInt(3))
      && CompositeSynthesizer.DefaultCriteria.minFrequency == 3 as real
      && Get(c, "min_success_rate") == Some(PFloat(CompositeSynthesizer.DefaultCriteria.minSuccessRate))
      && Get(c, "min_confidence") == Some(PFloat(CompositeSynthesizer.DefaultCriteria.minConfidence))
  {
    var c := BuiltinValue(CompositePromotionCriteria).entries;
    DictGetAt(c, PStr("min_frequency"), 0);
    DictGetAt(c, PStr("min_success_rate"), 1);
    DictGetAt(c, PStr("min_confidence"), 2);
  }

  /** The three built-in re-ranking weights add up to one. */
  lemma WeightsSumToOne()
    ensures var w := BuiltinValue(RerankingWeights);
      && Get(w, "similarity_weight") == Some(PFloat(0.7))
      && Get(w, "success_rate_weight") == Some(PFloat(0.2))
      && Get(w, "frequency_weight") == Some(PFloat(0.1))
      && 0.7 + 0.2 + 0.1 == 1.0
  {
    var w := BuiltinValue(RerankingWeights).entries;
    DictGetAt(w, PStr("similarity_weight"), 0);
    DictGetAt(w, PStr("success_rate_weight"), 1);
    DictGetAt(w, PStr("frequency_weight"), 2);
  }

  // ----- get_policy -----

  /** `get_policy`: a truthy reply from the store is the answer; otherwise, and when the store
      raises, the built-in value for a known name, else the caller's default. */
  function GetPolicy(name: string, default: PyValue, reply: Result<PyValue, string>): (r: PyValue)
    ensures reply.Ok? && Truthy(reply.value) ==> r == reply.value
    ensures !(reply.Ok? && Truthy(reply.value)) && DefaultFor(name).Some? ==> r == BuiltinValue(DefaultFor(name).value)
    ensures !(reply.Ok? && Truthy(reply.value)) && DefaultFor(name).None? ==> r == default
  {
    if reply.Ok? && Truthy(reply.value) then reply.value
    else
      match DefaultFor(name)
      case Some(b) => BuiltinValue(b)
      case None => default
  }

  /** A known policy never comes back empty: whatever the store does, the answer is a non-empty
      value, and a store error is answered exactly like an empty reply. */
  lemma KnownPolicyAlwaysAnswered(name: string, default: PyValue, reply: Result<PyValue, string>, e: string)
    requires DefaultFor(name).Some?
    ensures Truthy(GetPolicy(name, default, reply))
    ensures GetPolicy(name, default, Err(e)) == GetPolicy(name, default, Ok(PNone))
  {
  }

  // ----- _ensure_default_policies -----

  /** A row written to `agent_policies`. */
  datatype PolicyRow = PolicyRow(name: string, policyType: string, value: PyValue, version: int,
                                 createdBy: string, isActive: bool)

  /** The row `_ensure_default_policies` inserts for a built-in policy. */
  function DefaultRow(b: Builtin): PolicyRow {
    PolicyRow(BuiltinName(b), BuiltinType(b), BuiltinValue(b), 1, "system", true)
  }

  /** The built-in policies `_ensure_default_policies` finds without an active row, in order.
      `failAt` is the index at which a store call raises, which ends the walk there. */
  function MissingDefaults(active: set<string>, failAt: Option<nat>): (r: seq<Builtin>)
    ensures forall i :: 0 <= i < |r| ==> BuiltinName(r[i]) !in active && r[i] in Builtins
    ensures failAt.None? ==> forall j :: 0 <= j < |Builtins| && BuiltinName(Builtins[j]) !in active ==>
              Builtins[j] in r
    ensures failAt.Some? ==> |r| <= failAt.value
  {
    MissingFrom(active, 0, if failAt.Some? && failAt.value < |Builtins| then failAt.value else |Builtins|)
  }

  /** The built-in policies from index `k` up to `stop` without an active row, in order. */
  function MissingFrom(active: set<string>, k: nat, stop: nat): (r: seq<Builtin>)
    requires k <= stop <= |Builtins|
    ensures |r| <= stop - k
    ensures forall i :: 0 <= i < |r| ==> BuiltinName(r[i]) !in active && r[i] in Builtins
    ensures forall j :: k <= j < stop && BuiltinName(Builtins[j]) !in active ==> Builtins[j] in r
    ensures (forall j :: k <= j < stop ==> BuiltinName(Builtins[j]) in active) ==> r == []
    decreases stop - k
  {
    if k == stop then []
    else
      var rest := MissingFrom(active, k + 1, stop);
      if BuiltinName(Builtins[k]) !in active then [Builtins[k]] + rest else rest
  }

  /** `_ensure_default_policies`: a row (version 1, by "system", active) for each built-in policy
      that has no active row. */
  function EnsureDefaultPolicies(active: set<string>, failAt: Option<nat>): (r: seq<PolicyRow>)
    ensures var missing := MissingDefaults(active, failAt);
      |r| == |missing| && forall i :: 0 <= i < |r| ==> r[i] == DefaultRow(missing[i]) && r[i].name !in active
  {
    var missing := MissingDefaults(active, failAt);
    seq(|missing|, i requires 0 <= i < |missing| => DefaultRow(missing[i]))
  }

  /** Once the defaults are in place, ensuring them again inserts nothing. */
  lemma EnsureDefaultsIdempotent(active: set<string>)
    ensures var added := set b | b in MissingDefaults(active, None) :: BuiltinName(b);
      EnsureDefaultPolicies(active + added, None) == []
  {
    var missing := MissingDefaults(active, None);
    var added := set b | b in missing :: BuiltinName(b);
    forall j | 0 <= j < |Builtins| ensures BuiltinName(Builtins[j]) in active + added {
      if BuiltinName(Builtins[j]) !in active {
        assert Builtins[j] in missing;
      }
    }
  }


  // ----- update_policy / rollback_policy -----

  /** A call of the store's `update_policy` function, with the metadata written after it. */
  datatype PolicyWrite = PolicyWrite(name: string, policyType: string, value: PyValue, createdBy: string,
                                     metadata: Option<PyValue>)

  /** The policy type written: the given one when truthy, else the built-in one, else "custom". */
  function InferType(name: string, given: Option<string>): (t: string)
    ensures given.Some? && given.value != "" ==> t == given.value
    ensures (given.None? || given.value == "") && DefaultFor(name).None? ==> t == "custom"
  {
    if given.Some? && given.value != "" then given.value
    else match DefaultFor(name)
      case Some(b) => BuiltinType(b)
      case None => "custom"
  }

  /** `update_policy`. The value must survive `json.dumps`; the store's reply is returned, and the
      metadata is written only when both it and the reply are truthy. Every failure is raised again
      as `Failed to update policy '<name>': …`, and then nothing is written. */
  function UpdatePolicy(writes: seq<PolicyWrite>, name: string, value: PyValue, policyType: Option<string>,
                        createdBy: string, metadata: Option<PyValue>, reply: Result<PyValue, string>)
    : (r: Result<(seq<PolicyWrite>, PyValue), string>)
    ensures r.Ok? <==> Dumpable(value) && reply.Ok?
    ensures r.Err? ==> Strings.StartsWith(r.error, "Failed to update policy '" + name + "': ")
    ensures r.Ok? ==>
              && r.value.1 == reply.value
              && |r.value.0| == |writes| + 1 && r.value.0[..|writes|] == writes
              && var w := r.value.0[|writes|];
                 w.name == name && w.value == value && w.createdBy == createdBy
                 && w.policyType == InferType(name, policyType)
                 && (w.metadata.Some? <==> metadata.Some? && Truthy(metadata.value) && Truthy(reply.value))
  {
    var prefix := "Failed to update policy '" + name + "': ";
    if !Dumpable(value) then Err(prefix + "Object is not JSON serializable")
    else if reply.Err? then Err(prefix + reply.error)
    else
      var meta := if metadata.Some? && Truthy(metadata.value) && Truthy(reply.value) then metadata else None;
      assert (writes + [PolicyWrite(name, InferType(name, policyType), value, createdBy, meta)])[..|writes|] == writes;
      Ok((writes + [PolicyWrite(name, InferType(name, policyType), value, createdBy, meta)], reply.value))
  }

  /** `rollback_policy`: `False` for a version the history does not have (or when reading it
      fails); otherwise the old row's value and type are written again as a new version by
      "rollback", with the version rolled back from as metadata. History rows are never edited. */
  function RollbackPolicy(history: seq<PolicyRow>, writes: seq<PolicyWrite>, name: string, version: int,
                          readOk: bool, reply: Result<PyValue, string>): (r: (seq<PolicyWrite>, bool))
    ensures var k := Seqs.FirstWhere(history, (p: PolicyRow) => p.name == name && p.version == version);
      && (r.1 <==> readOk && k.Some? && Dumpable(history[k.value].value) && reply.Ok?)
      && (!r.1 ==> r.0 == writes)
      && (r.1 ==> |r.0| == |writes| + 1 && r.0[..|writes|] == writes
                  && r.0[|writes|].name == name && r.0[|writes|].value == history[k.value].value
                  && r.0[|writes|].createdBy == "rollback")
  {
    var k := Seqs.FirstWhere(history, (p: PolicyRow) => p.name == name && p.version == version);
    if !readOk || k.None? then (writes, false)
    else
      var prev := history[k.value];
      var meta := PDict([Field("rollback_from_version", PInt(version))]);
      match UpdatePolicy(writes, name, prev.value, Some(prev.policyType), "rollback", Some(meta), reply)
      case Ok((w, _)) => (w, true)
      case Err(_) => (writes, false)
  }

  // ----- A/B experiments -----

  /** A variant's metric column: missing from the row, present but null, or a value. */
  datatype MetricCell = Absent | Null | Value(v: real)

  /** An active `ab_experiments` row. */
  datatype Experiment = Experiment(id: string, trafficSplit: Option<real>, aMetric: MetricCell, bMetric: MetricCell)

  /** `experiment.get("traffic_split", 0.5)`. */
  function Split(e: Experiment): real {
    e.trafficSplit.GetOr(0.5)
  }

  /** `hash(session_id) % 100`: Python's `%` by a positive number is never negative. */
  function Bucket(sessionHash: int): (b: int)
    ensures 0 <= b < 100
    ensures (sessionHash - b) % 100 == 0
  {
    sessionHash % 100
  }

  /** `get_experiment_variant`: 'a' without an active experiment or on a store error; otherwise
      'a' exactly when the session's bucket lies below the traffic split times 100. */
  function GetExperimentVariant(lookup: Result<Option<Experiment>, string>, sessionHash: int): (r: char)
    ensures r == 'a' || r == 'b'
    ensures lookup.Err? || lookup.value.None? ==> r == 'a'
    ensures lookup.Ok? && lookup.value.Some? ==>
              (r == 'a' <==> (Bucket(sessionHash) as real) < Split(lookup.value.value) * 100.0)
    ensures lookup.Ok? && lookup.value.Some? && Split(lookup.value.value) >= 1.0 ==> r == 'a'
    ensures lookup.Ok? && lookup.value.Some? && Split(lookup.value.value) <= 0.0 ==> r == 'b'
  {
    if lookup.Err? || lookup.value.None? then 'a'
    else if (Bucket(sessionHash) as real) < Split(lookup.value.value) * 100.0 then 'a'
    else 'b'
  }

  /** How many of the buckets 0 .. n-1 an experiment with this split sends to 'a'. */
  function BucketsToA(e: Experiment, n: nat): nat {
    if n == 0 then 0
    else BucketsToA(e, n - 1) + (if GetExperimentVariant(Ok(Some(e)), n - 1) == 'a' then 1 else 0)
  }

  /** A split of k/100 sends exactly k of the 100 buckets to variant 'a'. */
  lemma {:induction false} SplitSendsShare(e: Experiment, k: nat, n: nat)
    requires k <= 100 && n <= 100 && Split(e) == k as real / 100.0
    ensures BucketsToA(e, n) == if n <= k then n else k
  {
    if n > 0 {
      SplitSendsShare(e, k, n - 1);
      assert Bucket(n - 1) == n - 1;
      assert Split(e) * 100.0 == k as real;
    }
  }

  /** `record_experiment_result`: the chosen variant's metric becomes the mean of its current value
      (the new value itself when the column is missing) and the new value. Any variant other than
      'a' counts as 'b'. A null column makes the addition raise, which is swallowed, as are store
      errors: then nothing is written (`None`). */
  function RecordExperimentResult(lookup: Result<Option<Experiment>, string>, variant: string, value: real)
    : (r: Option<Experiment>)
    ensures lookup.Err? || lookup.value.None? ==> r.None?
    ensures lookup.Ok? && lookup.value.Some? ==>
              var e := lookup.value.value;
              var cell := if variant == "a" then e.aMetric else e.bMetric;
              && (r.None? <==> cell.Null?)
              && (r.Some? && variant == "a" ==> r.value == e.(aMetric := r.value.aMetric) && r.value.aMetric.Value?)
              && (r.Some? && variant != "a" ==> r.value == e.(bMetric := r.value.bMetric) && r.value.bMetric.Value?)
              && (r.Some? && cell.Absent? ==> (if variant == "a" then r.value.aMetric else r.value.bMetric) == Value(value))
  {
    if lookup.Err? || lookup.value.None? then None
    else
      var e := lookup.value.value;
      var cell := if variant == "a" then e.aMetric else e.bMetric;
      match cell
      case Null => None
      case Absent => if variant == "a" then Some(e.(aMetric := Value((value + value) / 2.0)))
                     else Some(e.(bMetric := Value((value + value) / 2.0)))
      case Value(c) => if variant == "a" then Some(e.(aMetric := Value((c + value) / 2.0)))
                       else Some(e.(bMetric := Value((c + value) / 2.0)))
  }

  /** Recording halves the distance between the stored metric and the recorded value: the stored
      metric is an exponential average with weight 1/2 on the newest value, not a running mean. */
  lemma RecordHalvesDistance(e: Experiment, variant: string, current: real, value: real)
    requires (if variant == "a" then e.aMetric else e.bMetric) == Value(current)
    ensures var r := RecordExperimentResult(Ok(Some(e)), variant, value);
      r.Some? && var stored := (if variant == "a" then r.value.aMetric else r.value.bMetric).v;
      stored - value == (current - value) / 2.0
  {
  }
}

=== FILE: py_values.dfy ===
/** Python's dynamic values and exceptions, as far as the agent's components inspect them. */
module PyValues {
  import opened Wrappers

  /** A Python value. `PObject` is any other object, carried with the text `str()` gives for it. */
  datatype PyValue =
    | PNone
    | PBool(b: bool)
    | PInt(i: int)
    | PFloat(f: real)
    | PStr(s: string)
    | PList(items: seq<PyValue>)
    | PTuple(items: seq<PyValue>)
    | PDict(entries: seq<Entry>)
    | PObject(text: string)

  /** One key/value pair of a dict, in insertion order. */
  datatype Entry = Entry(key: PyValue, value: PyValue)

  /** The exceptions the components raise or catch. `ValueError` covers `json.JSONDecodeError`,
      which is a subclass of it; `PlainException` is a bare `Exception` or any class no handler names. */
  datatype Exc =
    | TypeError(msg: string)
    | ValueError(msg: string)
    | FileNotFoundError(msg: string)
    | KeyError(msg: string)
    | PlainException(msg: string)

  /** `isinstance(v, (int, float))`: in Python `bool` is a subclass of `int`, so booleans count. */
  predicate IsNumber(v: PyValue) {
    v.PBool? || v.PInt? || v.PFloat?
  }

  /** `isinstance(v, int)`, which booleans also satisfy. */
  predicate IsInt(v: PyValue) {
    v.PBool? || v.PInt?
  }

  /** The integer a value passing `IsInt` stands for (`True` is 1). */
  function AsInt(v: PyValue): int
    requires IsInt(v)
  {
    match v
    case PBool(b) => if b then 1 else 0
    case PInt(i) => i
  }

  /** The number a value passing `IsNumber` stands for. */
  function AsReal(v: PyValue): real
    requires IsNumber(v)
  {
    match v
    case PFloat(f) => f
    case _ => AsInt(v) as real
  }

  /** Python truthiness (`bool(v)`). */
  predicate Truthy(v: PyValue) {
    match v
    case PNone => false
    case PBool(b) => b
    case PInt(i) => i != 0
    case PFloat(f) => f != 0.0
    case PStr(s) => s != ""
    case PList(xs) => xs != []
    case PTuple(xs) => xs != []
    case PDict(es) => es != []
    case PObject(_) => true
  }

  /** `d.get(key)` on a dict's entries: the value of the first entry with that key. */
  function DictGet(entries: seq<Entry>, key: PyValue): (r: Option<PyValue>)
    ensures r.Some? <==> exists i :: 0 <= i < |entries| && entries[i].key == key
    ensures r.Some? ==> exists i :: 0 <= i < |entries| && entries[i].key == key && entries[i].value == r.value
  {
    if |entries| == 0 then None
    else if entries[0].key == key then Some(entries[0].value)
    else
      var r := DictGet(entries[1..], key);
      assert forall i :: 0 < i < |entries| ==> entries[i] == entries[1..][i - 1];
      r
  }

  /** `d[key] = value` on a dict's entries: an existing key keeps its place, a new one goes last. */
  function DictSet(entries: seq<Entry>, key: PyValue, value: PyValue): (r: seq<Entry>)
    ensures DictGet(r, key) == Some(value)
    ensures forall k :: k != key ==> DictGet(r, k) == DictGet(entries, k)
  {
    if |entries| == 0 then [Entry(key, value)]
    else if entries[0].key == key then [Entry(key, value)] + entries[1..]
    else
      var rest := DictSet(entries[1..], key, value);
      assert forall i :: 0 < i < |[entries[0]] + rest| ==> ([entries[0]] + rest)[i] == rest[i - 1];
      assert forall i :: 0 < i < |entries| ==> entries[i] == entries[1..][i - 1];
      [entries[0]] + rest
  }

  /** A dict entry with a string key. */
  function Field(key: string, value: PyValue): Entry {
    Entry(PStr(key), value)
  }

  /** `d.get(key)` for a string key; `None` when `d` is not a dict. */
  function Get(d: PyValue, key: string): Option<PyValue> {
    if d.PDict? then DictGet(d.entries, PStr(key)) else None
  }

  /** The entry `DictGet` finds is the first one with the key. */
  lemma {:induction false} DictGetAt(entries: seq<Entry>, key: PyValue, i: nat)
    requires i < |entries| && entries[i].key == key
    requires forall j :: 0 <= j < i ==> entries[j].key != key
    ensures DictGet(entries, key) == Some(entries[i].value)
  {
    if i > 0 {
      assert entries[1..][i - 1] == entries[i];
      forall j | 0 <= j < i - 1 ensures entries[1..][j].key != key {
        assert entries[1..][j] == entries[j + 1];
      }
      DictGetAt(entries[1..], key, i - 1);
    }
  }

  /** A key `json.dumps` accepts in a dict: str, int, float, bool or None. */
  predicate JsonKey(k: PyValue) {
    k.PStr? || k.PInt? || k.PFloat? || k.PBool? || k.PNone?
  }

  /** Values `json.dumps` accepts without a `TypeError`: tuples are written as lists, other objects
      and dicts with other keys are refused. */
  predicate Dumpable(v: PyValue) {
    match v
    case PObject(_) => false
    case PList(xs) => forall i :: 0 <= i < |xs| ==> Dumpable(xs[i])
    case PTuple(xs) => forall i :: 0 <= i < |xs| ==> Dumpable(xs[i])
    case PDict(es) => forall i :: 0 <= i < |es| ==> JsonKey(es[i].key) && Dumpable(es[i].value)
    case _ => true
  }
}

=== FILE: query_planner.dfy ===
/** Query planning (`src/query_planner.py`): the order in which `plan_execution` tries a
    composite tool, a workflow pattern, a single tool and a multi-tool plan; the fallback analysis
    when the language model's reply cannot be used; and the arguments a dependent sub-task gets.

    The language model's replies, `json.loads` and the store's similarity searches are parameters.
    An analysis is the Python dict the model returned, as a `PyValue`. */
module QueryPlanner {
  import opened Wrappers
  import opened PyValues
  import Utils
  import CapabilityRegistry

  /** The similarity a composite tool or workflow pattern must exceed to be used as is. */
  const ReuseSimilarity: real := 0.7

  /** The similarity a registry tool must exceed to replace a multi-tool decomposition. */
  const SingleToolSimilarity: real := 0.6

  /** The thresholds handed to the store's searches for workflow patterns and composite tools. */
  const PatternSearchThreshold: real := 0.6
  const CompositeSearchThreshold: real := 0.5

  /** A composite tool found by the store's search. */
  datatype CompositeMatch = CompositeMatch(toolId: string, toolName: string, componentTools: seq<string>,
                                           successRate: real, usageCount: int, similarity: real)

  /** A workflow pattern found by the store's search. */
  datatype PatternMatch = PatternMatch(patternId: string, patternName: string, toolSequence: seq<string>,
                                       frequency: int, successRate: real, complexity: int, similarity: real)

  /** The plan `plan_execution` returns. */
  datatype Plan =
    | CompositeTool(composite: CompositeMatch)
    | WorkflowPattern(pattern: PatternMatch)
    | SingleTool(analysis: PyValue)
    | MultiToolComposition(analysis: PyValue, subTasks: PyValue)
    | MultiToolSequential(analysis: PyValue, subTasks: PyValue)

  /** The first row of a search asking for one match; `None` for no rows or a failed search. */
  function FirstMatch<T>(rows: Result<seq<T>, Exc>): (r: Option<T>)
    ensures r.Some? <==> rows.Ok? && |rows.value| > 0
    ensures r.Some? ==> r.value == rows.value[0]
  {
    if rows.Ok? && |rows.value| > 0 then Some(rows.value[0]) else None
  }

  /** `find_matching_composite_tool`: one match at the default threshold. */
  function FindMatchingCompositeTool(rpc: (real, int) -> Result<seq<CompositeMatch>, Exc>): (r: Option<CompositeMatch>)
    ensures r.Some? <==> rpc(CompositeSearchThreshold, 1).Ok? && |rpc(CompositeSearchThreshold, 1).value| > 0
    ensures r.Some? ==> r.value == rpc(CompositeSearchThreshold, 1).value[0]
  {
    FirstMatch(rpc(CompositeSearchThreshold, 1))
  }

  /** `find_matching_workflow_pattern`: one match at the default threshold. */
  function FindMatchingWorkflowPattern(rpc: (real, int) -> Result<seq<PatternMatch>, Exc>): (r: Option<PatternMatch>)
    ensures r.Some? <==> rpc(PatternSearchThreshold, 1).Ok? && |rpc(PatternSearchThreshold, 1).value| > 0
    ensures r.Some? ==> r.value == rpc(PatternSearchThreshold, 1).value[0]
  {
    FirstMatch(rpc(PatternSearchThreshold, 1))
  }

  /** A sub-task dict. */
  function SubTask(task: PyValue, order: int, dependsOn: PyValue): PyValue {
    PDict([Field("task", task), Field("order", PInt(order)), Field("depends_on", dependsOn)])
  }

  /** The analysis used when the model's reply cannot be used: one simple sub-task, the prompt. */
  function FallbackAnalysis(prompt: string): (a: PyValue)
    ensures Get(a, "is_complex") == Some(PBool(false))
    ensures Get(a, "sub_tasks") == Some(PList([SubTask(PStr(prompt), 1, PNone)]))
    ensures Get(a, "original_prompt") == Some(PStr(prompt))
  {
    var es := [Field("is_complex", PBool(false)),
               Field("sub_tasks", PList([SubTask(PStr(prompt), 1, PNone)])),
               Field("requires_composition", PBool(false)),
               Field("execution_strategy", PStr("single")),
               Field("reasoning", PStr("Fallback to simple execution due to analysis error")),
               Field("original_prompt", PStr(prompt))];
    DictGetAt(es, PStr("sub_tasks"), 1);
    DictGetAt(es, PStr("original_prompt"), 5);
    PDict(es)
  }

  /** `analyze_query`: the dict the model replied with, plus the prompt under `original_prompt`.
      A failed call, a reply without a JSON object, unparsable JSON, or JSON that is not an object
      (item assignment then raises a TypeError) all give the fallback analysis. */
  function AnalyzeQuery(prompt: string, reply: Result<string, string>, loads: string -> Option<PyValue>)
    : (a: PyValue)
    ensures a.PDict? && Get(a, "original_prompt") == Some(PStr(prompt))
    ensures a != FallbackAnalysis(prompt) ==>
      && reply.Ok? && Utils.ExtractJsonFromResponse(reply.value).Ok?
      && loads(Utils.ExtractJsonFromResponse(reply.value).value).Some?
      && var parsed := loads(Utils.ExtractJsonFromResponse(reply.value).value).value;
         parsed.PDict? && forall k :: k != PStr("original_prompt") ==> DictGet(a.entries, k) == DictGet(parsed.entries, k)
    ensures (reply.Err? || Utils.ExtractJsonFromResponse(reply.value).Err?
             || loads(Utils.ExtractJsonFromResponse(reply.value).value).None?
             || !loads(Utils.ExtractJsonFromResponse(reply.value).value).value.PDict?) ==>
      a == FallbackAnalysis(prompt)
  {
    if reply.Err? then FallbackAnalysis(prompt)
    else
      var json := Utils.ExtractJsonFromResponse(reply.value);
      if json.Err? then FallbackAnalysis(prompt)
      else
        var parsed := loads(json.value);
        if parsed.None? || !parsed.value.PDict? then FallbackAnalysis(prompt)
        else PDict(DictSet(parsed.value.entries, PStr("original_prompt"), PStr(prompt)))
  }

  /** `analysis[key]`: a missing key raises a KeyError. */
  function Index(analysis: PyValue, key: string): (r: Result<PyValue, Exc>)
    ensures r.Ok? <==> Get(analysis, key).Some?
    ensures r.Ok? ==> r.value == Get(analysis, key).value
  {
    var v := Get(analysis, key);
    if v.Some? then Ok(v.value) else Err(KeyError(key))
  }

  /** The analysis that replaces a complex one when a single registry tool fits. */
  function SingleToolAnalysis(prompt: string): (a: PyValue)
    ensures Get(a, "is_complex") == Some(PBool(false))
    ensures Get(a, "sub_tasks") == Some(PList([SubTask(PStr(prompt), 1, PNone)]))
  {
    var es := [Field("is_complex", PBool(false)),
               Field("sub_tasks", PList([SubTask(PStr(prompt), 1, PNone)])),
               Field("requires_composition", PBool(false)),
               Field("execution_strategy", PStr("single")),
               Field("reasoning", PStr("Single tool found that can handle the request"))];
    DictGetAt(es, PStr("sub_tasks"), 1);
    PDict(es)
  }

  /** A match clearing the reuse bar. */
  predicate CompositeFits(c: Option<CompositeMatch>) {
    c.Some? && c.value.similarity > ReuseSimilarity
  }

  /** A pattern clearing the reuse bar. */
  predicate PatternFits(p: Option<PatternMatch>) {
    p.Some? && p.value.similarity > ReuseSimilarity
  }

  /** A registry tool good enough to answer a complex query alone. */
  predicate SingleToolFits(t: Option<CapabilityRegistry.ToolInfo>) {
    t.Some? && t.value.similarity.GetOr(0.0) > SingleToolSimilarity
  }

  /** `plan_execution`, from what the searches found and the analysis. A missing `is_complex`,
      `requires_composition` or `sub_tasks` key raises a KeyError. */
  function PlanExecution(prompt: string, composite: Option<CompositeMatch>, pattern: Option<PatternMatch>,
                         analysis: PyValue, single: Option<CapabilityRegistry.ToolInfo>): (r: Result<Plan, Exc>)
    ensures r.Ok? && r.value.CompositeTool? <==> CompositeFits(composite)
    ensures CompositeFits(composite) ==> r == Ok(CompositeTool(composite.value))
    ensures r.Ok? && r.value.WorkflowPattern? <==> !CompositeFits(composite) && PatternFits(pattern)
    ensures !CompositeFits(composite) && PatternFits(pattern) ==> r == Ok(WorkflowPattern(pattern.value))
    ensures !CompositeFits(composite) && !PatternFits(pattern) ==>
      (r.Err? <==> Get(analysis, "is_complex").None?
                   || (Truthy(Get(analysis, "is_complex").value) && !SingleToolFits(single)
                       && (Get(analysis, "requires_composition").None? || Get(analysis, "sub_tasks").None?)))
    ensures r.Ok? && r.value.SingleTool? ==>
      !CompositeFits(composite) && !PatternFits(pattern)
      && (r.value.analysis == analysis || (SingleToolFits(single) && r.value.analysis == SingleToolAnalysis(prompt)))
    ensures r.Ok? && (r.value.MultiToolComposition? || r.value.MultiToolSequential?) ==>
      && Get(analysis, "is_complex").Some? && Truthy(Get(analysis, "is_complex").value) && !SingleToolFits(single)
      && r.value.analysis == analysis && Some(r.value.subTasks) == Get(analysis, "sub_tasks")
      && (r.value.MultiToolComposition? <==> Truthy(Get(analysis, "requires_composition").value))
  {
    if CompositeFits(composite) then Ok(CompositeTool(composite.value))
    else if PatternFits(pattern) then Ok(WorkflowPattern(pattern.value))
    else
      var complex := Index(analysis, "is_complex");
      if complex.Err? then Err(complex.error)
      else if !Truthy(complex.value) then Ok(SingleTool(analysis))
      else if SingleToolFits(single) then Ok(SingleTool(SingleToolAnalysis(prompt)))
      else
        var composition := Index(analysis, "requires_composition");
        if composition.Err? then Err(composition.error)
        else
          var subTasks := Index(analysis, "sub_tasks");
          if subTasks.Err? then Err(subTasks.error)
          else if Truthy(composition.value) then Ok(MultiToolComposition(analysis, subTasks.value))
          else Ok(MultiToolSequential(analysis, subTasks.value))
  }

  /** When the model's analysis fails and nothing can be reused, the plan is a single tool for the
      whole prompt. */
  lemma FallbackPlansSingleTool(prompt: string, composite: Option<CompositeMatch>, pattern: Option<PatternMatch>,
                                single: Option<CapabilityRegistry.ToolInfo>)
    requires !CompositeFits(composite) && !PatternFits(pattern)
    ensures PlanExecution(prompt, composite, pattern, FallbackAnalysis(prompt), single)
      == Ok(SingleTool(FallbackAnalysis(prompt)))
  {
  }

  /** `depends_on` names one of the results already computed: an integer from 1 to their number. */
  predicate RefersToResult(dependsOn: PyValue, previous: seq<PyValue>) {
    IsInt(dependsOn) && 0 < AsInt(dependsOn) <= |previous|
  }

  /** `extract_sub_task_arguments`. A sub-task that refers to an earlier result asks the model for
      arguments given that result, and uses its JSON object when it parses; anything else gives
      `{}`. A sub-task that is not a dict has no `get` and raises `AttributeError` (a
      `PlainException` here, as no handler names it). Comparing a `depends_on` that is not a number
      with 0, indexing with a float, a missing `task` key and a failed model call all raise. */
  function ExtractSubTaskArguments(subTask: PyValue, previous: seq<PyValue>,
                                   llm: (PyValue, PyValue) -> Result<string, string>,
                                   loads: string -> Option<PyValue>): (r: Result<PyValue, Exc>)
    ensures !subTask.PDict? ==> r.Err? && r.error.PlainException?
    ensures var d := Get(subTask, "depends_on").GetOr(PNone);
      subTask.PDict? && !RefersToResult(d, previous) && (d.PNone? || IsInt(d)) ==> r == Ok(PDict([]))
    ensures var d := Get(subTask, "depends_on").GetOr(PNone);
      r.Ok? && r.value != PDict([]) ==>
        && RefersToResult(d, previous) && Get(subTask, "task").Some?
        && var reply := llm(previous[AsInt(d) - 1], Get(subTask, "task").value);
           reply.Ok? && Utils.ExtractJsonFromResponse(reply.value).Ok?
           && loads(Utils.ExtractJsonFromResponse(reply.value).value) == Some(r.value)
    ensures var d := Get(subTask, "depends_on").GetOr(PNone);
      RefersToResult(d, previous) && Get(subTask, "task").Some?
      && llm(previous[AsInt(d) - 1], Get(subTask, "task").value).Err? ==>
        r == Err(PlainException(llm(previous[AsInt(d) - 1], Get(subTask, "task").value).error))
  {
    var d := Get(subTask, "depends_on").GetOr(PNone);
    if !subTask.PDict? then Err(PlainException("object has no attribute 'get'"))
    else if d.PNone? then Ok(PDict([]))
    else if !IsNumber(d) then Err(TypeError("'>' not supported between instances of a non-number and 'int'"))
    else if AsReal(d) <= 0.0 || AsReal(d) > |previous| as real then Ok(PDict([]))
    else if d.PFloat? then Err(TypeError("list indices must be integers or slices, not float"))
    else
      var prev := previous[AsInt(d) - 1];
      var task := Get(subTask, "task");
      if task.None? then Err(KeyError("task"))
      else
        var reply := llm(prev, task.value);
        if reply.Err? then Err(PlainException(reply.error))
        else
          var json := Utils.ExtractJsonFromResponse(reply.value);
          if json.Err? then Ok(PDict([]))
          else
            var parsed := loads(json.value);
            if parsed.None? then Ok(PDict([])) else Ok(parsed.value)
  }
}

=== FILE: reflection_engine.dfy ===
/** Failure reflection and self-repair (`src/reflection_engine.py`): a failed execution is
    classified from its error message, the language model proposes a root cause and a fix, and a
    fix is applied only when it passes the tool's tests plus a new regression test in the sandbox,
    which also saves it as the tool's new current version.

    The language model's replies and the sandbox's verdict are parameters; the registry is the model
    of `CapabilityRegistry`, and the `reflection_log` and `tool_versions` tables are a map and a
    sequence of rows. */
module ReflectionEngine {
  import opened Wrappers
  import opened Strings
  import opened PyValues
  import Utils
  import Sandbox
  import CapabilityRegistry

  // ----- _classify_failure -----

  /** The seven failure labels. */
  datatype FailureType =
    | ArgumentMismatch | TypeErrorFailure | ValueErrorFailure | ArithmeticError
    | DataAccessError | PerformanceDegradation | ExecutionError

  /** The label as stored. */
  function Label(f: FailureType): string {
    match f
    case ArgumentMismatch => "argument_mismatch"
    case TypeErrorFailure => "type_error"
    case ValueErrorFailure => "value_error"
    case ArithmeticError => "arithmetic_error"
    case DataAccessError => "data_access_error"
    case PerformanceDegradation => "performance_degradation"
    case ExecutionError => "execution_error"
  }

  /** `_classify_failure`: keyword tests on the lower-cased message, the first test that matches
      deciding. The inputs the source also receives are never read, so they are not a parameter. */
  function ClassifyFailure(errorMessage: string): (r: FailureType)
    ensures var low := Lower(errorMessage);
      && (r == ArgumentMismatch <==> Contains(low, "missing") || Contains(low, "required"))
      && (r == TypeErrorFailure ==> Contains(low, "type"))
      && (r == ValueErrorFailure ==> Contains(low, "valueerror") && !Contains(low, "type"))
  {
    var low := Lower(errorMessage);
    if Contains(low, "missing") || Contains(low, "required") then ArgumentMismatch
    else if Contains(low, "typeerror") || Contains(low, "type") then
      TypeErrorMentionsType(low);
      TypeErrorFailure
    else if Contains(low, "valueerror") then ValueErrorFailure
    else if Contains(low, "zerodivision") then ArithmeticError
    else if Contains(low, "key") || Contains(low, "index") then DataAccessError
    else if Contains(low, "timeout") || Contains(low, "performance") then PerformanceDegradation
    else ExecutionError
  }

  /** A message mentioning "typeerror" mentions "type": the first of the two tests of the type rule
      never decides anything the second would not. */
  lemma TypeErrorMentionsType(s: string)
    ensures Contains(s, "typeerror") ==> Contains(s, "type")
  {
    if Contains(s, "typeerror") {
      var k := Find(s, "typeerror");
      assert s[k..k + 4] == s[k..k + 9][..4];
      assert OccursAt(s, "type", k);
    }
  }

  /** The classification rules as a table: keywords and the label they give, in priority order. */
  const Rules: seq<(seq<string>, FailureType)> := [
    (["missing", "required"], ArgumentMismatch),
    (["typeerror", "type"], TypeErrorFailure),
    (["valueerror"], ValueErrorFailure),
    (["zerodivision"], ArithmeticError),
    (["key", "index"], DataAccessError),
    (["timeout", "performance"], PerformanceDegradation)
  ]

  /** The text contains one of the keywords. */
  predicate Mentions(text: string, keywords: seq<string>) {
    exists k :: 0 <= k < |keywords| && Contains(text, keywords[k])
  }

  /** The label of the first rule from index `k` on whose keywords the text mentions, else
      `execution_error`. */
  function FirstRule(text: string, rules: seq<(seq<string>, FailureType)>, k: nat): FailureType
    decreases |rules| - k
  {
    if k >= |rules| then ExecutionError
    else if Mentions(text, rules[k].0) then rules[k].1
    else FirstRule(text, rules, k + 1)
  }

  /** The classifier is the rule table read top to bottom: the first matching rule wins, and a
      message no rule matches is an `execution_error`. */
  lemma {:induction false} ClassifyIsFirstRule(errorMessage: string)
    ensures ClassifyFailure(errorMessage) == FirstRule(Lower(errorMessage), Rules, 0)
  {
    var low := Lower(errorMessage);
    var r := Rules;
    assert Mentions(low, r[0].0) <==> Contains(low, "missing") || Contains(low, "required") by {
      assert r[0].0[0] == "missing" && r[0].0[1] == "required";
    }
    assert Mentions(low, r[1].0) <==> Contains(low, "typeerror") || Contains(low, "type") by {
      assert r[1].0[0] == "typeerror" && r[1].0[1] == "type";
    }
    assert Mentions(low, r[2].0) <==> Contains(low, "valueerror") by {
      assert r[2].0[0] == "valueerror";
    }
    assert Mentions(low, r[3].0) <==> Contains(low, "zerodivision") by {
      assert r[3].0[0] == "zerodivision";
    }
    assert Mentions(low, r[4].0) <==> Contains(low, "key") || Contains(low, "index") by {
      assert r[4].0[0] == "key" && r[4].0[1] == "index";
    }
    assert Mentions(low, r[5].0) <==> Contains(low, "timeout") || Contains(low, "performance") by {
      assert r[5].0[0] == "timeout" && r[5].0[1] == "performance";
    }
    assert FirstRule(low, r, 6) == ExecutionError;
    assert FirstRule(low, r, 5) == if Mentions(low, r[5].0) then r[5].1 else FirstRule(low, r, 6);
    assert FirstRule(low, r, 4) == if Mentions(low, r[4].0) then r[4].1 else FirstRule(low, r, 5);
    assert FirstRule(low, r, 3) == if Mentions(low, r[3].0) then r[3].1 else FirstRule(low, r, 4);
    assert FirstRule(low, r, 2) == if Mentions(low, r[2].0) then r[2].1 else FirstRule(low, r, 3);
    assert FirstRule(low, r, 1) == if Mentions(low, r[1].0) then r[1].1 else FirstRule(low, r, 2);
  }

  /** Lower-casing twice changes nothing. */
  lemma LowerIdempotent(s: string)
    ensures Lower(Lower(s)) == Lower(s)
  {
    assert forall i :: 0 <= i < |s| ==> LowerChar(LowerChar(s[i])) == LowerChar(s[i]);
  }

  /** The classification ignores letter case. */
  lemma ClassifyIgnoresCase(errorMessage: string)
    ensures ClassifyFailure(Lower(errorMessage)) == ClassifyFailure(errorMessage)
  {
    LowerIdempotent(errorMessage);
  }

  // ----- analyze_failure -----

  /** A `reflection_log` row; `inputs` and `userPrompt` are its metadata. */
  datatype Reflection = Reflection(executionId: Option<string>, toolName: string, failureType: FailureType,
                                   errorMessage: string, rootCause: string, proposedFix: string,
                                   inputs: PyValue, userPrompt: Option<string>,
                                   fixApplied: bool, fixSuccessful: bool, resolved: bool)

  /** The `reflection_log` table by id. */
  type ReflectionLog = map<string, Reflection>

  /** What `analyze_failure` returns. */
  datatype Analysis =
    | ToolMissing(error: string)
    | Analyzed(reflectionId: Option<string>, failureType: FailureType, rootCause: string, proposedFix: string)

  /** A run of `analyze_failure`: the registry and log afterwards, and the answer; `Err` is the text
      of an exception the method lets escape. */
  datatype AnalysisRun = AnalysisRun(registry: CapabilityRegistry.Registry, log: ReflectionLog,
                                     result: Result<Analysis, string>)

  /** `_get_tool_tests`: the test file's contents, or "" when it cannot be read. */
  function TestsOf(files: map<string, string>, testPath: string): string {
    if testPath in files then files[testPath] else ""
  }

  /** `analyze_failure`. An unregistered tool gives a failure and logs nothing. Otherwise the model's
      root cause and fix (the fix's code block extracted) are logged under the id the insert returns,
      as a reflection with no fix applied yet. */
  function AnalyzeFailure(reg: CapabilityRegistry.Registry, log: ReflectionLog, toolName: string,
                          errorMessage: string, inputs: PyValue, userPrompt: Option<string>,
                          executionId: Option<string>, rootCause: Result<string, string>,
                          fixReply: Result<string, string>, insertedId: Result<Option<string>, string>)
    : (r: AnalysisRun)
    ensures r.registry == CapabilityRegistry.GetToolByName(reg, toolName).0
    ensures CapabilityRegistry.GetToolByName(reg, toolName).1.None? ==>
              r.log == log && r.result == Ok(ToolMissing("Tool '" + toolName + "' not found in registry"))
    ensures r.result.Err? <==>
              CapabilityRegistry.GetToolByName(reg, toolName).1.Some? &&
              (rootCause.Err? || fixReply.Err? || insertedId.Err?)
    ensures r.result.Ok? && r.result.value.Analyzed? ==>
              var a := r.result.value;
              && a.failureType == ClassifyFailure(errorMessage)
              && a.rootCause == rootCause.value
              && a.proposedFix == Utils.ExtractCodeFromMarkdown(fixReply.value)
              && a.reflectionId == insertedId.value
              && (a.reflectionId.None? ==> r.log == log)
              && (a.reflectionId.Some? ==>
                    r.log == log[a.reflectionId.value := Reflection(executionId, toolName, a.failureType,
                      errorMessage, a.rootCause, a.proposedFix, inputs, userPrompt, false, false, false)])
    ensures r.result.Err? ==> r.log == log
  {
    var (reg1, tool) := CapabilityRegistry.GetToolByName(reg, toolName);
    if tool.None? then AnalysisRun(reg1, log, Ok(ToolMissing("Tool '" + toolName + "' not found in registry")))
    else
      var failureType := ClassifyFailure(errorMessage);
      if rootCause.Err? then AnalysisRun(reg1, log, Err(rootCause.error))
      else if fixReply.Err? then AnalysisRun(reg1, log, Err(fixReply.error))
      else if insertedId.Err? then AnalysisRun(reg1, log, Err(insertedId.error))
      else
        var fix := Utils.ExtractCodeFromMarkdown(fixReply.value);
        var row := Reflection(executionId, toolName, failureType, errorMessage, rootCause.value, fix,
                              inputs, userPrompt, false, false, false);
        var log1 := if insertedId.value.Some? then log[insertedId.value.value := row] else log;
        AnalysisRun(reg1, log1, Ok(Analyzed(insertedId.value, failureType, rootCause.value, fix)))
  }

  // ----- _save_tool_version -----

  /** A `tool_versions` row. */
  datatype Version = Version(toolName: string, version: int, code: string, tests: string, docstring: string,
                             filePath: string, testPath: string, createdBy: string, changeReason: string,
                             isCurrent: bool)

  /** The highest version number stored for the tool, if any. */
  function LatestVersion(rows: seq<Version>, toolName: string): (r: Option<int>)
    ensures r.None? <==> forall i :: 0 <= i < |rows| ==> rows[i].toolName != toolName
    ensures r.Some? ==> exists i :: 0 <= i < |rows| && rows[i].toolName == toolName && rows[i].version == r.value
    ensures r.Some? ==> forall i :: 0 <= i < |rows| && rows[i].toolName == toolName ==> rows[i].version <= r.value
    decreases |rows|
  {
    if rows == [] then None
    else
      var last := rows[|rows| - 1];
      var prev := LatestVersion(rows[..|rows| - 1], toolName);
      if last.toolName != toolName then
        assert forall i :: 0 <= i < |rows| - 1 ==> rows[..|rows| - 1][i] == rows[i];
        prev
      else if prev.Some? && prev.value >= last.version then
        assert forall i :: 0 <= i < |rows| - 1 ==> rows[..|rows| - 1][i] == rows[i];
        prev
      else
        assert forall i :: 0 <= i < |rows| - 1 ==> rows[..|rows| - 1][i] == rows[i];
        Some(last.version)
  }

  /** `_save_tool_version`: the new row gets the highest version so far plus one (1 for a tool with
      none), every earlier row of the tool stops being current, and the new row is appended as the
      current one. */
  function SaveToolVersion(rows: seq<Version>, toolName: string, code: string, tests: string, docstring: string,
                           changeReason: string, createdBy: string, toolsDir: string): (r: seq<Version>)
    ensures |r| == |rows| + 1
    ensures r[|rows|].toolName == toolName && r[|rows|].isCurrent
    ensures r[|rows|].code == code && r[|rows|].tests == tests && r[|rows|].createdBy == createdBy
    ensures LatestVersion(rows, toolName).None? ==> r[|rows|].version == 1
    ensures forall i :: 0 <= i < |rows| && rows[i].toolName == toolName ==> rows[i].version < r[|rows|].version
    ensures forall i :: 0 <= i < |rows| ==>
              r[i] == (if rows[i].toolName == toolName then rows[i].(isCurrent := false) else rows[i])
    ensures forall i :: 0 <= i < |r| && r[i].toolName == toolName && r[i].isCurrent ==> i == |rows|
  {
    var next := match LatestVersion(rows, toolName) case None => 1 case Some(v) => v + 1;
    var cleared := seq(|rows|, i requires 0 <= i < |rows| =>
                       if rows[i].toolName == toolName then rows[i].(isCurrent := false) else rows[i]);
    cleared + [Version(toolName, next, code, tests, docstring, CapabilityRegistry.ToolFile(toolsDir, toolName),
                       CapabilityRegistry.TestFile(toolsDir, toolName), createdBy, changeReason, true)]
  }

  /** The tool's version numbers are pairwise different. */
  predicate DistinctVersions(rows: seq<Version>, toolName: string) {
    forall i, j :: 0 <= i < j < |rows| && rows[i].toolName == toolName && rows[j].toolName == toolName ==>
      rows[i].version != rows[j].version
  }

  /** The tool has exactly one current version. */
  predicate OneCurrent(rows: seq<Version>, toolName: string) {
    (exists i :: 0 <= i < |rows| && rows[i].toolName == toolName && rows[i].isCurrent) &&
    forall i, j :: (0 <= i < |rows| && 0 <= j < |rows| && rows[i].toolName == toolName && rows[i].isCurrent &&
                    rows[j].toolName == toolName && rows[j].isCurrent) ==> i == j
  }

  /** Saving a version keeps version numbers distinct and leaves exactly one current version,
      whatever the history looked like before; other tools' rows keep theirs. */
  lemma SaveKeepsHistoryConsistent(rows: seq<Version>, toolName: string, code: string, tests: string,
                                   docstring: string, changeReason: string, createdBy: string, toolsDir: string,
                                   other: string)
    requires DistinctVersions(rows, toolName)
    requires other != toolName && OneCurrent(rows, other)
    ensures var r := SaveToolVersion(rows, toolName, code, tests, docstring, changeReason, createdBy, toolsDir);
      DistinctVersions(r, toolName) && OneCurrent(r, toolName) && OneCurrent(r, other)
  {
    var r := SaveToolVersion(rows, toolName, code, tests, docstring, changeReason, createdBy, toolsDir);
    SavedKeepsDistinct(rows, r, toolName);
    SavedIsOnlyCurrent(rows, r, toolName);
    SavedKeepsOthers(rows, r, toolName, other);
  }

  /** `r` is `rows` with the tool's rows cleared and one row of it appended. */
  predicate SavedFrom(rows: seq<Version>, r: seq<Version>, toolName: string) {
    && |r| == |rows| + 1 && r[|rows|].toolName == toolName
    && forall i :: 0 <= i < |rows| ==>
         r[i] == (if rows[i].toolName == toolName then rows[i].(isCurrent := false) else rows[i])
  }

  /** An appended version above all earlier ones keeps the version numbers distinct. */
  lemma SavedKeepsDistinct(rows: seq<Version>, r: seq<Version>, toolName: string)
    requires SavedFrom(rows, r, toolName) && DistinctVersions(rows, toolName)
    requires forall i :: 0 <= i < |rows| && rows[i].toolName == toolName ==> rows[i].version < r[|rows|].version
    ensures DistinctVersions(r, toolName)
  {
    forall i, j | 0 <= i < j < |r| && r[i].toolName == toolName && r[j].toolName == toolName
      ensures r[i].version != r[j].version
    {
      assert r[i].version == rows[i].version && r[i].toolName == rows[i].toolName;
      if j < |rows| {
        assert r[j].version == rows[j].version && r[j].toolName == rows[j].toolName;
      }
    }
  }

  /** The appended current row is the tool's only current one. */
  lemma SavedIsOnlyCurrent(rows: seq<Version>, r: seq<Version>, toolName: string)
    requires SavedFrom(rows, r, toolName) && r[|rows|].isCurrent
    ensures OneCurrent(r, toolName)
  {
    forall i | 0 <= i < |rows| && r[i].toolName == toolName ensures !r[i].isCurrent {
      assert rows[i].toolName == toolName;
    }
  }

  /** Another tool's rows are untouched, so it keeps its one current version. */
  lemma SavedKeepsOthers(rows: seq<Version>, r: seq<Version>, toolName: string, other: string)
    requires SavedFrom(rows, r, toolName) && other != toolName && OneCurrent(rows, other)
    ensures OneCurrent(r, other)
  {
    var k :| 0 <= k < |rows| && rows[k].toolName == other && rows[k].isCurrent;
    assert r[k] == rows[k];
  }

  // ----- apply_fix -----

  /** The tables and files `apply_fix` touches. */
  datatype FixState = FixState(registry: CapabilityRegistry.Registry, log: ReflectionLog, versions: seq<Version>)

  /** What `apply_fix` returns. */
  datatype FixResult = Fixed(toolName: string, output: string) | NotFixed(error: string, verificationOutput: Option<string>)

  /** The test code a fix is verified against: the existing tests, then the regression test. */
  function CombinedTests(existing: string, regression: string): (t: string)
    ensures |t| > |existing| + |regression|
    ensures t[..|existing|] == existing && t[|t| - |regression|..] == regression
  {
    existing + "\n\n# Regression test from reflection\n" + regression
  }

  /** `apply_fix`. A missing reflection or tool fails before anything is verified. The proposed fix
      is verified against the existing tests plus a regression test from the model; only a passing
      run saves a version, overwrites the tool and test files and marks the fix successful. A
      failing run leaves the code alone and records the fix as applied but unsuccessful.
      `verify(name, code, tests)` is the sandbox's verdict. */
  function ApplyFix(s: FixState, reflectionId: string, regressionReply: Result<string, string>,
                    verify: (string, string, string) -> Sandbox.VerifyResult, toolsDir: string)
    : (r: (FixState, FixResult))
    ensures reflectionId !in s.log ==> r == (s, NotFixed("Reflection record not found", None))
    ensures r.1.Fixed? || r.0.versions == s.versions
    ensures r.1.Fixed? || r.0.registry.files == s.registry.files
    ensures r.1.Fixed? <==>
              && reflectionId in s.log
              && var name := s.log[reflectionId].toolName;
                 var tool := CapabilityRegistry.GetToolByName(s.registry, name).1;
              && tool.Some? && regressionReply.Ok?
              && verify(name, s.log[reflectionId].proposedFix,
                        CombinedTests(TestsOf(s.registry.files, tool.value.testPath),
                                      Utils.ExtractCodeFromMarkdown(regressionReply.value))).success
    ensures r.1.Fixed? ==>
              var ref := s.log[reflectionId];
              var tool := CapabilityRegistry.GetToolByName(s.registry, ref.toolName).1.value;
              var tests := CombinedTests(TestsOf(s.registry.files, tool.testPath),
                                         Utils.ExtractCodeFromMarkdown(regressionReply.value));
              && r.0.registry.files == s.registry.files[tool.filePath := ref.proposedFix][tool.testPath := tests]
              && r.0.versions == SaveToolVersion(s.versions, ref.toolName, ref.proposedFix, tests, tool.docstring,
                                                 "Self-repair from reflection " + reflectionId, "reflection", toolsDir)
              && r.0.log == s.log[reflectionId := ref.(fixApplied := true, fixSuccessful := true, resolved := true)]
    ensures r.1.NotFixed? && r.1.verificationOutput.Some? ==>
              && reflectionId in s.log
              && r.0.log == s.log[reflectionId := s.log[reflectionId].(fixApplied := true, fixSuccessful := false,
                                                                       resolved := true)]
  {
    if reflectionId !in s.log then (s, NotFixed("Reflection record not found", None))
    else
      var ref := s.log[reflectionId];
      var (reg1, tool) := CapabilityRegistry.GetToolByName(s.registry, ref.toolName);
      if tool.None? then (s.(registry := reg1), NotFixed("Tool '" + ref.toolName + "' not found", None))
      else if regressionReply.Err? then
        (s.(registry := reg1), NotFixed("Failed to apply fix: " + regressionReply.error, None))
      else
        var info := tool.value;
        var tests := CombinedTests(TestsOf(reg1.files, info.testPath),
                                   Utils.ExtractCodeFromMarkdown(regressionReply.value));
        var verdict := verify(ref.toolName, ref.proposedFix, tests);
        if verdict.success then
          var versions := SaveToolVersion(s.versions, ref.toolName, ref.proposedFix, tests, info.docstring,
                                          "Self-repair from reflection " + reflectionId, "reflection", toolsDir);
          var files := reg1.files[info.filePath := ref.proposedFix][info.testPath := tests];
          (FixState(reg1.(files := files),
                    s.log[reflectionId := ref.(fixApplied := true, fixSuccessful := true, resolved := true)], versions),
           Fixed(ref.toolName, verdict.output))
        else
          (s.(registry := reg1,
              log := s.log[reflectionId := ref.(fixApplied := true, fixSuccessful := false, resolved := true)]),
           NotFixed("Fix did not pass tests", Some(verdict.output)))
  }

  /** A successful repair makes the fixed code the tool's code: looking the tool up again returns
      the proposed fix. */
  lemma FixedToolServesFix(s: FixState, reflectionId: string, regressionReply: Result<string, string>,
                           verify: (string, string, string) -> Sandbox.VerifyResult, toolsDir: string)
    requires ApplyFix(s, reflectionId, regressionReply, verify, toolsDir).1.Fixed?
    requires var name := s.log[reflectionId].toolName;
      s.registry.db[name].filePath != s.registry.db[name].testPath
    ensures var after := ApplyFix(s, reflectionId, regressionReply, verify, toolsDir).0;
      var name := s.log[reflectionId].toolName;
      CapabilityRegistry.GetToolByName(after.registry, name).1.Some? &&
      CapabilityRegistry.GetToolByName(after.registry, name).1.value.code == s.log[reflectionId].proposedFix
  {
  }
}

=== FILE: sandbox.dfy ===
/** Verification of generated tools in a container (`src/sandbox.py`, `verify_tool`): the test
    file is patched to import the function from `tool_function`, both files are written to a fresh
    temporary directory, pytest runs in a locked-down container, and the directory is removed on
    every path once it exists.

    Docker and the file system are parameters: whether the image is available, what writing the
    files raises, and how the container run ends. The steps taken are recorded as events. */
module Sandbox {
  import opened Wrappers
  import opened Strings
  import opened PyValues

  /** The default `DOCKER_TIMEOUT`, in seconds. */
  const DefaultTimeoutSeconds: int := 30

  /** The pytest command run inside the container. */
  const TestCommand: seq<string> := ["pytest", "-v", "/code/test_tool.py"]

  /** The arguments of `containers.run`, and the timeout passed to `wait`. */
  datatype ContainerConfig = ContainerConfig(
    image: string, command: seq<string>, hostDir: string, bind: string, mode: string,
    networkDisabled: bool, memLimit: string, cpuPeriod: int, cpuQuota: int, timeoutSeconds: int)

  /** An effect `verify_tool` has on the host. */
  datatype Event =
    | MakeTempDir(path: string)
    | WriteFile(path: string, contents: string)
    | RunContainer(config: ContainerConfig)
    | RemoveContainer
    | RemoveImageContainers(image: string)
    | RemoveTempDir(path: string)

  /** The Docker call at which the container phase raised. */
  datatype Stage = AtRun | AtWait | AtLogs | AtRemove

  /** How the container phase ends: with an exit code and the decoded logs, or with an exception
      raised at some stage. */
  datatype ContainerRun = Completed(exitCode: int, logs: string) | Crashed(stage: Stage, msg: string)

  /** The dictionary `verify_tool` returns; `exitCode` is present only when the container exited. */
  datatype VerifyResult = VerifyResult(success: bool, output: string, exitCode: Option<int>)

  /** What `verify_tool` returns or raises, with the effects it had. */
  datatype VerifyRun = VerifyRun(result: Result<VerifyResult, Exc>, events: seq<Event>)

  // ---------------------------------------------------------------------------------------------
  // Test patching
  // ---------------------------------------------------------------------------------------------

  /** The suffix appended to a commented-out import line. */
  const PatchMarker: string := " # Patched by sandbox"

  /** A test line that imports from the function's own module file. */
  predicate ImportsFromFunction(functionName: string, line: string) {
    Contains(line, "from " + functionName) && Contains(line, "import")
  }

  /** One test line after patching. */
  function PatchLine(functionName: string, line: string): string {
    if ImportsFromFunction(functionName, line) then "# " + line + PatchMarker else line
  }

  /** The import line put in front of the patched test code. */
  function ImportStatement(functionName: string): string {
    "from tool_function import " + functionName + "\n"
  }

  /** All test lines after patching, in order. */
  function PatchLines(functionName: string, lines: seq<string>): (patched: seq<string>)
    ensures |patched| == |lines|
    ensures forall i :: 0 <= i < |lines| && !ImportsFromFunction(functionName, lines[i]) ==>
      patched[i] == lines[i]
    ensures forall i :: 0 <= i < |lines| && ImportsFromFunction(functionName, lines[i]) ==>
      patched[i] == "# " + lines[i] + PatchMarker
    ensures forall i :: 0 <= i < |patched| && ImportsFromFunction(functionName, patched[i]) ==>
      StartsWith(patched[i], "# ")
  {
    seq(|lines|, i requires 0 <= i < |lines| => PatchLine(functionName, lines[i]))
  }

  /** The test code written to `test_tool.py`: the import of the function from `tool_function`,
      then the original lines, one for one, with every import from the function's own module
      commented out. */
  function PatchTestCode(functionName: string, testCode: string): (code: string)
    ensures StartsWith(code, ImportStatement(functionName))
    ensures code[|ImportStatement(functionName)|..]
         == Join(PatchLines(functionName, SplitLines(testCode)), "\n")
  {
    var patched := PatchLines(functionName, SplitLines(testCode));
    ImportStatement(functionName) + Join(patched, "\n")
  }

  // ---------------------------------------------------------------------------------------------
  // verify_tool
  // ---------------------------------------------------------------------------------------------

  /** The container configuration `verify_tool` uses for a given host directory. */
  function Config(image: string, timeoutSeconds: int, tempDir: string): ContainerConfig {
    ContainerConfig(image, TestCommand, tempDir, "/code", "ro", true, "256m", 100000, 50000, timeoutSeconds)
  }

  /** The isolation every container run gets: no network, a read-only mount of the temporary
      directory at `/code`, 256 MB of memory and half a CPU. */
  predicate Isolated(c: ContainerConfig, tempDir: string) {
    c.networkDisabled && c.mode == "ro" && c.hostDir == tempDir && c.bind == "/code"
    && c.memLimit == "256m" && c.cpuQuota * 2 == c.cpuPeriod && c.command == TestCommand
  }

  /** The container phase: the Docker calls made and what the phase returns. */
  function ContainerPhase(config: ContainerConfig, run: ContainerRun): (r: (VerifyResult, seq<Event>))
    ensures |r.1| >= 1 && r.1[0] == RunContainer(config)
    ensures r.0.success <==> run.Completed? && run.exitCode == 0
  {
    match run
    case Completed(code, logs) =>
      (VerifyResult(code == 0, logs, Some(code)), [RunContainer(config), RemoveContainer])
    case Crashed(_, msg) =>
      (VerifyResult(false, "Container execution failed: " + msg, None),
       [RunContainer(config), RemoveImageContainers(config.image)])
  }

  /** `verify_tool`. Without the image nothing is created; otherwise the temporary directory is
      created first and removed last on every path, the files are written before any container
      runs, and success means exactly that the container exited with status 0. */
  function VerifyTool(image: string, timeoutSeconds: int, imageReady: bool, functionName: string,
                      functionCode: string, testCode: string, tempDir: string,
                      writeFailure: Option<Exc>, run: ContainerRun): (v: VerifyRun)
    ensures !imageReady ==>
      && v.events == []
      && v.result == Ok(VerifyResult(false, "Failed to ensure Docker image '" + image + "' exists", None))
    ensures imageReady ==>
      && |v.events| >= 2 && v.events[0] == MakeTempDir(tempDir)
      && v.events[|v.events| - 1] == RemoveTempDir(tempDir)
      && forall i :: 0 <= i < |v.events| - 1 ==> !v.events[i].RemoveTempDir?
    ensures v.result.Err? <==> imageReady && writeFailure.Some?
    ensures v.result.Ok? && v.result.value.success <==>
      imageReady && writeFailure.None? && run.Completed? && run.exitCode == 0
  {
    if !imageReady then
      VerifyRun(Ok(VerifyResult(false, "Failed to ensure Docker image '" + image + "' exists", None)), [])
    else if writeFailure.Some? then
      VerifyRun(Err(writeFailure.value), [MakeTempDir(tempDir), RemoveTempDir(tempDir)])
    else
      var writes := [WriteFile(PathJoin(tempDir, "tool_function.py"), functionCode),
                     WriteFile(PathJoin(tempDir, "test_tool.py"), PatchTestCode(functionName, testCode))];
      var (result, docker) := ContainerPhase(Config(image, timeoutSeconds, tempDir), run);
      VerifyRun(Ok(result), [MakeTempDir(tempDir)] + writes + docker + [RemoveTempDir(tempDir)])
  }

  /** Every container runs isolated, with the configured timeout, right after both files were
      written into the temporary directory. */
  lemma ContainersRunIsolated(image: string, timeoutSeconds: int, imageReady: bool, functionName: string,
                              functionCode: string, testCode: string, tempDir: string,
                              writeFailure: Option<Exc>, run: ContainerRun)
    ensures var v := VerifyTool(image, timeoutSeconds, imageReady, functionName, functionCode, testCode,
                                tempDir, writeFailure, run);
      forall i :: 0 <= i < |v.events| && v.events[i].RunContainer? ==>
        && Isolated(v.events[i].config, tempDir) && v.events[i].config.timeoutSeconds == timeoutSeconds
        && i == 3
        && v.events[1] == WriteFile(PathJoin(tempDir, "tool_function.py"), functionCode)
        && v.events[2] == WriteFile(PathJoin(tempDir, "test_tool.py"), PatchTestCode(functionName, testCode))
  {
    var v := VerifyTool(image, timeoutSeconds, imageReady, functionName, functionCode, testCode,
                        tempDir, writeFailure, run);
    if imageReady && writeFailure.None? {
      var docker := ContainerPhase(Config(image, timeoutSeconds, tempDir), run).1;
      assert v.events == [MakeTempDir(tempDir),
                          WriteFile(PathJoin(tempDir, "tool_function.py"), functionCode),
                          WriteFile(PathJoin(tempDir, "test_tool.py"), PatchTestCode(functionName, testCode))]
                         + docker + [RemoveTempDir(tempDir)];
      assert |docker| == 2 && !docker[1].RunContainer?;
    }
  }

  /** A container that exits with a non-zero status is a failed verification that still reports the
      exit code and the logs. */
  lemma FailingTestsReportExitCode(image: string, timeoutSeconds: int, functionName: string,
                                   functionCode: string, testCode: string, tempDir: string,
                                   code: int, logs: string)
    requires code != 0
    ensures VerifyTool(image, timeoutSeconds, true, functionName, functionCode, testCode, tempDir,
                       None, Completed(code, logs)).result == Ok(VerifyResult(false, logs, Some(code)))
  {
  }
}

=== FILE: seqs.dfy ===
/** Sequence helpers shared by the components: the first element satisfying a test, filtering,
    counting, and Python's stable `sort(key=..., reverse=True)`. */
module Seqs {
  import opened Wrappers

  /** The index of the first element satisfying `p`, if any. */
  function FirstWhere<T>(xs: seq<T>, p: T -> bool): (r: Option<nat>)
    ensures r.Some? ==> r.value < |xs| && p(xs[r.value])
    ensures r.Some? ==> forall j :: 0 <= j < r.value ==> !p(xs[j])
    ensures r.None? ==> forall j :: 0 <= j < |xs| ==> !p(xs[j])
  {
    if |xs| == 0 then None
    else if p(xs[0]) then Some(0)
    else
      var r := FirstWhere(xs[1..], p);
      assert forall j :: 0 < j < |xs| ==> xs[j] == xs[1..][j - 1];
      if r.Some? then Some(r.value + 1) else None
  }

  /** The elements satisfying `p`, in their original order. */
  function Filter<T>(xs: seq<T>, p: T -> bool): (r: seq<T>)
    ensures |r| <= |xs|
    ensures forall i :: 0 <= i < |r| ==> r[i] in xs && p(r[i])
    ensures forall i :: 0 <= i < |xs| && p(xs[i]) ==> xs[i] in r
    ensures multiset(r) <= multiset(xs)
  {
    if |xs| == 0 then []
    else
      var rest := Filter(xs[..|xs| - 1], p);
      assert xs == xs[..|xs| - 1] + [xs[|xs| - 1]];
      if p(xs[|xs| - 1]) then rest + [xs[|xs| - 1]] else rest
  }

  /** Filtering a second time with the same test changes nothing. */
  lemma {:induction false} FilterIdempotent<T>(xs: seq<T>, p: T -> bool)
    ensures Filter(Filter(xs, p), p) == Filter(xs, p)
  {
    if |xs| > 0 {
      var rest := Filter(xs[..|xs| - 1], p);
      FilterIdempotent(xs[..|xs| - 1], p);
      if p(xs[|xs| - 1]) {
        assert (rest + [xs[|xs| - 1]])[..|rest|] == rest;
      }
    }
  }

  /** When every element passes the test, filtering keeps the whole sequence. */
  lemma {:induction false} FilterKeepsAll<T>(xs: seq<T>, p: T -> bool)
    requires forall i :: 0 <= i < |xs| ==> p(xs[i])
    ensures Filter(xs, p) == xs
  {
    if |xs| > 0 {
      FilterKeepsAll(xs[..|xs| - 1], p);
      assert xs == xs[..|xs| - 1] + [xs[|xs| - 1]];
    }
  }

  /** When no element passes the test, filtering keeps nothing. */
  lemma {:induction false} FilterDropsAll<T>(xs: seq<T>, p: T -> bool)
    requires forall i :: 0 <= i < |xs| ==> !p(xs[i])
    ensures Filter(xs, p) == []
  {
    if |xs| > 0 {
      FilterDropsAll(xs[..|xs| - 1], p);
    }
  }

  /** Filtering works piecewise: the kept elements of a concatenation are those of the first part
      followed by those of the second, so the relative order is preserved. */
  lemma {:induction false} FilterConcat<T>(a: seq<T>, b: seq<T>, p: T -> bool)
    ensures Filter(a + b, p) == Filter(a, p) + Filter(b, p)
    decreases |b|
  {
    if |b| > 0 {
      var b' := b[..|b| - 1];
      FilterConcat(a, b', p);
      assert (a + b)[..|a + b| - 1] == a + b';
    } else {
      assert a + b == a;
    }
  }

  /** How many elements satisfy `p`. */
  function Count<T>(xs: seq<T>, p: T -> bool): (r: nat)
    ensures r <= |xs|
    ensures r == |Filter(xs, p)|
  {
    if |xs| == 0 then 0 else Count(xs[..|xs| - 1], p) + (if p(xs[|xs| - 1]) then 1 else 0)
  }

  /** Keys never increase from left to right. */
  ghost predicate Descending<T>(xs: seq<T>, key: T -> real) {
    forall i, j :: 0 <= i < j < |xs| ==> key(xs[i]) >= key(xs[j])
  }

  /** Inserts `x` after every element whose key is at least its own, as a stable sort must for an
      element that came later. */
  function InsertDesc<T>(x: T, ys: seq<T>, key: T -> real): (r: seq<T>)
    requires Descending(ys, key)
    ensures Descending(r, key)
    ensures multiset(r) == multiset(ys) + multiset{x}
    ensures |r| == |ys| + 1
  {
    if |ys| == 0 then [x]
    else if key(x) > key(ys[0]) then [x] + ys
    else
      var rest := InsertDesc(x, ys[1..], key);
      HeadStaysFirst(x, ys, rest, key);
      [ys[0]] + rest
  }

  /** The head of a descending sequence whose key is at least `x`'s may stay in front of the
      insertion of `x` into the tail. */
  lemma HeadStaysFirst<T>(x: T, ys: seq<T>, rest: seq<T>, key: T -> real)
    requires |ys| > 0 && Descending(ys, key) && key(x) <= key(ys[0])
    requires Descending(rest, key) && multiset(rest) == multiset(ys[1..]) + multiset{x}
    ensures Descending([ys[0]] + rest, key)
    ensures multiset([ys[0]] + rest) == multiset(ys) + multiset{x}
  {
    assert ys == [ys[0]] + ys[1..];
    forall k | 0 <= k < |rest| ensures key(ys[0]) >= key(rest[k]) {
      assert rest[k] in multiset(rest);
      if rest[k] != x {
        assert rest[k] in multiset(ys[1..]);
      }
    }
    var r := [ys[0]] + rest;
    forall i, j | 0 <= i < j < |r| ensures key(r[i]) >= key(r[j]) {
      if i > 0 {
        assert r[i] == rest[i - 1] && r[j] == rest[j - 1];
      } else {
        assert r[j] == rest[j - 1];
      }
    }
  }

  /** Python's `sorted(xs, key=key, reverse=True)`: highest key first, a permutation of the input. */
  function SortDesc<T>(xs: seq<T>, key: T -> real): (r: seq<T>)
    ensures Descending(r, key)
    ensures multiset(r) == multiset(xs)
    ensures |r| == |xs|
  {
    if |xs| == 0 then []
    else
      assert xs == xs[..|xs| - 1] + [xs[|xs| - 1]];
      InsertDesc(xs[|xs| - 1], SortDesc(xs[..|xs| - 1], key), key)
  }

  /** A filtered descending sequence is still descending. */
  lemma {:induction false} FilterKeepsDescending<T>(xs: seq<T>, p: T -> bool, key: T -> real)
    requires Descending(xs, key)
    ensures Descending(Filter(xs, p), key)
  {
    if |xs| > 0 {
      var init := xs[..|xs| - 1];
      FilterKeepsDescending(init, p, key);
      var rest := Filter(init, p);
      if p(xs[|xs| - 1]) {
        forall i | 0 <= i < |rest| ensures key(rest[i]) >= key(xs[|xs| - 1]) {
          assert rest[i] in init;
        }
      }
    }
  }

  /** In a descending sequence, an element that is not among the first `n` has a key no larger
      than any of them: taking a prefix takes the top `n`. */
  lemma PrefixIsTop<T>(xs: seq<T>, n: nat, key: T -> real, x: T)
    requires n <= |xs| && Descending(xs, key)
    requires x in xs && x !in xs[..n]
    ensures forall j :: 0 <= j < n ==> key(x) <= key(xs[j])
  {
    var m :| 0 <= m < |xs| && xs[m] == x;
    assert n <= m;
  }

  /** `f` applied to every element. */
  function MapSeq<A, B>(xs: seq<A>, f: A -> B): (r: seq<B>)
    ensures |r| == |xs| && forall i :: 0 <= i < |xs| ==> r[i] == f(xs[i])
  {
    seq(|xs|, i requires 0 <= i < |xs| => f(xs[i]))
  }

  /** Mapping distributes over concatenation. */
  lemma MapConcat<A, B>(u: seq<A>, v: seq<A>, f: A -> B)
    ensures MapSeq(u + v, f) == MapSeq(u, f) + MapSeq(v, f)
  {
  }

  /** Dropping the element at `j` drops one copy of it from the multiset. */
  lemma RemoveAt<T>(xs: seq<T>, j: nat)
    requires j < |xs|
    ensures multiset(xs[..j] + xs[j + 1..]) == multiset(xs) - multiset{xs[j]}
  {
    assert xs == xs[..j] + [xs[j]] + xs[j + 1..];
  }

  /** Removing one element from a sequence removes its image from the mapped multiset. */
  lemma MapRemove<A, B>(xs: seq<A>, j: nat, f: A -> B)
    requires j < |xs|
    ensures multiset(MapSeq(xs, f)) == multiset(MapSeq(xs[..j] + xs[j + 1..], f)) + multiset{f(xs[j])}
  {
    var left := xs[..j] + [xs[j]];
    assert xs == left + xs[j + 1..];
    MapConcat(left, xs[j + 1..], f);
    MapConcat(xs[..j], [xs[j]], f);
    MapConcat(xs[..j], xs[j + 1..], f);
    assert MapSeq([xs[j]], f) == [f(xs[j])];
  }

  /** Mapping two permutations of each other gives two permutations of each other. */
  lemma {:induction false} MapPermutation<A, B>(a: seq<A>, b: seq<A>, f: A -> B)
    requires multiset(a) == multiset(b)
    ensures multiset(MapSeq(a, f)) == multiset(MapSeq(b, f))
    decreases |a|
  {
    if |a| == 0 {
      assert |b| == |multiset(b)|;
    } else {
      var x := a[|a| - 1];
      assert x in multiset(b);
      var j :| 0 <= j < |b| && b[j] == x;
      var a1, b1 := a[..|a| - 1], b[..j] + b[j + 1..];
      RemoveAt(b, j);
      RemoveAt(a, |a| - 1);
      assert a[..|a| - 1] + a[|a|..] == a1;
      assert multiset(a1) == multiset(b1);
      MapPermutation(a1, b1, f);
      MapRemove(a, |a| - 1, f);
      MapRemove(b, j, f);
    }
  }

  /** `less` is a strict order: irreflexive and transitive. */
  ghost predicate StrictOrder<T(!new)>(less: (T, T) -> bool) {
    && (forall x :: !less(x, x))
    && (forall x, y, z :: less(x, y) && less(y, z) ==> less(x, z))
  }

  /** Each element is below every later one. */
  ghost predicate Increasing<T>(xs: seq<T>, less: (T, T) -> bool) {
    forall i, j :: 0 <= i < j < |xs| ==> less(xs[i], xs[j])
  }

  /** Every two elements at different positions are ordered one way or the other. */
  ghost predicate Total<T>(xs: seq<T>, less: (T, T) -> bool) {
    forall i, j :: 0 <= i < |xs| && 0 <= j < |xs| && i != j ==> less(xs[i], xs[j]) || less(xs[j], xs[i])
  }

  /** Inserts `x` before the first element not below it. */
  function InsertBy<T(!new)>(x: T, ys: seq<T>, less: (T, T) -> bool): (r: seq<T>)
    ensures multiset(r) == multiset(ys) + multiset{x}
    ensures |r| == |ys| + 1
    ensures StrictOrder(less) && Increasing(ys, less) && (forall k :: 0 <= k < |ys| ==> less(x, ys[k]) || less(ys[k], x))
            ==> Increasing(r, less)
  {
    if |ys| == 0 then [x]
    else if less(ys[0], x) then
      var rest := InsertBy(x, ys[1..], less);
      assert ys == [ys[0]] + ys[1..];
      InsertByHead(x, ys, rest, less);
      [ys[0]] + rest
    else
      assert StrictOrder(less) && Increasing(ys, less) && (forall k :: 0 <= k < |ys| ==> less(x, ys[k]) || less(ys[k], x))
             ==> Increasing([x] + ys, less) by {
        if StrictOrder(less) && Increasing(ys, less) && (forall k :: 0 <= k < |ys| ==> less(x, ys[k]) || less(ys[k], x)) {
          assert less(x, ys[0]);
          forall k | 0 < k < |ys| ensures less(x, ys[k]) {
            assert less(ys[0], ys[k]);
          }
          forall i, j | 0 <= i < j < |[x] + ys| ensures less(([x] + ys)[i], ([x] + ys)[j]) {
            if i > 0 {
              assert ([x] + ys)[i] == ys[i - 1];
            }
            assert ([x] + ys)[j] == ys[j - 1];
          }
        }
      }
      [x] + ys
  }

  lemma InsertByHead<T(!new)>(x: T, ys: seq<T>, rest: seq<T>, less: (T, T) -> bool)
    requires |ys| > 0 && less(ys[0], x)
    requires multiset(rest) == multiset(ys[1..]) + multiset{x}
    requires StrictOrder(less) && Increasing(ys[1..], less) && (forall k :: 0 <= k < |ys[1..]| ==> less(x, ys[1..][k]) || less(ys[1..][k], x))
             ==> Increasing(rest, less)
    ensures StrictOrder(less) && Increasing(ys, less) && (forall k :: 0 <= k < |ys| ==> less(x, ys[k]) || less(ys[k], x))
            ==> Increasing([ys[0]] + rest, less)
  {
    if StrictOrder(less) && Increasing(ys, less) && (forall k :: 0 <= k < |ys| ==> less(x, ys[k]) || less(ys[k], x)) {
      forall k | 0 <= k < |ys[1..]| ensures less(x, ys[1..][k]) || less(ys[1..][k], x) {
        assert ys[1..][k] == ys[k + 1];
      }
      forall i, j | 0 <= i < j < |ys[1..]| ensures less(ys[1..][i], ys[1..][j]) {
        assert ys[1..][i] == ys[i + 1] && ys[1..][j] == ys[j + 1];
      }
      forall k | 0 <= k < |rest| ensures less(ys[0], rest[k]) {
        assert rest[k] in multiset(rest);
        if rest[k] != x {
          assert rest[k] in multiset(ys[1..]);
          var m :| 0 <= m < |ys[1..]| && ys[1..][m] == rest[k];
          assert ys[1..][m] == ys[m + 1];
        }
      }
      var r := [ys[0]] + rest;
      forall i, j | 0 <= i < j < |r| ensures less(r[i], r[j]) {
        assert r[j] == rest[j - 1];
        if i > 0 {
          assert r[i] == rest[i - 1];
        }
      }
    }
  }

  /** Insertion sort by a strict order: a permutation, increasing when all elements are ordered. */
  function SortBy<T(!new)>(xs: seq<T>, less: (T, T) -> bool): (r: seq<T>)
    ensures multiset(r) == multiset(xs)
    ensures StrictOrder(less) && Total(xs, less) ==> Increasing(r, less)
  {
    if |xs| == 0 then []
    else
      var init := xs[..|xs| - 1];
      var x := xs[|xs| - 1];
      assert xs == init + [x];
      var sorted := SortBy(init, less);
      assert Total(xs, less) ==> Total(init, less);
      assert Total(xs, less) ==> forall k :: 0 <= k < |sorted| ==> less(x, sorted[k]) || less(sorted[k], x) by {
        if Total(xs, less) {
          forall k | 0 <= k < |sorted| ensures less(x, sorted[k]) || less(sorted[k], x) {
            assert sorted[k] in multiset(init);
            var i :| 0 <= i < |init| && init[i] == sorted[k];
            assert xs[i] == sorted[k];
          }
        }
      }
      InsertBy(x, sorted, less)
  }

  /** Two increasing sequences holding the same elements start with the same element. */
  lemma IncreasingHeads<T(!new)>(a: seq<T>, b: seq<T>, less: (T, T) -> bool)
    requires StrictOrder(less) && Increasing(a, less) && Increasing(b, less) && multiset(a) == multiset(b)
    requires |a| > 0
    ensures |b| > 0 && a[0] == b[0]
  {
    assert a[0] in multiset(b) && |b| == |multiset(b)|;
    assert b[0] in multiset(a);
    var m :| 0 <= m < |b| && b[m] == a[0];
    var n :| 0 <= n < |a| && a[n] == b[0];
  }

  /** The tail of an increasing sequence is increasing. */
  lemma IncreasingTail<T>(a: seq<T>, less: (T, T) -> bool)
    requires Increasing(a, less) && |a| > 0
    ensures Increasing(a[1..], less)
  {
    var t := a[1..];
    forall i, j | 0 <= i < j < |t| ensures less(t[i], t[j]) {
      assert t[i] == a[i + 1] && t[j] == a[j + 1];
    }
  }

  /** The tail holds one copy fewer of the head. */
  lemma TailMultiset<T>(a: seq<T>)
    requires |a| > 0
    ensures multiset(a[1..]) == multiset(a) - multiset{a[0]}
  {
    assert a == [a[0]] + a[1..];
  }

  /** Sequences with the same elements and the same head have tails with the same elements. */
  lemma SameTailElements<T>(a: seq<T>, b: seq<T>)
    requires |a| > 0 && |b| > 0 && a[0] == b[0] && multiset(a) == multiset(b)
    ensures multiset(a[1..]) == multiset(b[1..])
  {
    TailMultiset(a);
    TailMultiset(b);
  }

  /** Sequences with the same head and the same tail are equal. */
  lemma SameHeadAndTail<T>(a: seq<T>, b: seq<T>)
    requires |a| > 0 && |b| > 0 && a[0] == b[0] && a[1..] == b[1..]
    ensures a == b
  {
    assert a == [a[0]] + a[1..] && b == [b[0]] + b[1..];
  }

  /** Two increasing sequences holding the same elements are the same sequence. */
  lemma {:induction false} IncreasingUnique<T(!new)>(a: seq<T>, b: seq<T>, less: (T, T) -> bool)
    requires StrictOrder(less) && Increasing(a, less) && Increasing(b, less) && multiset(a) == multiset(b)
    ensures a == b
    decreases |a|
  {
    if |a| > 0 {
      IncreasingHeads(a, b, less);
      IncreasingTail(a, less);
      IncreasingTail(b, less);
      SameTailElements(a, b);
      IncreasingUnique(a[1..], b[1..], less);
      SameHeadAndTail(a, b);
    } else {
      assert |b| == |multiset(b)|;
    }
  }

  /** `list(reversed(xs))`, and `xs[::-1]` on strings. */
  function Reverse<T>(xs: seq<T>): (r: seq<T>)
    ensures |r| == |xs|
    ensures forall i :: 0 <= i < |xs| ==> r[i] == xs[|xs| - 1 - i]
  {
    seq(|xs|, i requires 0 <= i < |xs| => xs[|xs| - 1 - i])
  }

  /** Reversing keeps the elements. */
  lemma {:induction false} ReversePermutes<T>(xs: seq<T>)
    ensures multiset(Reverse(xs)) == multiset(xs)
  {
    if |xs| > 0 {
      ReversePermutes(xs[..|xs| - 1]);
      assert xs == xs[..|xs| - 1] + [xs[|xs| - 1]];
      ReverseSnoc(xs);
    }
  }

  /** Sorting by a key that strictly increases along `xs`, highest first, reverses `xs`. */
  lemma {:induction false} SortDescOfIncreasing<T>(xs: seq<T>, key: T -> real)
    requires forall i, j :: 0 <= i < j < |xs| ==> key(xs[i]) < key(xs[j])
    ensures SortDesc(xs, key) == Reverse(xs)
  {
    if |xs| > 0 {
      var init, last := xs[..|xs| - 1], xs[|xs| - 1];
      assert forall i, j :: 0 <= i < j < |init| ==> key(init[i]) < key(init[j]);
      SortDescOfIncreasing(init, key);
      assert SortDesc(xs, key) == InsertDesc(last, Reverse(init), key);
      assert |init| > 0 ==> Reverse(init)[0] == xs[|xs| - 2];
      ReverseSnoc(xs);
    }
  }

  /** Reversing puts the last element first. */
  lemma ReverseSnoc<T>(xs: seq<T>)
    requires |xs| > 0
    ensures Reverse(xs) == [xs[|xs| - 1]] + Reverse(xs[..|xs| - 1])
  {
  }

  /** The first `n` elements of the reversal, reversed back, are the last `n` elements. */
  lemma ReversedPrefixOfReverse<T>(xs: seq<T>, n: nat)
    requires n <= |xs|
    ensures Reverse(Reverse(xs)[..n]) == xs[|xs| - n..]
  {
    var r := Reverse(Reverse(xs)[..n]);
    forall i | 0 <= i < n ensures r[i] == xs[|xs| - n + i] {
      assert r[i] == Reverse(xs)[n - 1 - i];
    }
  }
}

=== FILE: session_memory.dfy ===
/** Session memory: the chat messages kept per UI session, the index each new message gets, the
    recent-history query and the prompt that carries that history as context. */
module SessionMemory {
  import opened Wrappers
  import Seqs
  import Strings

  /** A `session_messages` row of one session. */
  datatype Message = Message(index: int, role: string, content: string)

  /** The `session_messages` table, grouped by session id. */
  type Store = map<string, seq<Message>>

  /** The rows of one session; a session never written to has none. */
  function Messages(store: Store, sessionId: string): seq<Message> {
    if sessionId in store then store[sessionId] else []
  }

  /** `start_session`: the given id when truthy, otherwise the fresh one, whether or not recording the
      session in `agent_sessions` succeeds. */
  function StartSession(sessions: set<string>, sessionId: Option<string>, freshId: string, upsertFails: bool)
    : (r: (set<string>, string))
    ensures sessionId.Some? && sessionId.value != "" ==> r.1 == sessionId.value
    ensures sessionId.None? || sessionId.value == "" ==> r.1 == freshId
    ensures upsertFails ==> r.0 == sessions
    ensures !upsertFails ==> r.0 == sessions + {r.1}
  {
    var sid := if sessionId.Some? && sessionId.value != "" then sessionId.value else freshId;
    (if upsertFails then sessions else sessions + {sid}, sid)
  }

  /** The highest index among the rows. */
  function MaxIndex(msgs: seq<Message>): (m: int)
    requires |msgs| > 0
    ensures forall i :: 0 <= i < |msgs| ==> msgs[i].index <= m
    ensures exists i :: 0 <= i < |msgs| && msgs[i].index == m
  {
    if |msgs| == 1 then msgs[0].index
    else
      var m := MaxIndex(msgs[..|msgs| - 1]);
      assert forall i :: 0 <= i < |msgs| - 1 ==> msgs[..|msgs| - 1][i] == msgs[i];
      if msgs[|msgs| - 1].index > m then msgs[|msgs| - 1].index else m
  }

  /** `_get_next_message_index`: one past the highest index (the `or 0` leaves 0 as it is), or 0 for a
      session without rows and when the query fails. */
  function NextMessageIndex(msgs: seq<Message>, queryFails: bool): (n: int)
    ensures queryFails || |msgs| == 0 ==> n == 0
    ensures !queryFails ==> forall i :: 0 <= i < |msgs| ==> msgs[i].index < n
    ensures !queryFails && |msgs| > 0 ==> exists i :: 0 <= i < |msgs| && msgs[i].index == n - 1
  {
    if queryFails || |msgs| == 0 then 0 else MaxIndex(msgs) + 1
  }

  /** `append_message`: nothing happens for an empty session id or empty content, or when the insert
      fails; otherwise the message is stored under the next index and returned. */
  function AppendMessage(store: Store, sessionId: string, role: string, content: string,
                         indexQueryFails: bool, insertFails: bool): (r: (Store, Option<Message>))
    ensures sessionId == "" || content == "" || insertFails <==> r.1.None?
    ensures r.1.None? ==> r.0 == store
    ensures r.1.Some? ==>
              && r.1.value == Message(NextMessageIndex(Messages(store, sessionId), indexQueryFails), role, content)
              && r.0 == store[sessionId := Messages(store, sessionId) + [r.1.value]]
  {
    if sessionId == "" || content == "" || insertFails then (store, None)
    else
      var m := Message(NextMessageIndex(Messages(store, sessionId), indexQueryFails), role, content);
      (store[sessionId := Messages(store, sessionId) + [m]], Some(m))
  }

  /** Indexes strictly increase in the order the rows were written. */
  predicate Increasing(msgs: seq<Message>) {
    forall i, j :: 0 <= i < j < |msgs| ==> msgs[i].index < msgs[j].index
  }

  /** Each row's index is its position: what a session holds when every index query succeeded. */
  predicate Dense(msgs: seq<Message>) {
    forall i :: 0 <= i < |msgs| ==> msgs[i].index == i
  }

  /** When the index query succeeds, appending keeps a session's indexes increasing and dense, and
      leaves every other session alone. */
  lemma AppendKeepsIndexing(store: Store, sessionId: string, role: string, content: string, insertFails: bool,
                            other: string)
    requires other != sessionId
    ensures var after := AppendMessage(store, sessionId, role, content, false, insertFails).0;
            && (Increasing(Messages(store, sessionId)) ==> Increasing(Messages(after, sessionId)))
            && (Dense(Messages(store, sessionId)) ==> Dense(Messages(after, sessionId)))
            && Messages(after, other) == Messages(store, other)
  {
    var msgs := Messages(store, sessionId);
    if Dense(msgs) && |msgs| > 0 {
      assert msgs[|msgs| - 1].index == |msgs| - 1;
      assert NextMessageIndex(msgs, false) == |msgs|;
    }
  }

  /** The sort key of `order("message_index", desc=True)`. */
  function IndexKey(m: Message): real {
    m.index as real
  }

  /** Indexes never decrease from left to right. */
  predicate Ascending(msgs: seq<Message>) {
    forall i, j :: 0 <= i < j < |msgs| ==> msgs[i].index <= msgs[j].index
  }

  /** The first `n` rows of a sequence sorted highest index first, reversed, ascend, are drawn from
      it, and index at least as high as every row they leave out. */
  lemma ReversedPrefix(sorted: seq<Message>, n: nat)
    requires n <= |sorted| && Seqs.Descending(sorted, IndexKey)
    ensures Ascending(Seqs.Reverse(sorted[..n]))
    ensures multiset(Seqs.Reverse(sorted[..n])) <= multiset(sorted)
    ensures forall m, j :: m in sorted && m !in Seqs.Reverse(sorted[..n]) && 0 <= j < n ==>
              m.index <= Seqs.Reverse(sorted[..n])[j].index
  {
    var top := sorted[..n];
    var r := Seqs.Reverse(top);
    forall i, j | 0 <= i < j < |r| ensures r[i].index <= r[j].index {
      assert r[i] == sorted[n - 1 - i] && r[j] == sorted[n - 1 - j];
      assert IndexKey(sorted[n - 1 - j]) >= IndexKey(sorted[n - 1 - i]);
    }
    Seqs.ReversePermutes(top);
    assert sorted == top + sorted[n..];
    ReversedPrefixTop(sorted, n);
  }

  /** Every row the reversed prefix leaves out indexes no higher than any row it keeps. */
  lemma ReversedPrefixTop(sorted: seq<Message>, n: nat)
    requires n <= |sorted| && Seqs.Descending(sorted, IndexKey)
    ensures forall m, j :: m in sorted && m !in Seqs.Reverse(sorted[..n]) && 0 <= j < n ==>
              m.index <= Seqs.Reverse(sorted[..n])[j].index
  {
    var top := sorted[..n];
    var r := Seqs.Reverse(top);
    Seqs.ReversePermutes(top);
    forall m, j | m in sorted && m !in r && 0 <= j < n ensures m.index <= r[j].index {
      assert m !in multiset(r);
      Seqs.PrefixIsTop(sorted, n, IndexKey, m);
      assert r[j] == sorted[n - 1 - j];
    }
  }

  /** `order("message_index", desc=True).limit(limit)` and then `reversed`: the `limit` highest-indexed
      rows, oldest first. Which of several rows sharing an index the store returns first is not
      modelled: the sort here keeps their stored order before the reversal. */
  function Newest(msgs: seq<Message>, limit: nat): (r: seq<Message>)
    ensures |r| == if limit < |msgs| then limit else |msgs|
    ensures multiset(r) <= multiset(msgs)
    ensures Ascending(r)
    ensures forall m, j :: m in msgs && m !in r && 0 <= j < |r| ==> m.index <= r[j].index
  {
    var sorted := Seqs.SortDesc(msgs, IndexKey);
    var n := if limit < |sorted| then limit else |sorted|;
    ReversedPrefix(sorted, n);
    assert forall m :: m in msgs ==> m in multiset(sorted);
    Seqs.Reverse(sorted[..n])
  }

  /** Over rows whose indexes increase, the newest rows are the last ones, in order. */
  lemma NewestOfIncreasing(msgs: seq<Message>, limit: nat)
    requires Increasing(msgs)
    ensures Newest(msgs, limit) == msgs[if limit < |msgs| then |msgs| - limit else 0..]
  {
    Seqs.SortDescOfIncreasing(msgs, IndexKey);
    var n := if limit < |msgs| then limit else |msgs|;
    Seqs.ReversedPrefixOfReverse(msgs, n);
    assert |msgs| - n == if limit < |msgs| then |msgs| - limit else 0;
  }

  /** `get_recent_messages`: the newest `limit` rows of the session, oldest first; nothing for an empty
      session id or when the query fails. */
  function GetRecentMessages(store: Store, sessionId: string, limit: nat, queryFails: bool): (r: seq<Message>)
    ensures sessionId == "" || queryFails ==> r == []
    ensures sessionId != "" && !queryFails ==>
              |r| == if limit < |Messages(store, sessionId)| then limit else |Messages(store, sessionId)|
    ensures multiset(r) <= multiset(Messages(store, sessionId))
  {
    if sessionId == "" || queryFails then [] else Newest(Messages(store, sessionId), limit)
  }

  /** While a session's indexes increase, its recent messages are exactly its last `limit` rows in
      the order they were written. */
  lemma RecentAreLatest(store: Store, sessionId: string, limit: nat)
    requires sessionId != ""
    requires Increasing(Messages(store, sessionId))
    ensures var msgs := Messages(store, sessionId);
            GetRecentMessages(store, sessionId, limit, false) ==
              msgs[if limit < |msgs| then |msgs| - limit else 0..]
  {
    NewestOfIncreasing(Messages(store, sessionId), limit);
  }

  /** A message written under an index above all others is the last of the recent history. */
  lemma AppendedMessageIsRecent(store: Store, sessionId: string, role: string, content: string, limit: nat)
    requires sessionId != "" && content != "" && limit > 0
    requires Increasing(Messages(store, sessionId))
    ensures var r := AppendMessage(store, sessionId, role, content, false, false);
            var recent := GetRecentMessages(r.0, sessionId, limit, false);
            |recent| > 0 && recent[|recent| - 1] == r.1.value
  {
    var r := AppendMessage(store, sessionId, role, content, false, false);
    AppendKeepsIndexing(store, sessionId, role, content, false, sessionId + "#");
    RecentAreLatest(r.0, sessionId, limit);
  }

  /** `"User"` for a role that is `user` up to surrounding whitespace and case, else `"Assistant"`. */
  function RoleLabel(role: string): (tag: string)
    ensures tag == "User" || tag == "Assistant"
    ensures tag == "User" <==> Strings.Lower(Strings.Strip(role)) == "user"
  {
    if Strings.Lower(Strings.Strip(role)) == "user" then "User" else "Assistant"
  }

  /** One line of the context block: `<label>: <content>`. */
  function ContextLines(msgs: seq<Message>): (lines: seq<string>)
    ensures |lines| == |msgs|
    ensures forall i :: 0 <= i < |msgs| ==>
              lines[i] == RoleLabel(msgs[i].role) + ": " + msgs[i].content
  {
    seq(|msgs|, i requires 0 <= i < |msgs| => RoleLabel(msgs[i].role) + ": " + msgs[i].content)
  }

  const ContextHeader := "\n\nContext from the previous exchange (use only if relevant):\n"

  /** How many past messages the prompt carries at most. */
  const ContextLimit: nat := 10

  /** `build_prompt_with_context`: the prompt unchanged when there is no session or no history,
      otherwise followed by the header and one line per recent message. */
  function BuildPromptWithContext(store: Store, sessionId: Option<string>, userPrompt: string, queryFails: bool)
    : (r: string)
    ensures var recent := if sessionId.Some? then GetRecentMessages(store, sessionId.value, ContextLimit, queryFails) else [];
            && (r == userPrompt <==> recent == [])
            && (recent != [] ==> r == userPrompt + ContextHeader + Strings.Join(ContextLines(recent), "\n"))
            && |recent| <= ContextLimit
  {
    if sessionId.None? || sessionId.value == "" then userPrompt
    else
      var recent := GetRecentMessages(store, sessionId.value, ContextLimit, queryFails);
      if recent == [] then userPrompt
      else
        var r := userPrompt + ContextHeader + Strings.Join(ContextLines(recent), "\n");
        assert |r| > |userPrompt|;
        r
  }

  /** While the session's indexes increase, the context is the session's last ten messages. */
  lemma ContextIsLastTen(store: Store, sessionId: string, userPrompt: string)
    requires sessionId != "" && |Messages(store, sessionId)| > 0
    requires Increasing(Messages(store, sessionId))
    ensures var msgs := Messages(store, sessionId);
            BuildPromptWithContext(store, Some(sessionId), userPrompt, false) ==
              userPrompt + ContextHeader
              + Strings.Join(ContextLines(msgs[if ContextLimit < |msgs| then |msgs| - ContextLimit else 0..]), "\n")
  {
    RecentAreLatest(store, sessionId, ContextLimit);
  }
}

=== FILE: skill_graph.dfy ===
/** The skill graph: schema validation of node inputs, the weighted breadth-first execution path,
    the execution cache with its canonical input hash, and the node and edge metric updates. */
module SkillGraph {
  import opened Wrappers
  import opened PyValues
  import Seqs
  import Numeric

  // ----- NodeSchema.validate -----

  /** A node schema: each property's descriptor (a dict, of which only "type" is read) and the
      required field names in their declared order. */
  datatype NodeSchema = NodeSchema(properties: map<string, seq<Entry>>, required: seq<string>)

  /** The outcome of `validate`: `(True, None)` or `(False, message)`. */
  datatype Validation = Valid | Invalid(message: string)

  /** `field in data` for a string field. */
  predicate HasField(data: seq<Entry>, field: string) {
    exists i :: 0 <= i < |data| && data[i].key == PStr(field)
  }

  /** The text of `type(v)` in an error message. */
  function TypeText(v: PyValue): string {
    match v
    case PNone => "<class 'NoneType'>"
    case PBool(_) => "<class 'bool'>"
    case PInt(_) => "<class 'int'>"
    case PFloat(_) => "<class 'float'>"
    case PStr(_) => "<class 'str'>"
    case PList(_) => "<class 'list'>"
    case PTuple(_) => "<class 'tuple'>"
    case PDict(_) => "<class 'dict'>"
    case PObject(_) => "<class 'object'>"
  }

  /** The declared type of a data entry, when its key is a string naming a property whose "type"
      is truthy. */
  function DeclaredType(schema: NodeSchema, e: Entry): Option<PyValue> {
    if e.key.PStr? && e.key.s in schema.properties then
      var t := DictGet(schema.properties[e.key.s], PStr("type"));
      if t.Some? && Truthy(t.value) then t else None
    else None
  }

  /** The complaint about one entry, if its value does not have the kind its declared type names;
      types other than "string", "number" and "boolean" accept anything. */
  function Mismatch(schema: NodeSchema, e: Entry): Option<string> {
    var t := DeclaredType(schema, e);
    if t.None? then None
    else if t.value == PStr("string") && !e.value.PStr? then
      Some("Field '" + e.key.s + "' should be string, got " + TypeText(e.value))
    else if t.value == PStr("number") && !IsNumber(e.value) then
      Some("Field '" + e.key.s + "' should be number, got " + TypeText(e.value))
    else if t.value == PStr("boolean") && !e.value.PBool? then
      Some("Field '" + e.key.s + "' should be boolean, got " + TypeText(e.value))
    else None
  }

  /** The first required field the data lacks, in the schema's order. */
  function FirstMissing(required: seq<string>, data: seq<Entry>): (r: Option<string>)
    ensures r.None? <==> forall i :: 0 <= i < |required| ==> HasField(data, required[i])
    ensures r.Some? ==> exists i :: 0 <= i < |required| && required[i] == r.value && !HasField(data, required[i])
                                   && forall j :: 0 <= j < i ==> HasField(data, required[j])
  {
    if |required| == 0 then None
    else if !HasField(data, required[0]) then Some(required[0])
    else
      var r := FirstMissing(required[1..], data);
      assert forall i :: 0 < i < |required| ==> required[i] == required[1..][i - 1];
      if r.Some? then
        ghost var i :| 0 <= i < |required[1..]| && required[1..][i] == r.value && !HasField(data, required[1..][i])
                        && forall j :: 0 <= j < i ==> HasField(data, required[1..][j]);
        assert required[i + 1] == r.value;
        r
      else r
  }

  /** The complaint about the first entry, in the data's order, whose value has the wrong kind. */
  function FirstMismatch(schema: NodeSchema, data: seq<Entry>): (r: Option<string>)
    ensures r.None? <==> forall i :: 0 <= i < |data| ==> Mismatch(schema, data[i]).None?
    ensures r.Some? ==> exists i :: 0 <= i < |data| && Mismatch(schema, data[i]) == r
                                   && forall j :: 0 <= j < i ==> Mismatch(schema, data[j]).None?
  {
    if |data| == 0 then None
    else if Mismatch(schema, data[0]).Some? then Mismatch(schema, data[0])
    else
      var r := FirstMismatch(schema, data[1..]);
      assert forall i :: 0 < i < |data| ==> data[i] == data[1..][i - 1];
      if r.Some? then
        ghost var i :| 0 <= i < |data[1..]| && Mismatch(schema, data[1..][i]) == r
                       && forall j :: 0 <= j < i ==> Mismatch(schema, data[1..][j]).None?;
        assert Mismatch(schema, data[i + 1]) == r;
        r
      else r
  }

  /** `NodeSchema.validate`: every required field is checked, in order, before any type. */
  function Validate(schema: NodeSchema, data: seq<Entry>): (r: Validation)
    ensures r.Valid? <==> (forall i :: 0 <= i < |schema.required| ==> HasField(data, schema.required[i]))
                          && (forall i :: 0 <= i < |data| ==> Mismatch(schema, data[i]).None?)
    ensures (exists i :: 0 <= i < |schema.required| && !HasField(data, schema.required[i])) ==>
              r.Invalid? && exists i :: 0 <= i < |schema.required| && !HasField(data, schema.required[i])
                                        && r.message == "Missing required field: " + schema.required[i]
                                        && forall j :: 0 <= j < i ==> HasField(data, schema.required[j])
  {
    var missing := FirstMissing(schema.required, data);
    if missing.Some? then Invalid("Missing required field: " + missing.value)
    else
      var bad := FirstMismatch(schema, data);
      if bad.Some? then Invalid(bad.value) else Valid
  }

  /** Fields the schema does not declare, and declared types other than the three it knows, never
      make data invalid. */
  lemma UndeclaredFieldsPass(schema: NodeSchema, data: seq<Entry>)
    requires forall i :: 0 <= i < |schema.required| ==> HasField(data, schema.required[i])
    requires forall i :: 0 <= i < |data| ==> DeclaredType(schema, data[i]).None?
                                             || DeclaredType(schema, data[i]).value !in {PStr("string"), PStr("number"), PStr("boolean")}
    ensures Validate(schema, data) == Valid
  {
  }

  // ----- get_execution_path -----

  /** A node of the graph, keyed by its id. */
  datatype SkillNode = SkillNode(id: string, name: string, nodeType: string, toolName: Option<string>,
                                 inputSchema: Option<NodeSchema>, outputSchema: Option<NodeSchema>,
                                 costEstimate: int, avgLatencyMs: int, successRate: real)

  /** An edge with its learned weight and success rate. */
  datatype SkillEdge = SkillEdge(id: string, fromNode: string, toNode: string, edgeType: string,
                                 weight: real, frequency: int, successRate: real)

  /** The graph loaded in memory. */
  datatype Graph = Graph(nodes: map<string, SkillNode>, edges: seq<SkillEdge>)

  /** The key outgoing edges are ranked by. */
  function Score(e: SkillEdge): real {
    e.weight * e.successRate
  }

  /** There is an edge from `a` to `b`. */
  predicate HasEdge(edges: seq<SkillEdge>, a: string, b: string) {
    exists i :: 0 <= i < |edges| && edges[i].fromNode == a && edges[i].toNode == b
  }

  /** The edges `current` enqueues: its outgoing edges sorted by descending score (stably), keeping
      those whose target is not yet visited. */
  function Enqueued(edges: seq<SkillEdge>, current: string, visited: set<string>): (r: seq<SkillEdge>)
    ensures Seqs.Descending(r, Score)
    ensures forall i :: 0 <= i < |r| ==> r[i] in edges && r[i].fromNode == current && r[i].toNode !in visited
    ensures forall i :: 0 <= i < |edges| && edges[i].fromNode == current && edges[i].toNode !in visited ==> edges[i] in r
  {
    var outgoing := Seqs.Filter(edges, (e: SkillEdge) => e.fromNode == current);
    var sorted := Seqs.SortDesc(outgoing, Score);
    Seqs.FilterKeepsDescending(sorted, (e: SkillEdge) => e.toNode !in visited, Score);
    var r := Seqs.Filter(sorted, (e: SkillEdge) => e.toNode !in visited);
    forall i | 0 <= i < |r| ensures r[i] in outgoing {
      assert r[i] in multiset(sorted);
    }
    forall i | 0 <= i < |edges| && edges[i].fromNode == current && edges[i].toNode !in visited
      ensures edges[i] in sorted
    {
      assert edges[i] in multiset(outgoing);
    }
    r
  }

  /** The nodes known for the visited ids, in visiting order. */
  function NodesOf(nodes: map<string, SkillNode>, ids: seq<string>): (r: seq<SkillNode>)
    ensures |r| <= |ids|
  {
    if |ids| == 0 then []
    else NodesOf(nodes, ids[..|ids| - 1]) + (if ids[|ids| - 1] in nodes then [nodes[ids[|ids| - 1]]] else [])
  }

  /** No id is visited twice. */
  predicate Distinct(ids: seq<string>) {
    forall i, j :: 0 <= i < j < |ids| ==> ids[i] != ids[j]
  }

  /** The id at position `k` is the target of an edge from an earlier id. */
  predicate Reached(edges: seq<SkillEdge>, ids: seq<string>, k: nat)
    requires k < |ids|
  {
    exists j :: 0 <= j < k && HasEdge(edges, ids[j], ids[k])
  }

  /** Every visited id after the first is the target of an edge from an earlier visited id. */
  predicate Connected(edges: seq<SkillEdge>, ids: seq<string>) {
    forall k :: 0 < k < |ids| ==> Reached(edges, ids, k)
  }

  /** Every edge leaving a visited id leads to a visited id: nothing reachable was missed. */
  predicate Closed(edges: seq<SkillEdge>, ids: seq<string>) {
    forall i :: 0 <= i < |edges| && edges[i].fromNode in ids ==> edges[i].toNode in ids
  }

  /** `end_node_id` is given and non-empty. */
  predicate Targets(end: Option<string>) {
    end.Some? && end.value != ""
  }

  /** The ids the queue receives for the given edges, in order. */
  function TargetsOf(es: seq<SkillEdge>): (r: seq<string>)
    ensures |r| == |es| && forall i :: 0 <= i < |es| ==> r[i] == es[i].toNode
  {
    seq(|es|, i requires 0 <= i < |es| => es[i].toNode)
  }

  /** `q` is the target of an edge from an id visited so far. */
  predicate Feeds(edges: seq<SkillEdge>, order: seq<string>, q: string) {
    exists j :: 0 <= j < |order| && HasEdge(edges, order[j], q)
  }

  /** Every queued id is the target of an edge from an id visited so far. */
  predicate Fed(edges: seq<SkillEdge>, order: seq<string>, queue: seq<string>) {
    forall q :: q in queue ==> Feeds(edges, order, q)
  }

  /** Every edge leaving a visited id leads to a visited or a queued id. */
  predicate Frontier(edges: seq<SkillEdge>, visited: set<string>, queue: seq<string>) {
    forall i :: 0 <= i < |edges| && edges[i].fromNode in visited ==> edges[i].toNode in visited || edges[i].toNode in queue
  }

  lemma VisitKeepsConnected(edges: seq<SkillEdge>, before: seq<string>, current: string)
    requires Connected(edges, before)
    requires |before| > 0 ==> Feeds(edges, before, current)
    ensures Connected(edges, before + [current])
  {
    var order := before + [current];
    forall k | 0 < k < |order| ensures Reached(edges, order, k) {
      if k < |before| {
        assert Reached(edges, before, k);
        var j :| 0 <= j < k && HasEdge(edges, before[j], before[k]);
        assert order[j] == before[j] && order[k] == before[k];
      } else {
        var j :| 0 <= j < |before| && HasEdge(edges, before[j], current);
        assert order[j] == before[j] && order[k] == current;
      }
    }
  }

  lemma VisitKeepsFed(edges: seq<SkillEdge>, before: seq<string>, current: string, queue: seq<string>)
    requires Fed(edges, before, queue)
    ensures Fed(edges, before + [current], queue)
  {
    forall q | q in queue ensures Feeds(edges, before + [current], q) {
      assert Feeds(edges, before, q);
      var j :| 0 <= j < |before| && HasEdge(edges, before[j], q);
      assert (before + [current])[j] == before[j];
    }
  }

  lemma EnqueueKeepsFed(edges: seq<SkillEdge>, order: seq<string>, queue: seq<string>, next: seq<SkillEdge>)
    requires |order| > 0 && Fed(edges, order, queue)
    requires forall i :: 0 <= i < |next| ==> next[i] in edges && next[i].fromNode == order[|order| - 1]
    ensures Fed(edges, order, queue + TargetsOf(next))
  {
    forall q | q in queue + TargetsOf(next) ensures Feeds(edges, order, q) {
      if q !in queue {
        var m :| 0 <= m < |next| && TargetsOf(next)[m] == q;
        var i :| 0 <= i < |edges| && edges[i] == next[m];
        assert HasEdge(edges, order[|order| - 1], q);
      }
    }
  }

  lemma VisitKeepsFrontier(edges: seq<SkillEdge>, visited: set<string>, current: string, rest: seq<string>,
                           next: seq<SkillEdge>)
    requires Frontier(edges, visited, [current] + rest)
    requires forall i :: 0 <= i < |edges| && edges[i].fromNode == current && edges[i].toNode !in visited + {current}
               ==> edges[i] in next
    ensures Frontier(edges, visited + {current}, rest + TargetsOf(next))
  {
    forall i | 0 <= i < |edges| && edges[i].fromNode in visited + {current}
      ensures edges[i].toNode in visited + {current} || edges[i].toNode in rest + TargetsOf(next)
    {
      if edges[i].toNode !in visited + {current} {
        if edges[i].fromNode == current {
          var m :| 0 <= m < |next| && next[m] == edges[i];
          assert TargetsOf(next)[m] == edges[i].toNode;
        } else {
          assert edges[i].toNode in [current] + rest;
        }
      }
    }
  }

  /** The ids a walk from `start` can meet: `start` and every edge target. */
  function Universe(edges: seq<SkillEdge>, start: string): set<string> {
    {start} + set e | e in edges :: e.toNode
  }

  /** Popping the queue and appending targets of edges keeps the queue inside a universe that
      holds every edge target. */
  lemma QueueStaysInUniverse(edges: seq<SkillEdge>, universe: set<string>, queue: seq<string>, next: seq<SkillEdge>)
    requires |queue| > 0 && forall q :: q in queue ==> q in universe
    requires forall i :: 0 <= i < |edges| ==> edges[i].toNode in universe
    requires forall i :: 0 <= i < |next| ==> next[i] in edges
    ensures forall q :: q in queue[1..] + TargetsOf(next) ==> q in universe
  {
    forall q | q in queue[1..] + TargetsOf(next) ensures q in universe {
      if q !in queue[1..] {
        var m :| 0 <= m < |next| && TargetsOf(next)[m] == q;
        var i :| 0 <= i < |edges| && edges[i] == next[m];
      }
    }
  }

  /** Visiting an id of the universe not visited before leaves one fewer id to visit. */
  lemma VisitShrinks(universe: set<string>, visited: set<string>, current: string)
    requires current in universe && current !in visited
    ensures |universe - (visited + {current})| < |universe - visited|
  {
    assert universe - visited == (universe - (visited + {current})) + {current};
  }

  /** The breadth-first visit from a state of the walk, defined by recursion: pop the queue's
      head; skip it if it was visited; stop after it if it is the end node; otherwise visit it and
      queue its unvisited successors, highest score first. */
  function BfsFrom(edges: seq<SkillEdge>, end: Option<string>, universe: set<string>, visited: set<string>,
                   queue: seq<string>): seq<string>
    requires forall q :: q in queue ==> q in universe
    requires forall i :: 0 <= i < |edges| ==> edges[i].toNode in universe
    decreases |universe - visited|, |queue|
  {
    if |queue| == 0 then []
    else if queue[0] in visited then BfsFrom(edges, end, universe, visited, queue[1..])
    else if Targets(end) && queue[0] == end.value then [queue[0]]
    else
      var current := queue[0];
      var next := Enqueued(edges, current, visited + {current});
      QueueStaysInUniverse(edges, universe, queue, next);
      VisitShrinks(universe, visited, current);
      [current] + BfsFrom(edges, end, universe, visited + {current}, queue[1..] + TargetsOf(next))
  }

  /** The breadth-first visiting order from `start`. */
  function BfsOrder(edges: seq<SkillEdge>, start: string, end: Option<string>): seq<string> {
    BfsFrom(edges, end, Universe(edges, start), {}, [start])
  }

  /** What holds of the walk's state between two steps: the queue and the visited ids lie in the
      universe of ids the walk can meet, the visiting order is repetition-free and connected, each
      queued id hangs off a visited one, and no visited id has an unvisited, unqueued successor. */
  ghost predicate Walk(g: Graph, start: string, end: Option<string>, universe: set<string>,
                       visited: set<string>, queue: seq<string>, order: seq<string>, path: seq<SkillNode>) {
    && (forall q :: q in queue ==> q in universe)
    && visited <= universe
    && (forall v :: v in visited <==> v in order)
    && Distinct(order) && Connected(g.edges, order)
    && path == NodesOf(g.nodes, order)
    && (|order| == 0 ==> queue == [start])
    && (|order| > 0 ==> order[0] == start && Fed(g.edges, order, queue))
    && Frontier(g.edges, visited, queue)
    && (Targets(end) ==> end.value !in visited)
  }

  /** Popping an id visited before keeps the walk's invariant. */
  lemma SkipKeepsWalk(g: Graph, start: string, end: Option<string>, universe: set<string>,
                      visited: set<string>, queue: seq<string>, order: seq<string>, path: seq<SkillNode>)
    requires |queue| > 0 && queue[0] in visited
    requires Walk(g, start, end, universe, visited, queue, order, path)
    ensures Walk(g, start, end, universe, visited, queue[1..], order, path)
  {
    assert queue == [queue[0]] + queue[1..];
  }

  /** Visiting a new id keeps the visiting order repetition-free and connected, and the path its
      known nodes. */
  lemma VisitKeepsOrder(g: Graph, start: string, end: Option<string>, universe: set<string>,
                        visited: set<string>, queue: seq<string>, order: seq<string>, path: seq<SkillNode>)
    requires |queue| > 0 && queue[0] !in visited
    requires Walk(g, start, end, universe, visited, queue, order, path)
    ensures var current := queue[0];
      var order' := order + [current];
      && (forall v :: v in visited + {current} <==> v in order')
      && Distinct(order') && Connected(g.edges, order')
      && path + (if current in g.nodes then [g.nodes[current]] else []) == NodesOf(g.nodes, order')
      && order'[0] == start
  {
    var current := queue[0];
    assert queue == [current] + queue[1..];
    VisitKeepsConnected(g.edges, order, current);
    assert (order + [current])[..|order|] == order;
  }

  /** Visiting a new id and queueing its successors keeps every queued id in the universe and
      hanging off a visited one, and leaves no visited id with an unvisited, unqueued successor. */
  lemma VisitKeepsQueue(g: Graph, start: string, end: Option<string>, universe: set<string>,
                        visited: set<string>, queue: seq<string>, order: seq<string>, path: seq<SkillNode>)
    requires universe == {start} + set e | e in g.edges :: e.toNode
    requires |queue| > 0 && queue[0] !in visited
    requires Walk(g, start, end, universe, visited, queue, order, path)
    ensures var current := queue[0];
      var next := Enqueued(g.edges, current, visited + {current});
      var queue' := queue[1..] + TargetsOf(next);
      && (forall q :: q in queue' ==> q in universe)
      && Fed(g.edges, order + [current], queue')
      && Frontier(g.edges, visited + {current}, queue')
  {
    var current := queue[0];
    var rest := queue[1..];
    assert queue == [current] + rest;
    var next := Enqueued(g.edges, current, visited + {current});
    if |order| > 0 {
      VisitKeepsFed(g.edges, order, current, rest);
    }
    EnqueueKeepsFed(g.edges, order + [current], rest, next);
    VisitKeepsFrontier(g.edges, visited, current, rest, next);
    forall q | q in TargetsOf(next) ensures q in universe {
      var m :| 0 <= m < |next| && TargetsOf(next)[m] == q;
      assert next[m] in g.edges;
    }
  }

  /** Visiting the popped id and queueing its successors keeps the walk's invariant and shrinks
      the set of ids still to visit. */
  lemma VisitKeepsWalk(g: Graph, start: string, end: Option<string>, universe: set<string>,
                       visited: set<string>, queue: seq<string>, order: seq<string>, path: seq<SkillNode>)
    requires universe == {start} + set e | e in g.edges :: e.toNode
    requires |queue| > 0 && queue[0] !in visited
    requires Walk(g, start, end, universe, visited, queue, order, path)
    requires !(Targets(end) && queue[0] == end.value)
    ensures var current := queue[0];
      var next := Enqueued(g.edges, current, visited + {current});
      && Walk(g, start, end, universe, visited + {current}, queue[1..] + TargetsOf(next), order + [current],
              path + (if current in g.nodes then [g.nodes[current]] else []))
      && |universe - (visited + {current})| < |universe - visited|
  {
    var current := queue[0];
    VisitKeepsOrder(g, start, end, universe, visited, queue, order, path);
    VisitKeepsQueue(g, start, end, universe, visited, queue, order, path);
    assert current in universe - visited;
    assert universe - (visited + {current}) < universe - visited;
  }

  /** Visiting the end node: the walk stops with it last. */
  lemma EndKeepsWalk(g: Graph, start: string, end: Option<string>, universe: set<string>,
                     visited: set<string>, queue: seq<string>, order: seq<string>, path: seq<SkillNode>)
    requires |queue| > 0 && queue[0] !in visited
    requires Walk(g, start, end, universe, visited, queue, order, path)
    ensures var order' := order + [queue[0]];
      && order'[0] == start
      && Distinct(order') && Connected(g.edges, order')
      && path + (if queue[0] in g.nodes then [g.nodes[queue[0]]] else []) == NodesOf(g.nodes, order')
      && (Targets(end) ==> forall k :: 0 <= k < |order'| - 1 ==> order'[k] != end.value)
  {
    var current := queue[0];
    VisitKeepsConnected(g.edges, order, current);
    assert (order + [current])[..|order|] == order;
  }

  /** The path of a visiting order grows by the node of each newly visited id, when it is known. */
  lemma NodesOfVisit(nodes: map<string, SkillNode>, order: seq<string>, current: string)
    ensures NodesOf(nodes, order + [current]) == NodesOf(nodes, order) + (if current in nodes then [nodes[current]] else [])
  {
    assert (order + [current])[..|order|] == order;
  }

  /** A popped id visited before adds nothing to the breadth-first order; the end node is the
      last id it adds. */
  lemma PopUnfolds(edges: seq<SkillEdge>, end: Option<string>, universe: set<string>,
                   visited: set<string>, queue: seq<string>)
    requires forall i :: 0 <= i < |edges| ==> edges[i].toNode in universe
    requires forall q :: q in queue ==> q in universe
    requires |queue| > 0
    ensures forall q :: q in queue[1..] ==> q in universe
    ensures queue[0] in visited ==>
      BfsFrom(edges, end, universe, visited, queue) == BfsFrom(edges, end, universe, visited, queue[1..])
    ensures queue[0] !in visited && Targets(end) && queue[0] == end.value ==>
      BfsFrom(edges, end, universe, visited, queue) == [queue[0]]
  {
  }

  /** Visiting the id the breadth-first order puts next moves it from the order still to come to
      the order so far, and keeps the queue inside the universe. */
  lemma VisitUnfolds(edges: seq<SkillEdge>, end: Option<string>, universe: set<string>,
                     visited: set<string>, queue: seq<string>, order: seq<string>)
    requires forall i :: 0 <= i < |edges| ==> edges[i].toNode in universe
    requires forall q :: q in queue ==> q in universe
    requires |queue| > 0 && queue[0] !in visited && !(Targets(end) && queue[0] == end.value)
    ensures var current := queue[0];
      var queue' := queue[1..] + TargetsOf(Enqueued(edges, current, visited + {current}));
      && (forall q :: q in queue' ==> q in universe)
      && order + BfsFrom(edges, end, universe, visited, queue)
         == (order + [current]) + BfsFrom(edges, end, universe, visited + {current}, queue')
  {
    var current := queue[0];
    var next := Enqueued(edges, current, visited + {current});
    QueueStaysInUniverse(edges, universe, queue, next);
    var rest := BfsFrom(edges, end, universe, visited + {current}, queue[1..] + TargetsOf(next));
    assert BfsFrom(edges, end, universe, visited, queue) == [current] + rest;
    assert (order + [current]) + rest == order + ([current] + rest);
  }

  /** What holds of a visiting order: it starts at `start`, repeats no id and follows edges; it
      ends at the end node when it reaches it, and otherwise nothing reachable was missed. */
  ghost predicate OrderFacts(g: Graph, start: string, end: Option<string>, order: seq<string>) {
    && |order| > 0 && order[0] == start
    && Distinct(order) && Connected(g.edges, order)
    && (Targets(end) && end.value in order ==> order[|order| - 1] == end.value)
    && (Targets(end) ==> forall k :: 0 <= k < |order| - 1 ==> order[k] != end.value)
    && (!(Targets(end) && end.value in order) ==> Closed(g.edges, order))
  }

  /** Every edge target lies in the universe of the walk from `start`. */
  lemma TargetsInUniverse(edges: seq<SkillEdge>, start: string)
    ensures forall i :: 0 <= i < |edges| ==> edges[i].toNode in Universe(edges, start)
  {
    forall i | 0 <= i < |edges| ensures edges[i].toNode in Universe(edges, start) {
      assert edges[i] in edges;
    }
  }

  /** Continuing the breadth-first visit from any state of the walk yields an order with the
      facts above. */
  lemma {:induction false} BfsFromWalk(g: Graph, start: string, end: Option<string>, universe: set<string>,
                                       visited: set<string>, queue: seq<string>, order: seq<string>, path: seq<SkillNode>)
    requires universe == Universe(g.edges, start)
    requires forall i :: 0 <= i < |g.edges| ==> g.edges[i].toNode in universe
    requires Walk(g, start, end, universe, visited, queue, order, path)
    ensures OrderFacts(g, start, end, order + BfsFrom(g.edges, end, universe, visited, queue))
    decreases |universe - visited|, |queue|
  {
    if |queue| == 0 {
      assert order + BfsFrom(g.edges, end, universe, visited, queue) == order;
    } else if queue[0] in visited {
      SkipKeepsWalk(g, start, end, universe, visited, queue, order, path);
      assert BfsFrom(g.edges, end, universe, visited, queue) == BfsFrom(g.edges, end, universe, visited, queue[1..]);
      BfsFromWalk(g, start, end, universe, visited, queue[1..], order, path);
    } else if Targets(end) && queue[0] == end.value {
      EndKeepsWalk(g, start, end, universe, visited, queue, order, path);
      assert BfsFrom(g.edges, end, universe, visited, queue) == [queue[0]];
    } else {
      var current := queue[0];
      VisitKeepsWalk(g, start, end, universe, visited, queue, order, path);
      VisitUnfolds(g.edges, end, universe, visited, queue, order);
      var queue' := queue[1..] + TargetsOf(Enqueued(g.edges, current, visited + {current}));
      BfsFromWalk(g, start, end, universe, visited + {current}, queue', order + [current],
                  path + (if current in g.nodes then [g.nodes[current]] else []));
    }
  }

  /** The breadth-first order from `start` starts there, repeats no id and follows edges; it ends
      at the end node when it reaches it, and otherwise leaves no edge from a visited id to an
      unvisited one. */
  lemma BfsOrderFacts(g: Graph, start: string, end: Option<string>)
    ensures OrderFacts(g, start, end, BfsOrder(g.edges, start, end))
  {
    TargetsInUniverse(g.edges, start);
    BfsFromWalk(g, start, end, Universe(g.edges, start), {}, [start], [], []);
    assert [] + BfsOrder(g.edges, start, end) == BfsOrder(g.edges, start, end);
  }

  /** `get_execution_path`: a breadth-first walk from `start` whose queue takes each node's
      unvisited successors in descending score order. `order` is the visiting order, which is the
      breadth-first order `BfsOrder`; the path is its known nodes. The walk stops as soon as the end
      node is visited. */
  method GetExecutionPath(g: Graph, start: string, end: Option<string>) returns (path: seq<SkillNode>, order: seq<string>)
    ensures order == BfsOrder(g.edges, start, end)
    ensures path == NodesOf(g.nodes, order)
    ensures |order| > 0 && order[0] == start
    ensures Distinct(order) && Connected(g.edges, order)
    ensures Targets(end) && end.value in order ==> order[|order| - 1] == end.value
    ensures Targets(end) ==> forall k :: 0 <= k < |order| - 1 ==> order[k] != end.value
    ensures !(Targets(end) && end.value in order) ==> Closed(g.edges, order)
  {
    var visited: set<string> := {};
    var queue: seq<string> := [start];
    order := [];
    path := [];
    ghost var universe := Universe(g.edges, start);
    TargetsInUniverse(g.edges, start);
    assert [] + BfsFrom(g.edges, end, universe, {}, [start]) == BfsOrder(g.edges, start, end);
    while |queue| > 0
      invariant forall q :: q in queue ==> q in universe
      invariant order + BfsFrom(g.edges, end, universe, visited, queue) == BfsOrder(g.edges, start, end)
      invariant path == NodesOf(g.nodes, order)
      decreases |universe - visited|, |queue|
    {
      var current := queue[0];
      PopUnfolds(g.edges, end, universe, visited, queue);
      if current in visited {
        queue := queue[1..];
        continue;
      }
      NodesOfVisit(g.nodes, order, current);
      if Targets(end) && current == end.value {
        order := order + [current];
        path := path + (if current in g.nodes then [g.nodes[current]] else []);
        BfsOrderFacts(g, start, end);
        return;
      }
      VisitUnfolds(g.edges, end, universe, visited, queue, order);
      VisitShrinks(universe, visited, current);
      var next := Enqueued(g.edges, current, visited + {current});
      visited := visited + {current};
      order := order + [current];
      path := path + (if current in g.nodes then [g.nodes[current]] else []);
      queue := queue[1..] + TargetsOf(next);
    }
    assert order + BfsFrom(g.edges, end, universe, visited, queue) == order;
    BfsOrderFacts(g, start, end);
  }

  // ----- check_cache / cache_result / _compute_input_hash -----

  /** Lexicographic order on strings by code point, as Python compares `str`. */
  predicate LexLess(a: string, b: string)
    decreases |a|
  {
    if |a| == 0 then |b| > 0
    else if |b| == 0 then false
    else if a[0] < b[0] then true
    else if a[0] == b[0] then LexLess(a[1..], b[1..])
    else false
  }

  lemma {:induction false} LexIrreflexive(a: string)
    ensures !LexLess(a, a)
    decreases |a|
  {
    if |a| > 0 {
      LexIrreflexive(a[1..]);
    }
  }

  lemma {:induction false} LexTransitive(a: string, b: string, c: string)
    requires LexLess(a, b) && LexLess(b, c)
    ensures LexLess(a, c)
    decreases |a|
  {
    if |a| > 0 && |b| > 0 && |c| > 0 && a[0] == b[0] && b[0] == c[0] {
      LexTransitive(a[1..], b[1..], c[1..]);
    }
  }

  lemma {:induction false} LexTotal(a: string, b: string)
    requires a != b
    ensures LexLess(a, b) || LexLess(b, a)
    decreases |a|
  {
    if |a| > 0 && |b| > 0 && a[0] == b[0] {
      assert a == [a[0]] + a[1..] && b == [b[0]] + b[1..];
      LexTotal(a[1..], b[1..]);
    }
  }

  /** How `json.dumps(..., sort_keys=True)` orders a dict's keys: numbers by value, strings by code
      point. Keys of different kinds are ordered by kind only to make the order total; Python
      refuses to compare them, so a dict holding them is not `Encodable` and its order never
      reaches a hash. */
  predicate KeyLess(a: PyValue, b: PyValue) {
    if a.PStr? && b.PStr? then LexLess(a.s, b.s)
    else if IsNumber(a) && IsNumber(b) then AsReal(a) < AsReal(b)
    else KeyRank(a) < KeyRank(b)
  }

  function KeyRank(k: PyValue): nat {
    if k.PNone? then 0 else if IsNumber(k) then 1 else if k.PStr? then 2 else 3
  }

  lemma KeyIrreflexive(a: PyValue)
    ensures !KeyLess(a, a)
  {
    if a.PStr? {
      LexIrreflexive(a.s);
    }
  }

  lemma KeyTransitive(a: PyValue, b: PyValue, c: PyValue)
    requires KeyLess(a, b) && KeyLess(b, c)
    ensures KeyLess(a, c)
  {
    if a.PStr? && b.PStr? && c.PStr? {
      LexTransitive(a.s, b.s, c.s);
    }
  }

  /** Two entries in the order of their keys. */
  predicate EntryLess(x: Entry, y: Entry) {
    KeyLess(x.key, y.key)
  }

  /** The key order is a strict order. */
  lemma EntryOrder()
    ensures Seqs.StrictOrder(EntryLess)
  {
    forall x: Entry ensures !EntryLess(x, x) {
      KeyIrreflexive(x.key);
    }
    forall x: Entry, y: Entry, z: Entry | EntryLess(x, y) && EntryLess(y, z) ensures EntryLess(x, z) {
      KeyTransitive(x.key, y.key, z.key);
    }
  }

  /** The entries of a dict sorted by key, as `sort_keys=True` writes them. */
  function SortEntries(es: seq<Entry>): (r: seq<Entry>)
    ensures multiset(r) == multiset(es)
    ensures Seqs.Total(es, EntryLess) ==> Seqs.Increasing(r, EntryLess)
  {
    EntryOrder();
    Seqs.SortBy(es, EntryLess)
  }

  /** Keys `sort_keys=True` can sort. Python compares numbers (bool, int, float) only with numbers
      and strings only with strings, and a sort that meets two keys it cannot compare raises
      `TypeError`; a dict of at most one key needs no comparison. */
  predicate SortableKeys(es: seq<Entry>) {
    || |es| <= 1
    || (forall i :: 0 <= i < |es| ==> es[i].key.PStr?)
    || (forall i :: 0 <= i < |es| ==> IsNumber(es[i].key))
  }

  /** `json.dumps(v, sort_keys=True, default=str)` returns instead of raising: every dict, at any
      depth, has sortable keys of the kinds JSON accepts. Other objects never make it raise, since
      `default=str` writes them as text. */
  predicate Encodable(v: PyValue) {
    match v
    case PList(xs) => forall i :: 0 <= i < |xs| ==> Encodable(xs[i])
    case PTuple(xs) => forall i :: 0 <= i < |xs| ==> Encodable(xs[i])
    case PDict(es) => SortableKeys(es) && forall i :: 0 <= i < |es| ==> JsonKey(es[i].key) && Encodable(es[i].value)
    case _ => true
  }

  /** The same entries in another order are as encodable. */
  lemma EncodablePermutation(a: seq<Entry>, b: seq<Entry>)
    requires multiset(a) == multiset(b) && Encodable(PDict(a))
    ensures Encodable(PDict(b))
  {
    assert |a| == |multiset(a)| == |multiset(b)| == |b|;
    forall i | 0 <= i < |b| ensures exists j :: 0 <= j < |a| && a[j] == b[i] {
      assert b[i] in multiset(a);
    }
  }

  /** The value `json.dumps(..., sort_keys=True)` writes for an `Encodable` value: every dict, at any depth, with its keys
      sorted. Values `json` cannot encode are written with `str()` (the `default=str` hook). */
  function Canonical(v: PyValue): PyValue {
    match v
    case PList(xs) => PList(seq(|xs|, i requires 0 <= i < |xs| => Canonical(xs[i])))
    case PTuple(xs) => PList(seq(|xs|, i requires 0 <= i < |xs| => Canonical(xs[i])))
    case PDict(es) => PDict(SortEntries(seq(|es|, i requires 0 <= i < |es| => Entry(es[i].key, Canonical(es[i].value)))))
    case PObject(text) => PStr(text)
    case _ => v
  }

  /** One entry with its value made canonical. */
  function CanonicalEntry(e: Entry): Entry {
    Entry(e.key, Canonical(e.value))
  }

  /** A canonical dict is its entries, values made canonical, sorted by key; the keys are the
      original ones, so comparable keys stay comparable. */
  lemma CanonicalDict(es: seq<Entry>)
    ensures Canonical(PDict(es)) == PDict(SortEntries(Seqs.MapSeq(es, CanonicalEntry)))
    ensures Seqs.Total(es, EntryLess) ==> Seqs.Total(Seqs.MapSeq(es, CanonicalEntry), EntryLess)
  {
    assert seq(|es|, i requires 0 <= i < |es| => Entry(es[i].key, Canonical(es[i].value))) == Seqs.MapSeq(es, CanonicalEntry);
  }

  /** `_compute_input_hash`: the digest (an uninterpreted `sha256`) of the canonical JSON, or
      `None` where `json.dumps` raises. */
  function InputHash(inputs: seq<Entry>, sha256: PyValue -> string): (r: Option<string>)
    ensures r.Some? <==> Encodable(PDict(inputs))
  {
    if Encodable(PDict(inputs)) then Some(sha256(Canonical(PDict(inputs)))) else None
  }

  /** Inputs holding the same entries in a different order hash identically, provided their keys
      are mutually ordered, as the keys of a dict whose keys are all strings (or all numbers) are. */
  lemma KeyOrderIrrelevant(a: seq<Entry>, b: seq<Entry>, sha256: PyValue -> string)
    requires Seqs.Total(a, EntryLess) && Seqs.Total(b, EntryLess) && multiset(a) == multiset(b)
    ensures InputHash(a, sha256) == InputHash(b, sha256)
  {
    if Encodable(PDict(a)) { EncodablePermutation(a, b); }
    if Encodable(PDict(b)) { EncodablePermutation(b, a); }
    var ca := Seqs.MapSeq(a, CanonicalEntry);
    var cb := Seqs.MapSeq(b, CanonicalEntry);
    CanonicalDict(a);
    CanonicalDict(b);
    Seqs.MapPermutation(a, b, CanonicalEntry);
    EntryOrder();
    Seqs.IncreasingUnique(SortEntries(ca), SortEntries(cb), EntryLess);
  }

  /** A row of `execution_cache`. Expiry times are hours on the clock `now` reads. */
  datatype CacheEntry = CacheEntry(inputs: seq<Entry>, outputs: PyValue, executionTimeMs: int,
                                   expiresAt: Option<real>, cacheHits: nat)

  /** The cache table, one row per tool name and input hash. */
  type Cache = map<(string, string), CacheEntry>

  /** The cache after a lookup, and what the lookup returned. */
  datatype CacheLookup = CacheLookup(cache: Cache, result: Option<PyValue>)

  /** The entry is past its expiry. */
  predicate Expired(e: CacheEntry, now: real) {
    e.expiresAt.Some? && now > e.expiresAt.value
  }

  /** `check_cache`. A live entry counts one more hit and returns its outputs; a missing or
      expired entry returns `None` and touches nothing. `storeUp` false stands for a store error,
      and inputs `json.dumps` cannot encode make the hash raise; the handler turns both into
      `None`. */
  function CheckCache(cache: Cache, toolName: string, inputs: seq<Entry>, sha256: PyValue -> string,
                      now: real, storeUp: bool): (r: CacheLookup)
    ensures !Encodable(PDict(inputs)) ==> r == CacheLookup(cache, None)
    ensures Encodable(PDict(inputs)) ==> var key := (toolName, InputHash(inputs, sha256).value);
      && (r.result.Some? <==> storeUp && key in cache && !Expired(cache[key], now))
      && (r.result.Some? ==> r.result.value == cache[key].outputs
                             && r.cache == cache[key := cache[key].(cacheHits := cache[key].cacheHits + 1)])
      && (r.result.None? ==> r.cache == cache)
  {
    var hash := InputHash(inputs, sha256);
    if !storeUp || hash.None? then CacheLookup(cache, None)
    else
      var key := (toolName, hash.value);
      if key !in cache || Expired(cache[key], now) then CacheLookup(cache, None)
      else CacheLookup(cache[key := cache[key].(cacheHits := cache[key].cacheHits + 1)], Some(cache[key].outputs))
  }

  /** `cache_result`: stores the outputs under the input hash, expiring `ttlHours` after `now`
      unless the TTL is `None` or 0. A row already there keeps its hit count. Inputs whose hash
      raises, like a store error, leave the cache as it was. */
  function CacheResult(cache: Cache, toolName: string, inputs: seq<Entry>, outputs: PyValue,
                       executionTimeMs: int, ttlHours: Option<int>, sha256: PyValue -> string,
                       now: real, storeUp: bool): (r: Cache)
    ensures !storeUp || !Encodable(PDict(inputs)) ==> r == cache
    ensures storeUp && Encodable(PDict(inputs)) ==> var key := (toolName, InputHash(inputs, sha256).value);
      && key in r && r[key].outputs == outputs
      && (r[key].expiresAt.None? <==> ttlHours.None? || ttlHours.value == 0)
      && (r[key].expiresAt.Some? ==> r[key].expiresAt.value == now + ttlHours.value as real)
      && forall k :: k in cache && k != key ==> k in r && r[k] == cache[k]
  {
    var hash := InputHash(inputs, sha256);
    if !storeUp || hash.None? then cache
    else
      var key := (toolName, hash.value);
      var expires := if ttlHours.Some? && ttlHours.value != 0 then Some(now + ttlHours.value as real) else None;
      var hits := if key in cache then cache[key].cacheHits else 0;
      cache[key := CacheEntry(inputs, outputs, executionTimeMs, expires, hits)]
  }

  /** A result cached without expiry, or with a positive TTL that has not run out, is found again,
      even when the inputs are given with their keys in another order, provided `json.dumps` can
      encode them. */
  lemma CachedResultIsFound(cache: Cache, toolName: string, inputs: seq<Entry>, reordered: seq<Entry>,
                            outputs: PyValue, executionTimeMs: int, ttlHours: Option<int>,
                            sha256: PyValue -> string, now: real, later: real)
    requires Seqs.Total(inputs, EntryLess) && Seqs.Total(reordered, EntryLess) && multiset(inputs) == multiset(reordered)
    requires Encodable(PDict(inputs))
    requires ttlHours.Some? && ttlHours.value != 0 ==> later <= now + ttlHours.value as real
    ensures var stored := CacheResult(cache, toolName, inputs, outputs, executionTimeMs, ttlHours, sha256, now, true);
      CheckCache(stored, toolName, reordered, sha256, later, true).result == Some(outputs)
  {
    KeyOrderIrrelevant(inputs, reordered, sha256);
  }

  /** Inputs whose keys Python cannot sort, `{1: 0, "a": 0}` for one, are never stored and never
      found: the hash raises inside both handlers. */
  lemma MixedKeysAreNotCached(cache: Cache, toolName: string, outputs: PyValue, ttlHours: Option<int>,
                              sha256: PyValue -> string, now: real)
    ensures var inputs := [Entry(PInt(1), PInt(0)), Entry(PStr("a"), PInt(0))];
      && CacheResult(cache, toolName, inputs, outputs, 0, ttlHours, sha256, now, true) == cache
      && CheckCache(cache, toolName, inputs, sha256, now, true) == CacheLookup(cache, None)
  {
    var inputs := [Entry(PInt(1), PInt(0)), Entry(PStr("a"), PInt(0))];
    assert !inputs[0].key.PStr? && !IsNumber(inputs[1].key);
    assert !SortableKeys(inputs);
  }

  /** A result whose TTL has run out is not returned. */
  lemma ExpiredResultIsMissed(cache: Cache, toolName: string, inputs: seq<Entry>, outputs: PyValue,
                              executionTimeMs: int, ttl: int, sha256: PyValue -> string, now: real, later: real)
    requires ttl != 0 && later > now + ttl as real
    ensures var stored := CacheResult(cache, toolName, inputs, outputs, executionTimeMs, Some(ttl), sha256, now, true);
      CheckCache(stored, toolName, inputs, sha256, later, true) == CacheLookup(stored, None)
  {
  }

  // ----- update_node_metrics / update_edge_metrics -----

  /** The metric columns of a `skill_graph_nodes` row. */
  datatype NodeMetrics = NodeMetrics(successRate: real, avgLatencyMs: int, costEstimate: int)

  /** 1.0 for a success, 0.0 for a failure. */
  function Outcome(success: bool): real {
    if success then 1.0 else 0.0
  }

  /** `int((a + b) / 2)`: half the sum, rounded toward zero. */
  function HalfSum(a: int, b: int): (r: int)
    ensures 0 <= a + b ==> r == (a + b) / 2
    ensures a + b < 0 ==> r == -((-(a + b)) / 2)
    ensures 0 <= a && 0 <= b ==> (if a <= b then a else b) <= r <= (if a <= b then b else a)
  {
    Numeric.Truncate((a + b) as real / 2.0)
  }

  /** `update_node_metrics`: success rate as a moving average with weight 0.2 on this run; latency
      and cost become the truncated mean of the stored and the new value. Unknown ids are ignored. */
  function UpdateNodeMetrics(nodes: map<string, NodeMetrics>, nodeId: string, success: bool,
                             latencyMs: int, cost: int): (r: map<string, NodeMetrics>)
    ensures nodeId !in nodes ==> r == nodes
    ensures nodeId in nodes ==> nodeId in r && r == nodes[nodeId := r[nodeId]]
    ensures nodeId in nodes ==> var before := nodes[nodeId];
      && r[nodeId].successRate - before.successRate == 0.2 * (Outcome(success) - before.successRate)
      && r[nodeId].avgLatencyMs == HalfSum(before.avgLatencyMs, latencyMs)
      && r[nodeId].costEstimate == HalfSum(before.costEstimate, cost)
    ensures nodeId in nodes && 0.0 <= nodes[nodeId].successRate <= 1.0 ==> 0.0 <= r[nodeId].successRate <= 1.0
    ensures nodeId in nodes && success ==> r[nodeId].successRate >= nodes[nodeId].successRate || nodes[nodeId].successRate > 1.0
    ensures nodeId in nodes && !success ==> r[nodeId].successRate <= nodes[nodeId].successRate || nodes[nodeId].successRate < 0.0
    ensures nodeId in nodes && 0 <= nodes[nodeId].avgLatencyMs && 0 <= latencyMs ==>
              Numeric.Min(nodes[nodeId].avgLatencyMs as real, latencyMs as real) <= r[nodeId].avgLatencyMs as real
              <= Numeric.Max(nodes[nodeId].avgLatencyMs as real, latencyMs as real)
  {
    if nodeId !in nodes then nodes
    else
      var m := nodes[nodeId];
      nodes[nodeId := NodeMetrics(Numeric.Ema(0.2, Outcome(success), m.successRate),
                                  HalfSum(m.avgLatencyMs, latencyMs), HalfSum(m.costEstimate, cost))]
  }

  /** The metric columns of a `skill_graph_edges` row. */
  datatype EdgeMetrics = EdgeMetrics(fromNode: string, toNode: string, frequency: int, successRate: real,
                                     avgDataQuality: real, weight: real)

  /** `update_edge_metrics`: the first edge between the two nodes counts one more use, averages
      success and data quality with weight 0.2 on this run, and gets weight 0.7 success + 0.3
      quality; other edges are untouched, and no edge means no change. */
  function UpdateEdgeMetrics(edges: seq<EdgeMetrics>, fromNode: string, toNode: string, success: bool,
                             quality: real): (r: seq<EdgeMetrics>)
    ensures |r| == |edges|
    ensures var k := Seqs.FirstWhere(edges, (e: EdgeMetrics) => e.fromNode == fromNode && e.toNode == toNode);
      && (k.None? ==> r == edges)
      && (k.Some? ==>
           && (forall j :: 0 <= j < |r| && j != k.value ==> r[j] == edges[j])
           && r[k.value].fromNode == fromNode && r[k.value].toNode == toNode
           && r[k.value].frequency == edges[k.value].frequency + 1
           && r[k.value].successRate - edges[k.value].successRate
                == 0.2 * (Outcome(success) - edges[k.value].successRate)
           && r[k.value].avgDataQuality - edges[k.value].avgDataQuality
                == 0.2 * (quality - edges[k.value].avgDataQuality)
           && r[k.value].weight == 0.7 * r[k.value].successRate + 0.3 * r[k.value].avgDataQuality
           && Numeric.Min(r[k.value].successRate, r[k.value].avgDataQuality) <= r[k.value].weight
           && r[k.value].weight <= Numeric.Max(r[k.value].successRate, r[k.value].avgDataQuality)
           && ((0.0 <= edges[k.value].successRate <= 1.0 && 0.0 <= edges[k.value].avgDataQuality <= 1.0
                && 0.0 <= quality <= 1.0) ==> 0.0 <= r[k.value].weight <= 1.0))
  {
    var k := Seqs.FirstWhere(edges, (e: EdgeMetrics) => e.fromNode == fromNode && e.toNode == toNode);
    if k.None? then edges
    else
      var e := edges[k.value];
      var s := Numeric.Ema(0.2, Outcome(success), e.successRate);
      var q := Numeric.Ema(0.2, quality, e.avgDataQuality);
      edges[k.value := e.(frequency := e.frequency + 1, successRate := s, avgDataQuality := q,
                          weight := 0.7 * s + 0.3 * q)]
  }
}

=== FILE: strings.dfy ===
/** The Python `str` operations the agent's components rely on: `find`, `rfind`, `in`, `split`,
    `join`, `strip`, `splitlines`, `startswith` and `lower`, on strings as sequences of code points. */
module Strings {

  /** `pat` occurs in `s` starting at index `k`. */
  predicate OccursAt(s: string, pat: string, k: int) {
    0 <= k && k + |pat| <= |s| && s[k..k + |pat|] == pat
  }

  /** `s.find(pat)`: the first index where `pat` occurs, or -1. */
  function Find(s: string, pat: string): (r: int)
    ensures -1 <= r <= |s|
    ensures r >= 0 ==> OccursAt(s, pat, r)
    ensures r >= 0 ==> forall k :: 0 <= k < r ==> !OccursAt(s, pat, k)
    ensures r == -1 ==> forall k :: !OccursAt(s, pat, k)
    decreases |s|
  {
    if |pat| > |s| then -1
    else if s[..|pat|] == pat then 0
    else
      var r := Find(s[1..], pat);
      assert forall k :: 1 <= k ==> (OccursAt(s, pat, k) <==> OccursAt(s[1..], pat, k - 1)) by {
        forall k | 1 <= k ensures OccursAt(s, pat, k) <==> OccursAt(s[1..], pat, k - 1) {
          OccursShift(s, pat, k);
        }
      }
      if r < 0 then -1 else r + 1
  }

  /** An occurrence at `k >= 1` is an occurrence at `k - 1` once the first character is dropped. */
  lemma OccursShift(s: string, pat: string, k: int)
    requires 1 <= k && 1 <= |s|
    ensures OccursAt(s, pat, k) <==> OccursAt(s[1..], pat, k - 1)
  {
    if k + |pat| <= |s| {
      var window, shifted := s[k..k + |pat|], s[1..][k - 1..k - 1 + |pat|];
      forall t | 0 <= t < |pat| ensures window[t] == shifted[t] {
        assert window[t] == s[k + t];
      }
      assert window == shifted;
    }
  }

  /** Python's `pat in s`. */
  predicate Contains(s: string, pat: string) {
    Find(s, pat) >= 0
  }

  /** An occurrence inside a window `s[i..j]` is an occurrence in `s`, shifted by `i`. */
  lemma OccursInSlice(s: string, pat: string, i: int, j: int, k: int)
    requires 0 <= i <= j <= |s|
    ensures OccursAt(s[i..j], pat, k) ==> OccursAt(s, pat, i + k) && k + |pat| <= j - i
  {
    if 0 <= k && k + |pat| <= j - i {
      var v := s[i..j][k..k + |pat|];
      var u := s[i + k..i + k + |pat|];
      forall m | 0 <= m < |pat| ensures v[m] == u[m] {
      }
    }
  }

  /** A window of a string that has no occurrence of `pat` has none either. */
  lemma NoOccurrenceInSlice(s: string, pat: string, i: int, j: int)
    requires 0 <= i <= j <= |s|
    requires !Contains(s, pat)
    ensures !Contains(s[i..j], pat)
  {
    forall k ensures !OccursAt(s[i..j], pat, k) {
      OccursInSlice(s, pat, i, j, k);
    }
  }

  /** `s.rfind(c)` for a one-character needle: the last index holding `c`, or -1. */
  function RFindChar(s: string, c: char): (r: int)
    ensures -1 <= r < |s|
    ensures r >= 0 ==> s[r] == c
    ensures forall k :: r < k < |s| ==> s[k] != c
  {
    if |s| == 0 then -1
    else if s[|s| - 1] == c then |s| - 1
    else RFindChar(s[..|s| - 1], c)
  }

  /** `s.startswith(p)`. */
  predicate StartsWith(s: string, p: string) {
    |p| <= |s| && s[..|p|] == p
  }

  /** `sep.join(parts)`. */
  function Join(parts: seq<string>, sep: string): string
    decreases |parts|
  {
    if |parts| == 0 then ""
    else if |parts| == 1 then parts[0]
    else parts[0] + sep + Join(parts[1..], sep)
  }

  /** `s.split(sep)` for a non-empty separator: the pieces between successive occurrences, left to
      right. Joining the pieces back with `sep` gives `s`, and no piece contains `sep`. */
  function Split(s: string, sep: string): (parts: seq<string>)
    requires |sep| > 0
    ensures |parts| >= 1
    ensures Join(parts, sep) == s
    ensures forall i :: 0 <= i < |parts| ==> !Contains(parts[i], sep)
    ensures |parts| == 1 <==> !Contains(s, sep)
    decreases |s|
  {
    var i := Find(s, sep);
    if i < 0 then [s]
    else
      var rest := Split(s[i + |sep|..], sep);
      SplitStep(s, sep, i, rest);
      [s[..i]] + rest
  }

  /** The facts one recursive step of `Split` needs: the head piece avoids `sep` and the pieces
      join back to `s`. */
  lemma SplitStep(s: string, sep: string, i: int, rest: seq<string>)
    requires |sep| > 0 && 0 <= i && i == Find(s, sep)
    requires |rest| >= 1 && Join(rest, sep) == s[i + |sep|..]
    ensures !Contains(s[..i], sep)
    ensures Join([s[..i]] + rest, sep) == s
  {
    forall k ensures !OccursAt(s[..i], sep, k) {
      OccursInSlice(s, sep, 0, i, k);
    }
    JoinCons(s[..i], rest, sep);
    SplitAround(s, sep, i);
  }

  /** Joining a head onto at least one further piece puts the separator between them. */
  lemma JoinCons(head: string, rest: seq<string>, sep: string)
    requires |rest| >= 1
    ensures Join([head] + rest, sep) == head + sep + Join(rest, sep)
  {
    assert ([head] + rest)[1..] == rest;
  }

  /** A string is the text before an occurrence, the occurrence, and the text after it. */
  lemma SplitAround(s: string, pat: string, i: int)
    requires OccursAt(s, pat, i)
    ensures s == s[..i] + pat + s[i + |pat|..]
  {
    assert s == s[..i] + s[i..i + |pat|] + s[i + |pat|..];
  }

  /** The first piece of `s.split(sep)` is the text before the first occurrence of `sep`. */
  lemma SplitHead(s: string, sep: string)
    requires |sep| > 0
    ensures Find(s, sep) < 0 ==> Split(s, sep)[0] == s
    ensures Find(s, sep) >= 0 ==> Split(s, sep)[0] == s[..Find(s, sep)]
  {
  }

  /** The second piece of `s.split(sep)`, when `sep` occurs, is the text between its first and
      second occurrences (or to the end). */
  lemma SplitSecond(s: string, sep: string)
    requires |sep| > 0
    requires Contains(s, sep)
    ensures var rest := s[Find(s, sep) + |sep|..];
      Split(s, sep)[1] == if Contains(rest, sep) then rest[..Find(rest, sep)] else rest
  {
    var rest := s[Find(s, sep) + |sep|..];
    assert Split(s, sep)[1..] == Split(rest, sep);
    SplitHead(rest, sep);
  }

  /** Whitespace in the sense of Python's `str.isspace`, which `strip()` removes. */
  predicate IsSpace(c: char) {
    c == ' ' || ('\t' <= c <= '\r') || ('\U{1C}' <= c <= '\U{1F}') || c == '\U{85}' || c == '\U{A0}'
    || c == '\U{1680}' || ('\U{2000}' <= c <= '\U{200A}') || c == '\U{2028}' || c == '\U{2029}'
    || c == '\U{202F}' || c == '\U{205F}' || c == '\U{3000}'
  }

  /** The first position at or after `i` that does not hold whitespace (or `|s|`). */
  function SkipSpace(s: string, i: nat): (k: nat)
    requires i <= |s|
    ensures i <= k <= |s|
    ensures forall j :: i <= j < k ==> IsSpace(s[j])
    ensures k < |s| ==> !IsSpace(s[k])
    decreases |s| - i
  {
    if i < |s| && IsSpace(s[i]) then SkipSpace(s, i + 1) else i
  }

  /** The end of the text before position `j` once trailing whitespace is dropped. */
  function TrimEnd(s: string, j: nat): (k: nat)
    requires j <= |s|
    ensures k <= j
    ensures forall m :: k <= m < j ==> IsSpace(s[m])
    ensures k > 0 ==> !IsSpace(s[k - 1])
  {
    if j > 0 && IsSpace(s[j - 1]) then TrimEnd(s, j - 1) else j
  }

  /** `s.strip()`: the window of `s` between its leading and its trailing whitespace. */
  function Strip(s: string): (r: string)
    ensures var i := SkipSpace(s, 0); i + |r| <= |s| && r == s[i..i + |r|]
    ensures r == [] || (!IsSpace(r[0]) && !IsSpace(r[|r| - 1]))
  {
    var i := SkipSpace(s, 0);
    var j := TrimEnd(s, |s|);
    if i == |s| then [] else s[i..j]
  }

  /** What `strip()` removes is whitespace only. */
  lemma StripRemovesOnlySpace(s: string)
    ensures var i := SkipSpace(s, 0);
      && (forall k :: 0 <= k < i ==> IsSpace(s[k]))
      && (forall k :: i + |Strip(s)| <= k < |s| ==> IsSpace(s[k]))
  {
    var i, j := SkipSpace(s, 0), TrimEnd(s, |s|);
    if i < |s| {
      assert Strip(s) == s[i..j];
    }
  }

  /** A string with no whitespace at either end is its own `strip()`. */
  lemma StripOfStripped(s: string)
    requires s == [] || (!IsSpace(s[0]) && !IsSpace(s[|s| - 1]))
    ensures Strip(s) == s
  {
  }

  /** Stripping keeps a string free of a needle that it did not contain. */
  lemma StripKeepsAbsence(s: string, pat: string)
    requires !Contains(s, pat)
    ensures !Contains(Strip(s), pat)
  {
    WindowKeepsAbsence(s, Strip(s), SkipSpace(s, 0), pat);
  }

  /** A window of a string that has no occurrence of `pat` has none either. */
  lemma WindowKeepsAbsence(s: string, w: string, i: nat, pat: string)
    requires i + |w| <= |s| && w == s[i..i + |w|]
    requires !Contains(s, pat)
    ensures !Contains(w, pat)
  {
    NoOccurrenceInSlice(s, pat, i, i + |w|);
  }

  /** A line boundary of Python's `str.splitlines`. */
  predicate IsLineBreak(c: char) {
    ('\n' <= c <= '\r') || ('\U{1C}' <= c <= '\U{1E}') || c == '\U{85}' || c == '\U{2028}' || c == '\U{2029}'
  }

  /** Index of the first line boundary in `s`, or -1. */
  function FirstBreak(s: string): (r: int)
    ensures -1 <= r < |s|
    ensures r >= 0 ==> IsLineBreak(s[r])
    ensures forall k :: 0 <= k < |s| && (r < 0 || k < r) ==> !IsLineBreak(s[k])
  {
    if |s| == 0 then -1
    else if IsLineBreak(s[0]) then 0
    else
      var r := FirstBreak(s[1..]);
      if r < 0 then -1 else r + 1
  }

  /** `s.splitlines()`: the lines of `s` without their boundaries; `\r\n` is one boundary and a
      final boundary does not start an extra empty line. */
  function SplitLines(s: string): (lines: seq<string>)
    ensures forall i, k :: 0 <= i < |lines| && 0 <= k < |lines[i]| ==> !IsLineBreak(lines[i][k])
    ensures lines == [] <==> s == []
    decreases |s|
  {
    var b := FirstBreak(s);
    if b < 0 then (if s == [] then [] else [s])
    else
      var width := if s[b] == '\r' && b + 1 < |s| && s[b + 1] == '\n' then 2 else 1;
      [s[..b]] + SplitLines(s[b + width..])
  }

  /** ASCII upper-case letters lowered; every other character is kept. */
  function LowerChar(c: char): char {
    if 'A' <= c <= 'Z' then (c as int + 32) as char else c
  }

  /** `s.lower()` restricted to ASCII letters. */
  function Lower(s: string): (r: string)
    ensures |r| == |s|
    ensures forall i :: 0 <= i < |s| ==> r[i] == LowerChar(s[i])
  {
    seq(|s|, i requires 0 <= i < |s| => LowerChar(s[i]))
  }

  /** Python slicing `s[start:end]` for non-negative bounds: indices past the end are clamped and an
      end before the start gives the empty string. */
  function Slice(s: string, start: nat, end: nat): (r: string)
    ensures start <= end <= |s| ==> r == s[start..end]
    ensures end <= start ==> r == ""
  {
    var a := if start < |s| then start else |s|;
    var b := if end < |s| then end else |s|;
    if a < b then s[a..b] else ""
  }

  /** `os.path.join(dir, name)` on POSIX: an absolute `name` replaces `dir`; otherwise a `/` is
      inserted unless `dir` is empty or already ends with one. */
  function PathJoin(dir: string, name: string): (p: string)
    ensures StartsWith(name, "/") ==> p == name
    ensures !StartsWith(name, "/") ==> exists sep :: (sep == "" || sep == "/") && p == dir + sep + name
  {
    if StartsWith(name, "/") then name
    else if dir == "" || dir[|dir| - 1] == '/' then
      assert dir + name == dir + "" + name;
      dir + name
    else dir + "/" + name
  }
}

=== FILE: synthesis_engine.dfy ===
/** Tool synthesis (`src/synthesis_engine.py`, `synthesize_capability`): specification, tests,
    implementation, sandbox verification and registration, in that order, each reporting its
    progress through an optional callback. Verification is a single sandbox run with no repair
    loop, and nothing touches the registry before it passes.

    The language model's three generation steps are parameters. The sandbox and the registry are
    the models of `Sandbox.VerifyTool` and `CapabilityRegistry.AddTool`. The progress callback is
    modelled by which events it raises on (`raises`), with `callbackError` the text of what it
    raises: a callback that raises is the only way to reach the outer `unknown` failure. */
module SynthesisEngine {
  import opened Wrappers
  import opened PyValues
  import Sandbox
  import CapabilityRegistry

  /** The specification the model produces; generating tests reads all four fields, so a reply
      missing one fails at the tests phase. */
  datatype Spec = Spec(functionName: string, parameters: seq<PyValue>, returnType: string, docstring: string)

  /** The phases, and the `unknown` step of the outer handler. */
  datatype Step = Specification | Tests | Implementation | Verification | Registration | Unknown

  /** The status reported with a phase event. */
  datatype Status = InProgress | Done | Failed

  /** A callback event: a `synthesis_step` with its phase and status, `synthesis_complete`, or
      the outer handler's `synthesis_error`. */
  datatype SynthEvent = StepEvent(step: Step, status: Status) | SynthesisComplete(toolName: string) | SynthesisError

  /** The dictionary `synthesize_capability` returns. */
  datatype SynthResult =
    | Synthesized(toolName: string, spec: Spec, code: string, tests: string, metadata: CapabilityRegistry.ToolRecord)
    | SynthFailed(error: string, step: Step, testOutput: Option<string>)

  /** Everything the synthesis depends on: the three generation steps, the sandbox's circumstances
      and the registry's. */
  datatype SynthEnv = SynthEnv(
    spec: Result<Spec, string>,
    tests: Spec -> Result<string, string>,
    impl: (Spec, string) -> Result<string, string>,
    image: string, timeoutSeconds: int, imageReady: bool, tempDir: string,
    writeFailure: Option<Exc>, container: Sandbox.ContainerRun,
    toolsDir: string, embedding: seq<real>, now: string, upsertOk: bool)

  /** A run: what `synthesize_capability` returns (`Err` when it raises), the events the callback
      received, and the registry afterwards. */
  datatype SynthRun = SynthRun(outcome: Result<SynthResult, string>, events: seq<SynthEvent>,
                               registry: CapabilityRegistry.Registry)

  /** How a phase ended: it passed, it returned a failure, or an exception escaped to the outer
      handler. */
  datatype PhaseEnd = Passed | Stopped | Escaped

  /** Position of a phase in the fixed order. */
  function Rank(s: Step): nat {
    match s
    case Specification => 0
    case Tests => 1
    case Implementation => 2
    case Verification => 3
    case Registration => 4
    case Unknown => 5
  }

  /** Every phase event of `events` belongs to a phase ranked between `lo` and `hi`. */
  predicate StepsWithin(events: seq<SynthEvent>, lo: nat, hi: nat) {
    forall i :: 0 <= i < |events| && events[i].StepEvent? ==> lo <= Rank(events[i].step) <= hi
  }

  /** Phase events come in phase order. */
  predicate StepsInOrder(events: seq<SynthEvent>) {
    forall i, j :: 0 <= i < j < |events| && events[i].StepEvent? && events[j].StepEvent? ==>
      Rank(events[i].step) <= Rank(events[j].step)
  }

  /** The run raised, or returned the outer handler's `unknown` failure. */
  predicate EndedInOuterHandler(run: SynthRun) {
    run.outcome.Err? || (run.outcome.value.SynthFailed? && run.outcome.value.step == Unknown)
  }

  /** Appending the events of one phase `s` to events of phases no later than `s` keeps the
      phases in order. */
  lemma {:induction false} AppendPhase(a: seq<SynthEvent>, b: seq<SynthEvent>, s: Step)
    requires StepsInOrder(a) && StepsWithin(a, 0, Rank(s))
    requires forall i :: 0 <= i < |b| ==> b[i].StepEvent? && b[i].step == s
    ensures StepsInOrder(a + b) && StepsWithin(a + b, 0, Rank(s))
  {
    var c := a + b;
    forall i, j | 0 <= i < j < |c| && c[i].StepEvent? && c[j].StepEvent?
      ensures Rank(c[i].step) <= Rank(c[j].step)
    {
      if j < |a| {
        assert c[i] == a[i] && c[j] == a[j];
      } else if i < |a| {
        assert c[i] == a[i] && c[j] == b[j - |a|];
      } else {
        assert c[i] == b[i - |a|] && c[j] == b[j - |a|];
      }
    }
    forall i | 0 <= i < |c| && c[i].StepEvent? ensures Rank(c[i].step) <= Rank(s) {
      if i < |a| { assert c[i] == a[i]; } else { assert c[i] == b[i - |a|]; }
    }
  }

  /** Appending an event that is not a phase event keeps the phases in order. */
  lemma {:induction false} AppendOther(a: seq<SynthEvent>, e: SynthEvent)
    requires !e.StepEvent?
    ensures StepsInOrder(a) ==> StepsInOrder(a + [e])
  {
    var c := a + [e];
    if StepsInOrder(a) {
      forall i, j | 0 <= i < j < |c| && c[i].StepEvent? && c[j].StepEvent?
        ensures Rank(c[i].step) <= Rank(c[j].step)
      {
        assert c[i] == a[i] && c[j] == a[j];
      }
    }
  }

  /** The callback never raises. */
  ghost predicate Quiet(raises: SynthEvent -> bool) {
    forall e :: !raises(e)
  }

  /** The events of a phase that passed. */
  function Ran(s: Step): seq<SynthEvent> {
    [StepEvent(s, InProgress), StepEvent(s, Done)]
  }

  /** The events of a phase that failed. */
  function FailedAt(s: Step): seq<SynthEvent> {
    [StepEvent(s, InProgress), StepEvent(s, Failed)]
  }

  /** One phase other than verification: report it started, then complete or failed. A raising
      "complete" report is caught by the phase's own handler, which reports failure. */
  function RunPhase(s: Step, ok: bool, raises: SynthEvent -> bool): (r: (PhaseEnd, seq<SynthEvent>))
    ensures 1 <= |r.1| <= 3 && r.1[0] == StepEvent(s, InProgress)
    ensures forall i :: 0 <= i < |r.1| ==> r.1[i].StepEvent? && r.1[i].step == s
    ensures r.0 == Passed <==> ok && !raises(StepEvent(s, InProgress)) && !raises(StepEvent(s, Done))
    ensures r.0 == Passed ==> r.1 == Ran(s)
    ensures Quiet(raises) ==> r.0 != Escaped && (r.0 == Stopped ==> r.1 == FailedAt(s))
  {
    var start := StepEvent(s, InProgress);
    var failed := StepEvent(s, Failed);
    if raises(start) then (Escaped, [start])
    else if ok then
      var done := StepEvent(s, Done);
      if !raises(done) then (Passed, [start, done])
      else (if raises(failed) then Escaped else Stopped, [start, done, failed])
    else (if raises(failed) then Escaped else Stopped, [start, failed])
  }

  /** The verification phase: a failed sandbox run reports failure inside the `try`, so a callback
      that raises on that report is caught and reports failure a second time. */
  function VerificationPhase(v: Result<Sandbox.VerifyResult, Exc>, raises: SynthEvent -> bool)
    : (r: (PhaseEnd, seq<SynthEvent>))
    ensures 1 <= |r.1| <= 3 && r.1[0] == StepEvent(Verification, InProgress)
    ensures forall i :: 0 <= i < |r.1| ==> r.1[i].StepEvent? && r.1[i].step == Verification
    ensures r.0 == Passed ==> v.Ok? && v.value.success && r.1 == Ran(Verification)
    ensures Quiet(raises) && v.Ok? && v.value.success ==> r.0 == Passed
    ensures Quiet(raises) ==> r.0 != Escaped && (r.0 == Stopped ==> r.1 == FailedAt(Verification))
  {
    var start := StepEvent(Verification, InProgress);
    var failed := StepEvent(Verification, Failed);
    if raises(start) then (Escaped, [start])
    else if v.Err? then (if raises(failed) then Escaped else Stopped, [start, failed])
    else if !v.value.success then
      if !raises(failed) then (Stopped, [start, failed])
      else (Escaped, [start, failed, failed])
    else
      var done := StepEvent(Verification, Done);
      if !raises(done) then (Passed, [start, done])
      else (if raises(failed) then Escaped else Stopped, [start, done, failed])
  }

  /** The outer handler: report `synthesis_error`; if that report raises too, the exception leaves
      `synthesize_capability`. */
  function Outer(events: seq<SynthEvent>, raises: SynthEvent -> bool, callbackError: string,
                 reg: CapabilityRegistry.Registry): (run: SynthRun)
    ensures run.events == events + [SynthesisError] && run.registry == reg
    ensures EndedInOuterHandler(run)
    ensures run.outcome.Err? <==> raises(SynthesisError)
    ensures StepsInOrder(events) ==> StepsInOrder(run.events)
  {
    AppendOther(events, SynthesisError);
    if raises(SynthesisError) then SynthRun(Err(callbackError), events + [SynthesisError], reg)
    else SynthRun(Ok(SynthFailed("Unexpected error during synthesis: " + callbackError, Unknown, None)),
                  events + [SynthesisError], reg)
  }

  /** The error text a phase failure carries. */
  function FailureText(s: Step, cause: string): string {
    match s
    case Specification => "Failed to generate specification: " + cause
    case Tests => "Failed to generate tests: " + cause
    case Implementation => "Failed to generate implementation: " + cause
    case Verification => "Verification failed: " + cause
    case _ => "Failed to register tool: " + cause
  }

  /** The end of a run after a phase that did not pass: the phase's failure, or the outer
      handler when the failure report itself raised. */
  function Stop(s: Step, end: PhaseEnd, events: seq<SynthEvent>, cause: string, raises: SynthEvent -> bool,
                callbackError: string, reg: CapabilityRegistry.Registry): (run: SynthRun)
    requires end != Passed
    ensures end == Stopped ==> run == SynthRun(Ok(SynthFailed(FailureText(s, cause), s, None)), events, reg)
    ensures end == Escaped ==> run == Outer(events, raises, callbackError, reg)
    ensures run.registry == reg && !(run.outcome.Ok? && run.outcome.value.Synthesized?)
    ensures StepsInOrder(events) ==> StepsInOrder(run.events)
  {
    if end == Escaped then Outer(events, raises, callbackError, reg)
    else SynthRun(Ok(SynthFailed(FailureText(s, cause), s, None)), events, reg)
  }

  /** What the sandbox reports for a generated implementation and its tests. */
  function Verify(env: SynthEnv, spec: Spec, code: string, tests: string): Result<Sandbox.VerifyResult, Exc> {
    Sandbox.VerifyTool(env.image, env.timeoutSeconds, env.imageReady, spec.functionName, code, tests,
                       env.tempDir, env.writeFailure, env.container).result
  }

  /** The sandbox passed the implementation against its tests. */
  predicate Passes(env: SynthEnv, spec: Spec, code: string, tests: string) {
    Verify(env, spec, code, tests).Ok? && Verify(env, spec, code, tests).value.success
  }

  /** The cause reported when a phase's own step failed, or succeeded but its "complete" report
      raised. */
  function Cause(r: Result<string, string>, callbackError: string): string {
    if r.Err? then r.error else callbackError
  }

  /** Every generation step succeeded and the sandbox passed the result. */
  predicate Generated(env: SynthEnv) {
    && env.spec.Ok? && env.tests(env.spec.value).Ok?
    && env.impl(env.spec.value, env.tests(env.spec.value).value).Ok?
    && Passes(env, env.spec.value, env.impl(env.spec.value, env.tests(env.spec.value).value).value,
              env.tests(env.spec.value).value)
  }

  /** The registry once the tool is added (`add_tool`, with the environment's directory, embedding and
      clock). */
  function Added(env: SynthEnv, spec: Spec, impl: string, tests: string, reg: CapabilityRegistry.Registry)
    : CapabilityRegistry.Registry
  {
    CapabilityRegistry.AddTool(reg, env.toolsDir, spec.functionName, impl, tests, spec.docstring, env.embedding,
                               env.now, env.upsertOk).0
  }

  /** `synthesize_capability`. A tool is returned, and the registry changed, only after every
      generation step succeeded and the sandbox passed the implementation; the callback sees the
      phases in order; the outer `unknown` failure needs a callback that raises. */
  function Synthesize(env: SynthEnv, reg: CapabilityRegistry.Registry, raises: SynthEvent -> bool,
                      callbackError: string): (run: SynthRun)
    ensures run.outcome.Ok? && run.outcome.value.Synthesized? ==>
      && Generated(env)
      && run.outcome.value.toolName == env.spec.value.functionName
      && run.outcome.value.code == env.impl(env.spec.value, env.tests(env.spec.value).value).value
      && run.outcome.value.tests == env.tests(env.spec.value).value
      && run.registry == Added(env, env.spec.value, run.outcome.value.code, run.outcome.value.tests, reg) && env.upsertOk
    ensures run.registry != reg ==> Generated(env) && !raises(StepEvent(Registration, InProgress))
    ensures StepsInOrder(run.events)
    ensures EndedInOuterHandler(run) ==> !Quiet(raises)
  {
    var (e1, ev1) := RunPhase(Specification, env.spec.Ok?, raises);
    AppendPhase([], ev1, Specification);
    assert [] + ev1 == ev1;
    if e1 != Passed then
      Stop(Specification, e1, ev1, if env.spec.Err? then env.spec.error else callbackError, raises, callbackError, reg)
    else Generate(env, env.spec.value, reg, raises, callbackError, ev1)
  }

  /** The tests and implementation phases. */
  function Generate(env: SynthEnv, spec: Spec, reg: CapabilityRegistry.Registry, raises: SynthEvent -> bool,
                    callbackError: string, ev1: seq<SynthEvent>): (run: SynthRun)
    requires env.spec == Ok(spec) && ev1 == Ran(Specification)
    ensures run.outcome.Ok? && run.outcome.value.Synthesized? ==>
      && Generated(env)
      && run.outcome.value.toolName == spec.functionName
      && run.outcome.value.code == env.impl(spec, env.tests(spec).value).value
      && run.outcome.value.tests == env.tests(spec).value
      && run.registry == Added(env, spec, run.outcome.value.code, run.outcome.value.tests, reg) && env.upsertOk
    ensures run.registry != reg ==> Generated(env) && !raises(StepEvent(Registration, InProgress))
    ensures StepsInOrder(run.events)
    ensures EndedInOuterHandler(run) ==> !Quiet(raises)
  {
    var tests := env.tests(spec);
    var (e2, ev2) := RunPhase(Tests, tests.Ok?, raises);
    AppendPhase(ev1, ev2, Tests);
    var events2 := ev1 + ev2;
    if e2 != Passed then Stop(Tests, e2, events2, Cause(tests, callbackError), raises, callbackError, reg)
    else
      var impl := env.impl(spec, tests.value);
      var (e3, ev3) := RunPhase(Implementation, impl.Ok?, raises);
      AppendPhase(events2, ev3, Implementation);
      var events3 := events2 + ev3;
      if e3 != Passed then Stop(Implementation, e3, events3, Cause(impl, callbackError), raises, callbackError, reg)
      else Check(env, spec, tests.value, impl.value, reg, raises, callbackError, events3)
  }

  /** The verification phase and what follows it. */
  function Check(env: SynthEnv, spec: Spec, tests: string, impl: string, reg: CapabilityRegistry.Registry,
                 raises: SynthEvent -> bool, callbackError: string, events3: seq<SynthEvent>): (run: SynthRun)
    requires StepsInOrder(events3) && StepsWithin(events3, 0, Rank(Implementation))
    ensures run.outcome.Ok? && run.outcome.value.Synthesized? ==>
      Passes(env, spec, impl, tests)
      && run.outcome.value.toolName == spec.functionName && run.outcome.value.code == impl
      && run.outcome.value.tests == tests && run.registry == Added(env, spec, impl, tests, reg) && env.upsertOk
    ensures run.registry != reg ==> Passes(env, spec, impl, tests) && !raises(StepEvent(Registration, InProgress))
    ensures StepsInOrder(run.events)
    ensures EndedInOuterHandler(run) ==> !Quiet(raises)
    ensures Quiet(raises) && !Passes(env, spec, impl, tests) ==>
      run.events == events3 + FailedAt(Verification) && run.outcome.Ok?
      && run.outcome.value.SynthFailed? && run.outcome.value.step == Verification
    ensures Quiet(raises) && Passes(env, spec, impl, tests) ==>
      && run.outcome.Ok? && !EndedInOuterHandler(run)
      && (run.outcome.value.Synthesized? <==> env.upsertOk)
      && (run.outcome.value.Synthesized? ==>
            run.events == events3 + Ran(Verification) + Ran(Registration) + [SynthesisComplete(spec.functionName)])
      && (run.outcome.value.SynthFailed? ==> run.outcome.value.step != Verification)
  {
    var verdict := Verify(env, spec, impl, tests);
    var (e4, ev4) := VerificationPhase(verdict, raises);
    AppendPhase(events3, ev4, Verification);
    var events4 := events3 + ev4;
    if e4 == Escaped then Outer(events4, raises, callbackError, reg)
    else if e4 == Stopped then
      if verdict.Ok? && !verdict.value.success && !raises(StepEvent(Verification, Failed)) then
        SynthRun(Ok(SynthFailed("Generated code failed tests", Verification, Some(verdict.value.output))), events4, reg)
      else
        SynthRun(Ok(SynthFailed(FailureText(Verification, if verdict.Err? then verdict.error.msg else callbackError),
                                Verification, None)), events4, reg)
    else Register(env, spec, tests, impl, reg, raises, callbackError, events4)
  }

  /** The registration phase and the final `synthesis_complete` report. */
  function Register(env: SynthEnv, spec: Spec, tests: string, impl: string, reg: CapabilityRegistry.Registry,
                    raises: SynthEvent -> bool, callbackError: string, events4: seq<SynthEvent>): (run: SynthRun)
    requires StepsInOrder(events4) && StepsWithin(events4, 0, Rank(Verification))
    ensures run.outcome.Ok? && run.outcome.value.Synthesized? ==>
      run.outcome.value.toolName == spec.functionName && run.outcome.value.code == impl
      && run.outcome.value.tests == tests
      && run.registry == Added(env, spec, impl, tests, reg) && env.upsertOk
    ensures raises(StepEvent(Registration, InProgress)) ==>
      run.registry == reg && run.events == events4 + [StepEvent(Registration, InProgress), SynthesisError]
    ensures StepsInOrder(run.events)
    ensures EndedInOuterHandler(run) ==> !Quiet(raises)
    ensures Quiet(raises) ==>
      run.outcome.Ok? && !EndedInOuterHandler(run)
      && (run.outcome.value.Synthesized? <==> env.upsertOk)
      && (run.outcome.value.SynthFailed? ==> run.outcome.value.step == Registration)
      && (run.outcome.value.Synthesized? ==>
            run.events == events4 + Ran(Registration) + [SynthesisComplete(spec.functionName)])
  {
    var start := StepEvent(Registration, InProgress);
    if raises(start) then
      AppendPhase(events4, [start], Registration);
      Outer(events4 + [start], raises, callbackError, reg)
    else
      var (reg5, added) := CapabilityRegistry.AddTool(reg, env.toolsDir, spec.functionName, impl, tests,
                                                      spec.docstring, env.embedding, env.now, env.upsertOk);
      var (e5, ev5) := RunPhase(Registration, added.Ok?, raises);
      AppendPhase(events4, ev5, Registration);
      var events5 := events4 + ev5;
      if e5 != Passed then
        Stop(Registration, e5, events5, if added.Err? then added.error.msg else callbackError, raises, callbackError, reg5)
      else
        var complete := SynthesisComplete(spec.functionName);
        AppendOther(events5, complete);
        if raises(complete) then Outer(events5 + [complete], raises, callbackError, reg5)
        else SynthRun(Ok(Synthesized(spec.functionName, spec, impl, tests, added.value)), events5 + [complete], reg5)
  }

  /** With a callback that never raises, a run never ends in the outer handler; it returns a tool
      exactly when every generation step succeeded, the sandbox passed the implementation and the
      registry accepted it; and the callback sees each phase start and complete, in order, then
      `synthesis_complete`, or the phases up to the one that failed. */
  lemma {:induction false} QuietRun(env: SynthEnv, reg: CapabilityRegistry.Registry, raises: SynthEvent -> bool,
                                    callbackError: string)
    requires Quiet(raises)
    ensures var run := Synthesize(env, reg, raises, callbackError);
      && run.outcome.Ok? && !EndedInOuterHandler(run)
      && (run.outcome.value.Synthesized? <==> Generated(env) && env.upsertOk)
      && (run.outcome.value.Synthesized? ==>
            run.events == Ran(Specification) + Ran(Tests) + Ran(Implementation) + Ran(Verification)
                          + Ran(Registration) + [SynthesisComplete(run.outcome.value.toolName)])
      && (run.outcome.value.SynthFailed? && run.outcome.value.step == Verification ==>
            run.events == Ran(Specification) + Ran(Tests) + Ran(Implementation) + FailedAt(Verification))
  {
    var run := Synthesize(env, reg, raises, callbackError);
    if env.spec.Ok? {
      QuietGenerate(env, env.spec.value, reg, raises, callbackError);
    }
  }

  /** `QuietRun` once the specification phase has passed. */
  lemma {:induction false} QuietGenerate(env: SynthEnv, spec: Spec, reg: CapabilityRegistry.Registry,
                                         raises: SynthEvent -> bool, callbackError: string)
    requires Quiet(raises) && env.spec == Ok(spec)
    ensures var run := Generate(env, spec, reg, raises, callbackError, Ran(Specification));
      && run.outcome.Ok? && !EndedInOuterHandler(run)
      && (run.outcome.value.Synthesized? <==> Generated(env) && env.upsertOk)
      && (run.outcome.value.Synthesized? ==>
            run.events == Ran(Specification) + Ran(Tests) + Ran(Implementation) + Ran(Verification)
                          + Ran(Registration) + [SynthesisComplete(spec.functionName)])
      && (run.outcome.value.SynthFailed? && run.outcome.value.step == Verification ==>
            run.events == Ran(Specification) + Ran(Tests) + Ran(Implementation) + FailedAt(Verification))
  {
    var tests := env.tests(spec);
    if tests.Ok? {
      var impl := env.impl(spec, tests.value);
      if impl.Ok? {
        var events3 := Ran(Specification) + Ran(Tests) + Ran(Implementation);
        var run := Generate(env, spec, reg, raises, callbackError, Ran(Specification));
        assert run == Check(env, spec, tests.value, impl.value, reg, raises, callbackError, events3);
      }
    }
  }

  /** After a successful synthesis the tool is in the registry under its name, with the generated
      code, so the orchestrator's lookup finds it. */
  lemma SynthesizedToolIsRegistered(env: SynthEnv, reg: CapabilityRegistry.Registry, raises: SynthEvent -> bool,
                                    callbackError: string)
    ensures var run := Synthesize(env, reg, raises, callbackError);
      run.outcome.Ok? && run.outcome.value.Synthesized? ==>
        var found := CapabilityRegistry.GetToolByName(run.registry, run.outcome.value.toolName).1;
        found.Some? && found.value.code == run.outcome.value.code
  {
    var run := Synthesize(env, reg, raises, callbackError);
    if run.outcome.Ok? && run.outcome.value.Synthesized? {
      var spec := env.spec.value;
      CapabilityRegistry.AddThenGet(reg, env.toolsDir, spec.functionName, run.outcome.value.code,
                                    run.outcome.value.tests, spec.docstring, env.embedding, env.now);
    }
  }
}

=== FILE: utils.dfy ===
/** Extraction of code and JSON from free-form model replies (`src/utils.py`). */
module Utils {
  import opened Wrappers
  import opened Strings
  import opened PyValues

  /** The opening fence of a Python code block. */
  const PythonFence: string := "```python"

  /** A bare markdown fence. */
  const Fence: string := "```"

  /** The text of `s` before the first occurrence of `pat`, or all of `s`. */
  function Before(s: string, pat: string): (r: string)
    ensures Contains(s, pat) ==> r == s[..Find(s, pat)]
    ensures !Contains(s, pat) ==> r == s
  {
    if Contains(s, pat) then s[..Find(s, pat)] else s
  }

  /** The text of `s` after the first occurrence of `pat`; `pat` must occur. */
  function After(s: string, pat: string): (r: string)
    requires Contains(s, pat)
    ensures Find(s, pat) + |pat| + |r| == |s|
  {
    s[Find(s, pat) + |pat|..]
  }

  /** `extract_code_from_markdown`: the stripped body of the first Python block, else of the first
      bare block when there are at least two fences, else the whole reply stripped. */
  function ExtractCodeFromMarkdown(response: string): (code: string)
    ensures Contains(response, PythonFence) ==>
      code == Strip(Before(Before(After(response, PythonFence), PythonFence), Fence))
    ensures (!Contains(response, PythonFence) && Contains(response, Fence)
             && Contains(After(response, Fence), Fence)) ==>
      code == Strip(Before(After(response, Fence), Fence))
    ensures (!Contains(response, PythonFence)
             && !(Contains(response, Fence) && Contains(After(response, Fence), Fence))) ==>
      code == Strip(response)
    ensures (Contains(response, Fence) && (Contains(response, PythonFence)
             || Contains(After(response, Fence), Fence))) ==> !Contains(code, Fence)
  {
    if Contains(response, PythonFence) then
      var parts := Split(response, PythonFence);
      SplitSecond(response, PythonFence);
      var inner := Split(parts[1], Fence);
      SplitHead(parts[1], Fence);
      StripKeepsAbsence(inner[0], Fence);
      Strip(inner[0])
    else if Contains(response, Fence) then
      var parts := Split(response, Fence);
      if |parts| >= 3 then
        SplitSecond(response, Fence);
        SplitTwice(response, Fence);
        StripKeepsAbsence(parts[1], Fence);
        Strip(parts[1])
      else
        SplitTwice(response, Fence);
        Strip(response)
    else Strip(response)
  }

  /** `s.split(sep)` has at least three pieces exactly when `sep` occurs a second time after its
      first occurrence. */
  lemma SplitTwice(s: string, sep: string)
    requires |sep| > 0 && Contains(s, sep)
    ensures |Split(s, sep)| >= 3 <==> Contains(After(s, sep), sep)
  {
    assert Split(s, sep) == [s[..Find(s, sep)]] + Split(After(s, sep), sep);
  }

  /** With a single Python block, the extracted code is the stripped text between its opening
      fence and the next fence. */
  lemma SinglePythonBlock(response: string)
    requires Contains(response, PythonFence)
    requires !Contains(After(response, PythonFence), PythonFence)
    ensures ExtractCodeFromMarkdown(response) == Strip(Before(After(response, PythonFence), Fence))
  {
  }

  /** When a second Python fence follows closely, the code is cut at that second fence rather than
      at the first bare fence: with `a` then four backticks, the two readings differ. */
  lemma OverlappingFences()
    ensures ExtractCodeFromMarkdown("```pythona````python") == "a`"
    ensures Strip(Before(After("```pythona````python", PythonFence), Fence)) == "a"
  {
    ExampleTail();
    PythonFenceInTail();
    FenceInTail();
    ExampleCutsAtSecondFence();
    ExampleCutsAtBareFence();
  }

  /** The example reply opens with a Python fence followed by `a````python`. */
  lemma ExampleTail()
    ensures Contains("```pythona````python", PythonFence)
    ensures After("```pythona````python", PythonFence) == "a````python"
  {
    assert "```pythona````python"[..9] == PythonFence;
  }

  /** Cut at the second Python fence, the example's block is `a` and one backtick. */
  lemma ExampleCutsAtSecondFence()
    requires Find("a````python", PythonFence) == 2
    ensures Strip(Before(Before("a````python", PythonFence), Fence)) == "a`"
  {
    assert Before("a````python", PythonFence) == "a`";
    assert Find("a`", Fence) == -1;
    StripOfStripped("a`");
  }

  /** Cut at the first bare fence, the example's block is `a`. */
  lemma ExampleCutsAtBareFence()
    requires Find("a````python", Fence) == 1
    ensures Strip(Before("a````python", Fence)) == "a"
  {
    assert Before("a````python", Fence) == "a";
    StripOfStripped("a");
  }

  /** The second Python fence of the example starts two characters into the tail. */
  lemma PythonFenceInTail()
    ensures Find("a````python", PythonFence) == 2
  {
    var t := "a````python";
    assert t[..9] != PythonFence by { assert t[..9][0] == 'a'; }
    assert t[1..][..9] != PythonFence by { assert t[1..][..9][3] == '`'; }
    assert t[2..][..9] == PythonFence;
  }

  /** The first bare fence of the example's tail starts one character in. */
  lemma FenceInTail()
    ensures Find("a````python", Fence) == 1
  {
    var t := "a````python";
    assert t[..3] != Fence by { assert t[..3][0] == 'a'; }
    assert t[1..][..3] == Fence;
  }

  /** `extract_json_from_response`: the slice from the first `{` through the last `}`. With no
      `{` or no `}` it raises a ValueError; when the last `}` comes before the first `{` the slice
      is empty. */
  function ExtractJsonFromResponse(response: string): (r: Result<string, Exc>)
    ensures r.Err? <==> !Contains(response, "{") || RFindChar(response, '}') < 0
    ensures r.Err? ==> r.error == ValueError("No JSON object found in response")
    ensures r.Ok? && Find(response, "{") < RFindChar(response, '}') ==>
      |r.value| >= 2 && r.value[0] == '{' && r.value[|r.value| - 1] == '}'
      && r.value == response[Find(response, "{")..RFindChar(response, '}') + 1]
    ensures r.Ok? && Find(response, "{") > RFindChar(response, '}') ==> r.value == ""
  {
    var start := Find(response, "{");
    var end := RFindChar(response, '}') + 1;
    if start == -1 || end == 0 then Err(ValueError("No JSON object found in response"))
    else
      assert OccursAt(response, "{", start);
      assert response[start] == '{';
      Ok(Slice(response, start, end))
  }
}

=== FILE: workflow_tracker.dfy ===
/** The workflow tracker: per-session execution logging and the pattern mining done when a
    session ends (full sequences, consecutive pairs, sliding windows of two and three tools). */
module WorkflowTracker {
  import opened Wrappers
  import opened PyValues
  import Strings
  import Seqs
  import Numeric

  /** One execution remembered for the current session. */
  datatype SessionTool = SessionTool(toolName: string, success: bool, order: int)

  /** The tracker's session state; `None` stands for Python's `None`. */
  datatype Tracker = Tracker(sessionId: Option<string>, tools: seq<SessionTool>, startTime: Option<real>)

  /** A row of `workflow_patterns`. A missing `user_sessions` is the empty list; a row created
      without `avg_execution_time_ms` is taken to hold 0, which assumes the column's default. */
  datatype Pattern = Pattern(
    name: string,
    toolSequence: seq<string>,
    frequency: nat,
    avgSuccessRate: real,
    avgExecutionTimeMs: real,
    confidence: real,
    userSessions: seq<string>,
    complexity: int,
    description: string)

  /** One call of the store's `update_tool_relationship` procedure, with relationship type "sequence". */
  datatype RelUpdate = RelUpdate(toolA: string, toolB: string, success: bool)

  /** A row of `tool_executions`; inputs and outputs are the values handed to `json.dumps`. */
  datatype Execution = Execution(
    sessionId: string,
    toolName: string,
    order: nat,
    inputs: Option<PyValue>,
    outputs: Option<PyValue>,
    success: bool,
    errorDetails: Option<string>,
    executionTimeMs: Option<int>,
    userPrompt: Option<string>,
    timestamp: string)

  /** The three tables the tracker writes; relationship procedure calls are kept as a log. */
  datatype Store = Store(executions: seq<Execution>, patterns: seq<Pattern>, relationships: seq<RelUpdate>)

  /** Python truthiness of an optional string. */
  predicate Present(id: Option<string>) {
    id.Some? && id.value != ""
  }

  /** The tracker before any session, and after `end_session`. */
  const Idle := Tracker(None, [], None)

  /** `start_session`: the given id, or a new uuid when none (or an empty one) is given. */
  function StartSession(given: Option<string>, uuid: string, clock: real): (r: (Tracker, string))
    ensures r.0.sessionId == Some(r.1) && r.0.tools == [] && r.0.startTime == Some(clock)
    ensures Present(given) ==> r.1 == given.value
    ensures !Present(given) ==> r.1 == uuid
  {
    var id := if Present(given) then given.value else uuid;
    (Tracker(Some(id), [], Some(clock)), id)
  }

  // ----- _serialize_output -----

  /** What `_serialize_output` produces: no tuples and no other objects, at any depth. */
  predicate Serialized(v: PyValue) {
    match v
    case PTuple(_) => false
    case PObject(_) => false
    case PList(xs) => forall i :: 0 <= i < |xs| ==> Serialized(xs[i])
    case PDict(es) => forall i :: 0 <= i < |es| ==> Serialized(es[i].value)
    case _ => true
  }

  /** `_serialize_output`: primitives stay, lists and tuples become lists of serialized items,
      dict values are serialized under the same keys, and anything else becomes its `str()`. */
  function SerializeOutput(v: PyValue): (r: PyValue)
    ensures Serialized(r)
    ensures v.PDict? <==> r.PDict?
    ensures v.PList? || v.PTuple? <==> r.PList?
  {
    match v
    case PList(xs) => PList(seq(|xs|, i requires 0 <= i < |xs| => SerializeOutput(xs[i])))
    case PTuple(xs) => PList(seq(|xs|, i requires 0 <= i < |xs| => SerializeOutput(xs[i])))
    case PDict(es) => PDict(seq(|es|, i requires 0 <= i < |es| => Entry(es[i].key, SerializeOutput(es[i].value))))
    case PObject(text) => PStr(text)
    case _ => v
  }

  /** A value already in serialized form is left exactly as it is. */
  lemma {:induction false} SerializedIsFixed(v: PyValue)
    requires Serialized(v)
    ensures SerializeOutput(v) == v
  {
    match v
    case PList(xs) =>
      forall i | 0 <= i < |xs| ensures SerializeOutput(xs[i]) == xs[i] {
        SerializedIsFixed(xs[i]);
      }
    case PDict(es) =>
      forall i | 0 <= i < |es| ensures Entry(es[i].key, SerializeOutput(es[i].value)) == es[i] {
        SerializedIsFixed(es[i].value);
      }
    case _ =>
  }

  /** Serializing twice is serializing once. */
  lemma SerializeIdempotent(v: PyValue)
    ensures SerializeOutput(SerializeOutput(v)) == SerializeOutput(v)
  {
    SerializedIsFixed(SerializeOutput(v));
  }

  // ----- log_execution -----

  /** What `log_execution` returns and leaves behind. */
  datatype Logged = Logged(tracker: Tracker, store: Store, record: Execution)

  /** Every remembered execution carries its own position as its order. */
  predicate Ordered(tools: seq<SessionTool>) {
    forall i :: 0 <= i < |tools| ==> tools[i].order == i
  }

  /** A raise out of `log_execution`, with the tracker it leaves behind: a session started
      before the raise stays open. */
  datatype LogFailure = LogFailure(tracker: Tracker, error: Exc)

  /** `log_execution`. A missing session is started first (with `uuid` as its id). Building the
      row can raise `TypeError` from `json.dumps`; that is not caught, and the session started
      just before stays the tracker's current one. `inserted` says whether the insert into
      `tool_executions` succeeded: when it fails, the row is returned but the session does not
      remember the execution and no relationship is updated. */
  function LogExecution(t: Tracker, store: Store, toolName: string, inputs: PyValue, outputs: PyValue,
                        success: bool, errorDetails: Option<string>, executionTimeMs: Option<int>,
                        userPrompt: Option<string>, uuid: string, clock: real, stamp: string,
                        inserted: bool): (r: Result<Logged, LogFailure>)
    ensures r.Err? <==> (Truthy(inputs) && !Dumpable(inputs))
                        || (!outputs.PNone? && !Dumpable(SerializeOutput(outputs)))
    ensures r.Err? ==> r.error.error.TypeError?
    ensures r.Err? && Present(t.sessionId) ==> r.error.tracker == t
    ensures r.Err? && !Present(t.sessionId) ==> r.error.tracker == Tracker(Some(uuid), [], Some(clock))
    ensures r.Ok? && Present(t.sessionId) ==> r.value.tracker.sessionId == t.sessionId
    ensures r.Ok? && !Present(t.sessionId) ==> r.value.tracker.sessionId == Some(uuid)
    ensures r.Ok? ==> r.value.record.order == (if Present(t.sessionId) then |t.tools| else 0)
    ensures r.Ok? && inserted ==>
      && r.value.tracker.tools == (if Present(t.sessionId) then t.tools else []) + [SessionTool(toolName, success, r.value.record.order)]
      && r.value.store.executions == store.executions + [r.value.record]
      && r.value.store.relationships == store.relationships
           + (if r.value.record.order > 0 then [RelUpdate(t.tools[|t.tools| - 1].toolName, toolName, success)] else [])
    ensures r.Ok? && !inserted ==>
      r.value.store == store && r.value.tracker.tools == (if Present(t.sessionId) then t.tools else [])
    ensures r.Ok? ==> r.value.store.patterns == store.patterns
  {
    var t0 := if Present(t.sessionId) then t else StartSession(None, uuid, clock).0;
    var order := |t0.tools|;
    if Truthy(inputs) && !Dumpable(inputs) then Err(LogFailure(t0, TypeError("Object is not JSON serializable")))
    else if !outputs.PNone? && !Dumpable(SerializeOutput(outputs)) then
      Err(LogFailure(t0, TypeError("Object is not JSON serializable")))
    else
      var record := Execution(t0.sessionId.value, toolName, order,
                              if Truthy(inputs) then Some(inputs) else None,
                              if outputs.PNone? then None else Some(SerializeOutput(outputs)),
                              success, errorDetails, executionTimeMs, userPrompt, stamp);
      if !inserted then Ok(Logged(t0, store, record))
      else
        var tools := t0.tools + [SessionTool(toolName, success, order)];
        var rels := if order > 0 then [RelUpdate(tools[order - 1].toolName, toolName, success)] else [];
        Ok(Logged(t0.(tools := tools), store.(executions := store.executions + [record],
                                              relationships := store.relationships + rels), record))
  }

  /** Logging keeps the session's executions numbered 0, 1, 2, ... by position. */
  lemma LogKeepsOrder(t: Tracker, store: Store, toolName: string, inputs: PyValue, outputs: PyValue,
                      success: bool, errorDetails: Option<string>, executionTimeMs: Option<int>,
                      userPrompt: Option<string>, uuid: string, clock: real, stamp: string, inserted: bool)
    requires Ordered(t.tools)
    ensures var r := LogExecution(t, store, toolName, inputs, outputs, success, errorDetails, executionTimeMs,
                                  userPrompt, uuid, clock, stamp, inserted);
            r.Ok? ==> Ordered(r.value.tracker.tools)
  {
  }

  /** A log that raises on a tracker without a session still opens one, so the next log joins
      that session (the second `uuid` is never used) and numbers its execution 0. */
  lemma RetryJoinsStartedSession(store: Store, toolName: string, inputs: PyValue, outputs: PyValue,
                                 retryInputs: PyValue, success: bool, uuid: string, uuid2: string,
                                 clock: real, clock2: real, stamp: string)
    requires uuid != ""
    requires LogExecution(Idle, store, toolName, inputs, outputs, success, None, None, None, uuid, clock, stamp, true).Err?
    ensures var failed := LogExecution(Idle, store, toolName, inputs, outputs, success, None, None, None, uuid, clock, stamp, true);
      var retry := LogExecution(failed.error.tracker, store, toolName, retryInputs, outputs, success, None, None, None,
                                uuid2, clock2, stamp, true);
      retry.Ok? ==> retry.value.tracker.sessionId == Some(uuid) && retry.value.record.sessionId == uuid
                    && retry.value.record.order == 0
  {
  }

  // ----- pattern mining -----

  /** The tool names of the session, in execution order. */
  function Names(tools: seq<SessionTool>): (r: seq<string>)
    ensures |r| == |tools| && forall i :: 0 <= i < |tools| ==> r[i] == tools[i].toolName
  {
    seq(|tools|, i requires 0 <= i < |tools| => tools[i].toolName)
  }

  /** How many of the executions succeeded. */
  function Successes(tools: seq<SessionTool>): (r: nat)
    ensures r <= |tools|
  {
    if |tools| == 0 then 0 else Successes(tools[..|tools| - 1]) + (if tools[|tools| - 1].success then 1 else 0)
  }

  /** The share of successful executions, in [0, 1]. */
  function SuccessRate(tools: seq<SessionTool>): (r: real)
    requires |tools| > 0
    ensures 0.0 <= r <= 1.0
    ensures r == 1.0 <==> Successes(tools) == |tools|
    ensures r * |tools| as real == Successes(tools) as real
  {
    Numeric.Ratio(Successes(tools), |tools|)
  }

  /** `min(0.95, rate * min(1.0, frequency / 10.0))`. */
  function Confidence(rate: real, frequency: nat): (r: real)
    ensures r <= 0.95
    ensures 0.0 <= rate ==> 0.0 <= r <= rate
    ensures frequency >= 10 && rate <= 0.95 ==> r == rate
    ensures frequency <= 10 && 0.0 <= rate <= 0.95 ==> r * 10.0 == rate * frequency as real
  {
    var recency := if frequency as real / 10.0 < 1.0 then frequency as real / 10.0 else 1.0;
    Numeric.Scale(rate, recency);
    if rate * recency < 0.95 then rate * recency else 0.95
  }

  /** The session's duration in milliseconds, 0 when no (or a zero) start time is known. */
  function DurationMs(t: Tracker, clock: real): int {
    if t.startTime.Some? && t.startTime.value != 0.0 then Numeric.Truncate((clock - t.startTime.value) * 1000.0) else 0
  }

  /** `sessions.append(id)` unless it is already there. */
  function AddSession(sessions: seq<string>, id: string): (r: seq<string>)
    ensures id in r && forall s :: s in sessions ==> s in r
    ensures |r| <= |sessions| + 1
    ensures id in sessions ==> r == sessions
  {
    if id in sessions then sessions else sessions + [id]
  }

  /** `_mine_full_sequence_pattern`: the first row whose sequence equals the session's (which may be
      a "sub_" row) gets one more use, moves its success rate 0.3 of the way to the session's,
      takes the session's duration into its running mean, lists the session and gets the capped
      confidence of its new rate and frequency; without one a new row is appended, named by the
      tools joined with "_to_", with the session's rate and duration, confidence 0.5 and the
      number of tools as its complexity. */
  function MineFullSequence(patterns: seq<Pattern>, sessionId: string, tools: seq<SessionTool>, durationMs: int)
    : (r: seq<Pattern>)
    requires |tools| > 0
    ensures var k := Seqs.FirstWhere(patterns, (p: Pattern) => p.toolSequence == Names(tools));
      && (k.Some? ==>
           && |r| == |patterns|
           && (forall j :: 0 <= j < |r| && j != k.value ==> r[j] == patterns[j])
           && r[k.value].toolSequence == Names(tools)
           && r[k.value].frequency == patterns[k.value].frequency + 1
           && r[k.value].name == patterns[k.value].name
           && r[k.value].complexity == patterns[k.value].complexity
           && r[k.value].description == patterns[k.value].description
           && r[k.value].avgSuccessRate - patterns[k.value].avgSuccessRate
                == 0.3 * (SuccessRate(tools) - patterns[k.value].avgSuccessRate)
           && r[k.value].avgExecutionTimeMs * r[k.value].frequency as real
                == patterns[k.value].avgExecutionTimeMs * patterns[k.value].frequency as real + durationMs as real
           && r[k.value].confidence == Confidence(r[k.value].avgSuccessRate, r[k.value].frequency)
           && r[k.value].confidence <= 0.95
           && sessionId in r[k.value].userSessions
           && (forall s :: s in patterns[k.value].userSessions ==> s in r[k.value].userSessions)
           && |r[k.value].userSessions| <= |patterns[k.value].userSessions| + 1)
      && (k.None? ==>
           && |r| == |patterns| + 1 && r[..|patterns|] == patterns
           && r[|patterns|].toolSequence == Names(tools)
           && r[|patterns|].frequency == 1
           && r[|patterns|].avgSuccessRate == SuccessRate(tools)
           && r[|patterns|].avgExecutionTimeMs == durationMs as real
           && r[|patterns|].confidence == 0.5
           && r[|patterns|].userSessions == [sessionId]
           && r[|patterns|].name == Strings.Join(Names(tools), "_to_")
           && r[|patterns|].complexity == |tools|
           && r[|patterns|].description == "Workflow pattern: " + Strings.Join(Names(tools), " -> "))
  {
    var names := Names(tools);
    var rate := SuccessRate(tools);
    var k := Seqs.FirstWhere(patterns, (p: Pattern) => p.toolSequence == names);
    if k.Some? then
      var p := patterns[k.value];
      var frequency := p.frequency + 1;
      var avgRate := Numeric.Ema(0.3, rate, p.avgSuccessRate);
      var avgTime := (p.avgExecutionTimeMs * p.frequency as real + durationMs as real) / frequency as real;
      patterns[k.value := p.(frequency := frequency, avgSuccessRate := avgRate, avgExecutionTimeMs := avgTime,
                             confidence := Confidence(avgRate, frequency),
                             userSessions := AddSession(p.userSessions, sessionId))]
    else
      patterns + [Pattern(Strings.Join(names, "_to_"), names, 1, rate, durationMs as real, 0.5, [sessionId],
                          |names|, "Workflow pattern: " + Strings.Join(names, " -> "))]
  }

  /** `_mine_pairwise_relationships`: one update per consecutive pair, successful when both were. */
  function Pairs(tools: seq<SessionTool>): (r: seq<RelUpdate>)
    ensures |tools| > 0 ==> |r| == |tools| - 1
    ensures |tools| == 0 ==> r == []
    ensures forall i :: 0 <= i < |r| ==>
      r[i] == RelUpdate(tools[i].toolName, tools[i + 1].toolName, tools[i].success && tools[i + 1].success)
  {
    if |tools| < 2 then []
    else
      seq(|tools| - 1, i requires 0 <= i < |tools| - 1 =>
        RelUpdate(tools[i].toolName, tools[i + 1].toolName, tools[i].success && tools[i + 1].success))
  }

  /** The name a window is stored under: "sub_" and the tool names joined with '-'. */
  function SubName(window: seq<string>): string {
    "sub_" + Strings.Join(window, "-")
  }

  /** `_update_subsequence_pattern`: the first row with the window's name gets one more use and an
      averaged rate, nothing else; without one a row with confidence 0.3 is appended. */
  function UpdateSubsequence(patterns: seq<Pattern>, window: seq<string>, rate: real, sessionId: string)
    : (r: seq<Pattern>)
    ensures var k := Seqs.FirstWhere(patterns, (p: Pattern) => p.name == SubName(window));
      && (k.Some? ==>
           && |r| == |patterns|
           && (forall j :: 0 <= j < |r| && j != k.value ==> r[j] == patterns[j])
           && r[k.value] == patterns[k.value].(frequency := patterns[k.value].frequency + 1,
                                               avgSuccessRate := Numeric.Ema(0.3, rate, patterns[k.value].avgSuccessRate)))
      && (k.None? ==>
           && r == patterns + [Pattern(SubName(window), window, 1, rate, 0.0, 0.3, [sessionId], |window|,
                                       "Subsequence pattern: " + Strings.Join(window, " -> "))])
  {
    var name := SubName(window);
    var k := Seqs.FirstWhere(patterns, (p: Pattern) => p.name == name);
    if k.Some? then
      var p := patterns[k.value];
      patterns[k.value := p.(frequency := p.frequency + 1, avgSuccessRate := Numeric.Ema(0.3, rate, p.avgSuccessRate))]
    else
      patterns + [Pattern(name, window, 1, rate, 0.0, 0.3, [sessionId], |window|,
                          "Subsequence pattern: " + Strings.Join(window, " -> "))]
  }

  /** A window of the session: its tool names and its share of successes. */
  datatype Window = Window(names: seq<string>, rate: real)

  /** The sliding windows of the given size, left to right. */
  function Windows(tools: seq<SessionTool>, size: nat): (r: seq<Window>)
    requires size > 0
    ensures |tools| >= size ==> |r| == |tools| - size + 1
    ensures |tools| < size ==> r == []
    ensures forall i :: 0 <= i < |r| ==>
      r[i] == Window(Names(tools[i..i + size]), SuccessRate(tools[i..i + size]))
  {
    if |tools| < size then []
    else seq(|tools| - size + 1, i requires 0 <= i < |tools| - size + 1 =>
           Window(Names(tools[i..i + size]), SuccessRate(tools[i..i + size])))
  }

  /** Applies `_update_subsequence_pattern` to each window in turn. */
  function UpdateAll(patterns: seq<Pattern>, windows: seq<Window>, sessionId: string): (r: seq<Pattern>)
    decreases |windows|
  {
    if |windows| == 0 then patterns
    else UpdateAll(UpdateSubsequence(patterns, windows[0].names, windows[0].rate, sessionId), windows[1..], sessionId)
  }

  /** The windows `_mine_subsequence_patterns` visits: all pairs, then all triples. */
  function SubsequenceWindows(tools: seq<SessionTool>): (r: seq<Window>)
    ensures |tools| >= 3 ==> |r| == (|tools| - 1) + (|tools| - 2)
    ensures |tools| >= 3 ==> forall i :: 0 <= i < |r| ==> |r[i].names| == (if i < |tools| - 1 then 2 else 3)
  {
    Windows(tools, 2) + Windows(tools, 3)
  }

  /** `_mine_subsequence_patterns`. */
  function MineSubsequences(patterns: seq<Pattern>, tools: seq<SessionTool>, sessionId: string): seq<Pattern> {
    UpdateAll(patterns, SubsequenceWindows(tools), sessionId)
  }

  /** The sum of all rows' frequencies. */
  function TotalFrequency(patterns: seq<Pattern>): nat {
    if |patterns| == 0 then 0 else TotalFrequency(patterns[..|patterns| - 1]) + patterns[|patterns| - 1].frequency
  }

  /** Replacing one row changes the total by the difference of the two frequencies. */
  lemma {:induction false} TotalFrequencyUpdate(patterns: seq<Pattern>, k: nat, p: Pattern)
    requires k < |patterns|
    ensures TotalFrequency(patterns[k := p]) == TotalFrequency(patterns) - patterns[k].frequency + p.frequency
  {
    var n := |patterns|;
    if k < n - 1 {
      assert patterns[k := p][..n - 1] == patterns[..n - 1][k := p];
      TotalFrequencyUpdate(patterns[..n - 1], k, p);
    } else {
      assert patterns[k := p][..n - 1] == patterns[..n - 1];
    }
  }

  /** Every pattern update, whether it bumps a row or appends one, adds exactly one use in total. */
  lemma UpdateSubsequenceCounts(patterns: seq<Pattern>, window: seq<string>, rate: real, sessionId: string)
    ensures TotalFrequency(UpdateSubsequence(patterns, window, rate, sessionId)) == TotalFrequency(patterns) + 1
  {
    var k := Seqs.FirstWhere(patterns, (p: Pattern) => p.name == SubName(window));
    var r := UpdateSubsequence(patterns, window, rate, sessionId);
    if k.Some? {
      TotalFrequencyUpdate(patterns, k.value, r[k.value]);
      assert r == patterns[k.value := r[k.value]];
    } else {
      assert r[..|r| - 1] == patterns;
    }
  }

  /** The full-sequence update adds exactly one use in total. */
  lemma MineFullSequenceCounts(patterns: seq<Pattern>, sessionId: string, tools: seq<SessionTool>, durationMs: int)
    requires |tools| > 0
    ensures TotalFrequency(MineFullSequence(patterns, sessionId, tools, durationMs)) == TotalFrequency(patterns) + 1
  {
    var k := Seqs.FirstWhere(patterns, (p: Pattern) => p.toolSequence == Names(tools));
    var r := MineFullSequence(patterns, sessionId, tools, durationMs);
    if k.Some? {
      TotalFrequencyUpdate(patterns, k.value, r[k.value]);
      assert r == patterns[k.value := r[k.value]];
    } else {
      assert r[..|r| - 1] == patterns;
    }
  }

  /** Mining the windows adds one use per window: (n-1) + (n-2) for a session of n >= 3 tools. */
  lemma {:induction false} UpdateAllCounts(patterns: seq<Pattern>, windows: seq<Window>, sessionId: string)
    ensures TotalFrequency(UpdateAll(patterns, windows, sessionId)) == TotalFrequency(patterns) + |windows|
    decreases |windows|
  {
    if |windows| > 0 {
      UpdateSubsequenceCounts(patterns, windows[0].names, windows[0].rate, sessionId);
      UpdateAllCounts(UpdateSubsequence(patterns, windows[0].names, windows[0].rate, sessionId), windows[1..], sessionId);
    }
  }

  /** Window updates never change a row's confidence, and never drop a row. */
  lemma {:induction false} UpdateAllKeepsConfidence(patterns: seq<Pattern>, windows: seq<Window>, sessionId: string)
    ensures var r := UpdateAll(patterns, windows, sessionId);
      |patterns| <= |r| && forall j :: 0 <= j < |patterns| ==> r[j].confidence == patterns[j].confidence
    decreases |windows|
  {
    if |windows| > 0 {
      var next := UpdateSubsequence(patterns, windows[0].names, windows[0].rate, sessionId);
      UpdateAllKeepsConfidence(next, windows[1..], sessionId);
    }
  }

  /** `_analyze_session_patterns` on the store, for a session of at least two executions. */
  function Analyze(store: Store, sessionId: string, tools: seq<SessionTool>, durationMs: int): (r: Store)
    requires |tools| >= 2
    ensures r.executions == store.executions
    ensures r.relationships == store.relationships + Pairs(tools)
  {
    var full := MineFullSequence(store.patterns, sessionId, tools, durationMs);
    var patterns := if |tools| >= 3 then MineSubsequences(full, tools, sessionId) else full;
    store.(patterns := patterns, relationships := store.relationships + Pairs(tools))
  }

  /** `end_session`: mines only a session with an id and more than one remembered execution,
      and always returns to the idle state. */
  function EndSession(t: Tracker, store: Store, clock: real): (r: (Tracker, Store))
    ensures r.0 == Idle
    ensures !(Present(t.sessionId) && |t.tools| > 1) ==> r.1 == store
    ensures Present(t.sessionId) && |t.tools| > 1 ==> r.1.relationships == store.relationships + Pairs(t.tools)
    ensures r.1.executions == store.executions
  {
    if Present(t.sessionId) && |t.tools| > 1 then
      (Idle, Analyze(store, t.sessionId.value, t.tools, DurationMs(t, clock)))
    else (Idle, store)
  }

  /** Ending a session of n >= 2 executions adds exactly 1 + (n-1) + (n-2) uses to the pattern
      table when n >= 3 and exactly 1 when n == 2, and n-1 relationship updates. */
  lemma EndSessionCounts(t: Tracker, store: Store, clock: real)
    requires Present(t.sessionId) && |t.tools| > 1
    ensures var n := |t.tools|;
      var after := EndSession(t, store, clock).1;
      && TotalFrequency(after.patterns)
           == TotalFrequency(store.patterns) + 1 + (if n >= 3 then (n - 1) + (n - 2) else 0)
      && |after.relationships| == |store.relationships| + n - 1
  {
    var id := t.sessionId.value;
    var d := DurationMs(t, clock);
    MineFullSequenceCounts(store.patterns, id, t.tools, d);
    if |t.tools| >= 3 {
      UpdateAllCounts(MineFullSequence(store.patterns, id, t.tools, d), SubsequenceWindows(t.tools), id);
    }
  }

  /** A session ending with two or more executions leaves a pattern row whose sequence is the
      session's. */
  lemma EndSessionRecordsSequence(t: Tracker, store: Store, clock: real)
    requires Present(t.sessionId) && |t.tools| > 1
    ensures exists j :: (0 <= j < |EndSession(t, store, clock).1.patterns|
                         && EndSession(t, store, clock).1.patterns[j].toolSequence == Names(t.tools))
  {
    var id := t.sessionId.value;
    var d := DurationMs(t, clock);
    var full := MineFullSequence(store.patterns, id, t.tools, d);
    var k := Seqs.FirstWhere(store.patterns, (p: Pattern) => p.toolSequence == Names(t.tools));
    var j := if k.Some? then k.value else |store.patterns|;
    assert full[j].toolSequence == Names(t.tools);
    if |t.tools| >= 3 {
      UpdateAllKeepsSequences(full, SubsequenceWindows(t.tools), id);
    }
    var after := EndSession(t, store, clock).1.patterns;
    assert after[j].toolSequence == Names(t.tools);
  }

  /** Window updates never change a row's sequence, and never drop a row. */
  lemma {:induction false} UpdateAllKeepsSequences(patterns: seq<Pattern>, windows: seq<Window>, sessionId: string)
    ensures var r := UpdateAll(patterns, windows, sessionId);
      |patterns| <= |r| && forall j :: 0 <= j < |patterns| ==> r[j].toolSequence == patterns[j].toolSequence
    decreases |windows|
  {
    if |windows| > 0 {
      var next := UpdateSubsequence(patterns, windows[0].names, windows[0].rate, sessionId);
      UpdateAllKeepsSequences(next, windows[1..], sessionId);
    }
  }

  /** A two-tool session updates the A -> B relationship twice: once when B is logged (with B's
      success) and once at the end (with both successes). */
  lemma TwoToolSessionUpdatesTwice(store: Store, a: string, b: string, inputs: PyValue, outputs: PyValue,
                                   successA: bool, successB: bool, uuid: string, clock: real, stamp: string)
    requires uuid != ""
    requires LogExecution(Idle, store, a, inputs, outputs, successA, None, None, None, uuid, clock, stamp, true).Ok?
    ensures var first := LogExecution(Idle, store, a, inputs, outputs, successA, None, None, None, uuid, clock, stamp, true).value;
      var second := LogExecution(first.tracker, first.store, b, inputs, outputs, successB, None, None, None, uuid, clock, stamp, true).value;
      var ended := EndSession(second.tracker, second.store, clock);
      ended.1.relationships == store.relationships + [RelUpdate(a, b, successB), RelUpdate(a, b, successA && successB)]
  {
    var first := LogExecution(Idle, store, a, inputs, outputs, successA, None, None, None, uuid, clock, stamp, true).value;
    var second := LogExecution(first.tracker, first.store, b, inputs, outputs, successB, None, None, None, uuid, clock, stamp, true).value;
    assert second.tracker.tools == [SessionTool(a, successA, 0), SessionTool(b, successB, 1)];
    var p := Pairs(second.tracker.tools);
    assert p == [RelUpdate(a, b, successA && successB)];
  }
}

=== FILE: wrappers.dfy ===
/** Optional values and the outcome of steps that may raise, shared by every module of the model. */
module Wrappers {

  /** A value that may be absent; `None` stands for Python's `None`. */
  datatype Option<+T> = None | Some(value: T) {

    /** The carried value, or `default` when absent (Python's `x if x is not None else default`). */
    function GetOr(default: T): T {
      if Some? then value else default
    }
  }

  /** The outcome of a step that may raise: `Ok` carries the returned value, `Err` what was raised. */
  datatype Result<+T, +E> = Ok(value: T) | Err(error: E)
}
